=== FILE: README.md ===
# Financial Data Center core, modelled in Dafny

This project models the sequential bookkeeping at the heart of the
Financial Data Center (`fdc-*` crates). That covers the type registries, the
plugin runtime's registries, lifecycle and sandbox checks, the value
conversions, the in-memory and tiered storage, the bounded ingestion
structures (buffer, batcher, validator, parser statistics, retry policy), the
small relational operators of the query engine, and the time, memory,
configuration and error utilities of `fdc-core`. The properties the code
promises are proved about the model. Every file lives under `dafny/`, and
each Rust source file becomes one Dafny module:

- **fdc-core.**
  - `CoreError`: error kinds, codes, retryability and `with_context`.
  - `CoreValue`: the tagged `Value` and its derived equality.
  - `CoreTime`: interval rounding, nanosecond offsets and `TimeRange`.
  - `CoreMemory`: `align_to`, `ZeroCopyBuffer`, `MemoryMonitor` and `PreAllocator`.
  - `CoreConfig`: every section validator and the default configuration.
  - `CoreTypeRegistry`: 21 basic types, user and WASM registration, `validate_value`, and the size and alignment tables.
- **fdc-types.**
  - `TypesDefinition`: definitions, fields, constraints, `size_hint`, validation and the circular-reference check.
  - `TypesRegistry`: registration by id and name, the lookup cache and statistics.
  - `TypesConversion` and `TypesWasmTypes`: the two value converters.
- **fdc-storage.**
  - `StorageMemoryEngine`: byte accounting, batches and range scans.
  - `StorageTiers`: tier priority, lookup order, promotion and migration.
  - `StorageCache`: the byte cache.
  - `StorageConfiguration`: the builders, `validate` and `enabled_tiers`.
- **fdc-wasm.**
  - `WasmTypes`: values, conversions and signature checks.
  - `WasmSecurity`: the policy checks and the violation monitor.
  - `WasmPlugin`: plugin records, status and call statistics.
  - `WasmRegistry`: the plugin registry over an abstract runtime of module and instance names.
  - `WasmBridge`: host functions and their statistics.
  - `WasmLoader`: the header check and the policy overrides.
  - `WasmEvents`: event classifiers and the metrics listener.
  - `WasmMetricsCollector`: counters, extremes and top-N lists.
- **fdc-ingestion.**
  - `IngestionBuffer`: a bounded FIFO.
  - `IngestionBatch`: batching and outcome counting.
  - `IngestionValidator`: rule parsing, field and type checks, and statistics.
  - `IngestionParser`: size estimates, FIX parsing, parse statistics and format dispatch.
  - `IngestionRecovery`: the retry decision and delay.
- **fdc-query.**
  - `QueryFilters`, `QueryJoins`, `QueryProjections` and `QuerySorts`: filter, inner join, project and sort.
  - `QueryFunctions`: the built-in scalar functions.
  - `QueryAggregates`: the aggregate functions.
  - `QueryCache`: the result cache.
  - `QueryMetrics`: the query counters.
  - `QueryParser`: `ParsedQuery` helpers and keyword-based table extraction.
  - `QueryPlanner`: plan trees and the planner.
- **fdc-analytics.**
  - `AnalyticsWindowing`: sliding time windows.
  - `AnalyticsPipeline`: the six-stage pipeline.
- **fdc-api.**
  - `ApiErrors`: status and error codes, and the translation from core errors.
  - `ApiModels`: the response envelope, pagination and component health.

Shared helper modules:

- `Wrappers`: `Option` and `Result`.
- `Ints`: machine-integer widths, wrap-around, saturation and small arithmetic lemmas.
- `Floats`: IEEE doubles as exact reals plus the special values.
- `Text`: UTF-8 length, ASCII case mapping, and decimal rendering and parsing.
- `Seqs`: repeat-free sequences and listing a set.

Most Rust structs whose methods update their fields through `&self` behind a
lock become Dafny classes, with `modifies` clauses and a `Valid()` invariant:
the registries, the bridge, the engines and caches, the buffer and the
metrics. Several structs that the source updates through `&mut self` are
modelled as values instead, and "## Left out" lists them. Records, enums and
pure functions become datatypes, functions and lemmas. Where the source loops,
the loop is either a method with loop invariants proved against a
specification function, or, for the value-modelled structs, a recursive
function with lemmas about it. The program is nondeterministic in some
places, and those places become parameters of the model:

- hash-map iteration order;
- clock readings and UUIDs;
- the verdicts of the WASM engine (wasmtime), of the SQL parser and of the JSON, CSV and bincode decoders;
- the order on values used by the query filters' `<`, `<=`, `>` and `>=` and by the MIN and MAX aggregates, which the repository's source does not define (see "## Left out").

The class methods follow the code as written, including the faults listed
under "## Findings". Each fault's corrected behaviour is a separate member,
named in the table's last column: `RegisterFreshType`, `RegisterFreshPlugin`
and `ReloadPluginSafely` beside the registries' own methods, and corrected
functions beside the as-written ones elsewhere.

Some design descriptions of the system disagree with the code, and the model
follows the code:

- Plugin reload has no draining or retiring instance. `reload_plugin` unloads the old module, then compiles and instantiates the new bytes under the same name; a failure after the unload leaves the plugin without a module (Findings row 9).
- Tier migration has no dual-visibility window. `migrate_data` copies, then deletes from the source when the target is hotter, even when the copy was not stored (Findings row 2).
- Queries do no k-way merge across tiers. `TierManager::get` returns the first hit in priority order.
- Values have no sequence numbers, and type and plugin ids are whatever the caller supplies; nothing proves them globally unique. Two findings below show that the code does not enforce uniqueness.

## Model

| member | source | states |
|---|---|---|
| CoreError.ErrorCodeRoundTrip | crates/fdc-core/src/error.rs:240-268 | every error code reads back to the variant that produced it |
| CoreError.RoundTripIn | crates/fdc-core/src/error.rs:240-268 | the code round trip for one third of the variants |
| CoreError.ErrorCodeIdentifiesVariant | crates/fdc-core/src/error.rs:240-268 | two errors share a code exactly when they are the same variant (codes are distinct per variant) |
| CoreError.RetryableByCode | crates/fdc-core/src/error.rs:229-237 | an error is retryable exactly when it is a network, timeout, resource-exhausted or I/O error, read off its code |
| CoreError.ToString | crates/fdc-core/src/error.rs:7-94 | the display text starts with the variant's fixed prefix; a timeout's text ends in "ms" |
| CoreError.WithContext | crates/fdc-core/src/error.rs:278-289 | success passes through unchanged; any error becomes an internal error whose message is the context, ": " and the error's text |
| CoreError.WithContextHidesKind | crates/fdc-core/src/error.rs:278-289 | a wrapped error reports INTERNAL_ERROR, is never retryable, and displays as "Internal error: " + context + the original text |
| CoreValue.ValueEqReflexive | crates/fdc-core/src/types.rs:235-265 | the derived equality of values is reflexive exactly on values with no NaN inside |
| CoreValue.ValueEqSymmetric | crates/fdc-core/src/types.rs:235-265 | the derived equality is symmetric |
| CoreValue.ValueEqIsIdentity | crates/fdc-core/src/types.rs:235-265 | values the derived equality calls equal are structurally identical |
| CoreTime.FloorToInterval | crates/fdc-core/src/time.rs:133-137 | as written (truncating division): for a positive interval the result is a multiple within one interval of the timestamp, below it for non-negative timestamps and above it for negative ones |
| CoreTime.FloorToIntervalRoundsNegativeUp | crates/fdc-core/src/time.rs:133-137 | flooring -1 to a 10-unit grid gives 0, above the timestamp |
| CoreTime.FloorToMultiple | crates/fdc-core/src/time.rs:133-137 | corrected flooring: a multiple of the interval at or below the timestamp and less than one interval below it |
| CoreTime.FloorToMultipleIsGreatest | crates/fdc-core/src/time.rs:133-137 | every multiple at or below the timestamp is at or below the corrected floor |
| CoreTime.FloorToIntervalAgreesOnNonNegative | crates/fdc-core/src/time.rs:133-137 | for non-negative timestamps the written floor equals the corrected one |
| CoreTime.CeilToInterval | crates/fdc-core/src/time.rs:140-144 | as written, with 64-bit wrap-around: for a non-negative timestamp that does not overflow, the least multiple at or above it |
| CoreTime.CeilToIntervalOvershootsNegative | crates/fdc-core/src/time.rs:140-144 | rounding -15 up on a 10-unit grid gives 0, while the next grid point is -10 |
| CoreTime.CeilToMultiple | crates/fdc-core/src/time.rs:140-144 | corrected rounding up: a multiple at or above the timestamp and less than one interval above it |
| CoreTime.CeilToMultipleIsLeast | crates/fdc-core/src/time.rs:140-144 | every multiple at or above the timestamp is at or above the corrected ceiling |
| CoreTime.WrapI64Unique | crates/fdc-core/src/time.rs:152-164 | the 64-bit wrap of an integer is the unique i64 congruent to it |
| CoreTime.SubUndoesAdd | crates/fdc-core/src/time.rs:157-164 | subtracting an offset undoes adding it, even across wrap-around |
| CoreTime.DiffOfAdd | crates/fdc-core/src/time.rs:152-159 | the difference between an offset timestamp and the original is the offset, even across wrap-around |
| CoreTime.TimeRange.DurationNanos | crates/fdc-core/src/time.rs:201-203 | a valid range whose length fits 63 bits has the non-negative duration end - start |
| CoreTime.TimeRange.Intersection | crates/fdc-core/src/time.rs:211-220 | an intersection, when there is one, is a valid range |
| CoreTime.TimeRange.Union | crates/fdc-core/src/time.rs:223-228 | the union is valid, covers both ranges and takes each bound from one of them |
| CoreTime.NewRange | crates/fdc-core/src/time.rs:188-193 | succeeds exactly when start <= end, else InvalidArgument("Start time must be before end time") |
| CoreTime.OverlapsIffCommonPoint | crates/fdc-core/src/time.rs:206-208 | two valid ranges overlap exactly when some timestamp lies in both |
| CoreTime.IntersectionIsExact | crates/fdc-core/src/time.rs:211-220 | the intersection is absent exactly when the ranges do not overlap, and otherwise holds exactly the common timestamps |
| CoreTime.IntersectionCommutes | crates/fdc-core/src/time.rs:211-220 | intersection does not depend on operand order |
| CoreTime.UnionCovers | crates/fdc-core/src/time.rs:223-228 | every timestamp of either range lies in the union |
| CoreMemory.AlignTo | crates/fdc-core/src/memory.rs:99-101 | the aligned size is computed on 64-bit words, the sum and decrement wrapping; it never exceeds the wrapped sum |
| CoreMemory.AndNotLowMask | crates/fdc-core/src/memory.rs:99-101 | masking with the complement of 2^k - 1 rounds down to a multiple of 2^k |
| CoreMemory.AlignToNoWrap | crates/fdc-core/src/memory.rs:99-101 | without wrap-around, align_to clears the low bits of size + alignment - 1 |
| CoreMemory.AlignToRoundsUp | crates/fdc-core/src/memory.rs:99-101 | for a power-of-two alignment without wrap-around, the result is a multiple of the alignment, at least size and less than size + alignment |
| CoreMemory.AlignToIsLeast | crates/fdc-core/src/memory.rs:99-101 | every multiple of the alignment that covers size is at least the result |
| CoreMemory.AlignToLineAndPage | crates/fdc-core/src/memory.rs:104-111 | unless the sum wraps, aligning to a cache line rounds up to the nearest multiple of 64 and aligning to a page to the nearest multiple of 4096 |
| CoreMemory.AlignToExample | crates/fdc-core/src/memory.rs:320-324 | align_to(10, 8) is 16 |
| CoreMemory.AlignToCacheLineExample | crates/fdc-core/src/memory.rs:320-324 | aligning 100 bytes to the 64-byte cache line gives 128 |
| CoreMemory.AlignToPageExample | crates/fdc-core/src/memory.rs:320-324 | aligning 5000 bytes to the 4096-byte page gives 8192 |
| CoreMemory.ZeroCopyBuffer.constructor | crates/fdc-core/src/memory.rs:127-133 | a new buffer is empty, its capacity the requested size rounded up to the cache line |
| CoreMemory.ZeroCopyBuffer.Write | crates/fdc-core/src/memory.rs:136-143 | appends the bytes when they fit, else fails with Memory("Buffer overflow") and leaves the buffer as it was; written bytes read back at the old length |
| CoreMemory.ZeroCopyBuffer.Read | crates/fdc-core/src/memory.rs:146-152 | succeeds exactly when offset + len lies within the written bytes, returning those len bytes; otherwise Memory("Read beyond buffer") |
| CoreMemory.ZeroCopyBuffer.Clear | crates/fdc-core/src/memory.rs:165-167 | empties the buffer and keeps its capacity |
| CoreMemory.ZeroCopyBuffer.Len | crates/fdc-core/src/memory.rs:170-172 | the number of bytes written, never above the capacity, 0 exactly when nothing is written |
| CoreMemory.ZeroCopyBuffer.IsEmpty | crates/fdc-core/src/memory.rs:175-177 | empty exactly when the written length is 0 |
| CoreMemory.ZeroCopyBuffer.RemainingCapacity | crates/fdc-core/src/memory.rs:185-187 | remaining capacity plus written length equals the capacity; the whole capacity remains exactly when the buffer is empty |
| CoreMemory.MemoryMonitor.constructor | crates/fdc-core/src/memory.rs:221-225 | a new monitor has all-zero statistics |
| CoreMemory.MemoryMonitor.RecordAllocation | crates/fdc-core/src/memory.rs:228-237 | adds the size to allocated bytes and current usage, counts the allocation, raises the peak to the new usage when higher, and keeps the peak at least the current usage |
| CoreMemory.MemoryMonitor.RecordDeallocation | crates/fdc-core/src/memory.rs:240-245 | adds the size to freed bytes, lowers current usage saturating at 0, counts the deallocation and leaves the peak |
| CoreMemory.MemoryMonitor.ResetStats | crates/fdc-core/src/memory.rs:253-256 | every statistic back to zero |
| CoreMemory.FillRatio | crates/fdc-core/src/memory.rs:295-299 | one buffer's usage is NaN exactly for a zero-capacity buffer, and otherwise a ratio between 0 and 1 |
| CoreMemory.PreAllocator.constructor | crates/fdc-core/src/memory.rs:273-283 | count fresh empty buffers of the cache-line-aligned size, the first one current |
| CoreMemory.PreAllocator.GetBuffer | crates/fdc-core/src/memory.rs:286-292 | hands out the current buffer cleared and moves to the next one round-robin |
| CoreMemory.PreAllocator.GetUsage | crates/fdc-core/src/memory.rs:295-300 | one fill ratio per buffer: NaN exactly for a zero-capacity buffer, otherwise between 0 and 1 |
| CoreConfig.ServerConfig.Validate | crates/fdc-core/src/config.rs:110-133 | succeeds exactly when the host is non-empty and the six ports are pairwise different; an empty host is reported first, then the first port that repeats, by its number |
| CoreConfig.FirstRepeatedIndex | crates/fdc-core/src/config.rs:110-133 | finds no index exactly when the ports are distinct; otherwise the first index whose port appears again later |
| CoreConfig.RealtimeStorageConfig.Validate | crates/fdc-core/src/config.rs:184-189 | succeeds exactly for the engines "redb" and "memory"; otherwise names the invalid engine |
| CoreConfig.AnalyticalStorageConfig.Validate | crates/fdc-core/src/config.rs:213-221 | succeeds exactly for "duckdb" or "datafusion" with at least one thread; the engine is checked before the thread count |
| CoreConfig.ArchiveStorageConfig.Validate | crates/fdc-core/src/config.rs:245-253 | succeeds exactly for "rocksdb" or "sled" with compression lz4, zstd, snappy or none; the engine is checked first |
| CoreConfig.StorageConfig.Validate | crates/fdc-core/src/config.rs:155-160 | succeeds exactly when the realtime, analytical and archive sections do; otherwise the first failing section's error, realtime before analytical before archive |
| CoreConfig.DataSourceConfig.Validate | crates/fdc-core/src/config.rs:300-308 | succeeds exactly for a named source of type multicast, tcp, websocket or kafka; an empty name is reported first |
| CoreConfig.IngestionConfig.Validate | crates/fdc-core/src/config.rs:277-285 | succeeds exactly when the batch size is positive and every data source is valid; otherwise the batch-size error, or the first invalid source's error |
| CoreConfig.FirstSourceError | crates/fdc-core/src/config.rs:281-283 | the error of the first invalid data source, with all sources before it valid; Ok exactly when all are valid |
| CoreConfig.QueryConfig.Validate | crates/fdc-core/src/config.rs:332-337 | succeeds exactly when the concurrency limit is positive |
| CoreConfig.MonitoringConfig.Validate | crates/fdc-core/src/config.rs:359-367 | succeeds exactly for a known log level and a finite sampling rate in [0, 1]; the log level is checked first |
| CoreConfig.WasmConfig.Validate | crates/fdc-core/src/config.rs:393-398 | succeeds exactly when the plugin limit is positive |
| CoreConfig.Config.Validate | crates/fdc-core/src/config.rs:71-80 | succeeds exactly when all six checked sections do; otherwise the first failing section's error, in the order server, storage, ingestion, query, monitoring, wasm (the types section always passes, so it is not modelled) |
| CoreConfig.DefaultConfigIsValid | crates/fdc-core/src/config.rs:21-31 | the default configuration validates |
| CoreConfig.SharedPortIsRejected | crates/fdc-core/src/config.rs:124-130 | a REST port equal to the gRPC port is reported as a duplicate of that port |
| CoreTypeRegistry.BasicTypeAlignment | crates/fdc-core/src/type_registry.rs:103-119 | every alignment is 1, 2, 4, 8 or 16 bytes |
| CoreTypeRegistry.SizeAndAlignment | crates/fdc-core/src/type_registry.rs:84-119 | fixed-width numbers are aligned to their own size, and every size is a whole number of alignments |
| CoreTypeRegistry.BuiltinInfos | crates/fdc-core/src/type_registry.rs:43-81 | one record per built-in type, the i-th named after the i-th built-in and carrying the i-th id |
| CoreTypeRegistry.BuiltinNamesDistinct | crates/fdc-core/src/type_registry.rs:43-81 | the 21 built-in names are pairwise different |
| CoreTypeRegistry.TableOfAt | crates/fdc-core/src/type_registry.rs:67-80 | with distinct ids, each inserted record is found under its own id |
| CoreTypeRegistry.TableOfKeys | crates/fdc-core/src/type_registry.rs:67-80 | the id table holds no id other than those inserted |
| CoreTypeRegistry.NameIndexOfAt | crates/fdc-core/src/type_registry.rs:67-80 | with distinct names, each inserted name maps to its record's id |
| CoreTypeRegistry.NameIndexOfKeys | crates/fdc-core/src/type_registry.rs:67-80 | the name index holds no name other than those inserted |
| CoreTypeRegistry.NewRegistryNames | crates/fdc-core/src/type_registry.rs:28-81 | a new registry maps each built-in name to its own id and back, knows "bool" and not "nonexistent" |
| CoreTypeRegistry.ValidateBasicValueMatchesKind | crates/fdc-core/src/type_registry.rs:196-230 | a basic value is accepted exactly when its variant is the type's kind; otherwise a validation error |
| CoreTypeRegistry.TypeRegistry.constructor | crates/fdc-core/src/type_registry.rs:28-40 | the tables hold exactly the built-in types under the drawn ids; composite, user and WASM tables are empty |
| CoreTypeRegistry.TypeRegistry.GetTypeId | crates/fdc-core/src/type_registry.rs:153-155 | the id registered under the name, and none exactly when the name is unknown |
| CoreTypeRegistry.TypeRegistry.GetTypeInfo | crates/fdc-core/src/type_registry.rs:158-180 | looks in the basic, composite, user and WASM tables in that order; none exactly when no table has the id |
| CoreTypeRegistry.TypeRegistry.ValidateValue | crates/fdc-core/src/type_registry.rs:183-193 | an unknown id is NotFound; a basic type accepts exactly the values of its kind; other known types accept every value |
| CoreTypeRegistry.TypeRegistry.RegisterUserType | crates/fdc-core/src/type_registry.rs:122-135 | a taken name fails with AlreadyExists and changes nothing; otherwise the type is added under its id and its name indexed; other tables unchanged |
| CoreTypeRegistry.TypeRegistry.RegisterWasmType | crates/fdc-core/src/type_registry.rs:138-150 | as for user types, in the WASM table |
| CoreTypeRegistry.TypeRegistry.ListTypes | crates/fdc-core/src/type_registry.rs:251-253 | exactly the names that have an id |
| CoreTypeRegistry.TypeRegistry.GetStats | crates/fdc-core/src/type_registry.rs:256-264 | each count is the size of its table, the total the number of registered names |
| TypesDefinition.NewDefinition | crates/fdc-types/src/definition.rs:161-175 | a new definition has the given id, name and kind, version "1.0.0", and no description, fields, constraints or attributes |
| TypesDefinition.NewField | crates/fdc-types/src/definition.rs:315-325 | a new field is required, with no default, description, constraints or attributes |
| TypesDefinition.AddField | crates/fdc-types/src/definition.rs:192-195 | the field is appended last and nothing else changes |
| TypesDefinition.AddConstraint | crates/fdc-types/src/definition.rs:198-201 | the constraint is appended last and nothing else changes |
| TypesDefinition.SetAttribute | crates/fdc-types/src/definition.rs:204-207 | the key now maps to the value, every other attribute is kept, nothing else changes |
| TypesDefinition.FindFieldFrom | crates/fdc-types/src/definition.rs:210-212 | the first index from `from` on whose field has the name; none exactly when no such field |
| TypesDefinition.GetField | crates/fdc-types/src/definition.rs:210-212 | the first field with the name; none exactly when no field has it |
| TypesDefinition.PrimitiveSizes | crates/fdc-types/src/definition.rs:230-245 | bool, i64 and f32 occupy 1, 8 and 4 bytes; strings, bytes, decimals and big integers have no fixed size |
| TypesDefinition.SumFieldSizesSpec | crates/fdc-types/src/definition.rs:241-251 | the recursive sum standing for the source's loop over fields gives none exactly when a remaining field is unsized, and otherwise adds the remaining sizes |
| TypesDefinition.StructSizeHint | crates/fdc-types/src/definition.rs:230-255 | a struct's size is the sum of its field sizes, and none exactly when some field has none |
| TypesDefinition.ValidateConstraint | crates/fdc-types/src/definition.rs:364-396 | a constraint is accepted exactly when well-formed (finite bounds, a pattern that compiles, a non-empty enum, a named custom rule with an expression); failures are validation errors |
| TypesDefinition.CheckCircularSpec | crates/fdc-types/src/definition.rs:286-310 | the circular-reference check fails exactly when some type name repeats along a path of nested field types, and only with a validation error |
| TypesDefinition.CheckCircularFieldsSpec | crates/fdc-types/src/definition.rs:303-305 | the recursion over the fields, standing for the source's loop, fails exactly when one of the remaining fields has a repeated name on its path |
| TypesDefinition.ValidateSpec | crates/fdc-types/src/definition.rs:258-283 | validation succeeds exactly on well-formed definitions (names and versions present, fields and constraints valid, no circular reference) and fails only with validation errors |
| TypesDefinition.ValidateFieldsSpec | crates/fdc-types/src/definition.rs:351-359 | the recursion over the fields, standing for the source's loop, succeeds exactly when every remaining field has a name and a valid type |
| TypesDefinition.ValidateConstraintsSpec | crates/fdc-types/src/definition.rs:274-276 | the recursion over the constraints, standing for the source's loop, succeeds exactly when every remaining constraint is well-formed |
| TypesDefinition.SelfNamedFieldIsCircular | crates/fdc-types/src/definition.rs:291-310 | a struct with a field whose type has the struct's own name is rejected |
| TypesConversion.Convert | crates/fdc-types/src/conversion.rs:30-38 | succeeds exactly for i32 to "i64", i64 to "i32", f32 to "f64" and f64 to "f32"; i32 to i64 keeps the value, i64 to i32 keeps it modulo 2^32, f32 to f64 and f64 to f32 carry the same float (f32 rounding is not modelled); otherwise a type error naming both types |
| TypesConversion.WidenThenNarrow | crates/fdc-types/src/conversion.rs:30-38 | widening an i32 and narrowing it back gives the original |
| TypesConversion.NarrowKeepsSmall | crates/fdc-types/src/conversion.rs:30-38 | narrowing keeps every i64 in the 32-bit range |
| TypesConversion.NarrowTruncates | crates/fdc-types/src/conversion.rs:30-38 | narrowing 2^31 wraps to -2^31 |
| TypesRegistry.TypeRegistryStats.CacheHitRate | crates/fdc-types/src/registry.rs:66-73 | hits over hits plus misses, 0 before the first lookup; 0 exactly without hits, 1 exactly with hits and no misses |
| TypesRegistry.TypeRegistryStats.ValidationSuccessRate | crates/fdc-types/src/registry.rs:76-83 | successes over all validations, 0 before the first; 0 exactly without successes, 1 exactly with successes and no failures |
| TypesRegistry.BuiltinPrimitiveNamesDistinct | crates/fdc-types/src/registry.rs:119-138 | the 18 built-in primitive names are pairwise different |
| TypesRegistry.BuiltinDefinitions | crates/fdc-types/src/registry.rs:140-151 | the i-th built-in definition is a fresh primitive definition with the i-th name, kind and id |
| TypesRegistry.BuiltinDefinitionsDistinct | crates/fdc-types/src/registry.rs:140-151 | with distinct drawn ids, the built-in definitions differ pairwise in id and in name |
| TypesRegistry.InsertNext | crates/fdc-types/src/registry.rs:148-150 | inserting the next built-in keeps the earlier ones and leaves the later ones absent |
| TypesRegistry.CountClassRemove | crates/fdc-types/src/registry.rs:270-278 | removing a definition lowers the count of its kind by one and no other |
| TypesRegistry.CountClassInsert | crates/fdc-types/src/registry.rs:196-206 | adding a definition raises the count of its kind by one and no other |
| TypesRegistry.CompatibilityLaws | crates/fdc-types/src/registry.rs:389-407 | compatibility is reflexive and symmetric, and two different names are compatible exactly when both are numeric |
| TypesRegistry.PrimitiveDependsOnNothing | crates/fdc-types/src/registry.rs:306-325 | a built-in primitive depends on no type |
| TypesRegistry.InsertKeepsAgreement | crates/fdc-types/src/registry.rs:193-206 | inserting a definition with a new id and name keeps the two indexes inverse and the counters equal to the table's |
| TypesRegistry.RemoveKeepsIndexes | crates/fdc-types/src/registry.rs:262-268 | removing an id and its name keeps the indexes inverse and the cache consistent |
| TypesRegistry.RemoveKeepsCounts | crates/fdc-types/src/registry.rs:270-278 | the counters of a removed definition's kind are positive and, lowered, agree with the smaller table |
| TypesRegistry.UnregisterKeepsAgreement | crates/fdc-types/src/registry.rs:250-287 | unregistering keeps the whole registry invariant |
| TypesRegistry.RegisterKeepsAgreement | crates/fdc-types/src/registry.rs:161-214 | registering a new id and name, with the cache emptied, keeps the whole registry invariant |
| TypesRegistry.CacheInsertKeepsAgreement | crates/fdc-types/src/registry.rs:238-244 | caching the registered definition of a name keeps the cache consistent |
| TypesRegistry.AgreesIsConsistent | crates/fdc-types/src/registry.rs:161-214 | the full agreement (indexes inverse, cache current, counters equal to the table) implies the weaker consistency every reachable registry keeps |
| TypesRegistry.CountClassOverwrite | crates/fdc-types/src/registry.rs:193-206 | overwriting an id raises a kind's count by at most one, and only the stored kind's |
| TypesRegistry.RegisterKeepsConsistency | crates/fdc-types/src/registry.rs:161-214 | the as-written registration of a new name keeps the weak invariant even when the id is taken: names resolve back, the cache is current, and the counters cover the table |
| TypesRegistry.RegisterAgreesIffFresh | crates/fdc-types/src/registry.rs:161-214 | the as-written registration of a new name keeps the full agreement exactly when the id is not yet registered |
| TypesRegistry.UnregisterKeepsConsistency | crates/fdc-types/src/registry.rs:250-287 | removing a registered id keeps the weak invariant; the counters of its kind were positive |
| TypesRegistry.TypeRegistry.constructor | crates/fdc-types/src/registry.rs:102-158 | the registry holds the 18 built-in primitives under the drawn ids, both invariants hold, totals are 18 primitives, and the cache is empty |
| TypesRegistry.TypeRegistry.RegisterType | crates/fdc-types/src/registry.rs:161-214 | as written: a full table is refused first, then a failed validation (when enabled), then a taken name, each changing no table; on success the definition is stored under its id and name as RegisterAsWritten says, the counters of its kind rise and the cache is emptied, even when the id was taken; the full agreement survives exactly when the id was fresh |
| TypesRegistry.TypeRegistry.RegisterFreshType | crates/fdc-types/src/registry.rs:161-214 | corrected version (Findings row 6): a taken id is refused with AlreadyExists and nothing changes; otherwise as RegisterType; success exactly for a fresh id, room, valid definition and new name; keeps the full agreement |
| TypesRegistry.TypeRegistry.GetTypeById | crates/fdc-types/src/registry.rs:217-220 | the definition stored under the id, none exactly when the id is unknown |
| TypesRegistry.TypeRegistry.GetTypeByName | crates/fdc-types/src/registry.rs:223-247 | a registered definition carrying the name is returned; with the full agreement, none exactly when the name is unknown; a cached name is a hit that returns the cached definition, otherwise a miss that resolves through the name index and caches what it found, while the cache is enabled |
| TypesRegistry.TypeRegistry.UnregisterType | crates/fdc-types/src/registry.rs:250-287 | an unknown id is NotFound; a type some registered type depends on is refused with a validation error; otherwise it leaves both indexes and the cache and its kind's counters drop by one; the full agreement is kept |
| TypesRegistry.TypeRegistry.TypeCount | crates/fdc-types/src/registry.rs:362-364 | the table's size never exceeds the total counter, and equals it under the full agreement (the counter can run ahead after a duplicate id) |
| TypesRegistry.TypeRegistry.ListTypeNames | crates/fdc-types/src/registry.rs:328-335 | every registered definition's name is listed; under the full agreement the names are exactly those of the registered definitions |
| TypesRegistry.TypeRegistry.HasType | crates/fdc-types/src/registry.rs:367-369 | a name carried by a registered definition is known; under the full agreement exactly those names are |
| TypesRegistry.TypeRegistry.ListTypesByKind | crates/fdc-types/src/registry.rs:338-344 | exactly the registered definitions whose kind is the same variant |
| TypesRegistry.TypeRegistry.SearchTypes | crates/fdc-types/src/registry.rs:347-359 | exactly the registered definitions whose lower-cased name or description contains the lower-cased query |
| TypesRegistry.TypeRegistry.ClearCache | crates/fdc-types/src/registry.rs:377-381 | empties the cache when it is enabled, changes nothing else, and keeps the full agreement |
| TypesWasmTypes.ToWasmValue | crates/fdc-types/src/wasm_types.rs:24-34 | never fails; every value the bridge does not carry becomes WASM null |
| TypesWasmTypes.FromWasmValue | crates/fdc-types/src/wasm_types.rs:36-46 | never fails; null, bytes, arrays and objects become core null |
| TypesWasmTypes.RoundTrip | crates/fdc-types/src/wasm_types.rs:24-46 | a carried value survives the round trip; any other comes back as null |
| TypesRegistry.RegisterAsWritten | crates/fdc-types/src/registry.rs:176-206 | as written, a taken name is refused and a success stores the definition under its id and counts one more type |
| TypesRegistry.RegisterAsWrittenDuplicateId | crates/fdc-types/src/registry.rs:184-199 | as written, a second definition with a taken id and a new name overwrites the first: two types counted, one stored, the first name leading to the second |
| StorageConfiguration.ValidateAcceptsWellFormed | crates/fdc-storage/src/config.rs:141-159 | validation accepts exactly the configurations with a data directory, a shard, replication factor at least 2 when replication is on, and a tier; an empty directory and zero shards are reported first, in that order |
| StorageConfiguration.DefaultConfigValid | crates/fdc-storage/src/config.rs:40-86 | the default configuration validates and configures and enables all four tiers |
| StorageConfiguration.BuildersAndValidation | crates/fdc-storage/src/config.rs:96-126 | an empty data directory, zero shards or a replication factor below 2 make any configuration invalid; the backup builders leave validity unchanged |
| StorageConfiguration.TuningBuildersKeepValidity | crates/fdc-storage/src/config.rs:129-138 | setting the compression or the cache policy leaves validity unchanged |
| StorageConfiguration.BackupBuilders | crates/fdc-storage/src/config.rs:115-126 | without_backup clears what with_backup_path sets, and the reverse |
| StorageConfiguration.TierConfigRoundTrip | crates/fdc-storage/src/config.rs:162-174 | after adding a tier's settings the lookup finds them and other tiers are unaffected; after removing the tier the lookup misses |
| StorageConfiguration.EnabledTiersExactly | crates/fdc-storage/src/config.rs:177-183 | with settings keyed by their own tier, the enabled tiers are exactly the configured tiers whose settings are enabled |
| StorageConfiguration.TierConfigOpsKeepKeying | crates/fdc-storage/src/config.rs:167-174 | adding and removing tier settings keep every setting under its own tier |
| StorageCache.CacheStats.HitRate | crates/fdc-storage/src/cache.rs:26-29 | hits over lookups, 0 before the first; 0 exactly without hits, 1 exactly with hits and no misses |
| StorageCache.Bound | crates/fdc-storage/src/cache.rs:60-66 | a cache holds at most its capacity, and one entry when the capacity is 0 |
| StorageCache.CacheManager.constructor | crates/fdc-storage/src/cache.rs:41-48 | an empty cache with zero statistics and the given policy and capacity |
| StorageCache.CacheManager.Get | crates/fdc-storage/src/cache.rs:50-58 | returns the cached value and counts a hit, or nothing and counts a miss; the entries are unchanged |
| StorageCache.CacheManager.Put | crates/fdc-storage/src/cache.rs:60-66 | stores the value under the key; when the map is full, first evicts one existing entry, even if the key is already cached, and counts the eviction |
| StorageCache.CacheManager.EvictOne | crates/fdc-storage/src/cache.rs:68-73 | removes exactly one entry and counts it when there is one, else changes nothing |
| StorageCache.CacheManager.Stats | crates/fdc-storage/src/cache.rs:75-77 | on a valid cache, the reported size is the number of cached entries, within the capacity bound |
| StorageMemoryEngine.LexIrreflexive | crates/fdc-storage/src/engines/memory.rs:216 | no byte string sorts before itself |
| StorageMemoryEngine.LexTransitive | crates/fdc-storage/src/engines/memory.rs:216 | the byte-string order is transitive |
| StorageMemoryEngine.LexTotal | crates/fdc-storage/src/engines/memory.rs:216 | any two different byte strings are ordered one way or the other |
| StorageMemoryEngine.LexAsymmetric | crates/fdc-storage/src/engines/memory.rs:216 | two byte strings are never each before the other |
| StorageMemoryEngine.SortedByKeyPairs | crates/fdc-storage/src/engines/memory.rs:216 | in a sorted result no later key is smaller than an earlier one |
| StorageMemoryEngine.InsertByKey | crates/fdc-storage/src/engines/memory.rs:216 | inserting into a sorted sequence keeps it sorted and adds exactly the new entry |
| StorageMemoryEngine.SortByKey | crates/fdc-storage/src/engines/memory.rs:216 | the entries in ascending key order, a permutation of the input |
| StorageMemoryEngine.TotalSizeRemove | crates/fdc-storage/src/engines/memory.rs:131-148 | removing a key lowers the total size by its entry's key and value lengths |
| StorageMemoryEngine.TotalSizeUpdate | crates/fdc-storage/src/engines/memory.rs:106-129 | storing a value changes the total size by the new entry minus the old one |
| StorageMemoryEngine.RecordOperation | crates/fdc-storage/src/engine.rs:116-134 | one operation adds exactly one to the total operation count; a batch counts as one write |
| StorageMemoryEngine.ApplyBatchAppend | crates/fdc-storage/src/engines/memory.rs:150-184 | a batch applies its operations in order: applying two halves in turn equals applying the whole |
| StorageMemoryEngine.LaterOperationsWin | crates/fdc-storage/src/engines/memory.rs:150-184 | in a batch a later put of a key wins over an earlier one, and a delete after a put removes it |
| StorageMemoryEngine.UpdateSize | crates/fdc-storage/src/engines/memory.rs:49-56 | adds the delta to the size, saturating at zero |
| StorageMemoryEngine.InRangeEntries | crates/fdc-storage/src/engines/memory.rs:192-205 | every collected entry is stored, with its stored value, and lies in the range |
| StorageMemoryEngine.InRangeEntriesComplete | crates/fdc-storage/src/engines/memory.rs:192-205 | every stored key in range contributes its entry |
| StorageMemoryEngine.Take | crates/fdc-storage/src/engines/memory.rs:207-212 | the first limit entries, or all of them without a limit |
| StorageMemoryEngine.ScanAsWritten | crates/fdc-storage/src/engines/memory.rs:186-224 | the source's scan, which collects in iteration order under the limit and sorts afterwards, returns a key-sorted result |
| StorageMemoryEngine.ScanAsWrittenIgnoresLimit | crates/fdc-storage/src/engines/memory.rs:207-216 | a limit of 0 still returns one entry, and a limit of 1 keeps the first key iterated rather than the smallest |
| StorageMemoryEngine.CollectAsWritten | crates/fdc-storage/src/engines/memory.rs:192-212 | the collecting loop as written keeps what it had, adds only stored entries in range, stops one entry past a limit it had not reached, and without a limit adds every in-range entry in order |
| StorageMemoryEngine.ScanAsWrittenEntries | crates/fdc-storage/src/engines/memory.rs:186-224 | the scan as written returns stored entries in range, sorted by key, at most `limit` of them (one for a limit of 0); without a limit it equals the corrected scan |
| StorageMemoryEngine.MemoryEngine.constructor | crates/fdc-storage/src/engines/memory.rs:25-35 | an empty engine with zero statistics whose capacity is the "max_size" setting when it parses as a number |
| StorageMemoryEngine.MemoryEngine.CheckCapacity | crates/fdc-storage/src/engines/memory.rs:38-46 | accepts exactly when there is no capacity or size plus the addition fits; otherwise ResourceExhausted |
| StorageMemoryEngine.MemoryEngine.Shutdown | crates/fdc-storage/src/engines/memory.rs:85-90 | drops every entry and zeroes the size; the counters stay |
| StorageMemoryEngine.MemoryEngine.Get | crates/fdc-storage/src/engines/memory.rs:92-104 | the stored value, none exactly when absent; counts a read and changes nothing else |
| StorageMemoryEngine.MemoryEngine.Put | crates/fdc-storage/src/engines/memory.rs:106-129 | refused, with nothing changed, when the new entry's full size would pass the capacity; otherwise stores it, keeps the size equal to the total entry size, and counts a write |
| StorageMemoryEngine.MemoryEngine.Delete | crates/fdc-storage/src/engines/memory.rs:131-148 | removes the key, shrinking the size by its entry when present, and counts a delete |
| StorageMemoryEngine.MemoryEngine.Batch | crates/fdc-storage/src/engines/memory.rs:150-184 | applies the operations in order without a capacity check, keeps the size equal to the total entry size, and counts one write |
| StorageMemoryEngine.MemoryEngine.Scan | crates/fdc-storage/src/engines/memory.rs:186-224 | the scan as written, over an iteration order that lists every stored key once: the result is ScanAsWritten over that order; entries and size unchanged; counts a scan |
| StorageMemoryEngine.ScanCorrected | crates/fdc-storage/src/engines/memory.rs:186-224 | corrected version (Findings row 1): limit applied after sorting, so the result is key-sorted and never longer than the limit |
| StorageMemoryEngine.ScanEntriesStored | crates/fdc-storage/src/engines/memory.rs:186-224 | corrected version (Findings row 1): every entry the corrected scan returns is stored and in range |
| StorageMemoryEngine.ScanKeepsSmallest | crates/fdc-storage/src/engines/memory.rs:186-224 | corrected version (Findings row 1): an in-range key missing from the corrected scan was cut by a full limit and is no smaller than any returned key |
| StorageMemoryEngine.TakeSortedKeepsSmallest | crates/fdc-storage/src/engines/memory.rs:207-216 | corrected version (Findings row 1): sorting then cutting keeps the smallest keys |
| StorageMemoryEngine.PrefixBelow | crates/fdc-storage/src/engines/memory.rs:216 | in a sorted sequence, an entry at or after position n has a key no smaller than any before n |
| StorageTiers.Priority | crates/fdc-storage/src/tier.rs:26-33 | priorities run from 1 to 4 |
| StorageTiers.PriorityIsLevel | crates/fdc-storage/src/tier.rs:26-33 | each tier's priority is its level, so no two tiers share one |
| StorageTiers.DefaultEnginesDistinct | crates/fdc-storage/src/tier.rs:36-43 | every tier has its own default engine, and only L1 defaults to memory |
| StorageTiers.TierConfigBuilders | crates/fdc-storage/src/tier.rs:77-111 | new tier settings are enabled with the default engine, no limits and an 80% threshold; each builder changes only its own setting |
| StorageTiers.RecordAccess | crates/fdc-storage/src/tier.rs:142-166 | counts one more access at the given instant; after at least an hour the frequency is accesses per elapsed hour; the heat score equals the frequency |
| StorageTiers.RecommendedTierMonotone | crates/fdc-storage/src/tier.rs:169-179 | a hotter access pattern never recommends a colder tier |
| StorageTiers.ThresholdCarries | crates/fdc-storage/src/tier.rs:169-179 | a heat above a threshold stays above it as the heat grows |
| StorageTiers.InitialTier | crates/fdc-storage/src/tier.rs:307-315 | an unseen key goes to L2, a known key to the tier its pattern recommends |
| StorageTiers.SecondPutGoesCold | crates/fdc-storage/src/tier.rs:270-315 | the first put of a key goes to L2 and leaves a pattern of heat 0, so the next put of that key goes to L4 |
| StorageTiers.Contents | crates/fdc-storage/src/tier.rs:187 | what each tier's engine holds, for exactly the tiers with an engine |
| StorageTiers.EngineGet | crates/fdc-storage/src/engines/redb.rs:60-63 | a stub engine (redb, DuckDB, RocksDB) fails every get with Unimplemented; the memory engine returns the stored value, none exactly when absent |
| StorageTiers.EnginePut | crates/fdc-storage/src/engines/redb.rs:65-68 | a put fails exactly on a stub engine (Unimplemented) or when the memory engine's capacity would be passed (ResourceExhausted); otherwise only the key is set |
| StorageTiers.EngineDelete | crates/fdc-storage/src/engines/redb.rs:70-73 | a delete, its error ignored: the memory engine drops the key, a stub engine is unchanged |
| StorageTiers.Select | crates/fdc-storage/src/tier.rs:246-247 | keeps exactly the listed tiers that are configured, in their order |
| StorageTiers.ByPriority | crates/fdc-storage/src/tier.rs:246-247 | exactly the configured tiers, hottest first |
| StorageTiers.FirstHolder | crates/fdc-storage/src/tier.rs:249-263 | the first listed tier whose engine holds the key, none exactly when no listed tier does |
| StorageTiers.FirstServing | crates/fdc-storage/src/tier.rs:249-263 | the tier found serves the key: it is listed, has an engine whose get succeeds and holds the key |
| StorageTiers.FirstServingIsFirstHolder | crates/fdc-storage/src/tier.rs:249-263 | skipping the engines whose get fails finds the first listed tier that holds the key, since stubs hold nothing |
| StorageTiers.FirstHolderIsHottest | crates/fdc-storage/src/tier.rs:249-263 | in priority order, no hotter tier holds the key than the one found |
| StorageTiers.LookupFindsHottest | crates/fdc-storage/src/tier.rs:244-267 | a get misses exactly when no configured tier holds the key, and otherwise returns the hottest holder's value |
| StorageTiers.LookupIsHottestHolder | crates/fdc-storage/src/tier.rs:244-267 | a configured holder with no hotter configured holder is the tier a get answers from |
| StorageTiers.HotCopyShadowsCold | crates/fdc-storage/src/tier.rs:244-267 | with the key in L2 and L4, a get answers from L2 |
| StorageTiers.PutAsWritten | crates/fdc-storage/src/tier.rs:270-283 | a put as written keeps the set of engines and the well-formedness of every engine |
| StorageTiers.PutAsWrittenOutcome | crates/fdc-storage/src/tier.rs:270-283 | a put fails exactly when the recommended tier's engine refuses the value (stub or capacity), changing nothing; with no engine there nothing changes; otherwise only that tier gets the key and the access is recorded |
| StorageTiers.PutAsWrittenThenLookup | crates/fdc-storage/src/tier.rs:244-283 | after a put that reached its engine, a get returns the new value exactly when no hotter configured tier holds the key, and otherwise what it returned before |
| StorageTiers.WriteOneThenLookup | crates/fdc-storage/src/tier.rs:244-283 | a write to one tier shows through a get unless a hotter configured tier holds the key |
| StorageTiers.WriteShows | crates/fdc-storage/src/tier.rs:244-283 | a write to a tier with no hotter holder is what a get returns |
| StorageTiers.WriteShadowed | crates/fdc-storage/src/tier.rs:244-283 | a write below a hotter holder leaves the get unchanged |
| StorageTiers.OtherTierUnchanged | crates/fdc-storage/src/tier.rs:270-283 | a write to one tier leaves every other tier as it was and sets the key in the target |
| StorageTiers.StoreOnly | crates/fdc-storage/src/tier.rs:270-283 | corrected version (Findings row 7): afterwards only the target tier holds the key, with the new value, and the set of engines is unchanged |
| StorageTiers.StoreOnlyKeepsOtherKeys | crates/fdc-storage/src/tier.rs:270-283 | corrected version (Findings row 7): every other key keeps its tiers and values |
| StorageTiers.StoreOnlyThenLookup | crates/fdc-storage/src/tier.rs:244-283 | corrected version (Findings row 7): a put is seen by the next get |
| StorageTiers.RemoveEverywhere | crates/fdc-storage/src/tier.rs:286-297 | no engine holds the key afterwards, and the set of engines is unchanged |
| StorageTiers.RemoveEverywhereMisses | crates/fdc-storage/src/tier.rs:244-297 | after a delete every get of the key misses |
| StorageTiers.DeleteEverywhere | crates/fdc-storage/src/tier.rs:286-297 | deleting on every engine, errors ignored, keeps engines well formed and removes the key from every tier's contents |
| StorageTiers.DeleteUpToStep | crates/fdc-storage/src/tier.rs:288-291 | the delete loop applies the engine delete to one more tier per step |
| StorageTiers.DeleteUpToAll | crates/fdc-storage/src/tier.rs:288-291 | after visiting every tier the loop has deleted the key everywhere |
| StorageTiers.PutAsWrittenServesStaleValue | crates/fdc-storage/src/tier.rs:244-283 | with L2 and L4 configured, the second put of a key lands in L4 while the first copy stays in L2, and a get returns the old value |
| StorageTiers.PromotionTarget | crates/fdc-storage/src/tier.rs:318-335 | the tier one step hotter; none exactly for L1 |
| StorageTiers.PromotionTasks | crates/fdc-storage/src/tier.rs:318-335 | no task for L1, otherwise one task moving the key one tier hotter |
| StorageTiers.StoredKeysHolds | crates/fdc-storage/src/tier.rs:349-375 | a key is stored exactly when some tier holds it |
| StorageTiers.MigrateAsWritten | crates/fdc-storage/src/tier.rs:349-375 | a migration as written fails exactly on a stub source engine or a refused write to the target, then changing nothing; it keeps the set of engines and their well-formedness |
| StorageTiers.MigrateAsWrittenContents | crates/fdc-storage/src/tier.rs:349-375 | a successful migration of a found key copies it into the target (if it has an engine) and deletes it from the source when the target is hotter |
| StorageTiers.MigrateAsWrittenHolds | crates/fdc-storage/src/tier.rs:349-375 | after such a migration the target holds the key, the source lost it when the target is hotter, and every other tier and key is as before |
| StorageTiers.MovedHolds | crates/fdc-storage/src/tier.rs:349-375 | the same fact on tier contents |
| StorageTiers.MigrateAsWrittenStoredKeys | crates/fdc-storage/src/tier.rs:349-375 | a successful migration keeps every stored key but its own, and loses its own exactly when its source held it, the hotter target has no engine and no other tier holds it |
| StorageTiers.MigrateAsWrittenLosesKey | crates/fdc-storage/src/tier.rs:349-375 | promoting a key into a tier without an engine deletes its only copy |
| StorageTiers.DrainAsWritten | crates/fdc-storage/src/tier.rs:338-346 | the queue is popped from its end and stops at the first failing migration, leaving the unprocessed prefix queued; success empties it; the set of engines is kept |
| StorageTiers.DrainAsWrittenKeepsKeys | crates/fdc-storage/src/tier.rs:338-346 | with an engine for every task's target, draining loses no stored key, even when it stops early |
| StorageTiers.Migrate | crates/fdc-storage/src/tier.rs:349-375 | corrected version (Findings row 2): one migration loses no key, touches only the two tiers, and leaves the key in the target with its value |
| StorageTiers.MigrateAll | crates/fdc-storage/src/tier.rs:338-346 | corrected version (Findings row 2): draining the queue with the corrected migration loses no stored key and keeps the set of engines |
| StorageTiers.InstallEnginesContents | crates/fdc-storage/src/tier.rs:226-241 | each listed enabled tier gets a fresh empty engine; every other engine is kept |
| StorageTiers.FirstCustom | crates/fdc-storage/src/tier.rs:227-238 | the first listed enabled tier with a custom engine, which engine creation refuses |
| StorageTiers.FirstCustomAt | crates/fdc-storage/src/tier.rs:227-238 | the first enabled custom tier in the list is the one found |
| StorageTiers.TierManager.constructor | crates/fdc-storage/src/tier.rs:211-218 | no tiers, engines, patterns or queued migrations |
| StorageTiers.TierManager.AddTier | crates/fdc-storage/src/tier.rs:221-223 | records the tier's settings and changes nothing else |
| StorageTiers.TierManager.Initialize | crates/fdc-storage/src/tier.rs:226-241 | succeeds exactly when no enabled tier uses a custom engine, creating an empty engine per enabled tier; otherwise stops at the first custom one with its error, keeping the engines created before it |
| StorageTiers.TierManager.Get | crates/fdc-storage/src/tier.rs:244-267 | the value of the hottest tier whose engine serves the key; on a hit records the access and queues a promotion below L1; tiers and engines unchanged |
| StorageTiers.LookupAndTrack | crates/fdc-storage/src/tier.rs:244-267 | the search over the tiers in priority order, skipping failing engines: a miss changes nothing, a hit returns the value, records the access and queues exactly the promotion of the hit tier |
| StorageTiers.TierManager.Put | crates/fdc-storage/src/tier.rs:270-283 | as written: result, engines and patterns are those of PutAsWritten, so a stub target fails and other tiers keep older copies; tiers and queue unchanged |
| StorageTiers.TierManager.Delete | crates/fdc-storage/src/tier.rs:286-297 | always succeeds: every engine deletes the key, errors ignored, and its pattern is forgotten |
| StorageTiers.TierManager.SchedulePromotion | crates/fdc-storage/src/tier.rs:318-335 | appends the promotion task, if any, and changes nothing else |
| StorageTiers.TierManager.ProcessMigrations | crates/fdc-storage/src/tier.rs:338-346 | as written: result, engines and remaining queue are those of DrainAsWritten, stopping at the first failing migration |
| StorageTiers.SearchTiers | crates/fdc-storage/src/tier.rs:249-263 | the search loop finds the first listed tier holding the key |
| WasmTypes.ValueTypeIsVariant | crates/fdc-wasm/src/types.rs:37-50 | two values have the same type exactly when they are the same variant |
| WasmTypes.NumericIsIntegerOrFloat | crates/fdc-wasm/src/types.rs:53-65 | numeric means integer or float, and no value is both |
| WasmTypes.AsI32 | crates/fdc-wasm/src/types.rs:68-76 | succeeds exactly for numeric values; an i32 as it is, an i64 wrapped to 32 bits; otherwise "Cannot convert <type> to i32", printing the value's type by its debug name ("Bool", "I32", ...) |
| WasmTypes.AsI64 | crates/fdc-wasm/src/types.rs:79-87 | succeeds exactly for numeric values; integers widen exactly; otherwise "Cannot convert <type> to i64", printing the value's type by its debug name ("Bool", "I32", ...) |
| WasmTypes.AsFloat | crates/fdc-wasm/src/types.rs:90-109 | succeeds exactly for numeric values; floats as they are; otherwise a conversion error naming the target, printing the value's type by its debug name ("Bool", "I32", ...) |
| WasmTypes.AsString | crates/fdc-wasm/src/types.rs:112-122 | succeeds exactly for strings, numbers and booleans; a string as it is, an integer in decimal; otherwise "Cannot convert <type> to string", printing the value's type by its debug name ("Bool", "I32", ...) |
| WasmTypes.AsBytes | crates/fdc-wasm/src/types.rs:125-131 | succeeds exactly for bytes and strings; bytes as they are, a string as its UTF-8 encoding of the right length; otherwise a conversion error, printing the value's type by its debug name ("Bool", "I32", ...) |
| WasmTypes.CoreRoundTrip | crates/fdc-wasm/src/types.rs:201-273 | converting a WASM value to a core value and back gives the same WASM value |
| WasmTypes.WasmRoundTrip | crates/fdc-wasm/src/types.rs:201-273 | a core value of a variant that maps across without loss comes back unchanged |
| WasmTypes.FromCoreWidens | crates/fdc-wasm/src/types.rs:201-246 | small integers widen to I32 and u32 to I64 keeping their value; a u64 of 2^63 or more wraps to a negative I64 |
| WasmTypes.FirstTypeMismatch | crates/fdc-wasm/src/types.rs:324-333 | the first argument position whose type differs from the signature's, none exactly when all match |
| WasmTypes.ValidateArgs | crates/fdc-wasm/src/types.rs:317-336 | accepts exactly the right number of arguments of the declared types; a wrong count is reported with both numbers; failures are validation errors |
| WasmTypes.ValidateReturn | crates/fdc-wasm/src/types.rs:339-349 | accepts exactly a value of the declared output type |
| WasmSecurity.AllowPathAdmitsPrefixes | crates/fdc-wasm/src/security.rs:109-136 | allowing a path admits it and everything below it when file access is on, nothing when it is off, and admits nothing else new |
| WasmSecurity.PathAllowList | crates/fdc-wasm/src/security.rs:124-136 | with file access on, an empty allow-list admits every path and a non-empty one exactly the paths below a listed path |
| WasmSecurity.AllowHostAdmits | crates/fdc-wasm/src/security.rs:114-149 | allowing a host admits it when network access is on and admits no other new host |
| WasmSecurity.PresetAccess | crates/fdc-wasm/src/security.rs:38-101 | the default and strict policies admit no path and no host; the permissive one admits /tmp paths but not /etc/passwd, every host, and the read but not the fork syscall |
| WasmSecurity.ValidatePolicyExactly | crates/fdc-wasm/src/security.rs:152-170 | a policy validates exactly when memory, timeout and file-size limits are positive and the CPU share lies in 0..=100, failing checks reported in that order |
| WasmSecurity.PresetsValid | crates/fdc-wasm/src/security.rs:38-116 | the three presets validate and widening an allow-list never changes validity |
| WasmSecurity.SecuritySeverity.Rank | crates/fdc-wasm/src/security.rs:220-229 | four severity levels, ranked 0 to 3 |
| WasmSecurity.NewViolation | crates/fdc-wasm/src/security.rs:233-258 | a violation of the given type, plugin, details and instant, with the severity its type implies |
| WasmSecurity.SeverityAndStopping | crates/fdc-wasm/src/security.rs:261-273 | a violation is critical exactly for an unauthorized syscall or a sandbox escape; critical violations stop the plugin, and exactly those of error severity or above do |
| WasmSecurity.SecurityMonitor.constructor | crates/fdc-wasm/src/security.rs:289-295 | an enabled monitor with the policy and no violations |
| WasmSecurity.SecurityMonitor.CheckMemoryUsage | crates/fdc-wasm/src/security.rs:298-319 | fails, recording one memory violation, exactly when monitoring is on and usage exceeds the limit |
| WasmSecurity.SecurityMonitor.CheckExecutionTime | crates/fdc-wasm/src/security.rs:322-343 | fails, recording one timeout violation, exactly when monitoring is on and the time exceeds the timeout |
| WasmSecurity.SecurityMonitor.CheckFileAccess | crates/fdc-wasm/src/security.rs:346-367 | fails, recording one file-access violation, exactly when monitoring is on and the policy does not admit the path |
| WasmSecurity.SecurityMonitor.ClearViolations | crates/fdc-wasm/src/security.rs:375-377 | forgets every violation and keeps the policy and switch |
| WasmSecurity.SecurityMonitor.SetEnabled | crates/fdc-wasm/src/security.rs:380-382 | sets the switch and keeps the policy and violations |
| WasmSecurity.SecurityMonitor.UpdatePolicy | crates/fdc-wasm/src/security.rs:390-394 | installs the new policy exactly when it validates, otherwise keeps the old one and returns the validation error |
| WasmEvents.EventTypeRoundTrip | crates/fdc-wasm/src/events.rs:69-81 | each event's type name reads back to its variant |
| WasmEvents.EventTypeNamesVariant | crates/fdc-wasm/src/events.rs:69-81 | two events share a type name exactly when they are the same variant |
| WasmEvents.ModuleName | crates/fdc-wasm/src/events.rs:84-96 | always present: the plugin name for plugin events, otherwise the module name |
| WasmEvents.EventClasses | crates/fdc-wasm/src/events.rs:99-117 | the error events are the memory-limit, timeout, security and plugin-error events; the performance events are completed calls, memory limits and timeouts; exactly memory limits and timeouts are both |
| WasmEvents.ConsolePrintsExactly | crates/fdc-wasm/src/events.rs:150-197 | the console listener prints an event exactly when verbose or the event is an error |
| WasmEvents.MetricsInterestExactly | crates/fdc-wasm/src/events.rs:266-299 | the metrics listener declares interest in exactly the event types it records |
| WasmEvents.MetricsEventListener.constructor | crates/fdc-wasm/src/events.rs:260-262 | a listener with the name and the shared collector |
| WasmEvents.MetricsEventListener.OnEvent | crates/fdc-wasm/src/events.rs:266-287 | the collector's counters after each event in full: a load adds a loaded and a current module, an unload adds an unloaded module and removes a current one (saturating at 0), a completed call is counted with memory 0, a timeout counts a timeout and a failed call, a security violation is counted; every other event leaves the collector unchanged |
| WasmMetricsCollector.FunctionKeyAmbiguous | crates/fdc-wasm/src/metrics.rs:210 | the "module::function" key can collide for different module/function pairs |
| WasmMetricsCollector.NewModuleMetrics | crates/fdc-wasm/src/metrics.rs:174-179 | a module's first entry is valid and has no calls |
| WasmMetricsCollector.RecordModuleCall | crates/fdc-wasm/src/metrics.rs:181-197 | one call counts once, as a success or as a failure, adds its time, records its memory usage and raises the peak; validity is kept |
| WasmMetricsCollector.RecordFunctionEntryCall | crates/fdc-wasm/src/metrics.rs:211-230 | a function entry counts the call and widens its time extremes to include it |
| WasmMetricsCollector.FunctionEntryStep | crates/fdc-wasm/src/metrics.rs:209-230 | a new entry and every later call leave the function entry valid |
| WasmMetricsCollector.TimesStep | crates/fdc-wasm/src/metrics.rs:134-162 | the counters' total, min and max agree with the sequence of call times after one more call |
| WasmMetricsCollector.MemoryStep | crates/fdc-wasm/src/metrics.rs:155-159 | the current usage is the latest and the peak the largest usage seen |
| WasmMetricsCollector.InsertRanked | crates/fdc-wasm/src/metrics.rs:289-307 | inserting a key into a ranked list adds exactly that key |
| WasmMetricsCollector.InsertRankedRanks | crates/fdc-wasm/src/metrics.rs:289-307 | insertion keeps the list ranked by descending score and free of repeats |
| WasmMetricsCollector.TopKeys | crates/fdc-wasm/src/metrics.rs:289-307 | at most `limit` distinct keys, best first, all keys when fewer, and no omitted key outscores a kept one |
| WasmMetricsCollector.CountCall | crates/fdc-wasm/src/metrics.rs:134-162 | the global counters after one call: outcome, time total, time extremes (set by the first call), memory and peak; nothing else changes |
| WasmMetricsCollector.CountCallValid | crates/fdc-wasm/src/metrics.rs:134-162 | counting a call keeps the counters in agreement with all call times and memory usages seen |
| WasmMetricsCollector.TopEntries | crates/fdc-wasm/src/metrics.rs:289-307 | the result is the top `limit` entries by the given ranking |
| WasmMetricsCollector.WasmMetrics.constructor | crates/fdc-wasm/src/metrics.rs:110-115 | a fresh collector with zero counters and no entries |
| WasmMetricsCollector.WasmMetrics.RecordModuleLoaded | crates/fdc-wasm/src/metrics.rs:118-122 | loaded and current module counts go up by one; nothing else changes |
| WasmMetricsCollector.WasmMetrics.RecordModuleUnloaded | crates/fdc-wasm/src/metrics.rs:125-131 | unloads count up; the current count drops by one but not below zero |
| WasmMetricsCollector.WasmMetrics.RecordFunctionCall | crates/fdc-wasm/src/metrics.rs:134-162 | the global counters count the call; the entries are untouched |
| WasmMetricsCollector.WasmMetrics.RecordModuleFunctionCall | crates/fdc-wasm/src/metrics.rs:165-231 | the call is counted globally, in its module's entry and in its function's entry, each created on first use; no other entry changes |
| WasmMetricsCollector.WasmMetrics.RecordTimeout | crates/fdc-wasm/src/metrics.rs:234-238 | a timeout counts as a failure and a timeout, not as a call |
| WasmMetricsCollector.WasmMetrics.RecordSecurityViolation | crates/fdc-wasm/src/metrics.rs:241-244 | only the violation count goes up |
| WasmMetricsCollector.WasmMetrics.RecordHotReload | crates/fdc-wasm/src/metrics.rs:247-250 | only the hot-reload count goes up |
| WasmMetricsCollector.WasmMetrics.SuccessRate | crates/fdc-wasm/src/metrics.rs:253-259 | between 0 and 1, 0 exactly without successes, 1 exactly when every call succeeded |
| WasmMetricsCollector.WasmMetrics.AverageExecutionTimeMs | crates/fdc-wasm/src/metrics.rs:152 | the mean call time is 0 before any call and lies between the fastest and slowest call |
| WasmMetricsCollector.WasmMetrics.GetModuleStats | crates/fdc-wasm/src/metrics.rs:278-280 | found exactly when the module has an entry, which carries its name |
| WasmMetricsCollector.WasmMetrics.GetFunctionStats | crates/fdc-wasm/src/metrics.rs:283-286 | found exactly when the "module::function" entry exists; it has been called |
| WasmMetricsCollector.WasmMetrics.GetTopModules | crates/fdc-wasm/src/metrics.rs:289-293 | the `limit` most-called modules, most-called first |
| WasmMetricsCollector.WasmMetrics.GetTopFunctions | crates/fdc-wasm/src/metrics.rs:296-300 | the `limit` most-called functions, most-called first |
| WasmMetricsCollector.WasmMetrics.GetSlowestFunctions | crates/fdc-wasm/src/metrics.rs:303-307 | the `limit` functions slowest on average, slowest first |
| WasmMetricsCollector.WasmMetrics.Reset | crates/fdc-wasm/src/metrics.rs:310-312 | back to a fresh collector |
| WasmMetricsCollector.WasmMetrics.ResetModuleStats | crates/fdc-wasm/src/metrics.rs:315-317 | drops exactly one module's entry; function entries and counters stay |
| WasmMetricsCollector.EntryAverageBetween | crates/fdc-wasm/src/metrics.rs:226-229 | a function entry's mean time lies between its extremes |
| WasmMetricsCollector.AverageBetween | crates/fdc-wasm/src/metrics.rs:152 | the mean of bounded times is within the same bounds |
| WasmMetricsCollector.SumBounds | crates/fdc-wasm/src/metrics.rs:152 | the sum of n bounded times lies between n times the bounds |
| WasmLoader.ElementSet | crates/fdc-wasm/src/loader.rs:73-78 | a list of paths or hosts becomes the set of its elements |
| WasmLoader.ApplyTo | crates/fdc-wasm/src/loader.rs:58-80 | each present override replaces its field of the policy, every other field is kept |
| WasmLoader.ApplyToLaws | crates/fdc-wasm/src/loader.rs:58-80 | no overrides change nothing, applying twice equals once, limit-free overrides keep validity, a zero memory limit invalidates |
| WasmLoader.LoadPluginFromConfig | crates/fdc-wasm/src/loader.rs:158-213 | a missing file is NotFound with its path; a loaded plugin has the bytes and the merged policy |
| WasmLoader.LoadPluginFromConfigExactly | crates/fdc-wasm/src/loader.rs:158-213 | loading succeeds exactly when the file exists, the policy validates and bytes, name and version are non-empty; the loaded record carries the configured identity |
| WasmLoader.PluginLoader.constructor | crates/fdc-wasm/src/loader.rs:95-101 | the directory and default policy are kept; hot reload starts disabled |
| WasmLoader.PluginLoader.EnableHotReload | crates/fdc-wasm/src/loader.rs:104-108 | succeeds and sets the flag |
| WasmLoader.PluginLoader.DisableHotReload | crates/fdc-wasm/src/loader.rs:111-113 | clears the flag |
| WasmLoader.LeU32 | crates/fdc-wasm/src/loader.rs:265-267 | a little-endian word fits 32 bits |
| WasmLoader.LeU32IsOne | crates/fdc-wasm/src/loader.rs:265-269 | the word is 1 exactly for the bytes 1, 0, 0, 0 |
| WasmLoader.ValidatePluginFileExactly | crates/fdc-wasm/src/loader.rs:247-274 | a file passes exactly when it begins with the WebAssembly magic number and version 1; short files name the missing part |
| WasmPlugins.PluginTypeNames | crates/fdc-wasm/src/plugin.rs:43-56 | custom names display injectively and only `Custom("function")` displays like a fixed type |
| WasmPlugins.NewPluginInfo | crates/fdc-wasm/src/plugin.rs:115-139 | a fresh record, not loaded and not runnable, with empty lists and metadata |
| WasmPlugins.AddUnique | crates/fdc-wasm/src/plugin.rs:148-169 | appends only an absent element, keeping order and freedom from duplicates |
| WasmPlugins.AddsIdempotent | crates/fdc-wasm/src/plugin.rs:148-169 | each addition is idempotent, keeps lists duplicate-free and touches only its own list |
| WasmPlugins.StatusClasses | crates/fdc-wasm/src/plugin.rs:178-190 | runnable, running and failed are disjoint; paused and loaded plugins can run |
| WasmPlugins.RecordCall | crates/fdc-wasm/src/plugin.rs:229-241 | one call counted as a success or an error, time added, last error replaced only on failure; balance is kept |
| WasmPlugins.ResetStats | crates/fdc-wasm/src/plugin.rs:253-255 | zeroed, balanced statistics |
| WasmPlugins.NewWasmPlugin | crates/fdc-wasm/src/plugin.rs:260-272 | a plugin with its info, bytes and policy, no configuration and zero statistics |
| WasmPlugins.ConfigRoundTrip | crates/fdc-wasm/src/plugin.rs:295-302 | a set key reads back, other keys are untouched, a new plugin has no configuration |
| WasmPlugins.CallFunction | crates/fdc-wasm/src/plugin.rs:320-362 | a plugin that cannot run is refused unchanged; otherwise the runtime's result is returned, counted, and the status becomes Loaded or Error |
| WasmPlugins.CallStateMachine | crates/fdc-wasm/src/plugin.rs:320-362 | after a call the plugin can run again exactly when the call succeeded; failed plugins refuse calls; statistics stay balanced |
| WasmPlugins.ValidatePluginExactly | crates/fdc-wasm/src/plugin.rs:365-390 | validation passes exactly when bytes, name and version are non-empty and the file exists, naming the first failing check; a missing file is reported with its path quoted |
| WasmPlugins.ResetPlugin | crates/fdc-wasm/src/plugin.rs:393-396 | back to NotLoaded with zero statistics, identity, bytes and configuration kept |
| WasmPlugins.ResetRefusesCalls | crates/fdc-wasm/src/plugin.rs:320-396 | a reset plugin refuses calls, and resetting is idempotent |
| WasmRegistry.LoadModule | crates/fdc-wasm/src/runtime.rs:104-120 | a compile error is reported and changes nothing; otherwise the module is stored under its name |
| WasmRegistry.UnloadModule | crates/fdc-wasm/src/runtime.rs:123-142 | an unknown module is not found; otherwise the module and its instance are dropped |
| WasmRegistry.InstantiateModule | crates/fdc-wasm/src/runtime.rs:145-170 | needs a stored module; a link error changes nothing; otherwise the instance is added |
| WasmRegistry.RuntimeCall | crates/fdc-wasm/src/runtime.rs:173-228 | a call succeeds exactly when the module has an instance, and then yields `Null` |
| WasmRegistry.ReloadAsWritten | crates/fdc-wasm/src/registry.rs:239-265 | the runtime steps of `reload_plugin` as written (unload, compile, instantiate): instances stay within modules, no instance but the reloaded name appears, and a failure leaves that name without instance unless nothing changed |
| WasmRegistry.ReloadAsWrittenStrandsPlugin | crates/fdc-wasm/src/registry.rs:231-268 | as written, a reload whose bytes fail to compile leaves the plugin registered without module or instance, so later calls, unloads and reloads of it fail |
| WasmRegistry.SwapModuleKeepsRuntime | crates/fdc-wasm/src/registry.rs:239-244 | a successful reload of a loaded, instantiated module leaves the runtime as it was |
| WasmRegistry.IndexedInsert | crates/fdc-wasm/src/registry.rs:80-86 | inserting a plugin under a fresh id and a fresh name keeps the name index and the plugin map in one-to-one agreement |
| WasmRegistry.StoredInsert | crates/fdc-wasm/src/registry.rs:80-86 | inserting under a fresh name keeps every indexed name pointing at a stored plugin of that name, even when the id is already taken |
| WasmRegistry.RegisterSoundIffFresh | crates/fdc-wasm/src/registry.rs:59-96 | the registration step as written keeps the registry indexed and backed by the runtime if and only if the plugin's id was not already stored |
| WasmRegistry.RemoveKeeps | crates/fdc-wasm/src/registry.rs:101-130 | dropping a plugin, its name and its module keeps the index stored, indexed and backed |
| WasmRegistry.ReplaceKeeps | crates/fdc-wasm/src/registry.rs:176-268 | replacing a plugin by one with the same id and name keeps the index stored, indexed and backed |
| WasmRegistry.CallKeepsRegistry | crates/fdc-wasm/src/registry.rs:176-200 | a call on an indexed, backed registry keeps it so; a runnable plugin returns `Null`, stays Loaded and counts one call; one that cannot run is refused unchanged |
| WasmRegistry.ReloadAsWrittenOutcome | crates/fdc-wasm/src/registry.rs:231-268 | on an indexed, backed registry the as-written reload succeeds exactly when the bytes compile and link, then leaves the runtime as it was; on failure the plugin has lost its instance and the registry is no longer backed |
| WasmRegistry.ReloadStored | crates/fdc-wasm/src/registry.rs:231-268 | the as-written reload on the registry's maps: result and runtime are those of the runtime steps, the plugin is replaced by its reloaded self only on success, and on an indexed, backed registry it stays so exactly when the reload succeeds |
| WasmRegistry.RegisterAsWrittenDuplicateId | crates/fdc-wasm/src/registry.rs:59-86 | as written, a second plugin with a taken id but a new name overwrites the first, leaving the old name pointing at the new plugin |
| WasmRegistry.PluginRegistry.constructor | crates/fdc-wasm/src/registry.rs:34-46 | an empty registry with the given capacity, no names and an empty runtime, valid and sound |
| WasmRegistry.PluginRegistry.RegisterPlugin | crates/fdc-wasm/src/registry.rs:49-98 | as written: succeeds exactly when there is room, the plugin validates, its name is free and the module compiles and links, with each failure reported in the source's order; a registered plugin is stored Loaded and indexed, and the registry stays sound exactly when its id was not already taken (Findings row 8); a link failure leaves the compiled module behind |
| WasmRegistry.PluginRegistry.RegisterFreshPlugin | crates/fdc-wasm/src/registry.rs:49-98 | corrected version (Findings row 8): a taken id is refused as already existing and changes nothing; otherwise as `register_plugin`, and a sound registry stays sound |
| WasmRegistry.PluginRegistry.UnregisterPlugin | crates/fdc-wasm/src/registry.rs:101-130 | an unknown id is not found; a plugin whose module is already gone fails with the unload error and changes nothing; otherwise the plugin, its name, its module and its instance go; on a sound registry every stored id unregisters |
| WasmRegistry.PluginRegistry.GetPlugin | crates/fdc-wasm/src/registry.rs:133-135 | found exactly when the id is stored, and then the stored plugin, whose id is the one asked for |
| WasmRegistry.PluginRegistry.GetPluginByName | crates/fdc-wasm/src/registry.rs:138-142 | any stored plugin carrying the name is the one returned; on a sound registry found exactly when the name is indexed, and the plugin carries that name |
| WasmRegistry.PluginRegistry.GetPluginInfo | crates/fdc-wasm/src/registry.rs:145-147 | found exactly when the id is stored, and then that plugin's info |
| WasmRegistry.PluginRegistry.ListPlugins | crates/fdc-wasm/src/registry.rs:150-155 | lists every stored plugin's info and nothing else |
| WasmRegistry.PluginRegistry.ListPluginsByType | crates/fdc-wasm/src/registry.rs:158-164 | exactly the listed infos of the given plugin type |
| WasmRegistry.PluginRegistry.ListPluginsByStatus | crates/fdc-wasm/src/registry.rs:167-173 | exactly the listed infos with the given status |
| WasmRegistry.PluginRegistry.CallPluginFunction | crates/fdc-wasm/src/registry.rs:176-200 | an unknown id is not found and changes nothing; otherwise the plugin's call is made against the runtime and the updated plugin stored back: a runnable plugin with an instance returns `Null`, stays Loaded and counts the call, one without an instance fails not found and is put in the Error state, one that cannot run is refused unchanged; on a sound registry every runnable plugin's call succeeds |
| WasmRegistry.CallStored | crates/fdc-wasm/src/registry.rs:176-200 | the call on the registry's maps keeps their size and keeps them stored, indexed and backed; an unknown id is not found; a runnable plugin with an instance returns `Null` and is counted, one without fails not found, is counted and goes to Error; one that cannot run is refused unchanged |
| WasmRegistry.PluginRegistry.EnablePlugin | crates/fdc-wasm/src/registry.rs:203-214 | only a paused plugin is moved to Loaded; other states are refused unchanged |
| WasmRegistry.PluginRegistry.DisablePlugin | crates/fdc-wasm/src/registry.rs:217-228 | only a runnable plugin is paused; other states are refused unchanged |
| WasmRegistry.PluginRegistry.ReloadPlugin | crates/fdc-wasm/src/registry.rs:231-268 | as written (Findings row 9): result and runtime are those of the unload-compile-instantiate steps; the plugin is reloaded in the map only on success; on a sound registry it succeeds exactly when the bytes compile and link, and the registry stays sound exactly when it succeeds |
| WasmRegistry.PluginRegistry.ReloadPluginSafely | crates/fdc-wasm/src/registry.rs:231-268 | corrected version (Findings row 9): a compile or link failure is reported with its message and changes nothing; on a sound registry a good reload replaces the plugin by its reloaded self and keeps names and runtime |
| WasmRegistry.PluginRegistry.GetPluginStats | crates/fdc-wasm/src/registry.rs:271-275 | found exactly when the id is stored, and then that plugin's statistics |
| WasmRegistry.PluginRegistry.PluginCount | crates/fdc-wasm/src/registry.rs:301-303 | never above the capacity, and zero exactly when no plugin is stored |
| WasmRegistry.PluginRegistry.IsAtCapacity | crates/fdc-wasm/src/registry.rs:306-308 | at capacity exactly when the stored count has reached the maximum, which on a valid registry means equal to it |
| WasmRegistry.PluginRegistry.ClearAllPlugins | crates/fdc-wasm/src/registry.rs:311-317 | unregisters the plugins one by one and stops at the first failure, which is a plugin whose module is already gone; success leaves no plugin; on a sound registry it always succeeds and leaves the registry empty and sound |
| WasmRegistry.PluginRegistry.ValidateDependencies | crates/fdc-wasm/src/registry.rs:320-330 | succeeds exactly when every dependency is registered, otherwise names the first missing one |
| WasmBridge.CallHost | crates/fdc-wasm/src/bridge.rs:76-87 | arguments are checked before the handler runs and its value after; a successful call returns a value of the declared output type for well-typed arguments |
| WasmBridge.ZeroAll | crates/fdc-wasm/src/bridge.rs:271-276 | every entry becomes zeroed statistics, with the same keys |
| WasmBridge.Bridge.constructor | crates/fdc-wasm/src/bridge.rs:149-154 | no functions and no statistics |
| WasmBridge.Bridge.RegisterHostFunction | crates/fdc-wasm/src/bridge.rs:157-181 | a taken name is refused unchanged; otherwise the function is added with zeroed statistics |
| WasmBridge.Bridge.UnregisterHostFunction | crates/fdc-wasm/src/bridge.rs:184-194 | an unknown name is not found; otherwise the function and its statistics go |
| WasmBridge.Bridge.CallHostFunction | crates/fdc-wasm/src/bridge.rs:197-228 | an unknown name is not found and counted nowhere; otherwise the call's result is returned and counted as a success or a failure with its text |
| WasmBridge.Bridge.ListHostFunctions | crates/fdc-wasm/src/bridge.rs:231-233 | names exactly the registered functions, each once |
| WasmBridge.Bridge.GetFunctionSignature | crates/fdc-wasm/src/bridge.rs:236-240 | present exactly for a registered name, and then that function's signature |
| WasmBridge.Bridge.GetFunctionDescription | crates/fdc-wasm/src/bridge.rs:243-247 | none for an unknown name; for a registered one, that function's own description |
| WasmBridge.Bridge.GetFunctionStats | crates/fdc-wasm/src/bridge.rs:250-252 | on a valid bridge, present exactly for a registered name, with balanced counts |
| WasmBridge.Bridge.ResetFunctionStats | crates/fdc-wasm/src/bridge.rs:260-268 | an unknown name is not found; otherwise only that function's statistics are zeroed |
| WasmBridge.Bridge.ResetAllStats | crates/fdc-wasm/src/bridge.rs:271-276 | every function's statistics are zeroed, functions unchanged |
| WasmBridge.Bridge.HasFunction | crates/fdc-wasm/src/bridge.rs:279-281 | on a valid bridge, a name is registered exactly when it has statistics |
| WasmBridge.Bridge.FunctionCount | crates/fdc-wasm/src/bridge.rs:284-286 | on a valid bridge, the number of statistics entries; zero exactly when no function is registered |
| IngestionBatch.NewBatchResult | crates/fdc-ingestion/src/batch.rs:40-51 | a fresh result is balanced, with nothing processed and no errors |
| IngestionBatch.RecordSuccess | crates/fdc-ingestion/src/batch.rs:54-57 | one more processed item and success; failures and messages unchanged; balance kept |
| IngestionBatch.RecordFailure | crates/fdc-ingestion/src/batch.rs:60-64 | one more processed item and failure, its message appended; balance kept |
| IngestionBatch.BatchSuccessRate | crates/fdc-ingestion/src/batch.rs:67-73 | between 0 and 1, 1 exactly when something was processed and nothing failed, 0 exactly without successes |
| IngestionBatch.Throughput | crates/fdc-ingestion/src/batch.rs:76-82 | items per second over the measured time, 0 when no time was measured |
| IngestionBatch.ProcessItem | crates/fdc-ingestion/src/batch.rs:273-288 | an invalid item is refused before storing; a valid one fails on serialization or has the put's outcome |
| IngestionBatch.StoredAndFailuresCover | crates/fdc-ingestion/src/batch.rs:234-270 | every item is counted exactly once, stored or failed |
| IngestionBatch.InvalidItemsFail | crates/fdc-ingestion/src/batch.rs:107-109 | invalid items all fail with the validation message and none is stored |
| IngestionBatch.BatchOutcomeBalanced | crates/fdc-ingestion/src/batch.rs:234-270 | a batch's result is balanced and has processed every item |
| IngestionBatch.ProcessBatch | crates/fdc-ingestion/src/batch.rs:234-270 | the loop over the items yields the batch outcome: stored items counted, failures listed in item order |
| IngestionBatch.RecordBatch | crates/fdc-ingestion/src/batch.rs:135-150 | the totals grow by the batch's counts and time; throughput refreshed only once time was measured |
| IngestionBatch.RecordBatchValid | crates/fdc-ingestion/src/batch.rs:135-150 | recording a balanced batch keeps the totals valid |
| IngestionBatch.BatchStatsSuccessRate | crates/fdc-ingestion/src/batch.rs:153-159 | between 0 and 1, 1 exactly when some message arrived and none failed |
| IngestionBatch.BatchProcessor.constructor | crates/fdc-ingestion/src/batch.rs:178-186 | an empty batch with zero statistics and the configured size and timeout |
| IngestionBatch.BatchProcessor.AddItem | crates/fdc-ingestion/src/batch.rs:189-214 | the batch is drained and processed exactly when it reaches its size or its timeout; otherwise the item waits |
| IngestionBatch.BatchProcessor.Flush | crates/fdc-ingestion/src/batch.rs:217-231 | processes whatever is waiting; nothing waiting means nothing happens |
| IngestionBatch.BatchProcessor.ResetStats | crates/fdc-ingestion/src/batch.rs:316-319 | zero statistics; the waiting batch is kept |
| IngestionBatch.BatchProcessor.GetStats | crates/fdc-ingestion/src/batch.rs:311-313 | on a valid processor, the totals are consistent: successes and failures add up to the messages, and the averages and throughput are the quotients of the totals |
| IngestionBuffer.Utilization | crates/fdc-ingestion/src/buffer.rs:64 | the fill ratio is between 0 and 1, 1 exactly when full and 0 exactly when empty or of capacity 0 |
| IngestionBuffer.DataBuffer.constructor | crates/fdc-ingestion/src/buffer.rs:39-48 | an empty queue with zero counters and its capacity |
| IngestionBuffer.DataBuffer.Enqueue | crates/fdc-ingestion/src/buffer.rs:51-67 | fails exactly when the buffer was full (IsFull); a full buffer drops and counts the item, unchanged; otherwise it is appended at the back |
| IngestionBuffer.DataBuffer.Dequeue | crates/fdc-ingestion/src/buffer.rs:70-82 | the oldest item is taken; it yields nothing exactly when the buffer was empty (IsEmpty) |
| IngestionBuffer.DataBuffer.Size | crates/fdc-ingestion/src/buffer.rs:85-87 | the queue's length, equal to the reported size and never above the capacity of a valid buffer; 0 exactly when empty |
| IngestionBuffer.DataBuffer.IsEmpty | crates/fdc-ingestion/src/buffer.rs:90-92 | empty exactly when nothing is queued, and on a valid buffer exactly when the reported size is 0 |
| IngestionBuffer.DataBuffer.IsFull | crates/fdc-ingestion/src/buffer.rs:95-97 | full exactly when a valid buffer is at capacity, and, for a positive capacity, exactly when the reported fill ratio is 1; Enqueue drops an item exactly when IsFull held |
| IngestionBuffer.DataBuffer.GetStats | crates/fdc-ingestion/src/buffer.rs:100-102 | on a valid buffer, the reported size is the queue's length, the maximum its capacity, and the messages taken out plus those queued do not exceed those accepted |
| IngestionBuffer.DataBuffer.Clear | crates/fdc-ingestion/src/buffer.rs:105-112 | the queue empties; the message counters are kept |
| IngestionParser.EntriesSizeRemove | crates/fdc-ingestion/src/parser.rs:65-67 | the sum over struct or map entries does not depend on which key is taken first |
| IngestionParser.StructSizeAddField | crates/fdc-ingestion/src/parser.rs:65-67 | a new field adds its key's byte length and its value's size |
| IngestionParser.EntriesAgree | crates/fdc-ingestion/src/parser.rs:65-67 | entries that agree on some keys have the same sum over them |
| IngestionParser.StructMapSameSize | crates/fdc-ingestion/src/parser.rs:65-67 | a struct and a map with the same entries have the same size |
| IngestionParser.ArraySizeAppend | crates/fdc-ingestion/src/parser.rs:64 | appending to an array adds the item's size |
| IngestionParser.ItemsAgree | crates/fdc-ingestion/src/parser.rs:64 | arrays agreeing on a prefix have the same sum over it |
| IngestionParser.ComputeSize | crates/fdc-ingestion/src/parser.rs:46-70 | the loop-based size computation equals the recursive size estimate |
| IngestionParser.ComputeEntriesSize | crates/fdc-ingestion/src/parser.rs:65-67 | the entry loop equals the sum over all keys |
| IngestionParser.NewParsedData | crates/fdc-ingestion/src/parser.rs:32-43 | a parsed record carries its size estimate and no metadata |
| IngestionParser.CompressionRatio | crates/fdc-ingestion/src/parser.rs:79-85 | non-negative, 0 for an empty original, 1 exactly when the sizes agree and below 1 exactly when parsed is smaller |
| IngestionParser.RecordParse | crates/fdc-ingestion/src/parser.rs:113-134 | one more attempt counted with its bytes and time, the extremes set by the first attempt and widened after |
| IngestionParser.RecordParseValid | crates/fdc-ingestion/src/parser.rs:113-134 | recording a parse keeps the statistics consistent with the attempts made |
| IngestionParser.AverageParseTimeBetween | crates/fdc-ingestion/src/parser.rs:133 | the reported average lies between the fastest and the slowest parse |
| IngestionParser.ParseSuccessRate | crates/fdc-ingestion/src/parser.rs:137-143 | between 0 and 1, 0 exactly without successes, 1 exactly when every attempt succeeded |
| IngestionParser.JsonToValueExactly | crates/fdc-ingestion/src/parser.rs:213-241 | conversion succeeds exactly when every number is readable, fails only with the number error, and keeps array lengths and object keys |
| IngestionParser.JsonNumbersAreNotTimestamps | crates/fdc-ingestion/src/parser.rs:213-241 | JSON input never yields a timestamp; an integer reading becomes `Int64` |
| IngestionParser.FixFieldsHasTag | crates/fdc-ingestion/src/parser.rs:278-284 | a tag is in the field map exactly when some field carries it |
| IngestionParser.FixFieldsLastWins | crates/fdc-ingestion/src/parser.rs:278-284 | a repeated tag keeps the value of its last field |
| IngestionParser.ParseFixText | crates/fdc-ingestion/src/parser.rs:270-286 | the loop over SOH-separated fields builds the specified field map |
| IngestionParser.FixFieldsSkipsLast | crates/fdc-ingestion/src/parser.rs:277-283 | a trailing field without the tag leaves what the map says about that tag as it was |
| IngestionParser.ParseEncodedFix | crates/fdc-ingestion/src/parser.rs:270-286 | parsing an encoded FIX message recovers its fields, the last duplicate winning |
| IngestionParser.FixFieldOfPair | crates/fdc-ingestion/src/parser.rs:279-282 | a field `tag=value` with no `=` in the tag splits back into the pair |
| IngestionParser.FixFieldsOfPairs | crates/fdc-ingestion/src/parser.rs:278-284 | encoded fields parse to the pairs' map |
| IngestionParser.CsvValueAllRead | crates/fdc-ingestion/src/parser.rs:257-266 | without unreadable records the result is one row per record, in order |
| IngestionParser.CsvValueFirstError | crates/fdc-ingestion/src/parser.rs:257-260 | otherwise the result is the first unreadable record's error |
| IngestionParser.CollectCsv | crates/fdc-ingestion/src/parser.rs:251-267 | the loop collects rows and stops at the first unreadable record, as specified |
| IngestionParser.CsvErrorSticks | crates/fdc-ingestion/src/parser.rs:257-260 | once a prefix fails, the whole input fails with the same error |
| IngestionParser.Decode | crates/fdc-ingestion/src/parser.rs:167-286 | the loops compute the format dispatch exactly: JSON, binary, CSV and FIX each decode with their own UTF-8 and library error messages; any other format is unimplemented |
| IngestionParser.DataParser.constructor | crates/fdc-ingestion/src/parser.rs:158-164 | the configured format and zero statistics |
| IngestionParser.DataParser.Parse | crates/fdc-ingestion/src/parser.rs:167-199 | the result is the dispatched decode: an error passes through unchanged, a success is wrapped as parsed data labelled with the format, size and time; every attempt, success or not, is recorded in the statistics |
| IngestionParser.DataParser.ResetStats | crates/fdc-ingestion/src/parser.rs:294-297 | zero statistics |
| IngestionRecovery.RetriesArePrefix | crates/fdc-ingestion/src/recovery.rs:30-32 | exactly the attempts below `max_retries` are retried |
| IngestionRecovery.GetRetryDelay | crates/fdc-ingestion/src/recovery.rs:34-43 | exponential backoff gives the base delay times `2^attempt`, undefined exactly where that overflows 64 bits; other strategies give the fixed interval |
| IngestionRecovery.FirstDelayIsBase | crates/fdc-ingestion/src/recovery.rs:36-39 | the first exponential delay is the base interval |
| IngestionRecovery.DelayDoubles | crates/fdc-ingestion/src/recovery.rs:36-39 | each exponential delay doubles the one before, and overflow persists |
| IngestionRecovery.DefaultBackoff | crates/fdc-ingestion/src/config.rs:247-256 | the default configuration waits 1 s, 2 s and 4 s, then stops retrying |
| IngestionValidator.ParseRule | crates/fdc-ingestion/src/validator.rs:205-227 | the two known names give the default rules; any other name is a custom rule carrying it |
| IngestionValidator.ParseRuleInjective | crates/fdc-ingestion/src/validator.rs:205-227 | different names give different rules |
| IngestionValidator.ParseRules | crates/fdc-ingestion/src/validator.rs:201-232 | one rule per name, in order |
| IngestionValidator.NoValueNamedTimestampAsWritten | crates/fdc-ingestion/src/validator.rs:356-379 | as written, no value's type name is "timestamp", so the default type rule rejects every timestamp field |
| IngestionValidator.ValueTypeNameCorrects | crates/fdc-ingestion/src/validator.rs:356-379 | the corrected name differs only on timestamps, and exactly a timestamp meets the default expectation for the timestamp field |
| IngestionValidator.MissingFieldErrorsExactly | crates/fdc-ingestion/src/validator.rs:303-325 | each error names an absent listed field and every absent listed field has its error |
| IngestionValidator.MissingFieldErrorsEmpty | crates/fdc-ingestion/src/validator.rs:303-325 | the required-field check passes exactly when every listed field is present |
| IngestionValidator.ValidateRequiredFields | crates/fdc-ingestion/src/validator.rs:303-325 | the loop yields the specified outcome |
| IngestionValidator.TypeNames | crates/fdc-ingestion/src/validator.rs:334-335 | one type name per field present, as the source names them, so a timestamp field is named "unknown" |
| IngestionValidator.TypeNamesCorrected | crates/fdc-ingestion/src/validator.rs:356-379 | corrected version (Findings row 3): one type name per field present, with timestamps named "timestamp" |
| IngestionValidator.ValidateDataTypes | crates/fdc-ingestion/src/validator.rs:328-353 | passes exactly when no present field has an unexpected type under the source's type names (or the value is not a struct), otherwise reports every mismatch |
| IngestionValidator.DefaultTypesRejectTimestamp | crates/fdc-ingestion/src/validator.rs:213-219 | as written, the default type rule reports the timestamp field of every record that has one |
| IngestionValidator.ReportMismatches | crates/fdc-ingestion/src/validator.rs:331-345 | each mismatched field is reported once |
| IngestionValidator.MismatchedInOrder | crates/fdc-ingestion/src/validator.rs:331-345 | the loop finds each mismatched field exactly once |
| IngestionValidator.DefaultTypesAcceptWellTypedRecord | crates/fdc-ingestion/src/validator.rs:213-219 | corrected version (Findings row 3): with the corrected names a record whose timestamp, price and volume have the expected variants passes the default type rule |
| IngestionValidator.ApplyRule | crates/fdc-ingestion/src/validator.rs:274-300 | the rule's outcome: its errors, or its warnings when it passes |
| IngestionValidator.RuleOutcomeCounts | crates/fdc-ingestion/src/validator.rs:274-300 | a rule fails exactly when it counts errors, all missing fields or type mismatches; only custom rules warn |
| IngestionValidator.AllWarningsAreCustom | crates/fdc-ingestion/src/validator.rs:292-298 | the warnings are the custom rules', one each |
| IngestionValidator.ApplyRules | crates/fdc-ingestion/src/validator.rs:245-254 | every rule applied in order: no errors exactly when no rule counts one |
| IngestionValidator.RulesStep | crates/fdc-ingestion/src/validator.rs:245-254 | one more rule adds its errors and warnings |
| IngestionValidator.NoErrorsExactly | crates/fdc-ingestion/src/validator.rs:245-254 | no errors in total exactly when no rule reports one |
| IngestionValidator.RecordValidation | crates/fdc-ingestion/src/validator.rs:146-167 | one result counted as success or failure, its time added, each error and warning counted under its type |
| IngestionValidator.ValidationSuccessRate | crates/fdc-ingestion/src/validator.rs:170-176 | between 0 and 1, 0 exactly without successes, 1 exactly when every result was valid |
| IngestionValidator.DataValidator.constructor | crates/fdc-ingestion/src/validator.rs:191-198 | the rules come from the names, one each, in order; zero statistics |
| IngestionValidator.DataValidator.Validate | crates/fdc-ingestion/src/validator.rs:235-271 | disabled accepts at once; otherwise valid exactly when no rule reports an error (type names as written), carrying all errors and warnings, and the result is recorded |
| IngestionValidator.DataValidator.ResetStats | crates/fdc-ingestion/src/validator.rs:405-408 | zero statistics |
| QueryAggregates.SumOf | crates/fdc-query/src/aggregates.rs:33-45 | SUM fails exactly when some value is not numeric, otherwise it is the values widened and added in order from 0.0 |
| QueryAggregates.NaNPoisonsTotal | crates/fdc-query/src/aggregates.rs:33-45 | a NaN among the values makes the sum NaN |
| QueryAggregates.TotalBounds | crates/fdc-query/src/aggregates.rs:33-45 | finite values between two bounds sum to between n times each bound |
| QueryAggregates.AvgOf | crates/fdc-query/src/aggregates.rs:47-58 | AVG refuses no values, fails as SUM does on a non-numeric value, otherwise divides the sum by the count |
| QueryAggregates.AverageWithinBounds | crates/fdc-query/src/aggregates.rs:47-58 | the average of bounded finite values lies within the same bounds |
| QueryAggregates.MinOf | crates/fdc-query/src/aggregates.rs:60-63 | MIN returns one of the values |
| QueryAggregates.MaxOf | crates/fdc-query/src/aggregates.rs:65-68 | MAX returns one of the values |
| QueryAggregates.MinIsLeast | crates/fdc-query/src/aggregates.rs:60-63 | under a total order MIN is no greater than any value |
| QueryAggregates.MaxIsGreatest | crates/fdc-query/src/aggregates.rs:65-68 | under a total order MAX is no less than any value |
| QueryAggregates.Apply | crates/fdc-query/src/aggregates.rs:19-31 | COUNT is the number of values cast to 64 bits; SUM and AVG as above; MIN, MAX, FIRST and LAST succeed exactly on non-empty input, with their own error messages |
| QueryCache.HitRate | crates/fdc-query/src/cache.rs:33-36 | hits over lookups: between 0 and 1, 0 exactly without hits, 1 exactly when there were hits and no misses |
| QueryCache.QueryCache.constructor | crates/fdc-query/src/cache.rs:57-64 | an empty cache with zero counters and its capacity |
| QueryCache.QueryCache.Get | crates/fdc-query/src/cache.rs:66-76 | a hit returns the cached result, counts a hit and touches the entry; a miss counts a miss and changes nothing else |
| QueryCache.QueryCache.Put | crates/fdc-query/src/cache.rs:78-92 | the new entry is stored; at capacity exactly one earlier entry is evicted first, even when the key is already cached |
| QueryCache.QueryCache.EvictOne | crates/fdc-query/src/cache.rs:94-99 | drops one entry if any and counts the eviction |
| QueryCache.QueryCache.Stats | crates/fdc-query/src/cache.rs:101-103 | the size counter equals the number of entries |
| QueryCache.QueryCache.Clear | crates/fdc-query/src/cache.rs:105-108 | every entry goes; hit, miss and eviction counters are kept |
| QueryFilters.EvaluateCondition | crates/fdc-query/src/filters.rs:29-39 | fails exactly on an unknown operator; `=` and `!=` are equality and its negation; the orderings are false where the values are unordered |
| QueryFilters.OrderOperatorsAgree | crates/fdc-query/src/filters.rs:29-39 | `a < b` is `b > a`, `a <= b` is `b >= a`, and `<=` is `<` or equal-ordered |
| QueryFilters.ApplyFilter | crates/fdc-query/src/filters.rs:10-27 | an unknown operator fails as soon as a row has the column; otherwise the rows holding the condition are kept and rows lacking the column dropped |
| QueryFilters.KeptExactly | crates/fdc-query/src/filters.rs:10-27 | exactly the rows for which the condition holds are kept |
| QueryFilters.EqualsAndNotEqualsSplit | crates/fdc-query/src/filters.rs:10-39 | `=` and `!=` divide the rows having the column between them |
| QueryFunctions.NewBuiltins | crates/fdc-query/src/functions.rs:12-25 | exactly ABS, ROUND, UPPER, LOWER and LENGTH are registered |
| QueryFunctions.Call | crates/fdc-query/src/functions.rs:27-33 | the name is looked up upper-cased; an unknown name is a validation error quoting it as given |
| QueryFunctions.CallIgnoresCase | crates/fdc-query/src/functions.rs:27-33 | any spelling of a registered name calls the same function; other names are unknown |
| QueryFunctions.AbsOf | crates/fdc-query/src/functions.rs:43-55 | one numeric argument; an integer's magnitude (the least value of its width stays itself), a float's magnitude |
| QueryFunctions.AbsIdempotent | crates/fdc-query/src/functions.rs:43-55 | ABS of an ABS result changes nothing |
| QueryFunctions.RoundOf | crates/fdc-query/src/functions.rs:57-67 | one or two arguments; only a float is rounded, to an integer within one half |
| QueryFunctions.RoundIdempotent | crates/fdc-query/src/functions.rs:57-67 | rounding a rounded value changes nothing |
| QueryFunctions.UpperOf | crates/fdc-query/src/functions.rs:70-79 | one string argument, same length, no lower-case letter left |
| QueryFunctions.LowerOf | crates/fdc-query/src/functions.rs:81-90 | one string argument, same length, no upper-case letter left |
| QueryFunctions.CaseMappingsAgree | crates/fdc-query/src/functions.rs:70-90 | lower-casing the upper-cased string gives the lower-cased one, and conversely |
| QueryFunctions.LengthOf | crates/fdc-query/src/functions.rs:92-101 | one string argument; its UTF-8 byte length cast to 32 bits, between the character count and four times it |
| QueryFunctions.AsciiLength | crates/fdc-query/src/functions.rs:92-101 | an ASCII string's length is its number of characters |
| QueryJoins.Prefixed | crates/fdc-query/src/joins.rs:24-26 | each right column appears under `right_` plus its name, and nothing else |
| QueryJoins.InnerJoin | crates/fdc-query/src/joins.rs:10-35 | the nested loops compute the specified join and never fail |
| QueryJoins.NoKeyNoMatches | crates/fdc-query/src/joins.rs:19 | a left row lacking the key joins with nothing |
| QueryJoins.MatchesSound | crates/fdc-query/src/joins.rs:20-28 | each row a left row contributes joins it with a right row whose key matches |
| QueryJoins.MatchesComplete | crates/fdc-query/src/joins.rs:20-28 | each matching right row contributes its join |
| QueryJoins.JoinSound | crates/fdc-query/src/joins.rs:10-35 | every output row joins a left and a right row whose keys match |
| QueryJoins.JoinComplete | crates/fdc-query/src/joins.rs:10-35 | every matching pair appears in the output |
| QueryJoins.JoinIsLeftMajor | crates/fdc-query/src/joins.rs:18-31 | the output is left-major: joins of two runs of left rows concatenate |
| QueryJoins.JoinedRowColumns | crates/fdc-query/src/joins.rs:23-26 | a joined row has the left columns and the prefixed right columns, the right value winning a clash |
| QueryProjections.ProjectRowMeaning | crates/fdc-query/src/projections.rs:10-33 | no column is invented or changed; without "*" exactly the listed columns the row has are kept; with "*" the whole row |
| QueryProjections.ProjectOnOwnColumns | crates/fdc-query/src/projections.rs:10-33 | projecting on exactly the row's own columns gives the row back |
| QueryProjections.Project | crates/fdc-query/src/projections.rs:10-33 | the loops yield one projected row per input row, meaning as above, and never fail |
| QuerySorts.CompareValuesReverse | crates/fdc-query/src/sorts.rs:37-46 | swapping the values reverses the comparison |
| QuerySorts.RowOrderReverse | crates/fdc-query/src/sorts.rs:16-31 | swapping the rows reverses the row order, in both directions |
| QuerySorts.Insert | crates/fdc-query/src/sorts.rs:16-32 | insertion adds exactly one row |
| QuerySorts.SortRows | crates/fdc-query/src/sorts.rs:16-32 | sorting keeps the number of rows |
| QuerySorts.Sort | crates/fdc-query/src/sorts.rs:11-35 | the sort never fails and returns a permutation of the rows in which no row compares greater than the next; this matches the source only on a column of one variant without NaN (see Left out) |
| QuerySorts.InsertPermutes | crates/fdc-query/src/sorts.rs:16-32 | insertion adds the row to the multiset |
| QuerySorts.SortPermutes | crates/fdc-query/src/sorts.rs:16-32 | the output holds the same rows as the input, each as often |
| QuerySorts.InsertSorts | crates/fdc-query/src/sorts.rs:16-32 | insertion keeps the rows in order |
| QuerySorts.SortSorts | crates/fdc-query/src/sorts.rs:16-32 | no output row compares greater than the one after it |
| QuerySorts.MissingColumnPlacement | crates/fdc-query/src/sorts.rs:20-25 | ascending, rows holding the column come before rows without it; descending, after |
| QuerySorts.CmpStrTransitive | crates/fdc-query/src/sorts.rs:42 | string comparison is transitive |
| QuerySorts.CompareValuesTransitive | crates/fdc-query/src/sorts.rs:37-46 | on values of one integer, float or string variant with no NaN, the comparison is transitive |
| QuerySorts.RowOrderTransitive | crates/fdc-query/src/sorts.rs:16-31 | on rows whose values in the column are of one comparable variant, the row order is transitive, ascending and descending |
| QuerySorts.ColumnChain | crates/fdc-query/src/sorts.rs:16-32 | in sorted rows over such a column, neighbour order extends to every pair |
| QuerySorts.ColumnOrdered | crates/fdc-query/src/sorts.rs:16-46 | when every row holds the column with values of one integer, float or string variant and no NaN, the output is ordered throughout, not only between neighbours |
| QuerySorts.UniformColumnPermuted | crates/fdc-query/src/sorts.rs:16-32 | a permutation of rows with such a column has such a column |
| QuerySorts.MixedVariantsNotTransitive | crates/fdc-query/src/sorts.rs:37-46 | across variants the comparison is not transitive: `Int32(2)` and `Str("x")` compare equal either way with `Int32(1)`, yet `Int32(2)` is greater than `Int32(1)` |
| QuerySorts.Int64ColumnOrdered | crates/fdc-query/src/sorts.rs:37-40 | when every row holds a 64-bit integer in the column, the output is ordered by it throughout |
| QueryMetrics.MinTime | crates/fdc-query/src/metrics.rs:55-57 | the least of the times, one of them |
| QueryMetrics.MaxTime | crates/fdc-query/src/metrics.rs:59-61 | the greatest of the times, one of them |
| QueryMetrics.CompleteAsWrittenForgetsZero | crates/fdc-query/src/metrics.rs:55-57 | as written, completions of 5, 0 and 7 microseconds leave a minimum of 7, out of step with the times |
| QueryMetrics.CompleteAsWrittenTracks | crates/fdc-query/src/metrics.rs:44-69 | the source's completion keeps its weaker agreement with the completed times (exact maximum; minimum a completed time, the true least while no time was 0) and counts the outcome |
| QueryMetrics.StartedTracks | crates/fdc-query/src/metrics.rs:39-42 | a start counts one more query in flight and keeps agreement with the completed times |
| QueryMetrics.CompleteTracks | crates/fdc-query/src/metrics.rs:44-69 | corrected version (Findings row 10): a completion keeps the counters in exact agreement with the completed times, now ending in this one, and counts its outcome |
| QueryMetrics.AsWrittenAgreesWithoutZeroTimes | crates/fdc-query/src/metrics.rs:55-57 | while no completion took 0 microseconds the source's rule and the corrected one agree |
| QueryMetrics.SuccessRate | crates/fdc-query/src/metrics.rs:79-86 | between 0 and 1, 0 exactly without successes, 1 exactly when there were successes and no failures |
| QueryMetrics.CacheHitRate | crates/fdc-query/src/metrics.rs:88-95 | between 0 and 1, 0 exactly without hits, 1 exactly when there were hits and no misses |
| QueryMetrics.QueryMetrics.constructor | crates/fdc-query/src/metrics.rs:32-37 | zero counters and no completed times |
| QueryMetrics.QueryMetrics.RecordQueryStart | crates/fdc-query/src/metrics.rs:39-42 | the started and in-flight counts go up |
| QueryMetrics.QueryMetrics.RecordQueryComplete | crates/fdc-query/src/metrics.rs:44-69 | as written: the counters become CompleteAsWritten of the old ones and the time is appended, keeping the source's agreement with every completed time |
| QueryMetrics.QueryMetrics.RecordCacheHit | crates/fdc-query/src/metrics.rs:71-73 | only the hit count goes up |
| QueryMetrics.QueryMetrics.RecordCacheMiss | crates/fdc-query/src/metrics.rs:75-77 | only the miss count goes up |
| QueryParser.NewParsedQuery | crates/fdc-query/src/parser.rs:42-51 | a fresh query has no tables or parameters and is read-only exactly for SELECT, SHOW, DESCRIBE and EXPLAIN |
| QueryParser.AddTable | crates/fdc-query/src/parser.rs:54-58 | appends a table not yet listed; a listed one changes nothing |
| QueryParser.AddTablesDistinct | crates/fdc-query/src/parser.rs:54-58 | adding tables keeps the list free of repeats and in first-added order, listing exactly the old and the added names |
| QueryParser.AddParameter | crates/fdc-query/src/parser.rs:61-63 | the parameter is set; tables and type unchanged |
| QueryParser.PrimaryTable | crates/fdc-query/src/parser.rs:66-68 | the first table, none exactly when there are no tables |
| QueryParser.PrimaryTableIsFirstAdded | crates/fdc-query/src/parser.rs:54-73 | the primary table is the first one added, and the query is multi-table exactly when a different name was added |
| QueryParser.FirstAddedStaysFirst | crates/fdc-query/src/parser.rs:54-58 | the first name added stays at the head of the list |
| QueryParser.SkipSpaceFrom | crates/fdc-query/src/parser.rs:221 | the first non-space index at or after `i` |
| QueryParser.WordEndFrom | crates/fdc-query/src/parser.rs:221 | the first space index at or after `i` |
| QueryParser.ExtractTableNone | crates/fdc-query/src/parser.rs:217-227 | no table exactly when the keyword is absent from the upper-cased SQL or only white space follows its first occurrence |
| QueryParser.ExtractTableIsWord | crates/fdc-query/src/parser.rs:217-227 | a found table is the whole word after the keyword's first occurrence, lower-cased |
| QueryParser.SpacesKept | crates/fdc-query/src/parser.rs:218-221 | upper-casing turns no space into a letter and no letter into a space |
| QueryPlanner.NewPlan | crates/fdc-query/src/planner.rs:58-66 | a single node with cost 100 and 1000 rows |
| QueryPlanner.Depth | crates/fdc-query/src/planner.rs:85-91 | a plan has depth at least 1 |
| QueryPlanner.DeepestChild | crates/fdc-query/src/planner.rs:89 | the greatest child depth, 0 exactly for no children |
| QueryPlanner.DeepestChildReached | crates/fdc-query/src/planner.rs:89 | some child reaches the greatest depth |
| QueryPlanner.DepthMeaning | crates/fdc-query/src/planner.rs:85-91 | a leaf has depth 1; every child is shallower and some child exactly one level shallower |
| QueryPlanner.WrapAddsLevel | crates/fdc-query/src/planner.rs:58-91 | wrapping a plan under a fresh node adds one level |
| QueryPlanner.AddChildLaws | crates/fdc-query/src/planner.rs:58-96 | adding a child makes the plan as deep as the deeper of itself and one level above the child, and adds the child's total cost; a fresh plan has depth 1 and costs 100 |
| QueryPlanner.AnnotationLaws | crates/fdc-query/src/planner.rs:74-96 | replacing the estimates changes the total cost by the difference of the node's own cost and keeps the depth; setting a property sets only that key and keeps cost and depth |
| QueryPlanner.GetTableStats | crates/fdc-query/src/planner.rs:279-285 | a described table's statistics, otherwise the defaults |
| QueryPlanner.SingleTablePlan | crates/fdc-query/src/planner.rs:170-199 | an index scan exactly for WHERE on an indexed table, a filtered scan for WHERE without one, a plain scan otherwise, costed at a tenth of the row count |
| QueryPlanner.MultiTablePlan | crates/fdc-query/src/planner.rs:202-227 | fewer than two tables is an error; otherwise an inner join of the first two tables' scans at cost 1000 and 500 rows |
| QueryPlanner.SelectPlanShape | crates/fdc-query/src/planner.rs:135-167 | SELECT fails exactly without tables; LIMIT is the root with one child, ORDER BY a sort just below it, over the scan or join |
| QueryPlanner.CreatePlan | crates/fdc-query/src/planner.rs:122-132 | SELECT, INSERT, UPDATE and DELETE are planned (writes as one scan of the first table with the statement's filter); other statements are unimplemented |
| QueryPlanner.Planner.constructor | crates/fdc-query/src/planner.rs:115-119 | no table statistics |
| QueryPlanner.Planner.Plan | crates/fdc-query/src/planner.rs:122-132 | plans against the stored statistics |
| QueryPlanner.Planner.SetTableStats | crates/fdc-query/src/planner.rs:288-294 | the table is described with its counts and a primary index |
| QueryPlanner.DescribedTableGetsIndexScan | crates/fdc-query/src/planner.rs:170-199 | once a table is described, a WHERE query on it alone is an index scan estimated at its row count |
| AnalyticsPipeline.NextStageFollowsOrder | crates/fdc-analytics/src/pipeline.rs:91-105 | each stage advances to the next in the pipeline's order, the output stage to none, and no stage to ingestion |
| AnalyticsPipeline.WalksAllStages | crates/fdc-analytics/src/pipeline.rs:91-105 | from ingestion, `i` advances reach the `i`-th stage, six leave no stage and a seventh starts over |
| AnalyticsPipeline.AnalyticsPipeline.constructor | crates/fdc-analytics/src/pipeline.rs:55-63 | a pending pipeline at no stage |
| AnalyticsPipeline.AnalyticsPipeline.Start | crates/fdc-analytics/src/pipeline.rs:66-71 | running, at ingestion |
| AnalyticsPipeline.AnalyticsPipeline.Stop | crates/fdc-analytics/src/pipeline.rs:74-78 | paused where it stands |
| AnalyticsPipeline.AnalyticsPipeline.AdvanceStage | crates/fdc-analytics/src/pipeline.rs:91-105 | moves to the next stage; leaving the output stage completes the pipeline and nothing else changes the status |
| AnalyticsWindowing.ExpiredCount | crates/fdc-analytics/src/windowing.rs:30-37 | the length of the leading run of points stamped before the cutoff |
| AnalyticsWindowing.AfterAddBounds | crates/fdc-analytics/src/windowing.rs:28-46 | at most `max_capacity` points remain, the new point last unless the capacity is 0, which drops it too |
| AnalyticsWindowing.AfterAddIsSuffix | crates/fdc-analytics/src/windowing.rs:28-46 | points leave only from the front: the window is a suffix of the old points plus the new one |
| AnalyticsWindowing.AfterAddWithinWindow | crates/fdc-analytics/src/windowing.rs:28-46 | for points arriving in time order the window stays ordered and within `window_size` of the newest |
| AnalyticsWindowing.DropExpired | crates/fdc-analytics/src/windowing.rs:30-37 | the loop drops exactly the leading expired points |
| AnalyticsWindowing.KeepNewest | crates/fdc-analytics/src/windowing.rs:43-45 | the loop keeps exactly the newest `capacity` points |
| AnalyticsWindowing.TimeWindow.constructor | crates/fdc-analytics/src/windowing.rs:19-25 | an empty window with its span and capacity |
| AnalyticsWindowing.TimeWindow.Add | crates/fdc-analytics/src/windowing.rs:28-46 | the new contents are the old ones after the specified addition |
| AnalyticsWindowing.TimeWindow.Size | crates/fdc-analytics/src/windowing.rs:49-51 | the number of points held: never above the capacity of a valid window, and zero exactly when the window is empty |
| AnalyticsWindowing.WindowManager.constructor | crates/fdc-analytics/src/windowing.rs:72-77 | no windows, with the configured span |
| AnalyticsWindowing.WindowManager.CreateWindow | crates/fdc-analytics/src/windowing.rs:80-84 | appends a fresh empty window of the configured span and 1000 points and returns its index |
| AnalyticsWindowing.WindowManager.GetWindow | crates/fdc-analytics/src/windowing.rs:87-89 | the window at the index exactly when there is one |
| AnalyticsWindowing.WindowManager.WindowCount | crates/fdc-analytics/src/windowing.rs:92-94 | the valid window indexes are exactly those below the count |
| ApiErrors.StatusCodeClasses | crates/fdc-api/src/errors.rs:139-156 | client errors get 4xx and the rest 5xx; only validation/query share 400 and internal/database share 500 |
| ApiErrors.ErrorCodeRoundTrip | crates/fdc-api/src/errors.rs:159-176 | every machine-readable code reads back to the variant that produced it |
| ApiErrors.ErrorCodeIdentifiesVariant | crates/fdc-api/src/errors.rs:159-176 | two errors share a code exactly when they are the same variant |
| ApiErrors.IntoResponse | crates/fdc-api/src/errors.rs:211-219 | the response carries the error's status, its code, its text and the caller's instant, with no request id |
| ApiErrors.FromCoreErrorMeaning | crates/fdc-api/src/errors.rs:224-237 | a converted core error is a client error exactly when the core error is client-facing, and keeps its message where it has one |
| ApiErrors.FromJsonError | crates/fdc-api/src/errors.rs:242-244 | a JSON failure is a validation error with status 400 |
| ApiModels.Success | crates/fdc-api/src/models.rs:26-35 | a success envelope with the data, no message, no metadata, the instant and the request id |
| ApiModels.SuccessWithMessage | crates/fdc-api/src/models.rs:38-47 | a success envelope carrying the message |
| ApiModels.BuildersKeepSuccess | crates/fdc-api/src/models.rs:50-59 | setting request id and metadata keeps a success with its data and message, and the two setters commute |
| ApiModels.CeilDivIsFewestPages | crates/fdc-api/src/models.rs:82 | the rounded-up quotient is the fewest pages that hold every record |
| ApiModels.NewPagination | crates/fdc-api/src/models.rs:81-91 | the page count is the saturated ceiling; a next page exactly below it, a previous page exactly after page 1 |
| ApiModels.PaginationCoversRecords | crates/fdc-api/src/models.rs:81-91 | with a positive page size the pages hold every record with none to spare, and there is a next page exactly when records lie beyond the current page |
| ApiModels.PaginationZeroPageSize | crates/fdc-api/src/models.rs:82 | a page size of 0 gives no pages for no records and the largest 32-bit count otherwise |
| ApiModels.Healthy | crates/fdc-api/src/models.rs:280-287 | healthy, checked at the instant, with no error |
| ApiModels.Unhealthy | crates/fdc-api/src/models.rs:290-297 | not healthy, checked at the instant, with the error |
| ApiModels.HealthMatchesError | crates/fdc-api/src/models.rs:280-297 | a status built either way is healthy exactly when it carries no error |
| ApiModels.WithRequestId | crates/fdc-api/src/models.rs:50-53 | the envelope now carries the request id; its kind, data, message and metadata are kept |
| ApiModels.WithMetadata | crates/fdc-api/src/models.rs:56-59 | the envelope now carries the metadata; its kind, data, message and request id are kept |

## Left out

- **Runtime and I/O.**
  - The wasmtime engine, fuel and instantiation (`crates/fdc-wasm/src/runtime.rs`) are a foreign library. The registry sees the runtime as two sets of names, modules and instances, and the outcomes of compiling, linking and calling are parameters.
  - Clocks and UUIDs are parameters: instants, elapsed times and fresh ids are supplied by the caller. Plugin creation, update and last-call timestamps, and uptime-derived figures, are left out: `queries_per_second`, `uptime`, `calls_per_second`.
  - Files and TOML are left out: the loader's `scan_plugins`, `load_plugin_config`, `load_plugin_from_dir`, `load_all_plugins`, `check_for_changes` and `create_plugin_template`, and every `from_file`/`from_env`. The loader model starts from a configuration and the file's bytes.
  - The console and file event listeners print or write. Only their filtering is modelled (`WasmEvents.ConsolePrintsExactly`). `generate_report` and the storage configuration's `summary` only format text and are left out.
  - Network and UI code is not part of this model: `receiver.rs`, and the API server, REST, gRPC, GraphQL, WebSocket, handler, middleware and auth files.
- **External crates.**
  - sqlparser's parse, format and AST walk are left out: `SqlParser::parse`, `analyze_statement`, `extract_tables_from_query`, `extract_table_name`, `validate`, `format`, `extract_literals`. The planner starts from a `ParsedQuery`, and only the keyword fallback `extract_table_from_sql` is modelled.
  - The decoders of serde, serde_json, bincode and csv are parameters. Their outcomes, a value or an error, are passed in.
  - Also left out: WASM values' `to_json`/`from_json`/`to_bytes`/`from_bytes` and `from_core_values`/`to_core_values`, lz4/zstd, AHasher, and chrono formatting.
  - The validator's `value_range`, `string_length` and `regex` rules are stubs in the source that accept every value. The model does the same, so there is no range, length or pattern check to model.
- **Concurrency.**
  - `RwLock`, `Mutex` and async wrappers are dropped. Each method is one atomic step on the inner state.
  - The spawned tasks of batch processing run one after another. Each task's outcome comes from a parameter `run`.
  - The atomics in the core metrics are not part of this model.
- **Floating point.**
  - A finite double is modelled as an exact real, and rounding to 53 bits is not modelled. NaN and the infinities are kept distinct, so comparisons and the `as` casts follow IEEE rules and Rust's saturating casts.
  - Every average field is left out (`avg_latency_us`, average parse, validation and execution times), together with the unreachable `AVG` branch of the SQL function table.
  - Narrowing a double to `f32` is modelled as keeping the value: a finite double beyond the `f32` range becomes infinity in Rust, which the model does not capture (`TypesConversion.Convert`, the WASM value conversions).
  - Also left out: heat-score decay between two clock readings (both readings fall in one call, so the decay factor is 1), and the histogram percentiles of the core metrics.
- **Machine integers.**
  - Counters are unbounded. `u64` overflow of counters and byte totals is not modelled.
  - `i64` time arithmetic and the `usize` sum and decrement in `align_to` (`CoreMemory.AlignTo`) wrap at 64 bits, as a release build does; a debug build panics on the overflow instead.
- **Parts of the core files not modelled.**
  - `MemoryPool` (`crates/fdc-core/src/memory.rs:9-84`) is not modelled. It wraps the bumpalo arena allocator, a foreign library, and its `alloc` and `alloc_bytes` return their input or a zeroed vector.
  - `TierManager::get_tier_stats` only reads the engines' statistics and is left out. So are the storage engines' latency figures: each operation's elapsed time comes from a clock, and the model counts operations only.
  - Small builders and accessors that only set or read one field are left out. They have no behaviour to prove:
    - `TypeDefinition::with_description`/`with_version`;
    - `FieldDefinition::optional`/`with_default`/`with_description`/`add_constraint`;
    - the fdc-types registry's `get_stats` and `config`, which return a field the class exposes directly;
    - the bridge's `get_all_function_stats`, which returns the statistics field, and `create_standard_host_functions`;
    - the registry's `get_dependency_graph`, listener registration and `emit`, and its metrics accessor.
  - The events and metrics side effects of runtime calls are left out.
  - `optimizer.rs` (cost factors) and `executor.rs` (simulated scans) are not part of this model. Neither are the fdc-ingestion `backpressure.rs`, `metrics.rs`, `protocols.rs` and `config.rs`.
- **Values in place of in-place updates.** These operations mutate a struct through `&mut self` in the source and are modelled as functions returning the updated value. In-place update, and any aliasing of the struct, are not captured:
  - `TypeDefinition::add_field`/`add_constraint`/`set_attribute`, and the loops of `size_hint`, `validate` and the circular-reference check (`crates/fdc-types/src/definition.rs`), modelled as recursive functions over the field list;
  - `WasmPlugin::set_status`, the pushes onto its exported and imported lists, and its statistics counters (`crates/fdc-wasm/src/plugin.rs`). In the source a plugin sits behind the registry's map and is updated there; the model replaces the map entry with the new value;
  - `ParsedQuery::add_table` (`crates/fdc-query/src/parser.rs`);
  - the in-place `sort_by` of result rows (`crates/fdc-query/src/sorts.rs`), modelled as an insertion sort on a sequence;
  - `StorageConfig::add_tier_config`/`remove_tier_config` (`crates/fdc-storage/src/config.rs`).
- **Source behaviour the model keeps as written.**
  - Both caches' `evict_one` removes an arbitrary entry whatever the configured policy, because a hash map's first key is unspecified. A cache of capacity 0 still holds one entry.
  - `extract_table_from_sql` keeps trailing punctuation on the table name.
  - The planner joins only the first two tables of a multi-table query.
  - A time window of capacity 0 drops even the point just added, and `create_window` ignores `max_windows`.
  - `Pagination::new` divides in doubles, so its page count equals the integer ceiling only while the count fits 32 bits and the totals are below 2^53. The model uses the integer ceiling.
  - `can_run` includes `Paused`, so calling a paused plugin succeeds and leaves it `Loaded`.
  - The fdc-types registry never increments `validation_failures`, and its dependency check also counts the type being removed.
  - `compare_values` also orders floats, through `partial_cmp`, with unordered pairs treated as equal, and it treats any two values of different variants as equal; the model keeps both behaviours (see QuerySorts.Sort below).
- IngestionRecovery.GetRetryDelay: an exponential delay that overflows 64 bits is `None`, the panic of a debug build. The wrap-around of a release build is not modelled.
- CoreTime.FloorToInterval: requires a non-zero interval and excludes `i64::MIN / -1`, the inputs where the Rust division panics. The panic itself is not modelled.
- CoreTime.CeilToInterval: requires a non-zero interval and excludes the one input where its division is `i64::MIN / -1`. The panics are not modelled.
- QueryFunctions.UpperOf: Rust's `to_uppercase` is Unicode, but the model upper-cases only the ASCII letters and keeps every other character. The function-name lookup is modelled the same way.
- QueryFunctions.LowerOf: Rust's `to_lowercase` is Unicode, but the model lower-cases only the ASCII letters and keeps every other character.
- QueryParser.ExtractTableIsWord: the keyword search upper-cases and the table name is lower-cased in ASCII only, and `split_whitespace` is taken as ASCII white space.
- QueryFilters.EvaluateCondition: `<`, `<=`, `>` and `>=` compare two `Value`s, but `Value` derives only `PartialEq` (`crates/fdc-core/src/types.rs:236`) and the repository's source defines no order on it. The order is therefore a parameter (`order`), and the model promises nothing about which values it orders.
- QueryFilters.ApplyFilter: keeps the rows by the same caller-supplied order as EvaluateCondition, for the same reason.
- QueryAggregates.MinOf: `values.iter().min()` needs an `Ord` on `Value` that the source does not define, so the comparison is a parameter (`cmp`). MinIsLeast holds only under the total-order laws `OrdOn` assumes of it.
- QueryAggregates.MaxOf: as for MinOf, with `max()` and MaxIsGreatest.
- QuerySorts.Sort: the library sort is stable, and the model is a stable insertion sort, but its contract proves only sortedness and permutation, not stability. `compare_values` is a total order only on a column whose values are all of one integer, float or string variant, with no NaN (ColumnOrdered). It is not one when a float is NaN, or when the column mixes variants, since any two values of different variants compare equal (MixedVariantsNotTransitive). On such a column Rust's `sort_by` may panic or give an unspecified order; the model gives one particular order and never fails.
- CoreMemory.PreAllocator.GetBuffer: requires at least one buffer. With none, the source's remainder by zero panics (`crates/fdc-core/src/memory.rs:288`), and the panic is not modelled.
- CoreTime.TimeRange.Union: requires the covering bounds to be ordered, which holds whenever both ranges are valid. For inverted ranges the source's `unwrap` panics (`crates/fdc-core/src/time.rs:222-227`), and the panic is not modelled.
- TypesConversion.Convert: the error names only the value's variant, where the source prints the whole value in Rust's debug format.
- CoreTypeRegistry.ValidateBasicValue: the mismatch error names only the value's variant, where the source prints the whole value in Rust's debug format. `validate_value`'s not-found message prints the type id as a number rather than as the debug form of its UUID.
- WasmPlugins.ValidatePluginExactly: the missing-file message quotes the path as Rust's debug format does only for paths without characters that it escapes.

## Findings

| source | as written | input that shows it | evidently intended | confidence | as-written member | corrected member |
|---|---|---|---|---|---|---|
| crates/fdc-storage/src/engines/memory.rs:207-216 | the scan pushes an entry before comparing the count with the limit, and applies the limit before sorting | entries `[1]`, `[2]` listed in the order `[2]`, `[1]`: a limit of 0 returns one entry, and a limit of 1 returns `[2]` instead of the smallest key | at most `limit` entries, the smallest keys in the range | not executed | StorageMemoryEngine.ScanAsWrittenIgnoresLimit | StorageMemoryEngine.ScanKeepsSmallest |
| crates/fdc-storage/src/tier.rs:349-375 | `migrate_data` deletes from the source tier even when no engine exists for the target tier | key `[1]` in L2 only, migrated to L1 with no L1 engine: the key is gone from every tier | delete from the source only after the copy was stored | not executed | StorageTiers.MigrateAsWrittenLosesKey | StorageTiers.Migrate |
| crates/fdc-ingestion/src/validator.rs:356-379 | `get_value_type_name` has no arm for `Timestamp`, which is named "unknown", while the default data-type rule expects "timestamp" | any record with a timestamp field under the default rules is rejected | a timestamp is named "timestamp" | not executed | IngestionValidator.NoValueNamedTimestampAsWritten | IngestionValidator.DefaultTypesAcceptWellTypedRecord |
| crates/fdc-core/src/time.rs:133-137 | floor uses truncating division | `floor_to_interval(-1, 10)` is 0, above the input | the greatest multiple of the interval not above the timestamp | not executed | CoreTime.FloorToIntervalRoundsNegativeUp | CoreTime.FloorToMultipleIsGreatest |
| crates/fdc-core/src/time.rs:140-144 | ceil uses truncating division | `ceil_to_interval(-15, 10)` is 0, more than one interval above -15 | the least multiple of the interval not below the timestamp | not executed | CoreTime.CeilToIntervalOvershootsNegative | CoreTime.CeilToMultipleIsLeast |
| crates/fdc-types/src/registry.rs:184-199 | `register_type` checks the name but not the id | registering "A" then "B", both with id 7: two types counted, one stored, and the name "A" resolves to "B" | reject an id already registered | not executed | TypesRegistry.RegisterAsWrittenDuplicateId | TypesRegistry.TypeRegistry.RegisterFreshType |
| crates/fdc-storage/src/tier.rs:270-283 | `put` writes the key to its recommended tier only, so a hotter tier can keep an older value | two puts of key `[1]` (values 10 then 20) on tiers L2 and L4: the second goes to L4, and `get` returns 10 from L2 | a read after a put returns the value just put | not executed | StorageTiers.PutAsWrittenServesStaleValue | StorageTiers.StoreOnlyThenLookup |
| crates/fdc-wasm/src/registry.rs:59-86 | `register_plugin` checks the name but not the id | two plugins with the same id and different names: the first's name points at the second plugin | reject an id already registered | not executed | WasmRegistry.RegisterAsWrittenDuplicateId | WasmRegistry.PluginRegistry.RegisterFreshPlugin |
| crates/fdc-wasm/src/registry.rs:239-244 | `reload_plugin` unloads the old module before compiling the new bytes | new bytes that fail to compile: the plugin stays registered as before, but its module and instance are gone and every call fails | keep the old module until the new one is compiled and linked | not executed | WasmRegistry.ReloadAsWrittenStrandsPlugin | WasmRegistry.PluginRegistry.ReloadPluginSafely |
| crates/fdc-query/src/metrics.rs:55-57 | a minimum execution time of 0 is read as "no time recorded yet" | completions of 5, 0 and 7 microseconds leave a minimum of 7 | the least completed time | not executed | QueryMetrics.CompleteAsWrittenForgetsZero | QueryMetrics.CompleteTracks |

=== FILE: dafny/analytics_pipeline.dfy ===
// An analytics pipeline walks through six stages, from ingestion to
// output; its status says whether it is pending, running, paused or done.
module AnalyticsPipeline {
  import opened Wrappers

  datatype PipelineStage = Ingestion | Cleaning | FeatureEngineering | Training | Prediction | Output

  datatype PipelineStatus = Pending | Running | Completed | Failed | Paused

  /** The stages in the order a pipeline runs them. */
  const STAGES: seq<PipelineStage> := [Ingestion, Cleaning, FeatureEngineering, Training, Prediction, Output]

  /** The stage after `stage`: no stage after the output, and ingestion when there is no stage. */
  function NextStage(stage: Option<PipelineStage>): Option<PipelineStage>
  {
    match stage
    case None => Some(Ingestion)
    case Some(Ingestion) => Some(Cleaning)
    case Some(Cleaning) => Some(FeatureEngineering)
    case Some(FeatureEngineering) => Some(Training)
    case Some(Training) => Some(Prediction)
    case Some(Prediction) => Some(Output)
    case Some(Output) => None
  }

  /** `NextStage` applied `n` times. */
  function Advanced(stage: Option<PipelineStage>, n: nat): Option<PipelineStage>
  {
    if n == 0 then stage else NextStage(Advanced(stage, n - 1))
  }

  /**
   * Each stage but the last advances to the one listed after it, the last
   * to no stage, and no stage to the first.
   */
  lemma NextStageFollowsOrder(i: nat)
    requires i < |STAGES|
    ensures i + 1 < |STAGES| ==> NextStage(Some(STAGES[i])) == Some(STAGES[i + 1])
    ensures i + 1 == |STAGES| ==> NextStage(Some(STAGES[i])) == None
    ensures NextStage(None) == Some(STAGES[0])
  {
  }

  /**
   * From ingestion, `i` advances reach the `i`-th stage, six leave no
   * stage, and a seventh starts over at ingestion.
   */
  lemma {:induction false} WalksAllStages(n: nat)
    requires n <= |STAGES| + 1
    ensures n < |STAGES| ==> Advanced(Some(Ingestion), n) == Some(STAGES[n])
    ensures n == |STAGES| ==> Advanced(Some(Ingestion), n) == None
    ensures n == |STAGES| + 1 ==> Advanced(Some(Ingestion), n) == Some(Ingestion)
  {
    if n > 0 {
      WalksAllStages(n - 1);
    }
  }

  class AnalyticsPipeline {
    const id: string
    const name: string
    var currentStage: Option<PipelineStage>
    var status: PipelineStatus

    constructor(id: string, name: string)
      ensures this.id == id && this.name == name
      ensures currentStage == None && status == Pending
    {
      this.id := id;
      this.name := name;
      currentStage := None;
      status := Pending;
    }

    method Start()
      modifies this
      ensures status == Running && currentStage == Some(Ingestion)
    {
      status := Running;
      currentStage := Some(Ingestion);
    }

    /** Pauses the pipeline where it is. */
    method Stop()
      modifies this
      ensures status == Paused && currentStage == old(currentStage)
    {
      status := Paused;
    }

    /**
     * Moves to the next stage; leaving the output stage completes the
     * pipeline, and nothing else changes the status.
     */
    method AdvanceStage()
      modifies this
      ensures currentStage == NextStage(old(currentStage))
      ensures old(currentStage) == Some(Output) ==> status == Completed
      ensures old(currentStage) != Some(Output) ==> status == old(status)
    {
      if currentStage == Some(Output) {
        status := Completed;
      }
      currentStage := NextStage(currentStage);
    }
  }
}

=== FILE: dafny/analytics_windowing.dfy ===
// Sliding time windows for stream processing: each window keeps its data
// points oldest first, drops points that fell out of the time span when a
// new one arrives, and keeps at most a fixed number of points. Timestamps
// are integers and window spans are durations in the same unit.
module AnalyticsWindowing {
  import opened Wrappers

  /** Leading points stamped before `cutoff`, the ones an addition drops as expired. */
  function ExpiredCount<T>(points: seq<(int, T)>, cutoff: int): (n: nat)
    ensures n <= |points|
    ensures forall j :: 0 <= j < n ==> points[j].0 < cutoff
    ensures n < |points| ==> points[n].0 >= cutoff
  {
    if points == [] || points[0].0 >= cutoff then 0
    else 1 + ExpiredCount(points[1..], cutoff)
  }

  /** The newest `capacity` points. */
  function Newest<T>(points: seq<(int, T)>, capacity: nat): seq<(int, T)>
  {
    if |points| > capacity then points[|points| - capacity..] else points
  }

  /** The window's points after adding `(timestamp, value)`. */
  function AfterAdd<T>(points: seq<(int, T)>, timestamp: int, value: T, windowSize: nat, maxCapacity: nat): seq<(int, T)>
  {
    var live := points[ExpiredCount(points, timestamp - windowSize)..];
    Newest(live + [(timestamp, value)], maxCapacity)
  }

  /**
   * An addition leaves at most `maxCapacity` points and, unless the
   * capacity is 0, the new point last; the capacity 0 drops even the new
   * point.
   */
  lemma AfterAddBounds<T>(points: seq<(int, T)>, timestamp: int, value: T, windowSize: nat, maxCapacity: nat)
    ensures var r := AfterAdd(points, timestamp, value, windowSize, maxCapacity);
            |r| <= maxCapacity
            && (maxCapacity > 0 ==> r != [] && r[|r| - 1] == (timestamp, value))
            && (maxCapacity == 0 ==> r == [])
  {
  }

  /**
   * Points leave only from the front: the window after an addition is a
   * suffix of the old points followed by the new one, so their order is kept.
   */
  lemma AfterAddIsSuffix<T>(points: seq<(int, T)>, timestamp: int, value: T, windowSize: nat, maxCapacity: nat)
    returns (dropped: nat)
    ensures dropped <= |points| + 1
    ensures AfterAdd(points, timestamp, value, windowSize, maxCapacity) == (points + [(timestamp, value)])[dropped..]
  {
    var e := ExpiredCount(points, timestamp - windowSize);
    var live := points[e..] + [(timestamp, value)];
    assert live == (points + [(timestamp, value)])[e..];
    if |live| > maxCapacity {
      dropped := e + (|live| - maxCapacity);
    } else {
      dropped := e;
    }
  }

  predicate Ordered<T>(points: seq<(int, T)>)
  {
    forall i, j :: 0 <= i < j < |points| ==> points[i].0 <= points[j].0
  }

  /**
   * When points arrive in timestamp order, the window stays in timestamp
   * order and holds only points within `windowSize` of the newest.
   */
  lemma AfterAddWithinWindow<T>(points: seq<(int, T)>, timestamp: int, value: T, windowSize: nat, maxCapacity: nat)
    requires Ordered(points)
    requires points != [] ==> points[|points| - 1].0 <= timestamp
    ensures var r := AfterAdd(points, timestamp, value, windowSize, maxCapacity);
            Ordered(r) && forall k :: 0 <= k < |r| ==> timestamp - windowSize <= r[k].0 <= timestamp
  {
    var cutoff := timestamp - windowSize;
    var live := points[ExpiredCount(points, cutoff)..] + [(timestamp, value)];
    LiveWithinWindow(points, timestamp, value, cutoff);
    var r := Newest(live, maxCapacity);
    var d := |live| - |r|;
    assert r == live[d..];
    forall k | 0 <= k < |r|
      ensures cutoff <= r[k].0 <= timestamp
    {
      assert r[k] == live[d + k];
    }
    forall i, j | 0 <= i < j < |r|
      ensures r[i].0 <= r[j].0
    {
      assert r[i] == live[d + i] && r[j] == live[d + j];
    }
  }

  /** The points an addition keeps before the capacity cut are ordered and within the span. */
  lemma LiveWithinWindow<T>(points: seq<(int, T)>, timestamp: int, value: T, cutoff: int)
    requires Ordered(points) && cutoff <= timestamp
    requires points != [] ==> points[|points| - 1].0 <= timestamp
    ensures var live := points[ExpiredCount(points, cutoff)..] + [(timestamp, value)];
            Ordered(live) && forall k :: 0 <= k < |live| ==> cutoff <= live[k].0 <= timestamp
  {
    var e := ExpiredCount(points, cutoff);
    var s := points[e..];
    OrderedSuffix(points, e);
    if s != [] {
      OrderedBetweenEnds(s);
      assert s[|s| - 1] == points[|points| - 1];
    }
    OrderedAppend(s, (timestamp, value));
  }

  lemma OrderedSuffix<T>(points: seq<(int, T)>, e: nat)
    requires Ordered(points) && e <= |points|
    ensures Ordered(points[e..])
  {
    var s := points[e..];
    forall i, j | 0 <= i < j < |s|
      ensures s[i].0 <= s[j].0
    {
      assert s[i] == points[e + i] && s[j] == points[e + j];
    }
  }

  lemma OrderedBetweenEnds<T>(s: seq<(int, T)>)
    requires Ordered(s) && s != []
    ensures forall k :: 0 <= k < |s| ==> s[0].0 <= s[k].0 <= s[|s| - 1].0
  {
  }

  lemma OrderedAppend<T>(s: seq<(int, T)>, x: (int, T))
    requires Ordered(s) && (s != [] ==> s[|s| - 1].0 <= x.0)
    ensures Ordered(s + [x])
  {
    if s != [] {
      OrderedBetweenEnds(s);
    }
  }

  /** Pops points from the front while the oldest is stamped before `cutoff`. */
  method DropExpired<T>(points: seq<(int, T)>, cutoff: int) returns (live: seq<(int, T)>)
    ensures live == points[ExpiredCount(points, cutoff)..]
  {
    live := points;
    ghost var dropped := 0;
    while live != [] && live[0].0 < cutoff
      invariant dropped <= |points| && live == points[dropped..]
      invariant dropped + ExpiredCount(live, cutoff) == ExpiredCount(points, cutoff)
      decreases |live|
    {
      live := live[1..];
      dropped := dropped + 1;
    }
  }

  /** Pops points from the front while there are more than `capacity`. */
  method KeepNewest<T>(points: seq<(int, T)>, capacity: nat) returns (kept: seq<(int, T)>)
    ensures kept == Newest(points, capacity)
  {
    kept := points;
    while |kept| > capacity
      invariant |kept| <= |points| && kept == points[|points| - |kept|..]
      invariant |kept| >= capacity || kept == points
      decreases |kept|
    {
      kept := kept[1..];
    }
  }

  class TimeWindow<T> {
    const windowSize: nat
    const maxCapacity: nat
    /** The points, oldest first. */
    var data: seq<(int, T)>

    /** The window never holds more than its capacity. */
    predicate Valid()
      reads this
    {
      |data| <= maxCapacity
    }

    constructor(windowSize: nat, maxCapacity: nat)
      ensures this.windowSize == windowSize && this.maxCapacity == maxCapacity && data == [] && Valid()
    {
      this.windowSize := windowSize;
      this.maxCapacity := maxCapacity;
      data := [];
    }

    /**
     * Drops expired points from the front, appends the new point, then
     * drops the oldest points while there are more than the capacity.
     */
    method Add(timestamp: int, value: T)
      modifies this
      ensures data == AfterAdd(old(data), timestamp, value, windowSize, maxCapacity)
      ensures Valid()
    {
      AfterAddBounds(data, timestamp, value, windowSize, maxCapacity);
      var live := DropExpired(data, timestamp - windowSize);
      data := KeepNewest(live + [(timestamp, value)], maxCapacity);
    }

    /** `size`: the number of points held, within the capacity. */
    function Size(): (n: nat)
      reads this
      ensures Valid() ==> n <= maxCapacity
      ensures n == 0 <==> data == []
    {
      |data|
    }
  }

  /** Windows created from one configured span, each holding up to 1000 points. */
  class WindowManager<T> {
    const defaultWindowSize: nat
    var windows: seq<TimeWindow<T>>

    constructor(defaultWindowSize: nat)
      ensures this.defaultWindowSize == defaultWindowSize && windows == []
    {
      this.defaultWindowSize := defaultWindowSize;
      windows := [];
    }

    /** Appends a fresh empty window and returns its index, the number of windows before it. */
    method CreateWindow() returns (index: nat)
      modifies this
      ensures index == |old(windows)| && |windows| == index + 1
      ensures windows[..index] == old(windows)
      ensures fresh(windows[index]) && windows[index].data == []
      ensures windows[index].windowSize == defaultWindowSize && windows[index].maxCapacity == 1000
    {
      var w := new TimeWindow<T>(defaultWindowSize, 1000);
      index := |windows|;
      windows := windows + [w];
    }

    /** The window at `index`, if there is one. */
    function GetWindow(index: nat): (w: Option<TimeWindow<T>>)
      reads this
      ensures w.Some? <==> index < |windows|
      ensures w.Some? ==> w.value == windows[index]
    {
      if index < |windows| then Some(windows[index]) else None
    }

    /** `window_count`: the valid window indexes are exactly those below it. */
    function WindowCount(): (n: nat)
      reads this
      ensures forall i: nat :: GetWindow(i).Some? <==> i < n
    {
      |windows|
    }
  }
}

=== FILE: dafny/api_errors.dfy ===
// Errors of the HTTP API: the status code and machine-readable code of
// each kind, the error body sent to the client, and the translation of
// core errors into API errors.
module ApiErrors {
  import opened Wrappers
  import CoreError

  datatype ApiError =
    | Internal(message: string)
    | Validation(message: string)
    | Authentication(message: string)
    | Authorization(message: string)
    | NotFound(resource: string)
    | Conflict(message: string)
    | TooManyRequests
    | PayloadTooLarge
    | UnsupportedMediaType
    | Query(message: string)
    | Database(message: string)
    | Network(message: string)
    | Timeout
    | ServiceUnavailable

  /** The variant's position in the declaration, used to speak of "the same variant". */
  function VariantIndex(e: ApiError): nat
  {
    match e
    case Internal(_) => 0
    case Validation(_) => 1
    case Authentication(_) => 2
    case Authorization(_) => 3
    case NotFound(_) => 4
    case Conflict(_) => 5
    case TooManyRequests => 6
    case PayloadTooLarge => 7
    case UnsupportedMediaType => 8
    case Query(_) => 9
    case Database(_) => 10
    case Network(_) => 11
    case Timeout => 12
    case ServiceUnavailable => 13
  }

  /** The HTTP status sent for each kind of error. */
  function StatusCode(e: ApiError): nat
  {
    match e
    case Internal(_) => 500
    case Validation(_) => 400
    case Authentication(_) => 401
    case Authorization(_) => 403
    case NotFound(_) => 404
    case Conflict(_) => 409
    case TooManyRequests => 429
    case PayloadTooLarge => 413
    case UnsupportedMediaType => 415
    case Query(_) => 400
    case Database(_) => 500
    case Network(_) => 502
    case Timeout => 408
    case ServiceUnavailable => 503
  }

  /** Errors the client caused, as opposed to failures of the server or what it depends on. */
  predicate IsClientError(e: ApiError)
  {
    e.Validation? || e.Authentication? || e.Authorization? || e.NotFound? || e.Conflict?
    || e.TooManyRequests? || e.PayloadTooLarge? || e.UnsupportedMediaType? || e.Query? || e.Timeout?
  }

  /**
   * Client errors get a 4xx status and the rest a 5xx status; invalid
   * requests and failed queries share 400, internal and database
   * failures share 500, and every other status belongs to one kind.
   */
  lemma StatusCodeClasses(a: ApiError, b: ApiError)
    ensures IsClientError(a) <==> 400 <= StatusCode(a) < 500
    ensures !IsClientError(a) <==> 500 <= StatusCode(a) < 600
    ensures StatusCode(a) == StatusCode(b) <==>
              VariantIndex(a) == VariantIndex(b)
              || (StatusCode(a) == 400 && (a.Validation? || a.Query?) && (b.Validation? || b.Query?))
              || (StatusCode(a) == 500 && (a.Internal? || a.Database?) && (b.Internal? || b.Database?))
  {
  }

  /** The machine-readable code sent in the error body. */
  function ErrorCode(e: ApiError): string
  {
    match e
    case Internal(_) => "INTERNAL_ERROR"
    case Validation(_) => "VALIDATION_ERROR"
    case Authentication(_) => "AUTHENTICATION_ERROR"
    case Authorization(_) => "AUTHORIZATION_ERROR"
    case NotFound(_) => "NOT_FOUND"
    case Conflict(_) => "CONFLICT"
    case TooManyRequests => "TOO_MANY_REQUESTS"
    case PayloadTooLarge => "PAYLOAD_TOO_LARGE"
    case UnsupportedMediaType => "UNSUPPORTED_MEDIA_TYPE"
    case Query(_) => "QUERY_ERROR"
    case Database(_) => "DATABASE_ERROR"
    case Network(_) => "NETWORK_ERROR"
    case Timeout => "TIMEOUT"
    case ServiceUnavailable => "SERVICE_UNAVAILABLE"
  }

  /**
   * Reading a code back to the variant that produces it; candidates are
   * grouped by length so that each code is compared with few literals.
   */
  function VariantOfCode(code: string): Option<nat>
  {
    match |code|
    case 7 =>
      if code == "TIMEOUT" then Some(12) else None
    case 8 =>
      if code == "CONFLICT" then Some(5) else None
    case 9 =>
      if code == "NOT_FOUND" then Some(4) else None
    case 11 =>
      if code == "QUERY_ERROR" then Some(9) else None
    case 13 =>
      if code == "NETWORK_ERROR" then Some(11) else None
    case 14 =>
      if code == "INTERNAL_ERROR" then Some(0)
      else if code == "DATABASE_ERROR" then Some(10)
      else None
    case 16 =>
      if code == "VALIDATION_ERROR" then Some(1) else None
    case 17 =>
      if code == "TOO_MANY_REQUESTS" then Some(6)
      else if code == "PAYLOAD_TOO_LARGE" then Some(7)
      else None
    case 19 =>
      if code == "AUTHORIZATION_ERROR" then Some(3)
      else if code == "SERVICE_UNAVAILABLE" then Some(13)
      else None
    case 20 =>
      if code == "AUTHENTICATION_ERROR" then Some(2) else None
    case 22 =>
      if code == "UNSUPPORTED_MEDIA_TYPE" then Some(8) else None
    case _ => None
  }

  /** Every code reads back to the variant that produced it. */
  lemma ErrorCodeRoundTrip(e: ApiError)
    ensures VariantOfCode(ErrorCode(e)) == Some(VariantIndex(e))
  {
    if VariantIndex(e) < 7 {
      RoundTripIn(e, 0, 7);
    } else {
      RoundTripIn(e, 7, 14);
    }
  }

  lemma RoundTripIn(e: ApiError, lo: nat, hi: nat)
    requires lo <= VariantIndex(e) < hi
    requires (lo, hi) in {(0, 7), (7, 14)}
    ensures VariantOfCode(ErrorCode(e)) == Some(VariantIndex(e))
  {
  }

  /** Two errors share a code exactly when they are the same variant. */
  lemma ErrorCodeIdentifiesVariant(a: ApiError, b: ApiError)
    ensures ErrorCode(a) == ErrorCode(b) <==> VariantIndex(a) == VariantIndex(b)
  {
    ErrorCodeRoundTrip(a);
    ErrorCodeRoundTrip(b);
  }

  /** The human-readable text of an error. */
  function Display(e: ApiError): string
  {
    match e
    case Internal(m) => "Internal server error: " + m
    case Validation(m) => "Validation error: " + m
    case Authentication(m) => "Authentication error: " + m
    case Authorization(m) => "Authorization error: " + m
    case NotFound(r) => "Resource not found: " + r
    case Conflict(m) => "Resource conflict: " + m
    case TooManyRequests => "Too many requests"
    case PayloadTooLarge => "Request body too large"
    case UnsupportedMediaType => "Unsupported media type"
    case Query(m) => "Query error: " + m
    case Database(m) => "Database error: " + m
    case Network(m) => "Network error: " + m
    case Timeout => "Timeout error"
    case ServiceUnavailable => "Service unavailable"
  }

  datatype ErrorResponse = ErrorResponse(error: string, message: string, timestamp: int, requestId: Option<string>)

  /** The status and body sent for an error, stamped with the caller's instant. */
  function IntoResponse(e: ApiError, now: int): (r: (nat, ErrorResponse))
    ensures r.0 == StatusCode(e)
    ensures VariantOfCode(r.1.error) == Some(VariantIndex(e))
    ensures r.1.message == Display(e) && r.1.timestamp == now && r.1.requestId == None
  {
    ErrorCodeRoundTrip(e);
    (StatusCode(e), ErrorResponse(ErrorCode(e), Display(e), now, None))
  }

  /**
   * The API error for a core error: validation, query, storage, network
   * and not-found errors keep their text under the matching kind, an
   * existing resource becomes a conflict, a timeout loses its duration,
   * and every other error becomes an internal error carrying its text.
   */
  function FromCoreError(err: CoreError.Error): ApiError
  {
    match err
    case Validation(m) => Validation(m)
    case Query(m) => Query(m)
    case Storage(m) => Database(m)
    case Network(m) => Network(m)
    case NotFound(r) => NotFound(r)
    case AlreadyExists(r) => Conflict("Resource already exists: " + r)
    case Timeout(_) => Timeout
    case _ => Internal(CoreError.ToString(err))
  }

  /** The core errors a client can cause or retry. */
  predicate IsClientFacing(err: CoreError.Error)
  {
    err.Validation? || err.Query? || err.NotFound? || err.AlreadyExists? || err.Timeout?
  }

  /**
   * A converted core error is a client error exactly when the core error
   * is client-facing; its message survives for the kinds that carry one,
   * and an internal error always carries the core error's full text.
   */
  lemma FromCoreErrorMeaning(err: CoreError.Error)
    ensures IsClientError(FromCoreError(err)) <==> IsClientFacing(err)
    ensures 400 <= StatusCode(FromCoreError(err)) < 500 <==> IsClientFacing(err)
    ensures err.Validation? || err.Query? || err.Storage? || err.Network? ==> FromCoreError(err).message == err.message
    ensures err.NotFound? ==> FromCoreError(err) == NotFound(err.resource)
    ensures FromCoreError(err).Internal? ==> FromCoreError(err).message == CoreError.ToString(err)
    ensures FromCoreError(err).Conflict? <==> err.AlreadyExists?
  {
    StatusCodeClasses(FromCoreError(err), FromCoreError(err));
  }

  /** A JSON parse failure is reported as a validation error. */
  function FromJsonError(message: string): (e: ApiError)
    ensures e.Validation? && StatusCode(e) == 400
  {
    Validation("JSON parsing error: " + message)
  }
}

=== FILE: dafny/api_models.dfy ===
// Data shapes of the HTTP API: the envelope around every successful
// response, pagination of listings, and the health of one component.
// Instants are passed in by the caller and request ids are supplied as text.
module ApiModels {
  import opened Wrappers
  import opened Ints

  /** JSON metadata values are kept as their text. */
  type Metadata = map<string, string>

  datatype ApiResponse<T> = ApiResponse(
    data: T,
    status: string,
    message: Option<string>,
    timestamp: int,
    requestId: string,
    metadata: Option<Metadata>)

  predicate IsSuccess<T>(r: ApiResponse<T>)
  {
    r.status == "success"
  }

  /** A success envelope: no message and no metadata yet. */
  function Success<T>(data: T, now: int, requestId: string): (r: ApiResponse<T>)
    ensures IsSuccess(r) && r.data == data && r.message == None && r.metadata == None
    ensures r.timestamp == now && r.requestId == requestId
  {
    ApiResponse(data, "success", None, now, requestId, None)
  }

  function SuccessWithMessage<T>(data: T, message: string, now: int, requestId: string): (r: ApiResponse<T>)
    ensures IsSuccess(r) && r.data == data && r.message == Some(message) && r.metadata == None
  {
    ApiResponse(data, "success", Some(message), now, requestId, None)
  }

  /** `with_request_id`: the envelope now carries `requestId`; its kind, data, message and metadata are kept. */
  function WithRequestId<T>(r: ApiResponse<T>, requestId: string): (s: ApiResponse<T>)
    ensures s.requestId == requestId
    ensures IsSuccess(s) == IsSuccess(r) && s.data == r.data && s.message == r.message && s.metadata == r.metadata
  {
    r.(requestId := requestId)
  }

  /** `with_metadata`: the envelope now carries `metadata`; its kind, data, message and request id are kept. */
  function WithMetadata<T>(r: ApiResponse<T>, metadata: Metadata): (s: ApiResponse<T>)
    ensures s.metadata == Some(metadata)
    ensures IsSuccess(s) == IsSuccess(r) && s.data == r.data && s.message == r.message && s.requestId == r.requestId
  {
    r.(metadata := Some(metadata))
  }

  /**
   * Setting the request id and the metadata of a success envelope keeps
   * it a success with the same data and message, and the two setters
   * commute.
   */
  lemma BuildersKeepSuccess<T>(r: ApiResponse<T>, requestId: string, metadata: Metadata)
    requires IsSuccess(r)
    ensures var s := WithMetadata(WithRequestId(r, requestId), metadata);
            IsSuccess(s) && s.data == r.data && s.message == r.message
            && s.requestId == requestId && s.metadata == Some(metadata)
            && s == WithRequestId(WithMetadata(r, metadata), requestId)
  {
  }

  datatype Pagination = Pagination(
    page: nat,
    pageSize: nat,
    total: nat,
    totalPages: nat,
    hasNext: bool,
    hasPrev: bool)

  /** `total / pageSize` rounded up, for a positive page size. */
  function CeilDiv(total: nat, pageSize: nat): nat
    requires pageSize > 0
  {
    (total + pageSize - 1) / pageSize
  }

  /** `CeilDiv` is the fewest pages of `pageSize` records that hold `total` records. */
  lemma CeilDivIsFewestPages(total: nat, pageSize: nat)
    requires pageSize > 0
    ensures var n := CeilDiv(total, pageSize);
            total <= n * pageSize && (n > 0 ==> (n - 1) * pageSize < total)
  {
    var n := CeilDiv(total, pageSize);
    DivBounds(total + pageSize - 1, pageSize);
    if n > 0 {
      assert (n - 1) * pageSize == n * pageSize - pageSize;
    }
  }

  /**
   * The page count: the double-precision quotient rounded up and cast to
   * 32 bits, which saturates; a page size of 0 divides to infinity (cast
   * to the largest count) or, for no records, to NaN (cast to 0).
   */
  function TotalPages(pageSize: nat, total: nat): nat
  {
    if pageSize == 0 then (if total == 0 then 0 else U32_MAX)
    else if CeilDiv(total, pageSize) > U32_MAX then U32_MAX
    else CeilDiv(total, pageSize)
  }

  function NewPagination(page: nat, pageSize: nat, total: nat): (p: Pagination)
    ensures p.page == page && p.pageSize == pageSize && p.total == total
    ensures p.totalPages == TotalPages(pageSize, total)
    ensures p.hasNext <==> page < p.totalPages
    ensures p.hasPrev <==> page > 1
  {
    var totalPages := TotalPages(pageSize, total);
    Pagination(page, pageSize, total, totalPages, page < totalPages, page > 1)
  }

  /**
   * With a positive page size and a page count that fits 32 bits, the
   * pages hold every record with no page to spare, and there is a next
   * page exactly when records lie beyond the first `page` pages.
   */
  lemma PaginationCoversRecords(page: nat, pageSize: nat, total: nat)
    requires pageSize > 0 && CeilDiv(total, pageSize) <= U32_MAX
    ensures var p := NewPagination(page, pageSize, total);
            total <= p.totalPages * pageSize
            && (p.totalPages > 0 ==> (p.totalPages - 1) * pageSize < total)
            && (p.totalPages == 0 <==> total == 0)
            && (p.hasNext <==> page * pageSize < total)
  {
    var n := CeilDiv(total, pageSize);
    CeilDivIsFewestPages(total, pageSize);
    if page < n {
      MulMono(page, n - 1, pageSize);
    } else {
      MulMono(n, page, pageSize);
    }
  }

  /** A page size of 0 reports no pages for no records and the largest count otherwise. */
  lemma PaginationZeroPageSize(page: nat, total: nat)
    ensures var p := NewPagination(page, 0, total);
            (total == 0 ==> p.totalPages == 0 && !p.hasNext)
            && (total > 0 ==> p.totalPages == U32_MAX && (p.hasNext <==> page < U32_MAX))
  {
  }

  datatype ComponentStatus = ComponentStatus(
    status: string,
    lastCheck: int,
    error: Option<string>,
    details: Option<Metadata>)

  predicate IsHealthy(c: ComponentStatus)
  {
    c.status == "healthy"
  }

  function Healthy(now: int): (c: ComponentStatus)
    ensures IsHealthy(c) && c.error == None && c.lastCheck == now
  {
    ComponentStatus("healthy", now, None, None)
  }

  function Unhealthy(error: string, now: int): (c: ComponentStatus)
    ensures !IsHealthy(c) && c.error == Some(error) && c.lastCheck == now
  {
    ComponentStatus("unhealthy", now, Some(error), None)
  }

  /** A status built by either constructor is healthy exactly when it carries no error. */
  lemma HealthMatchesError(now: int, error: string)
    ensures IsHealthy(Healthy(now)) <==> Healthy(now).error.None?
    ensures IsHealthy(Unhealthy(error, now)) <==> Unhealthy(error, now).error.None?
  {
  }
}

=== FILE: dafny/core_config.dfy ===
// The top-level configuration of fdc-core: one record per section, the
// default values, and validation, which reports the first violated rule.
module CoreConfig {
  import opened Ints
  import opened Floats
  import opened Text
  import opened Wrappers
  import opened CoreError

  datatype ServerConfig = ServerConfig(
    host: string, restPort: u16, grpcPort: u16, graphqlPort: u16,
    websocketPort: u16, metricsPort: u16, adminPort: u16)
  {
    function Ports(): seq<u16>
    {
      [restPort, grpcPort, graphqlPort, websocketPort, metricsPort, adminPort]
    }

    /** An empty host is refused first, then the first port (in declaration order) used twice. */
    function Validate(): (r: CoreResult<()>)
      ensures r.Ok? <==> host != [] && Distinct(Ports())
      ensures host == [] ==> r == Err(CoreError.Config("Server host cannot be empty"))
      ensures host != [] ==> forall i: nat :: FirstRepeatedAt(Ports(), i) ==>
        r == Err(CoreError.Config("Duplicate port: " + NatToString(Ports()[i])))
    {
      if host == [] then Err(CoreError.Config("Server host cannot be empty"))
      else
        match FirstRepeatedIndex(Ports())
        case Some(i) =>
          FirstRepeatedAtUnique(Ports(), i);
          Err(CoreError.Config("Duplicate port: " + NatToString(Ports()[i])))
        case None => Ok(())
    }
  }

  predicate Distinct(s: seq<u16>)
  {
    forall i, j :: 0 <= i < j < |s| ==> s[i] != s[j]
  }

  /** Some later element equals `s[i]`. */
  predicate HasLaterCopy(s: seq<u16>, i: nat)
  {
    exists j :: i < j < |s| && s[i] == s[j]
  }

  /** `s[i]` is the earliest element that occurs again later on. */
  predicate FirstRepeatedAt(s: seq<u16>, i: nat)
  {
    i < |s| && HasLaterCopy(s, i) && forall k :: 0 <= k < i ==> !HasLaterCopy(s, k)
  }

  lemma FirstRepeatedAtUnique(s: seq<u16>, i: nat)
    requires FirstRepeatedAt(s, i)
    ensures forall j :: FirstRepeatedAt(s, j) ==> j == i
  {
  }

  /** Where the nested scan over pairs `(i, j)`, `i < j`, first meets equal elements. */
  function FirstRepeatedIndex(s: seq<u16>): (r: Option<nat>)
    ensures r.None? <==> Distinct(s)
    ensures r.None? ==> forall i: nat :: !FirstRepeatedAt(s, i)
    ensures r.Some? ==> FirstRepeatedAt(s, r.value)
  {
    var r := FirstRepeatedFrom(s, 0);
    assert r.None? ==> Distinct(s) by {
      if r.None? {
        forall i, j | 0 <= i < j < |s| ensures s[i] != s[j] {
          assert !HasLaterCopy(s, i);
        }
      }
    }
    r
  }

  function FirstRepeatedFrom(s: seq<u16>, from: nat): (r: Option<nat>)
    decreases |s| - from
    ensures r.None? ==> forall k :: from <= k < |s| ==> !HasLaterCopy(s, k)
    ensures r.Some? ==> (from <= r.value < |s| && HasLaterCopy(s, r.value)
                         && forall k :: from <= k < r.value ==> !HasLaterCopy(s, k))
  {
    if from >= |s| then None
    else if HasLaterCopy(s, from) then Some(from)
    else FirstRepeatedFrom(s, from + 1)
  }

  datatype RealtimeStorageConfig = RealtimeStorageConfig(
    engine: string, path: string, memoryLimit: string, syncInterval: string)
  {
    function Validate(): (r: CoreResult<()>)
      ensures r.Ok? <==> engine in ["redb", "memory"]
      ensures r.Err? ==> r.error == CoreError.Config("Invalid realtime engine: " + engine)
    {
      if engine !in ["redb", "memory"] then Err(CoreError.Config("Invalid realtime engine: " + engine))
      else Ok(())
    }
  }

  datatype AnalyticalStorageConfig = AnalyticalStorageConfig(
    engine: string, path: string, memoryLimit: string, threads: u32)
  {
    function Validate(): (r: CoreResult<()>)
      ensures r.Ok? <==> engine in ["duckdb", "datafusion"] && threads > 0
      ensures engine !in ["duckdb", "datafusion"] ==>
        r == Err(CoreError.Config("Invalid analytical engine: " + engine))
      ensures engine in ["duckdb", "datafusion"] && threads == 0 ==>
        r == Err(CoreError.Config("Threads must be greater than 0"))
    {
      if engine !in ["duckdb", "datafusion"] then Err(CoreError.Config("Invalid analytical engine: " + engine))
      else if threads == 0 then Err(CoreError.Config("Threads must be greater than 0"))
      else Ok(())
    }
  }

  datatype ArchiveStorageConfig = ArchiveStorageConfig(
    engine: string, path: string, compression: string, blockCacheSize: string)
  {
    function Validate(): (r: CoreResult<()>)
      ensures r.Ok? <==> engine in ["rocksdb", "sled"] && compression in ["lz4", "zstd", "snappy", "none"]
      ensures engine !in ["rocksdb", "sled"] ==> r == Err(CoreError.Config("Invalid archive engine: " + engine))
      ensures engine in ["rocksdb", "sled"] && compression !in ["lz4", "zstd", "snappy", "none"] ==>
        r == Err(CoreError.Config("Invalid compression: " + compression))
    {
      if engine !in ["rocksdb", "sled"] then Err(CoreError.Config("Invalid archive engine: " + engine))
      else if compression !in ["lz4", "zstd", "snappy", "none"] then
        Err(CoreError.Config("Invalid compression: " + compression))
      else Ok(())
    }
  }

  datatype StorageConfig = StorageConfig(
    realtime: RealtimeStorageConfig, analytical: AnalyticalStorageConfig,
    archive: ArchiveStorageConfig)
  {
    function Validate(): (r: CoreResult<()>)
      ensures r.Ok? <==> realtime.Validate().Ok? && analytical.Validate().Ok? && archive.Validate().Ok?
      ensures r.Err? ==> r in {realtime.Validate(), analytical.Validate(), archive.Validate()}
      ensures realtime.Validate().Err? ==> r == realtime.Validate()
      ensures realtime.Validate().Ok? && analytical.Validate().Err? ==> r == analytical.Validate()
      ensures realtime.Validate().Ok? && analytical.Validate().Ok? && archive.Validate().Err? ==> r == archive.Validate()
    {
      if realtime.Validate().Err? then realtime.Validate()
      else if analytical.Validate().Err? then analytical.Validate()
      else archive.Validate()
    }
  }

  datatype DataSourceConfig = DataSourceConfig(
    name: string, sourceType: string, address: string, protocol: string,
    enabled: bool, properties: map<string, string>)
  {
    function Validate(): (r: CoreResult<()>)
      ensures r.Ok? <==> name != [] && sourceType in ["multicast", "tcp", "websocket", "kafka"]
      ensures name == [] ==> r == Err(CoreError.Config("Data source name cannot be empty"))
      ensures name != [] && sourceType !in ["multicast", "tcp", "websocket", "kafka"] ==>
        r == Err(CoreError.Config("Invalid source type: " + sourceType))
    {
      if name == [] then Err(CoreError.Config("Data source name cannot be empty"))
      else if sourceType !in ["multicast", "tcp", "websocket", "kafka"] then
        Err(CoreError.Config("Invalid source type: " + sourceType))
      else Ok(())
    }
  }

  datatype IngestionConfig = IngestionConfig(
    sources: seq<DataSourceConfig>, bufferSize: string, batchSize: u32, flushInterval: string)
  {
    function Validate(): (r: CoreResult<()>)
      ensures r.Ok? <==> (batchSize > 0 && forall i :: 0 <= i < |sources| ==> sources[i].Validate().Ok?)
      ensures batchSize == 0 ==> r == Err(CoreError.Config("Batch size must be greater than 0"))
      ensures batchSize > 0 && r.Err? ==>
        exists i :: 0 <= i < |sources| && r == sources[i].Validate()
          && forall k :: 0 <= k < i ==> sources[k].Validate().Ok?
    {
      if batchSize == 0 then Err(CoreError.Config("Batch size must be greater than 0"))
      else FirstSourceError(sources)
    }
  }

  /** The error of the first invalid data source, if any. */
  function FirstSourceError(sources: seq<DataSourceConfig>): (r: CoreResult<()>)
    ensures r.Ok? <==> forall i :: 0 <= i < |sources| ==> sources[i].Validate().Ok?
    ensures r.Err? ==>
      exists i :: 0 <= i < |sources| && r == sources[i].Validate()
        && forall k :: 0 <= k < i ==> sources[k].Validate().Ok?
  {
    if |sources| == 0 then Ok(())
    else if sources[0].Validate().Err? then sources[0].Validate()
    else
      var r := FirstSourceError(sources[1..]);
      if r.Err? then
        var i :| 0 <= i < |sources[1..]| && r == sources[1..][i].Validate()
          && forall k :: 0 <= k < i ==> sources[1..][k].Validate().Ok?;
        assert r == sources[i + 1].Validate();
        assert forall k :: 1 <= k < i + 1 ==> sources[k] == sources[1..][k - 1];
        r
      else
        assert forall i :: 1 <= i < |sources| ==> sources[i] == sources[1..][i - 1];
        r
  }

  datatype QueryConfig = QueryConfig(
    cacheSize: string, cacheTtl: string, maxConcurrentQueries: u32, queryTimeout: string)
  {
    function Validate(): (r: CoreResult<()>)
      ensures r.Ok? <==> maxConcurrentQueries > 0
      ensures r.Err? ==> r.error == CoreError.Config("Max concurrent queries must be greater than 0")
    {
      if maxConcurrentQueries == 0 then Err(CoreError.Config("Max concurrent queries must be greater than 0"))
      else Ok(())
    }
  }

  datatype MonitoringConfig = MonitoringConfig(metricsPort: u16, logLevel: string, traceSamplingRate: Float)
  {
    /** The sampling rate must lie in `[0.0, 1.0]`; NaN and infinities lie outside. */
    function Validate(): (r: CoreResult<()>)
      ensures r.Ok? <==> (logLevel in ["trace", "debug", "info", "warn", "error"]
                          && traceSamplingRate.Finite? && 0.0 <= traceSamplingRate.r <= 1.0)
      ensures logLevel !in ["trace", "debug", "info", "warn", "error"] ==>
        r == Err(CoreError.Config("Invalid log level: " + logLevel))
      ensures logLevel in ["trace", "debug", "info", "warn", "error"] && r.Err? ==>
        r == Err(CoreError.Config("Trace sampling rate must be between 0.0 and 1.0"))
    {
      if logLevel !in ["trace", "debug", "info", "warn", "error"] then
        Err(CoreError.Config("Invalid log level: " + logLevel))
      else if !(traceSamplingRate.Finite? && 0.0 <= traceSamplingRate.r <= 1.0) then
        Err(CoreError.Config("Trace sampling rate must be between 0.0 and 1.0"))
      else Ok(())
    }
  }

  datatype WasmConfig = WasmConfig(
    enabled: bool, pluginDir: string, memoryLimit: string, executionTimeout: string, maxPlugins: u32)
  {
    function Validate(): (r: CoreResult<()>)
      ensures r.Ok? <==> maxPlugins > 0
      ensures r.Err? ==> r.error == CoreError.Config("Max plugins must be greater than 0")
    {
      if maxPlugins == 0 then Err(CoreError.Config("Max plugins must be greater than 0")) else Ok(())
    }
  }

  datatype TypesConfig = TypesConfig(schemaDir: string, autoRegister: bool, validationEnabled: bool)

  datatype Config = Config(
    server: ServerConfig, storage: StorageConfig, ingestion: IngestionConfig,
    query: QueryConfig, monitoring: MonitoringConfig, wasm: WasmConfig, types: TypesConfig)
  {
    /** Sections are checked in declaration order; the first failure is the result. */
    function Validate(): (r: CoreResult<()>)
      ensures r.Ok? <==> (server.Validate().Ok? && storage.Validate().Ok? && ingestion.Validate().Ok?
                          && query.Validate().Ok? && monitoring.Validate().Ok? && wasm.Validate().Ok?)
      ensures server.Validate().Err? ==> r == server.Validate()
      ensures server.Validate().Ok? && storage.Validate().Err? ==> r == storage.Validate()
      ensures server.Validate().Ok? && storage.Validate().Ok? && ingestion.Validate().Err? ==> r == ingestion.Validate()
      ensures server.Validate().Ok? && storage.Validate().Ok? && ingestion.Validate().Ok? && query.Validate().Err? ==>
        r == query.Validate()
      ensures (server.Validate().Ok? && storage.Validate().Ok? && ingestion.Validate().Ok? && query.Validate().Ok?
               && monitoring.Validate().Err?) ==> r == monitoring.Validate()
      ensures (server.Validate().Ok? && storage.Validate().Ok? && ingestion.Validate().Ok? && query.Validate().Ok?
               && monitoring.Validate().Ok? && wasm.Validate().Err?) ==> r == wasm.Validate()
      ensures r.Err? ==> r in {server.Validate(), storage.Validate(), ingestion.Validate(),
                                query.Validate(), monitoring.Validate(), wasm.Validate()}
    {
      if server.Validate().Err? then server.Validate()
      else if storage.Validate().Err? then storage.Validate()
      else if ingestion.Validate().Err? then ingestion.Validate()
      else if query.Validate().Err? then query.Validate()
      else if monitoring.Validate().Err? then monitoring.Validate()
      else wasm.Validate()
    }
  }

  const DEFAULT_SERVER: ServerConfig := ServerConfig("0.0.0.0", 8080, 9090, 8081, 8082, 9091, 8083)
  const DEFAULT_STORAGE: StorageConfig := StorageConfig(
    RealtimeStorageConfig("redb", "/data/realtime", "16GB", "1s"),
    AnalyticalStorageConfig("duckdb", "/data/analytical", "64GB", 32),
    ArchiveStorageConfig("rocksdb", "/data/archive", "lz4", "8GB"))
  const DEFAULT_INGESTION: IngestionConfig := IngestionConfig([], "1MB", 1000, "100ms")
  const DEFAULT_QUERY: QueryConfig := QueryConfig("4GB", "300s", 1000, "30s")
  const DEFAULT_MONITORING: MonitoringConfig := MonitoringConfig(9091, "info", Finite(0.1))
  const DEFAULT_WASM: WasmConfig := WasmConfig(true, "./plugins", "128MB", "5s", 100)
  const DEFAULT_TYPES: TypesConfig := TypesConfig("./schemas", true, true)
  const DEFAULT_CONFIG: Config := Config.Config(DEFAULT_SERVER, DEFAULT_STORAGE, DEFAULT_INGESTION,
    DEFAULT_QUERY, DEFAULT_MONITORING, DEFAULT_WASM, DEFAULT_TYPES)

  /** The built-in defaults pass validation. */
  lemma DefaultConfigIsValid()
    ensures DEFAULT_CONFIG.Validate().Ok?
  {
    assert Distinct(DEFAULT_SERVER.Ports());
  }

  /** Giving two server endpoints the same port is refused. */
  lemma SharedPortIsRejected(c: ServerConfig)
    requires c.host != [] && c.restPort == c.grpcPort
    ensures c.Validate() == Err(CoreError.Config("Duplicate port: " + NatToString(c.restPort)))
  {
    assert c.Ports()[0] == c.Ports()[1];
    assert FirstRepeatedAt(c.Ports(), 0);
  }
}

=== FILE: dafny/core_error.dfy ===
// The system-wide error type of fdc-core: its variants, the text each one
// displays, its stable error code, which errors are retryable, and the
// `with_context` adapter that wraps any error as an internal one.
module CoreError {
  import opened Wrappers
  import opened Text
  import opened Ints

  /**
   * One variant per error kind. The wrapped foreign errors (I/O, JSON,
   * bincode, decimal, UUID) are represented by the text they display.
   */
  datatype Error =
    | Config(message: string)
    | TypeError(message: string)
    | Wasm(message: string)
    | Storage(message: string)
    | Query(message: string)
    | Serialization(message: string)
    | Validation(message: string)
    | Network(message: string)
    | Memory(message: string)
    | Plugin(message: string)
    | Internal(message: string)
    | Io(source: string)
    | Json(source: string)
    | Bincode(source: string)
    | Decimal(source: string)
    | Uuid(source: string)
    | Parse(message: string)
    | Timeout(durationMs: u64)
    | NotFound(resource: string)
    | AlreadyExists(resource: string)
    | PermissionDenied(operation: string)
    | ResourceExhausted(resource: string)
    | InvalidArgument(argument: string)
    | Unimplemented(feature: string)

  type CoreResult<T> = Result<T, Error>

  /** The variant's position in the declaration, used to speak of "the same variant". */
  function VariantIndex(e: Error): nat
  {
    match e
    case Config(_) => 0
    case TypeError(_) => 1
    case Wasm(_) => 2
    case Storage(_) => 3
    case Query(_) => 4
    case Serialization(_) => 5
    case Validation(_) => 6
    case Network(_) => 7
    case Memory(_) => 8
    case Plugin(_) => 9
    case Internal(_) => 10
    case Io(_) => 11
    case Json(_) => 12
    case Bincode(_) => 13
    case Decimal(_) => 14
    case Uuid(_) => 15
    case Parse(_) => 16
    case Timeout(_) => 17
    case NotFound(_) => 18
    case AlreadyExists(_) => 19
    case PermissionDenied(_) => 20
    case ResourceExhausted(_) => 21
    case InvalidArgument(_) => 22
    case Unimplemented(_) => 23
  }

  /** The stable machine-readable code of each variant. */
  function ErrorCode(e: Error): (code: string)
  {
    match e
    case Config(_) => "CONFIG_ERROR"
    case TypeError(_) => "TYPE_ERROR"
    case Wasm(_) => "WASM_ERROR"
    case Storage(_) => "STORAGE_ERROR"
    case Query(_) => "QUERY_ERROR"
    case Serialization(_) => "SERIALIZATION_ERROR"
    case Validation(_) => "VALIDATION_ERROR"
    case Network(_) => "NETWORK_ERROR"
    case Memory(_) => "MEMORY_ERROR"
    case Plugin(_) => "PLUGIN_ERROR"
    case Internal(_) => "INTERNAL_ERROR"
    case Io(_) => "IO_ERROR"
    case Json(_) => "JSON_ERROR"
    case Bincode(_) => "BINCODE_ERROR"
    case Decimal(_) => "DECIMAL_ERROR"
    case Uuid(_) => "UUID_ERROR"
    case Parse(_) => "PARSE_ERROR"
    case Timeout(_) => "TIMEOUT_ERROR"
    case NotFound(_) => "NOT_FOUND"
    case AlreadyExists(_) => "ALREADY_EXISTS"
    case PermissionDenied(_) => "PERMISSION_DENIED"
    case ResourceExhausted(_) => "RESOURCE_EXHAUSTED"
    case InvalidArgument(_) => "INVALID_ARGUMENT"
    case Unimplemented(_) => "UNIMPLEMENTED"
  }

  /**
   * Reading a code back to the variant that produces it; candidates are
   * grouped by length so that each code is compared with few literals.
   */
  function VariantOfCode(code: string): Option<nat>
  {
    match |code|
    case 8 =>
      if code == "IO_ERROR" then Some(11)
      else None
    case 9 =>
      if code == "NOT_FOUND" then Some(18)
      else None
    case 10 =>
      if code == "TYPE_ERROR" then Some(1)
      else if code == "WASM_ERROR" then Some(2)
      else if code == "JSON_ERROR" then Some(12)
      else if code == "UUID_ERROR" then Some(15)
      else None
    case 11 =>
      if code == "QUERY_ERROR" then Some(4)
      else if code == "PARSE_ERROR" then Some(16)
      else None
    case 12 =>
      if code == "CONFIG_ERROR" then Some(0)
      else if code == "MEMORY_ERROR" then Some(8)
      else if code == "PLUGIN_ERROR" then Some(9)
      else None
    case 13 =>
      if code == "STORAGE_ERROR" then Some(3)
      else if code == "NETWORK_ERROR" then Some(7)
      else if code == "BINCODE_ERROR" then Some(13)
      else if code == "DECIMAL_ERROR" then Some(14)
      else if code == "TIMEOUT_ERROR" then Some(17)
      else if code == "UNIMPLEMENTED" then Some(23)
      else None
    case 14 =>
      if code == "INTERNAL_ERROR" then Some(10)
      else if code == "ALREADY_EXISTS" then Some(19)
      else None
    case 16 =>
      if code == "VALIDATION_ERROR" then Some(6)
      else if code == "INVALID_ARGUMENT" then Some(22)
      else None
    case 17 =>
      if code == "PERMISSION_DENIED" then Some(20)
      else None
    case 18 =>
      if code == "RESOURCE_EXHAUSTED" then Some(21)
      else None
    case 19 =>
      if code == "SERIALIZATION_ERROR" then Some(5)
      else None
    case _ => None
  }

  /** Every code reads back to the variant that produced it. */
  lemma ErrorCodeRoundTrip(e: Error)
    ensures VariantOfCode(ErrorCode(e)) == Some(VariantIndex(e))
  {
    if VariantIndex(e) < 8 {
      RoundTripIn(e, 0, 8);
    } else if VariantIndex(e) < 16 {
      RoundTripIn(e, 8, 16);
    } else {
      RoundTripIn(e, 16, 24);
    }
  }

  lemma RoundTripIn(e: Error, lo: nat, hi: nat)
    requires lo <= VariantIndex(e) < hi
    requires (lo, hi) in {(0, 8), (8, 16), (16, 24)}
    ensures VariantOfCode(ErrorCode(e)) == Some(VariantIndex(e))
  {
  }

  /** Two errors share a code exactly when they are the same variant. */
  lemma ErrorCodeIdentifiesVariant(a: Error, b: Error)
    ensures ErrorCode(a) == ErrorCode(b) <==> VariantIndex(a) == VariantIndex(b)
  {
    ErrorCodeRoundTrip(a);
    ErrorCodeRoundTrip(b);
  }

  /** Network, timeout, resource-exhaustion and I/O errors may succeed when retried. */
  predicate IsRetryable(e: Error)
  {
    e.Network? || e.Timeout? || e.ResourceExhausted? || e.Io?
  }

  lemma RetryableByCode(e: Error)
    ensures IsRetryable(e) <==>
      ErrorCode(e) in ["NETWORK_ERROR", "TIMEOUT_ERROR", "RESOURCE_EXHAUSTED", "IO_ERROR"]
  {
    var c := ErrorCode(e);
    if c in ["NETWORK_ERROR", "TIMEOUT_ERROR", "RESOURCE_EXHAUSTED", "IO_ERROR"] {
      assert VariantOfCode(c) in {Some(7), Some(17), Some(21), Some(11)};
    }
  }

  /** The variant's fixed display prefix; the display is this prefix followed by the payload. */
  function DisplayPrefix(e: Error): string
  {
    match e
    case Config(_) => "Configuration error: "
    case TypeError(_) => "Type system error: "
    case Wasm(_) => "WASM runtime error: "
    case Storage(_) => "Storage error: "
    case Query(_) => "Query error: "
    case Serialization(_) => "Serialization error: "
    case Validation(_) => "Validation error: "
    case Network(_) => "Network error: "
    case Memory(_) => "Memory error: "
    case Plugin(_) => "Plugin error: "
    case Internal(_) => "Internal error: "
    case Io(_) => "IO error: "
    case Json(_) => "JSON error: "
    case Bincode(_) => "Bincode error: "
    case Decimal(_) => "Decimal error: "
    case Uuid(_) => "UUID error: "
    case Parse(_) => "Parse error: "
    case Timeout(_) => "Timeout error: operation timed out after "
    case NotFound(_) => "Not found: "
    case AlreadyExists(_) => "Already exists: "
    case PermissionDenied(_) => "Permission denied: "
    case ResourceExhausted(_) => "Resource exhausted: "
    case InvalidArgument(_) => "Invalid argument: "
    case Unimplemented(_) => "Unimplemented: "
  }

  /** The text carried by the variant (for a timeout, the duration in decimal). */
  function Payload(e: Error): string
  {
    match e
    case Io(s) => s
    case Json(s) => s
    case Bincode(s) => s
    case Decimal(s) => s
    case Uuid(s) => s
    case Timeout(ms) => NatToString(ms) + "ms"
    case NotFound(r) => r
    case AlreadyExists(r) => r
    case PermissionDenied(o) => o
    case ResourceExhausted(r) => r
    case InvalidArgument(a) => a
    case Unimplemented(f) => f
    case _ => e.message
  }

  /** The `Display` text of an error. */
  function ToString(e: Error): (s: string)
    ensures |DisplayPrefix(e)| <= |s| && s[..|DisplayPrefix(e)|] == DisplayPrefix(e)
    ensures e.Timeout? ==> s[|s| - 2..] == "ms"
  {
    DisplayPrefix(e) + Payload(e)
  }

  /** `with_context`: any error becomes an internal error whose message is `context: <error text>`. */
  function WithContext<T>(r: CoreResult<T>, context: string): (out: CoreResult<T>)
    ensures r.Ok? <==> out.Ok?
    ensures r.Ok? ==> out == r
    ensures r.Err? ==> out.error.Internal? && out.error.message == context + ": " + ToString(r.error)
  {
    match r
    case Ok(v) => Ok(v)
    case Err(e) => Err(Internal(context + ": " + ToString(e)))
  }

  /** A wrapped error reports the internal code and is never retried, whatever it wrapped. */
  lemma WithContextHidesKind<T>(r: CoreResult<T>, context: string)
    requires r.Err?
    ensures ErrorCode(WithContext(r, context).error) == "INTERNAL_ERROR"
    ensures !IsRetryable(WithContext(r, context).error)
    ensures ToString(WithContext(r, context).error)
            == "Internal error: " + context + ": " + DisplayPrefix(r.error) + Payload(r.error)
  {
    var m := context + ": " + ToString(r.error);
    var w := WithContext(r, context).error;
    assert w == Internal(m);
    assert ToString(w) == "Internal error: " + m;
    assert ToString(r.error) == DisplayPrefix(r.error) + Payload(r.error);
  }
}

=== FILE: dafny/core_memory.dfy ===
// Memory utilities of fdc-core: power-of-two alignment, a bounded
// append-only byte buffer, an allocation monitor and a round-robin
// pre-allocator of buffers.
module CoreMemory {
  import opened Ints
  import opened Floats
  import opened CoreError
  import opened Wrappers

  const CACHE_LINE: u64 := 64
  const PAGE: u64 := 4096

  /** `x & !m` on naturals: the bits of `x` that are clear in `m`. */
  function AndNot(x: nat, m: nat): (r: nat)
    ensures r <= x
    decreases x
  {
    if x == 0 then 0
    else 2 * AndNot(x / 2, m / 2) + (if x % 2 == 1 && m % 2 == 0 then 1 else 0)
  }

  /**
   * `align_to`: `(size + alignment - 1) & !(alignment - 1)` on 64-bit
   * `usize`, where both the sum and the decrement wrap around.
   */
  function AlignTo(size: u64, alignment: u64): (r: u64)
    ensures r <= (size + alignment + TWO_64 - 1) % TWO_64
  {
    var x := (size + alignment + TWO_64 - 1) % TWO_64;
    var m := (alignment + TWO_64 - 1) % TWO_64;
    AndNot(x, m)
  }

  function AlignToCacheLine(size: u64): u64
  {
    AlignTo(size, CACHE_LINE)
  }

  function AlignToPage(size: u64): u64
  {
    AlignTo(size, PAGE)
  }

  lemma {:induction false} AndNotZero(x: nat)
    ensures AndNot(x, 0) == x
    decreases x
  {
    if x > 0 {
      AndNotZero(x / 2);
    }
  }

  /** Clearing the low `k` bits rounds down to a multiple of `2^k`. */
  lemma {:induction false} AndNotLowMask(x: nat, k: nat)
    ensures AndNot(x, Pow2(k) - 1) == x - x % Pow2(k)
    decreases x
  {
    if k == 0 || x == 0 {
      LowMaskBase(x, k);
    } else {
      AndNotLowMask(x / 2, k - 1);
      LowMaskStep(x, k);
    }
  }

  /** Clearing no bits, or clearing bits of 0, leaves `x` as it is. */
  lemma LowMaskBase(x: nat, k: nat)
    requires k == 0 || x == 0
    ensures AndNot(x, Pow2(k) - 1) == x - x % Pow2(k)
  {
    if k == 0 {
      AndNotZero(x);
    } else {
      MultipleModZero(0, Pow2(k));
    }
  }

  /** Clearing the low `k` bits of `x` is clearing the low `k - 1` bits of `x / 2` and doubling. */
  lemma LowMaskStep(x: nat, k: nat)
    requires x > 0 && k > 0
    requires AndNot(x / 2, Pow2(k - 1) - 1) == x / 2 - (x / 2) % Pow2(k - 1)
    ensures AndNot(x, Pow2(k) - 1) == x - x % Pow2(k)
  {
    var n := Pow2(k);
    var p := Pow2(k - 1);
    AndNotOddMask(x, n - 1, p - 1);
    DoubleRoundDown(x, p, n, AndNot(x / 2, p - 1));
  }

  /** Clearing an odd mask clears bit 0 and the rest of the mask from `x / 2`. */
  lemma AndNotOddMask(x: nat, m: nat, h: nat)
    requires x > 0 && m == 2 * h + 1
    ensures AndNot(x, m) == 2 * AndNot(x / 2, h)
  {
    assert m % 2 == 1 && m / 2 == h;
  }

  /** Rounding half of `x` down to a multiple of `p` and doubling it rounds `x` down to a multiple of `2p`. */
  lemma DoubleRoundDown(x: nat, p: nat, n: nat, a: int)
    requires p >= 1 && n == 2 * p && a == x / 2 - (x / 2) % p
    ensures 2 * a == x - x % n
  {
    ModHalf(x, p);
  }

  lemma ModHalf(x: nat, p: nat)
    requires p >= 1
    ensures x % (2 * p) == 2 * ((x / 2) % p) + x % 2
  {
    var h := x / 2;
    var q := h / p;
    assert h == q * p + h % p;
    assert x == 2 * h + x % 2;
    assert x == q * (2 * p) + (2 * (h % p) + x % 2);
    var rem := 2 * (h % p) + x % 2;
    assert 0 <= rem < 2 * p;
    MultipleModZero(q, 2 * p);
    ModOfMultiplePlus(q, 2 * p, rem);
  }

  lemma ModOfMultiplePlus(q: int, d: int, rem: int)
    requires d > 0 && 0 <= rem < d
    ensures (q * d + rem) % d == rem
  {
    var x := q * d + rem;
    assert x == d * (x / d) + x % d;
    assert (q - x / d) * d == x % d - rem;
    MulSign(q - x / d, d);
  }

  /** Without wrap-around, `align_to` clears the low bits of `size + alignment - 1`. */
  lemma AlignToNoWrap(size: u64, alignment: u64)
    requires 1 <= alignment && size + alignment - 1 < TWO_64
    ensures AlignTo(size, alignment) == AndNot(size + alignment - 1, alignment - 1)
  {
    assert (size + alignment + TWO_64 - 1) % TWO_64 == size + alignment - 1 by {
      ModOfMultiplePlus(1, TWO_64, size + alignment - 1);
    }
    assert (alignment + TWO_64 - 1) % TWO_64 == alignment - 1 by {
      ModOfMultiplePlus(1, TWO_64, alignment - 1);
    }
  }

  /**
   * For a power-of-two alignment and no wrap-around, `align_to` gives a
   * multiple of the alignment that is at least `size` and less than one
   * alignment above it.
   */
  lemma AlignToRoundsUp(size: u64, k: nat)
    requires Pow2(k) < TWO_64 && size + Pow2(k) - 1 < TWO_64
    ensures AlignTo(size, Pow2(k)) % Pow2(k) == 0
    ensures size <= AlignTo(size, Pow2(k)) < size + Pow2(k)
  {
    var a := Pow2(k);
    var x := size + a - 1;
    AlignToNoWrap(size, a);
    AndNotLowMask(x, k);
    RoundDownToMultiple(x, a);
  }

  lemma RoundDownToMultiple(x: nat, a: nat)
    requires a >= 1
    ensures (x - x % a) % a == 0
    ensures x - a < x - x % a <= x
  {
    assert x == a * (x / a) + x % a;
    assert x - x % a == (x / a) * a;
    MultipleModZero(x / a, a);
  }

  /** The aligned size is the least one: no smaller multiple of the alignment covers `size`. */
  lemma AlignToIsLeast(size: u64, k: nat, m: nat)
    requires Pow2(k) < TWO_64 && size + Pow2(k) - 1 < TWO_64
    requires m % Pow2(k) == 0 && m >= size
    ensures AlignTo(size, Pow2(k)) <= m
  {
    AlignToRoundsUp(size, k);
    var r := AlignTo(size, Pow2(k));
    if m < r {
      MultiplesApart(m, r, Pow2(k));
    }
  }

  lemma AlignToExample()
    ensures AlignTo(10, 8) == 16
  {
    assert Pow2(3) == 8;
    AlignToNoWrap(10, 8);
    AndNotLowMask(17, 3);
  }

  lemma AlignToCacheLineExample()
    ensures AlignToCacheLine(100) == 128
  {
    assert Pow2(6) == 64;
    AlignToNoWrap(100, 64);
    AndNotLowMask(163, 6);
  }

  lemma AlignToPageExample()
    ensures AlignToPage(5000) == 8192
  {
    assert Pow2(6) == 64;
    assert Pow2(9) == 8 * Pow2(6);
    assert Pow2(12) == 8 * Pow2(9) == 4096;
    AlignToRoundsUp(5000, 12);
    var r := AlignToPage(5000);
    assert r % 4096 == 0 && 5000 <= r < 9096;
    var q := r / 4096;
    assert r == 4096 * q;
    assert 1 < q < 3;
  }

  /**
   * Unless the sum wraps, aligning to a cache line or a page rounds up to
   * the nearest multiple of 64 or 4096 bytes respectively.
   */
  lemma AlignToLineAndPage(size: u64)
    ensures size + 63 < TWO_64 ==>
              AlignToCacheLine(size) % 64 == 0 && size <= AlignToCacheLine(size) < size + 64
    ensures size + 4095 < TWO_64 ==>
              AlignToPage(size) % 4096 == 0 && size <= AlignToPage(size) < size + 4096
  {
    assert Pow2(6) == 64;
    assert Pow2(9) == 8 * Pow2(6);
    assert Pow2(12) == 8 * Pow2(9) == 4096;
    if size + 63 < TWO_64 {
      AlignToRoundsUp(size, 6);
    }
    if size + 4095 < TWO_64 {
      AlignToRoundsUp(size, 12);
    }
  }

  /** `len as f64 / capacity as f64`: NaN for 0/0, and a ratio in [0, 1] while the length fits. */
  function FillRatio(len: nat, capacity: nat): (f: Float)
    requires len <= capacity
    ensures capacity == 0 <==> f.NaN?
    ensures f.Finite? ==> 0.0 <= f.r <= 1.0
  {
    if capacity == 0 then NaN
    else
      var f := len as real / capacity as real;
      assert f * capacity as real == len as real;
      Finite(f)
  }

  /** A byte buffer that only grows up to a cache-line aligned capacity. */
  class ZeroCopyBuffer {
    var data: seq<u8>
    var capacity: u64

    ghost predicate Valid()
      reads this
    {
      |data| <= capacity
    }

    constructor (requested: u64)
      ensures data == [] && capacity == AlignToCacheLine(requested)
      ensures Valid()
    {
      data := [];
      capacity := AlignToCacheLine(requested);
    }

    /** Appends `bytes`, or reports an overflow and leaves the buffer as it was. */
    method Write(bytes: seq<u8>) returns (r: CoreResult<()>)
      requires Valid()
      modifies this
      ensures Valid()
      ensures capacity == old(capacity)
      ensures |old(data)| + |bytes| > capacity ==>
        r == Err(Memory("Buffer overflow")) && data == old(data)
      ensures |old(data)| + |bytes| <= capacity ==> r.Ok? && data == old(data) + bytes
      ensures r.Ok? ==> Read(|old(data)|, |bytes|) == Ok(bytes)
    {
      if |data| + |bytes| > capacity {
        return Err(Memory("Buffer overflow"));
      }
      data := data + bytes;
      assert data[|old(data)|..|old(data)| + |bytes|] == bytes;
      return Ok(());
    }

    /** The `len` bytes at `offset`, or an error when they are not all written. */
    function Read(offset: nat, len: nat): (r: CoreResult<seq<u8>>)
      reads this
      ensures r.Ok? <==> offset + len <= |data|
      ensures r.Ok? ==> |r.value| == len && forall i :: 0 <= i < len ==> r.value[i] == data[offset + i]
      ensures r.Err? ==> r.error == Memory("Read beyond buffer")
    {
      if offset + len > |data| then Err(Memory("Read beyond buffer"))
      else Ok(data[offset..offset + len])
    }

    method Clear()
      requires Valid()
      modifies this
      ensures data == [] && capacity == old(capacity) && Valid()
    {
      data := [];
    }

    /** The number of bytes written, never above the capacity. */
    function Len(): (n: nat)
      reads this
      ensures Valid() ==> n <= capacity
      ensures n == 0 <==> data == []
    {
      |data|
    }

    /** Empty exactly when nothing is written. */
    predicate IsEmpty()
      reads this
      ensures IsEmpty() <==> Len() == 0
    {
      |data| == 0
    }

    function RemainingCapacity(): (n: u64)
      requires Valid()
      reads this
      ensures n + Len() == capacity
      ensures n == capacity <==> IsEmpty()
    {
      capacity - |data|
    }
  }

  /** Running allocation counters (unbounded; `usize` overflow is not modelled). */
  datatype MemoryStats = MemoryStats(
    totalAllocated: nat, totalFreed: nat, currentUsage: nat,
    peakUsage: nat, allocationCount: nat, deallocationCount: nat)
  {
    /**
     * Current usage never exceeds what was allocated nor the recorded peak,
     * and is never below allocated-minus-freed (saturation only ever raises it).
     */
    predicate Consistent()
    {
      currentUsage <= peakUsage <= totalAllocated
      && currentUsage <= totalAllocated
      && totalAllocated - totalFreed <= currentUsage
    }
  }

  const EMPTY_STATS: MemoryStats := MemoryStats(0, 0, 0, 0, 0, 0)

  class MemoryMonitor {
    var stats: MemoryStats

    constructor ()
      ensures stats == EMPTY_STATS && stats.Consistent()
    {
      stats := EMPTY_STATS;
    }

    method RecordAllocation(size: nat)
      requires stats.Consistent()
      modifies this
      ensures stats.Consistent()
      ensures stats.totalAllocated == old(stats.totalAllocated) + size
      ensures stats.currentUsage == old(stats.currentUsage) + size
      ensures stats.allocationCount == old(stats.allocationCount) + 1
      ensures stats.peakUsage == if old(stats.currentUsage) + size > old(stats.peakUsage)
                                 then old(stats.currentUsage) + size else old(stats.peakUsage)
      ensures stats.totalFreed == old(stats.totalFreed)
      ensures stats.deallocationCount == old(stats.deallocationCount)
    {
      var s := stats;
      var current := s.currentUsage + size;
      stats := s.(totalAllocated := s.totalAllocated + size,
                  currentUsage := current,
                  allocationCount := s.allocationCount + 1,
                  peakUsage := if current > s.peakUsage then current else s.peakUsage);
    }

    method RecordDeallocation(size: nat)
      requires stats.Consistent()
      modifies this
      ensures stats.Consistent()
      ensures stats.totalFreed == old(stats.totalFreed) + size
      ensures stats.currentUsage == if old(stats.currentUsage) >= size
                                    then old(stats.currentUsage) - size else 0
      ensures stats.deallocationCount == old(stats.deallocationCount) + 1
      ensures stats.totalAllocated == old(stats.totalAllocated)
      ensures stats.peakUsage == old(stats.peakUsage)
      ensures stats.allocationCount == old(stats.allocationCount)
    {
      var s := stats;
      stats := s.(totalFreed := s.totalFreed + size,
                  currentUsage := if s.currentUsage >= size then s.currentUsage - size else 0,
                  deallocationCount := s.deallocationCount + 1);
    }

    method ResetStats()
      modifies this
      ensures stats == EMPTY_STATS && stats.Consistent()
    {
      stats := EMPTY_STATS;
    }
  }

  /** A fixed set of buffers handed out in turn, each cleared on hand-out. */
  class PreAllocator {
    var buffers: seq<ZeroCopyBuffer>
    var current: nat

    ghost predicate Valid()
      reads this, buffers
    {
      (|buffers| == 0 ==> current == 0)
      && (|buffers| > 0 ==> current < |buffers|)
      && (forall i, j :: 0 <= i < j < |buffers| ==> buffers[i] != buffers[j])
      && (forall i :: 0 <= i < |buffers| ==> buffers[i].Valid())
    }

    constructor (count: nat, size: u64)
      ensures Valid()
      ensures |buffers| == count && current == 0
      ensures forall i :: 0 <= i < count ==>
        fresh(buffers[i]) && buffers[i].data == [] && buffers[i].capacity == AlignToCacheLine(size)
    {
      var bs: seq<ZeroCopyBuffer> := [];
      for n := 0 to count
        invariant |bs| == n
        invariant forall i :: 0 <= i < n ==>
          fresh(bs[i]) && bs[i].data == [] && bs[i].capacity == AlignToCacheLine(size) && bs[i].Valid()
        invariant forall i, j :: 0 <= i < j < n ==> bs[i] != bs[j]
      {
        var b := new ZeroCopyBuffer(size);
        bs := bs + [b];
      }
      buffers := bs;
      current := 0;
    }

    /** Hands out the current buffer, cleared, and moves on to the next one cyclically. */
    method GetBuffer() returns (b: ZeroCopyBuffer)
      requires Valid() && |buffers| > 0
      modifies this, buffers[current]
      ensures Valid()
      ensures buffers == old(buffers)
      ensures b == buffers[old(current)]
      ensures current == (old(current) + 1) % |buffers|
      ensures b.data == [] && b.capacity == old(b.capacity)
    {
      var i := current;
      current := (current + 1) % |buffers|;
      b := buffers[i];
      b.Clear();
    }

    /** Fill ratio of each buffer, `len / capacity` as `f64` (0/0 is NaN). */
    function GetUsage(): (r: seq<Float>)
      reads this, buffers
      requires Valid()
      ensures |r| == |buffers|
      ensures forall i :: 0 <= i < |r| ==>
        (buffers[i].capacity == 0 <==> r[i].NaN?)
        && (r[i].Finite? ==> 0.0 <= r[i].r <= 1.0)
    {
      seq(|buffers|, i requires 0 <= i < |buffers| && buffers[i].Valid() reads this, buffers =>
        FillRatio(|buffers[i].data|, buffers[i].capacity as nat))
    }
  }
}

=== FILE: dafny/core_time.dfy ===
// Nanosecond time arithmetic of fdc-core: rounding a timestamp to an
// interval, offsets and differences, and closed time ranges. Timestamps are
// `i64` nanoseconds; arithmetic wraps at 64 bits as a release build does.
module CoreTime {
  import opened Ints
  import opened Wrappers
  import opened CoreError

  const NANOSECOND: i64 := 1
  const MICROSECOND: i64 := 1_000
  const MILLISECOND: i64 := 1_000_000
  const SECOND: i64 := 1_000_000_000
  const MINUTE: i64 := 60 * SECOND
  const HOUR: i64 := 60 * MINUTE
  const DAY: i64 := 24 * HOUR
  const WEEK: i64 := 7 * DAY

  /** The interval may not be zero (division by zero), nor may `i64::MIN / -1` be asked for. */
  predicate DivisionDefined(ts: i64, interval: i64)
  {
    interval != 0 && !(ts == I64_MIN && interval == -1)
  }

  /** `floor_to_interval` as written: truncating division, then multiplication. */
  function FloorToInterval(ts: i64, interval: i64): (r: i64)
    requires DivisionDefined(ts, interval)
    ensures interval > 0 && ts >= 0 ==> r <= ts < r + interval && r % interval == 0
    ensures interval > 0 && ts < 0 ==> ts <= r < ts + interval && r % interval == 0
  {
    TruncDivShrinks(ts, interval);
    if interval > 0 then
      TruncDivBounds(ts, interval);
      TruncDiv(ts, interval) * interval
    else
      TruncDiv(ts, interval) * interval
  }

  /** The rounded-down timestamp lies above a negative timestamp that is not on the grid. */
  lemma FloorToIntervalRoundsNegativeUp()
    ensures FloorToInterval(-1, 10) == 0
    ensures FloorToInterval(-1, 10) > -1
  {
  }

  /** The largest multiple of `interval` that does not exceed `ts`. */
  function FloorToMultiple(ts: int, interval: int): (r: int)
    requires interval > 0
    ensures r % interval == 0
    ensures r <= ts < r + interval
  {
    DivBounds(ts, interval);
    MultipleModZero(ts / interval, interval);
    (ts / interval) * interval
  }

  /** The largest multiple is unique: any other multiple at or below `ts` is below it. */
  lemma FloorToMultipleIsGreatest(ts: int, interval: int, m: int)
    requires interval > 0 && m % interval == 0 && m <= ts
    ensures m <= FloorToMultiple(ts, interval)
  {
    var f := FloorToMultiple(ts, interval);
    if m > f {
      MultiplesApart(f, m, interval);
    }
  }

  /** On non-negative timestamps the written version already rounds down correctly. */
  lemma FloorToIntervalAgreesOnNonNegative(ts: i64, interval: i64)
    requires ts >= 0 && interval > 0
    ensures FloorToInterval(ts, interval) == FloorToMultiple(ts, interval)
  {
  }

  /** `ceil_to_interval` as written: `((ts + interval - 1) / interval) * interval`, wrapping. */
  function CeilToInterval(ts: i64, interval: i64): (r: i64)
    requires interval != 0
    requires !(WrapI64(WrapI64(ts + interval) - 1) == I64_MIN && interval == -1)
    ensures interval > 0 && ts >= 0 && ts + interval < TWO_63 ==>
      ts <= r < ts + interval && r % interval == 0
  {
    var x := WrapI64(WrapI64(ts + interval) - 1);
    TruncDivShrinks(x, interval);
    if interval > 0 && ts >= 0 && ts + interval < TWO_63 then
      WrapI64Identity(ts + interval);
      WrapI64Identity(ts + interval - 1);
      TruncDivBounds(x, interval);
      TruncDiv(x, interval) * interval
    else
      TruncDiv(x, interval) * interval
  }

  /** The rounded-up timestamp can lie above the next grid point for a negative timestamp. */
  lemma CeilToIntervalOvershootsNegative()
    ensures CeilToInterval(-15, 10) == 0
    ensures CeilToMultiple(-15, 10) == -10
  {
  }

  /** The smallest multiple of `interval` that is not below `ts`. */
  function CeilToMultiple(ts: int, interval: int): (r: int)
    requires interval > 0
    ensures r % interval == 0
    ensures ts <= r < ts + interval
  {
    DivBounds(ts + interval - 1, interval);
    MultipleModZero((ts + interval - 1) / interval, interval);
    ((ts + interval - 1) / interval) * interval
  }

  lemma CeilToMultipleIsLeast(ts: int, interval: int, m: int)
    requires interval > 0 && m % interval == 0 && m >= ts
    ensures CeilToMultiple(ts, interval) <= m
  {
    var c := CeilToMultiple(ts, interval);
    if m < c {
      MultiplesApart(m, c, interval);
    }
  }

  predicate IsInRange(ts: i64, start: i64, end: i64)
  {
    start <= ts <= end
  }

  function DiffNanos(ts1: i64, ts2: i64): i64
  {
    WrapI64(ts1 - ts2)
  }

  function AddNanos(ts: i64, nanos: i64): i64
  {
    WrapI64(ts + nanos)
  }

  function SubNanos(ts: i64, nanos: i64): i64
  {
    WrapI64(ts - nanos)
  }

  lemma WrapI64Unique(x: int, y: i64)
    requires (y - x) % TWO_64 == 0
    ensures WrapI64(x) == y
  {
    var w := WrapI64(x);
    assert (w - y) % TWO_64 == 0;
    assert -TWO_64 < w - y < TWO_64;
  }

  /** Subtracting an offset undoes adding it, even across wrap-around. */
  lemma SubUndoesAdd(ts: i64, nanos: i64)
    ensures SubNanos(AddNanos(ts, nanos), nanos) == ts
  {
    var a := AddNanos(ts, nanos);
    assert (a - (ts + nanos)) % TWO_64 == 0;
    WrapI64Unique(a - nanos, ts);
  }

  /** The difference to an offset timestamp is the offset, even across wrap-around. */
  lemma DiffOfAdd(ts: i64, nanos: i64)
    ensures DiffNanos(AddNanos(ts, nanos), ts) == nanos
  {
    var a := AddNanos(ts, nanos);
    assert (a - (ts + nanos)) % TWO_64 == 0;
    WrapI64Unique(a - ts, nanos);
  }

  /** A closed interval of timestamps; the fields are public, so `start <= end` is not enforced. */
  datatype TimeRange = TimeRange(start: i64, end: i64)
  {
    predicate Valid() { start <= end }

    predicate Contains(ts: i64)
    {
      IsInRange(ts, start, end)
    }

    function DurationNanos(): (d: i64)
      ensures Valid() && end - start < TWO_63 ==> d == end - start >= 0
    {
      DiffNanos(end, start)
    }

    predicate Overlaps(other: TimeRange)
    {
      start <= other.end && end >= other.start
    }

    /** The common part, or `None` when the ranges do not meet. */
    function Intersection(other: TimeRange): (r: Option<TimeRange>)
      ensures r.Some? ==> r.value.Valid()
    {
      if !Overlaps(other) then None
      else
        var s := if start >= other.start then start else other.start;
        var e := if end <= other.end then end else other.end;
        NewRange(s, e).ToOption()
    }

    /** The smallest range covering both; panics in the source when that bound pair is inverted. */
    function Union(other: TimeRange): (r: TimeRange)
      requires (if start <= other.start then start else other.start)
            <= (if end >= other.end then end else other.end)
      ensures r.Valid()
      ensures r.start <= start && r.start <= other.start && r.end >= end && r.end >= other.end
      ensures r.start == start || r.start == other.start
      ensures r.end == end || r.end == other.end
    {
      var s := if start <= other.start then start else other.start;
      var e := if end >= other.end then end else other.end;
      NewRange(s, e).value
    }
  }

  /** `TimeRange::new`: rejects a start after the end. */
  function NewRange(start: i64, end: i64): (r: CoreResult<TimeRange>)
    ensures r.Ok? <==> start <= end
    ensures r.Ok? ==> r.value == TimeRange(start, end) && r.value.Valid()
    ensures r.Err? ==> r.error == InvalidArgument("Start time must be before end time")
  {
    if start > end then Err(InvalidArgument("Start time must be before end time"))
    else Ok(TimeRange(start, end))
  }

  /** For valid ranges, overlapping means sharing a timestamp. */
  lemma OverlapsIffCommonPoint(a: TimeRange, b: TimeRange)
    requires a.Valid() && b.Valid()
    ensures a.Overlaps(b) <==> exists t: i64 :: a.Contains(t) && b.Contains(t)
  {
    if a.Overlaps(b) {
      var t: i64 := if a.start >= b.start then a.start else b.start;
      assert a.Contains(t) && b.Contains(t);
    }
  }

  /** The intersection holds exactly the timestamps both ranges hold. */
  lemma IntersectionIsExact(a: TimeRange, b: TimeRange)
    requires a.Valid() && b.Valid()
    ensures a.Intersection(b).None? <==> !a.Overlaps(b)
    ensures a.Intersection(b).Some? ==>
      forall t: i64 :: a.Intersection(b).value.Contains(t) <==> a.Contains(t) && b.Contains(t)
  {
  }

  /** Intersection does not depend on the order of its operands. */
  lemma IntersectionCommutes(a: TimeRange, b: TimeRange)
    ensures a.Intersection(b) == b.Intersection(a)
  {
  }

  /** Every timestamp of either operand lies in the union. */
  lemma UnionCovers(a: TimeRange, b: TimeRange, t: i64)
    requires (if a.start <= b.start then a.start else b.start)
          <= (if a.end >= b.end then a.end else b.end)
    requires a.Contains(t) || b.Contains(t)
    ensures a.Union(b).Contains(t)
  {
  }
}

=== FILE: dafny/core_type_registry.dfy ===
// The fdc-core type registry: 21 built-in basic types plus composite, user
// and WASM types, each table keyed by type id, and one name index over all.
module CoreTypeRegistry {
  import opened Wrappers
  import opened Text
  import opened CoreError
  import CV = CoreValue

  datatype BasicTypeKind =
    | Null | Bool
    | Int8 | Int16 | Int32 | Int64 | Int128
    | UInt8 | UInt16 | UInt32 | UInt64 | UInt128
    | Float32 | Float64
    | String | Binary
    | Timestamp
    | Price | Volume | Symbol | ExchangeId

  /** The built-in types in registration order. */
  const BUILTIN_TYPES: seq<(string, BasicTypeKind)> := [
    ("null", Null), ("bool", Bool),
    ("i8", Int8), ("i16", Int16), ("i32", Int32), ("i64", Int64), ("i128", Int128),
    ("u8", UInt8), ("u16", UInt16), ("u32", UInt32), ("u64", UInt64), ("u128", UInt128),
    ("f32", Float32), ("f64", Float64),
    ("string", String), ("binary", Binary),
    ("timestamp", Timestamp),
    ("price", Price), ("volume", Volume), ("symbol", Symbol), ("exchange_id", ExchangeId)
  ]

  /** `size_of::<Vec<u8>>()` and `size_of::<String>()` on a 64-bit target. */
  const HEAP_HANDLE_SIZE: nat := 24

  function BasicTypeSize(kind: BasicTypeKind): nat
  {
    match kind
    case Null => 0
    case Bool => 1
    case Int8 | UInt8 => 1
    case Int16 | UInt16 => 2
    case Int32 | UInt32 | Float32 => 4
    case Int64 | UInt64 | Float64 => 8
    case Int128 | UInt128 => 16
    case String | Binary => HEAP_HANDLE_SIZE
    case Timestamp => 8
    case Price => 16
    case Volume => 8
    case Symbol => HEAP_HANDLE_SIZE
    case ExchangeId => 2
  }

  function BasicTypeAlignment(kind: BasicTypeKind): (a: nat)
    ensures a == 1 || a == 2 || a == 4 || a == 8 || a == 16
  {
    match kind
    case Null => 1
    case Bool => 1
    case Int8 | UInt8 => 1
    case Int16 | UInt16 => 2
    case Int32 | UInt32 | Float32 => 4
    case Int64 | UInt64 | Float64 => 8
    case Int128 | UInt128 => 16
    case String | Binary => 8
    case Timestamp => 8
    case Price => 16
    case Volume => 8
    case Symbol => 8
    case ExchangeId => 2
  }

  predicate IsFixedWidthNumeric(kind: BasicTypeKind)
  {
    kind in {Int8, Int16, Int32, Int64, Int128, UInt8, UInt16, UInt32, UInt64, UInt128, Float32, Float64}
  }

  /** Fixed-width numbers are aligned to their own size, and every size is a whole number of alignments. */
  lemma SizeAndAlignment(kind: BasicTypeKind)
    ensures IsFixedWidthNumeric(kind) ==> BasicTypeSize(kind) == BasicTypeAlignment(kind)
    ensures BasicTypeSize(kind) % BasicTypeAlignment(kind) == 0
  {
  }

  /** The basic kind a value's variant belongs to; decimals and containers have none. */
  function KindOfValue(v: CV.Value): Option<BasicTypeKind>
  {
    match v
    case Null => Some(Null)
    case Bool(_) => Some(Bool)
    case Int8(_) => Some(Int8)
    case Int16(_) => Some(Int16)
    case Int32(_) => Some(Int32)
    case Int64(_) => Some(Int64)
    case Int128(_) => Some(Int128)
    case UInt8(_) => Some(UInt8)
    case UInt16(_) => Some(UInt16)
    case UInt32(_) => Some(UInt32)
    case UInt64(_) => Some(UInt64)
    case UInt128(_) => Some(UInt128)
    case Float32(_) => Some(Float32)
    case Float64(_) => Some(Float64)
    case Str(_) => Some(String)
    case Binary(_) => Some(Binary)
    case Timestamp(_) => Some(Timestamp)
    case Price(_) => Some(Price)
    case Volume(_) => Some(Volume)
    case Symbol(_) => Some(Symbol)
    case ExchangeId(_) => Some(ExchangeId)
    case _ => None
  }

  datatype BasicTypeInfo = BasicTypeInfo(typeId: nat, name: string, kind: BasicTypeKind, sizeBytes: nat, alignment: nat)

  datatype CompositeTypeKind = StructKind | ArrayKind | ListKind | MapKind | UnionKind | TupleKind

  datatype FieldInfo = FieldInfo(name: string, typeId: nat, optional: bool, defaultValue: Option<CV.Value>)

  datatype CompositeTypeInfo = CompositeTypeInfo(typeId: nat, name: string, kind: CompositeTypeKind, fields: seq<FieldInfo>)

  /** A user type; its schema is carried as its version and required field names. */
  datatype UserTypeInfo = UserTypeInfo(
    typeId: nat, name: string, schemaVersion: string, required: seq<string>,
    wasmModule: Option<string>, validator: Option<string>)

  datatype WasmTypeInfo = WasmTypeInfo(
    typeId: nat, name: string, wasmModule: string, typeDefinition: string,
    serializerFunction: string, deserializerFunction: string, validatorFunction: Option<string>)

  datatype TypeInfo =
    | BasicInfo(basic: BasicTypeInfo)
    | CompositeInfo(composite: CompositeTypeInfo)
    | UserInfo(user: UserTypeInfo)
    | WasmInfo(wasm: WasmTypeInfo)

  datatype TypeRegistryStats = TypeRegistryStats(
    basicTypesCount: nat, compositeTypesCount: nat, userTypesCount: nat,
    wasmTypesCount: nat, totalTypesCount: nat)

  function BuiltinInfo(typeId: nat, i: nat): BasicTypeInfo
    requires i < |BUILTIN_TYPES|
  {
    var (name, kind) := BUILTIN_TYPES[i];
    BasicTypeInfo(typeId, name, kind, BasicTypeSize(kind), BasicTypeAlignment(kind))
  }

  /** The records the constructor registers: the i-th built-in under the i-th id. */
  function BuiltinInfos(ids: seq<nat>): (infos: seq<BasicTypeInfo>)
    requires |ids| == |BUILTIN_TYPES|
    ensures |infos| == |ids|
    ensures forall i :: 0 <= i < |ids| ==> infos[i].typeId == ids[i] && infos[i].name == BUILTIN_TYPES[i].0
  {
    seq(|ids|, i requires 0 <= i < |ids| => BuiltinInfo(ids[i], i))
  }

  /** The id table after inserting `infos` one by one, each under its own id. */
  function TableOf(infos: seq<BasicTypeInfo>): map<nat, BasicTypeInfo>
  {
    if infos == [] then map[]
    else TableOf(infos[..|infos| - 1])[infos[|infos| - 1].typeId := infos[|infos| - 1]]
  }

  /** The name index after inserting `infos` one by one. */
  function NameIndexOf(infos: seq<BasicTypeInfo>): map<string, nat>
  {
    if infos == [] then map[]
    else NameIndexOf(infos[..|infos| - 1])[infos[|infos| - 1].name := infos[|infos| - 1].typeId]
  }

  /** With distinct ids, the i-th record is found under its own id. */
  lemma {:induction false} TableOfAt(infos: seq<BasicTypeInfo>, i: nat)
    requires forall j, k :: 0 <= j < k < |infos| ==> infos[j].typeId != infos[k].typeId
    requires i < |infos|
    ensures infos[i].typeId in TableOf(infos) && TableOf(infos)[infos[i].typeId] == infos[i]
  {
    var k := |infos| - 1;
    if i < k {
      TableOfAt(infos[..k], i);
    }
  }

  /** The table holds no id other than the inserted records' ids. */
  lemma {:induction false} TableOfKeys(infos: seq<BasicTypeInfo>, id: nat)
    requires id in TableOf(infos)
    ensures exists i :: 0 <= i < |infos| && infos[i].typeId == id
  {
    var k := |infos| - 1;
    if id != infos[k].typeId {
      TableOfKeys(infos[..k], id);
      var i :| 0 <= i < k && infos[..k][i].typeId == id;
      assert infos[i].typeId == id;
    }
  }

  /** With distinct names, each inserted name maps to its own record's id. */
  lemma {:induction false} NameIndexOfAt(infos: seq<BasicTypeInfo>, i: nat)
    requires forall j, k :: 0 <= j < k < |infos| ==> infos[j].name != infos[k].name
    requires i < |infos|
    ensures infos[i].name in NameIndexOf(infos) && NameIndexOf(infos)[infos[i].name] == infos[i].typeId
  {
    var k := |infos| - 1;
    if i < k {
      NameIndexOfAt(infos[..k], i);
    }
  }

  /** The index holds no name other than the inserted records' names. */
  lemma {:induction false} NameIndexOfKeys(infos: seq<BasicTypeInfo>, name: string)
    requires name in NameIndexOf(infos)
    ensures exists i :: 0 <= i < |infos| && infos[i].name == name
  {
    var k := |infos| - 1;
    if name != infos[k].name {
      NameIndexOfKeys(infos[..k], name);
      var i :| 0 <= i < k && infos[..k][i].name == name;
      assert infos[i].name == name;
    }
  }

  /**
   * A new registry knows each of the 21 built-in names, under its own id,
   * and no other name; "bool" is among them and "nonexistent" is not.
   */
  lemma NewRegistryNames(ids: seq<nat>, i: nat)
    requires |ids| == |BUILTIN_TYPES|
    requires forall j, k :: 0 <= j < k < |ids| ==> ids[j] != ids[k]
    requires i < |ids|
    ensures BUILTIN_TYPES[i].0 in NameIndexOf(BuiltinInfos(ids))
    ensures NameIndexOf(BuiltinInfos(ids))[BUILTIN_TYPES[i].0] == ids[i]
    ensures ids[i] in TableOf(BuiltinInfos(ids)) && TableOf(BuiltinInfos(ids))[ids[i]].name == BUILTIN_TYPES[i].0
    ensures "bool" in NameIndexOf(BuiltinInfos(ids)) && "nonexistent" !in NameIndexOf(BuiltinInfos(ids))
  {
    var infos := BuiltinInfos(ids);
    BuiltinNamesDistinct();
    NameIndexOfAt(infos, i);
    NameIndexOfAt(infos, 1);
    TableOfAt(infos, i);
    if "nonexistent" in NameIndexOf(infos) {
      NameIndexOfKeys(infos, "nonexistent");
      assert false;
    }
  }

  function ValidateBasicValue(value: CV.Value, info: BasicTypeInfo): CoreResult<()>
  {
    var matches := match value
      case Null => info.kind.Null?
      case Bool(_) => info.kind.Bool?
      case Int8(_) => info.kind.Int8?
      case Int16(_) => info.kind.Int16?
      case Int32(_) => info.kind.Int32?
      case Int64(_) => info.kind.Int64?
      case Int128(_) => info.kind.Int128?
      case UInt8(_) => info.kind.UInt8?
      case UInt16(_) => info.kind.UInt16?
      case UInt32(_) => info.kind.UInt32?
      case UInt64(_) => info.kind.UInt64?
      case UInt128(_) => info.kind.UInt128?
      case Float32(_) => info.kind.Float32?
      case Float64(_) => info.kind.Float64?
      case Str(_) => info.kind.String?
      case Binary(_) => info.kind.Binary?
      case Timestamp(_) => info.kind.Timestamp?
      case Price(_) => info.kind.Price?
      case Volume(_) => info.kind.Volume?
      case Symbol(_) => info.kind.Symbol?
      case ExchangeId(_) => info.kind.ExchangeId?
      case _ => false;
    if matches then Ok(())
    else Err(Validation("Value " + CV.VariantName(value) + " does not match type " + info.name))
  }

  /** A basic value is accepted exactly when its variant is of the type's kind; otherwise it is a validation error. */
  lemma ValidateBasicValueMatchesKind(value: CV.Value, info: BasicTypeInfo)
    ensures ValidateBasicValue(value, info).Ok? <==> KindOfValue(value) == Some(info.kind)
    ensures ValidateBasicValue(value, info).Err? ==> ValidateBasicValue(value, info).error.Validation?
  {
    match value
    case Null =>
    case Bool(_) =>
    case Int8(_) =>
    case Int16(_) =>
    case Int32(_) =>
    case Int64(_) =>
    case Int128(_) =>
    case UInt8(_) =>
    case UInt16(_) =>
    case UInt32(_) =>
    case UInt64(_) =>
    case UInt128(_) =>
    case Float32(_) =>
    case Float64(_) =>
    case Str(_) =>
    case Binary(_) =>
    case Timestamp(_) =>
    case Price(_) =>
    case Volume(_) =>
    case Symbol(_) =>
    case ExchangeId(_) =>
    case _ =>
  }

  class TypeRegistry {
    var basicTypes: map<nat, BasicTypeInfo>
    var compositeTypes: map<nat, CompositeTypeInfo>
    var userTypes: map<nat, UserTypeInfo>
    var wasmTypes: map<nat, WasmTypeInfo>
    var typeNameToId: map<string, nat>

    /** Every basic entry is stored under its own id with its kind's size and alignment. */
    ghost predicate Valid()
      reads this
    {
      forall id :: id in basicTypes ==>
        basicTypes[id].typeId == id &&
        basicTypes[id].sizeBytes == BasicTypeSize(basicTypes[id].kind) &&
        basicTypes[id].alignment == BasicTypeAlignment(basicTypes[id].kind)
    }

    /**
     * Registers the built-in types. `ids` are the fresh type ids the
     * source draws, one per built-in, all different.
     */
    constructor (ids: seq<nat>)
      requires |ids| == |BUILTIN_TYPES|
      requires forall i, j :: 0 <= i < j < |ids| ==> ids[i] != ids[j]
      ensures Valid()
      ensures compositeTypes == map[] && userTypes == map[] && wasmTypes == map[]
      ensures basicTypes == TableOf(BuiltinInfos(ids)) && typeNameToId == NameIndexOf(BuiltinInfos(ids))
    {
      basicTypes := map[];
      compositeTypes := map[];
      userTypes := map[];
      wasmTypes := map[];
      typeNameToId := map[];
      new;
      var infos := BuiltinInfos(ids);
      for i := 0 to |ids|
        invariant basicTypes == TableOf(infos[..i]) && typeNameToId == NameIndexOf(infos[..i])
        invariant compositeTypes == map[] && userTypes == map[] && wasmTypes == map[]
        invariant Valid()
      {
        assert infos[..i + 1][..i] == infos[..i];
        basicTypes := basicTypes[ids[i] := infos[i]];
        typeNameToId := typeNameToId[BUILTIN_TYPES[i].0 := ids[i]];
      }
      assert infos[..|ids|] == infos;
    }

    function GetTypeId(name: string): (r: Option<nat>)
      reads this
      ensures r.Some? <==> name in typeNameToId
      ensures r.Some? ==> r.value == typeNameToId[name]
    {
      if name in typeNameToId then Some(typeNameToId[name]) else None
    }

    /** Looks the id up in the basic, composite, user and WASM tables, in that order. */
    function GetTypeInfo(typeId: nat): (r: Option<TypeInfo>)
      reads this
      ensures r.None? <==>
        (typeId !in basicTypes && typeId !in compositeTypes && typeId !in userTypes && typeId !in wasmTypes)
      ensures typeId in basicTypes ==> r == Some(BasicInfo(basicTypes[typeId]))
      ensures typeId !in basicTypes && typeId in compositeTypes ==> r == Some(CompositeInfo(compositeTypes[typeId]))
      ensures typeId !in basicTypes && typeId !in compositeTypes && typeId in userTypes ==>
        r == Some(UserInfo(userTypes[typeId]))
    {
      if typeId in basicTypes then Some(BasicInfo(basicTypes[typeId]))
      else if typeId in compositeTypes then Some(CompositeInfo(compositeTypes[typeId]))
      else if typeId in userTypes then Some(UserInfo(userTypes[typeId]))
      else if typeId in wasmTypes then Some(WasmInfo(wasmTypes[typeId]))
      else None
    }

    /**
     * An unknown id is NotFound; a basic type checks the value's variant;
     * composite, user and WASM types accept every value.
     */
    function ValidateValue(value: CV.Value, typeId: nat): (r: CoreResult<()>)
      reads this
      ensures GetTypeInfo(typeId).None? ==> r == Err(NotFound("Type ID: " + NatToString(typeId)))
      ensures typeId in basicTypes ==>
        (r.Ok? <==> KindOfValue(value) == Some(basicTypes[typeId].kind))
      ensures GetTypeInfo(typeId).Some? && typeId !in basicTypes ==> r.Ok?
    {
      match GetTypeInfo(typeId)
      case None => Err(NotFound("Type ID: " + NatToString(typeId)))
      case Some(BasicInfo(info)) => ValidateBasicValue(value, info)
      case Some(CompositeInfo(_)) => Ok(())
      case Some(UserInfo(_)) => Ok(())
      case Some(WasmInfo(_)) => Ok(())
    }

    /** A taken name is refused and nothing changes; otherwise the type and its name are added. */
    method RegisterUserType(info: UserTypeInfo) returns (r: CoreResult<()>)
      requires Valid()
      modifies this
      ensures Valid()
      ensures r.Err? <==> info.name in old(typeNameToId)
      ensures r.Err? ==> r.error == AlreadyExists("Type name: " + info.name)
      ensures r.Err? ==> userTypes == old(userTypes) && typeNameToId == old(typeNameToId)
      ensures r.Ok? ==> userTypes == old(userTypes)[info.typeId := info]
      ensures r.Ok? ==> typeNameToId == old(typeNameToId)[info.name := info.typeId]
      ensures basicTypes == old(basicTypes) && compositeTypes == old(compositeTypes)
      ensures wasmTypes == old(wasmTypes)
    {
      if info.name in typeNameToId {
        return Err(AlreadyExists("Type name: " + info.name));
      }
      userTypes := userTypes[info.typeId := info];
      typeNameToId := typeNameToId[info.name := info.typeId];
      r := Ok(());
    }

    method RegisterWasmType(info: WasmTypeInfo) returns (r: CoreResult<()>)
      requires Valid()
      modifies this
      ensures Valid()
      ensures r.Err? <==> info.name in old(typeNameToId)
      ensures r.Err? ==> r.error == AlreadyExists("Type name: " + info.name)
      ensures r.Err? ==> wasmTypes == old(wasmTypes) && typeNameToId == old(typeNameToId)
      ensures r.Ok? ==> wasmTypes == old(wasmTypes)[info.typeId := info]
      ensures r.Ok? ==> typeNameToId == old(typeNameToId)[info.name := info.typeId]
      ensures basicTypes == old(basicTypes) && compositeTypes == old(compositeTypes)
      ensures userTypes == old(userTypes)
    {
      if info.name in typeNameToId {
        return Err(AlreadyExists("Type name: " + info.name));
      }
      wasmTypes := wasmTypes[info.typeId := info];
      typeNameToId := typeNameToId[info.name := info.typeId];
      r := Ok(());
    }

    /** The registered names; the source returns them in hash order, kept here as a set. */
    function ListTypes(): (names: set<string>)
      reads this
      ensures forall n :: n in names <==> GetTypeId(n).Some?
    {
      typeNameToId.Keys
    }

    function GetStats(): (s: TypeRegistryStats)
      reads this
      ensures s.totalTypesCount == |ListTypes()|
      ensures s.basicTypesCount == |basicTypes| && s.compositeTypesCount == |compositeTypes|
      ensures s.userTypesCount == |userTypes| && s.wasmTypesCount == |wasmTypes|
    {
      TypeRegistryStats(|basicTypes|, |compositeTypes|, |userTypes|, |wasmTypes|, |typeNameToId|)
    }
  }

  /** The 21 built-in names are pairwise different, so each gets its own id. */
  lemma BuiltinNamesDistinct()
    ensures forall i, j :: 0 <= i < j < |BUILTIN_TYPES| ==> BUILTIN_TYPES[i].0 != BUILTIN_TYPES[j].0
  {
  }
}

=== FILE: dafny/core_value.dfy ===
// The dynamically typed value of fdc-core that flows through ingestion,
// storage and queries, together with its derived equality.
module CoreValue {
  import opened Ints
  import opened Floats
  import opened Wrappers

  /** A value defined by a WASM type: its type id (a UUID, kept abstract), bytes and module. */
  datatype CustomValue = CustomValue(typeId: nat, data: seq<u8>, wasmModule: Option<string>)

  /**
   * One variant per kind of value. Decimals and prices are exact reals,
   * timestamps are nanoseconds since the epoch, symbols are stored upper-cased.
   */
  datatype Value =
    | Null
    | Bool(b: bool)
    | Int8(i8v: i8)
    | Int16(i16v: i16)
    | Int32(i32v: i32)
    | Int64(i64v: i64)
    | Int128(i128v: i128)
    | UInt8(u8v: u8)
    | UInt16(u16v: u16)
    | UInt32(u32v: u32)
    | UInt64(u64v: u64)
    | UInt128(u128v: u128)
    | Float32(f32v: Float)
    | Float64(f64v: Float)
    | Decimal(dec: real)
    | Str(s: string)
    | Binary(bytes: seq<u8>)
    | Timestamp(nanos: i64)
    | Array(items: seq<Value>)
    | List(elems: seq<Value>)
    | Struct(fields: map<string, Value>)
    | Map(entries: map<string, Value>)
    | Price(price: real)
    | Volume(volume: u64)
    | Symbol(symbol: string)
    | ExchangeId(exchange: u16)
    | Custom(custom: CustomValue)

  /**
   * The derived `PartialEq`: same variant and equal payload, where floats
   * compare by IEEE equality (so a NaN anywhere makes values unequal).
   */
  predicate ValueEq(a: Value, b: Value)
  {
    match a
    case Float32(x) => b.Float32? && FloatEq(x, b.f32v)
    case Float64(x) => b.Float64? && FloatEq(x, b.f64v)
    case Array(xs) =>
      b.Array? && |xs| == |b.items| && forall i :: 0 <= i < |xs| ==> ValueEq(xs[i], b.items[i])
    case List(xs) =>
      b.List? && |xs| == |b.elems| && forall i :: 0 <= i < |xs| ==> ValueEq(xs[i], b.elems[i])
    case Struct(m) =>
      b.Struct? && m.Keys == b.fields.Keys && forall k :: k in m ==> ValueEq(m[k], b.fields[k])
    case Map(m) =>
      b.Map? && m.Keys == b.entries.Keys && forall k :: k in m ==> ValueEq(m[k], b.entries[k])
    case _ => a == b
  }

  /** A value without NaN anywhere inside it. */
  predicate NaNFree(v: Value)
  {
    match v
    case Float32(x) => !x.NaN?
    case Float64(x) => !x.NaN?
    case Array(xs) => forall i :: 0 <= i < |xs| ==> NaNFree(xs[i])
    case List(xs) => forall i :: 0 <= i < |xs| ==> NaNFree(xs[i])
    case Struct(m) => forall k :: k in m ==> NaNFree(m[k])
    case Map(m) => forall k :: k in m ==> NaNFree(m[k])
    case _ => true
  }

  /** Equality is reflexive exactly on NaN-free values. */
  lemma {:induction false} ValueEqReflexive(v: Value)
    ensures ValueEq(v, v) <==> NaNFree(v)
  {
    if v.Array? {
      forall i | 0 <= i < |v.items| { ValueEqReflexive(v.items[i]); }
    } else if v.List? {
      forall i | 0 <= i < |v.elems| { ValueEqReflexive(v.elems[i]); }
    } else if v.Struct? {
      forall k | k in v.fields { ValueEqReflexive(v.fields[k]); }
    } else if v.Map? {
      forall k | k in v.entries { ValueEqReflexive(v.entries[k]); }
    }
  }

  lemma {:induction false} ValueEqSymmetric(a: Value, b: Value)
    ensures ValueEq(a, b) ==> ValueEq(b, a)
  {
    if ValueEq(a, b) {
      if a.Array? {
        forall i | 0 <= i < |a.items| { ValueEqSymmetric(a.items[i], b.items[i]); }
      } else if a.List? {
        forall i | 0 <= i < |a.elems| { ValueEqSymmetric(a.elems[i], b.elems[i]); }
      } else if a.Struct? {
        forall k | k in a.fields { ValueEqSymmetric(a.fields[k], b.fields[k]); }
      } else if a.Map? {
        forall k | k in a.entries { ValueEqSymmetric(a.entries[k], b.entries[k]); }
      }
    }
  }

  /** Equal values are structurally identical; the converse fails only through NaN. */
  lemma {:induction false} ValueEqIsIdentity(a: Value, b: Value)
    ensures ValueEq(a, b) ==> a == b
  {
    if ValueEq(a, b) {
      if a.Array? {
        forall i | 0 <= i < |a.items| { ValueEqIsIdentity(a.items[i], b.items[i]); }
        assert a.items == b.items;
      } else if a.List? {
        forall i | 0 <= i < |a.elems| { ValueEqIsIdentity(a.elems[i], b.elems[i]); }
        assert a.elems == b.elems;
      } else if a.Struct? {
        forall k | k in a.fields { ValueEqIsIdentity(a.fields[k], b.fields[k]); }
        assert a.fields == b.fields;
      } else if a.Map? {
        forall k | k in a.entries { ValueEqIsIdentity(a.entries[k], b.entries[k]); }
        assert a.entries == b.entries;
      }
    }
  }
  /**
   * The name of a value's variant. Error messages that the source renders
   * with `{:?}` are modelled by this name alone.
   */
  function VariantName(v: Value): string
  {
    match v
    case Null => "Null"
    case Bool(_) => "Bool"
    case Int8(_) => "Int8"
    case Int16(_) => "Int16"
    case Int32(_) => "Int32"
    case Int64(_) => "Int64"
    case Int128(_) => "Int128"
    case UInt8(_) => "UInt8"
    case UInt16(_) => "UInt16"
    case UInt32(_) => "UInt32"
    case UInt64(_) => "UInt64"
    case UInt128(_) => "UInt128"
    case Float32(_) => "Float32"
    case Float64(_) => "Float64"
    case Decimal(_) => "Decimal"
    case Str(_) => "String"
    case Binary(_) => "Binary"
    case Timestamp(_) => "Timestamp"
    case Array(_) => "Array"
    case List(_) => "List"
    case Struct(_) => "Struct"
    case Map(_) => "Map"
    case Price(_) => "Price"
    case Volume(_) => "Volume"
    case Symbol(_) => "Symbol"
    case ExchangeId(_) => "ExchangeId"
    case Custom(_) => "Custom"
  }

  /** A result row as the query operators pass it around: column name to value. */
  type Row = map<string, Value>
}

=== FILE: dafny/floats.dfy ===
// IEEE-754 binary floating point, abstracted: a finite value is an exact
// real, and the three special values are kept apart. Rounding to the
// nearest representable value is not modelled (see README).
module Floats {
  import opened Wrappers

  datatype Ordering = Less | Equal | Greater
  {
    function Reverse(): Ordering
    {
      match this
      case Less => Greater
      case Equal => Equal
      case Greater => Less
    }
  }

  datatype Float = Finite(r: real) | PosInf | NegInf | NaN

  /** IEEE equality: NaN equals nothing, itself included. */
  predicate FloatEq(a: Float, b: Float)
  {
    a == b && !a.NaN?
  }

  /** `partial_cmp`: `None` exactly when either side is NaN. */
  function PartialCmp(a: Float, b: Float): (o: Option<Ordering>)
    ensures o.None? <==> a.NaN? || b.NaN?
    ensures o == Some(Equal) <==> FloatEq(a, b)
  {
    if a.NaN? || b.NaN? then None
    else if a == b then Some(Equal)
    else if a.NegInf? || b.PosInf? then Some(Less)
    else if a.PosInf? || b.NegInf? then Some(Greater)
    else if a.r < b.r then Some(Less)
    else Some(Greater)
  }

  /** Swapping the operands reverses the answer. */
  lemma PartialCmpAntisymmetric(a: Float, b: Float)
    ensures PartialCmp(a, b).Some? ==> PartialCmp(b, a) == Some(PartialCmp(a, b).value.Reverse())
  {
  }

  /** On non-NaN values the order is transitive. */
  lemma PartialCmpLessTransitive(a: Float, b: Float, c: Float)
    requires PartialCmp(a, b) == Some(Less) && PartialCmp(b, c) == Some(Less)
    ensures PartialCmp(a, c) == Some(Less)
  {
  }

  predicate FloatLt(a: Float, b: Float)
  {
    PartialCmp(a, b) == Some(Less)
  }

  /** `f64::abs`. */
  function Abs(a: Float): (r: Float)
    ensures a.NaN? <==> r.NaN?
    ensures !r.NegInf?
    ensures a.Finite? ==> r.Finite? && r.r >= 0.0 && (r.r == a.r || r.r == -a.r)
  {
    match a
    case Finite(x) => Finite(if x < 0.0 then -x else x)
    case NegInf => PosInf
    case _ => a
  }

  /** `f64::round`: to the nearest integer, halves away from zero. */
  function Round(a: Float): (r: Float)
    ensures a.Finite? ==> r.Finite? && r.r == RoundHalfAway(a.r) as real
    ensures !a.Finite? ==> r == a
  {
    match a
    case Finite(x) => Finite(RoundHalfAway(x) as real)
    case _ => a
  }

  /** The integer nearest to `x`, ties going away from zero. */
  function RoundHalfAway(x: real): (n: int)
    ensures x - 0.5 <= n as real <= x + 0.5
    ensures n as real == x + 0.5 ==> x >= 0.0
    ensures n as real == x - 0.5 ==> x < 0.0
  {
    if x >= 0.0 then (x + 0.5).Floor else -((-x + 0.5).Floor)
  }

  /** Addition, exact on finite operands; infinities of opposite sign give NaN. */
  function Add(a: Float, b: Float): (r: Float)
    ensures a.Finite? && b.Finite? ==> r == Finite(a.r + b.r)
    ensures a.NaN? || b.NaN? ==> r.NaN?
  {
    match (a, b)
    case (NaN, _) => NaN
    case (_, NaN) => NaN
    case (Finite(x), Finite(y)) => Finite(x + y)
    case (PosInf, NegInf) => NaN
    case (NegInf, PosInf) => NaN
    case (PosInf, _) => PosInf
    case (_, PosInf) => PosInf
    case (NegInf, _) => NegInf
    case (_, NegInf) => NegInf
  }

  /** Division by a positive count, as the average of a sum takes it. */
  function DivByCount(a: Float, n: nat): (r: Float)
    requires n > 0
    ensures a.Finite? ==> r == Finite(a.r / n as real)
    ensures !a.Finite? ==> r == a
  {
    match a
    case Finite(x) => Finite(x / n as real)
    case _ => a
  }

  /** Conversion of an integer (`as f64`). */
  function FromInt(i: int): Float
  {
    Finite(i as real)
  }

  /** The integer part of a real, rounding toward zero. */
  function TruncReal(x: real): (n: int)
    ensures x >= 0.0 ==> n as real <= x < n as real + 1.0
    ensures x < 0.0 ==> n as real - 1.0 < x <= n as real
  {
    if x >= 0.0 then x.Floor else -((-x).Floor)
  }

  /**
   * Rust's float-to-integer `as` cast into [lo, hi]: NaN gives 0, infinities
   * and out-of-range values saturate, everything else truncates toward zero.
   */
  function SaturatingCast(a: Float, lo: int, hi: int): (n: int)
    requires lo <= 0 <= hi
    ensures lo <= n <= hi
    ensures a.NaN? ==> n == 0
    ensures a.Finite? && lo <= TruncReal(a.r) <= hi ==> n == TruncReal(a.r)
  {
    match a
    case NaN => 0
    case PosInf => hi
    case NegInf => lo
    case Finite(x) =>
      var t := TruncReal(x);
      if t < lo then lo else if t > hi then hi else t
  }
}

=== FILE: dafny/ingestion_batch.dfy ===
// Batching of validated messages: items gather in the current batch until
// it is full or its timer runs out, then each item of the drained batch is
// stored and the batch's outcome is added to running totals. The storage
// engine, the serializer and the task runtime are outside the model: what
// happens to an item when it is stored is a parameter (`run`), and clock
// readings are parameters too.
module IngestionBatch {
  import opened Wrappers
  import opened Ints
  import opened CoreError
  import opened IngestionParser
  import opened IngestionValidator

  datatype BatchResult = BatchResult(
    batchId: string,
    processedCount: nat,
    successCount: nat,
    failureCount: nat,
    batchSize: nat,
    processingTimeMs: nat,
    errors: seq<string>)

  /** Every processed item is a success or a failure, and each failure left one message. */
  predicate Balanced(r: BatchResult)
  {
    r.processedCount == r.successCount + r.failureCount && |r.errors| == r.failureCount
  }

  function NewBatchResult(batchId: string, batchSize: nat, processingTimeMs: nat): (r: BatchResult)
    ensures Balanced(r) && r.processedCount == 0 && r.errors == []
    ensures r.batchId == batchId && r.batchSize == batchSize && r.processingTimeMs == processingTimeMs
  {
    BatchResult(batchId, 0, 0, 0, batchSize, processingTimeMs, [])
  }

  /** One more success; the failures and their messages stay as they were. */
  function RecordSuccess(r: BatchResult): (r': BatchResult)
    ensures Balanced(r) ==> Balanced(r')
    ensures r'.processedCount == r.processedCount + 1 && r'.successCount == r.successCount + 1
    ensures r'.failureCount == r.failureCount && r'.errors == r.errors
  {
    r.(processedCount := r.processedCount + 1, successCount := r.successCount + 1)
  }

  /** One more failure, whose message is appended to the others. */
  function RecordFailure(r: BatchResult, error: string): (r': BatchResult)
    ensures Balanced(r) ==> Balanced(r')
    ensures r'.processedCount == r.processedCount + 1 && r'.failureCount == r.failureCount + 1
    ensures r'.successCount == r.successCount && r'.errors == r.errors + [error]
  {
    r.(processedCount := r.processedCount + 1, failureCount := r.failureCount + 1, errors := r.errors + [error])
  }

  /** Successes over processed items, 0 for an empty batch; 1 exactly when nothing failed. */
  function BatchSuccessRate(r: BatchResult): (rate: real)
    requires Balanced(r)
    ensures 0.0 <= rate <= 1.0
    ensures rate == 1.0 <==> r.processedCount > 0 && r.failureCount == 0
    ensures rate == 0.0 <==> r.successCount == 0
  {
    if r.processedCount == 0 then 0.0
    else
      RatioCompare(r.successCount, r.processedCount);
      r.successCount as real / r.processedCount as real
  }

  /** Items per second over the processing time; 0 when no time was measured. */
  function Throughput(r: BatchResult): (t: real)
    ensures r.processingTimeMs == 0 ==> t == 0.0
    ensures r.processingTimeMs > 0 ==> t * r.processingTimeMs as real == r.processedCount as real * 1000.0
    ensures t >= 0.0
  {
    if r.processingTimeMs == 0 then 0.0
    else (r.processedCount as real * 1000.0) / r.processingTimeMs as real
  }

  datatype BatchItem = BatchItem(parsedData: ParsedData, validationResult: ValidationResult, itemId: string)

  predicate IsValid(item: BatchItem)
  {
    item.validationResult.isValid
  }

  /**
   * What storing one item came to: the task ran, with the serializer's
   * error if it failed and otherwise the storage put's outcome; or the task
   * itself could not be joined.
   */
  datatype TaskOutcome =
    | Ran(serializeError: Option<string>, put: CoreResult<()>)
    | JoinFailed(message: string)

  const ITEM_INVALID := Validation("Item validation failed")

  /**
   * An invalid item is refused before anything is stored; a valid one fails
   * if it cannot be serialized, and otherwise has the put's outcome.
   */
  function ProcessItem(item: BatchItem, serializeError: Option<string>, put: CoreResult<()>): (r: CoreResult<()>)
    ensures !IsValid(item) ==> r == Err(ITEM_INVALID)
    ensures IsValid(item) && serializeError.Some? ==> r == Err(Serialization(serializeError.value))
    ensures IsValid(item) && serializeError.None? ==> r == put
  {
    if !IsValid(item) then Err(ITEM_INVALID)
    else if serializeError.Some? then Err(Serialization(serializeError.value))
    else put
  }

  /** The failure message an item leaves, or None when it was stored. */
  function ItemFailure(item: BatchItem, outcome: TaskOutcome): Option<string>
  {
    match outcome
    case JoinFailed(message) => Some("Task join error: " + message)
    case Ran(serializeError, put) =>
      var r := ProcessItem(item, serializeError, put);
      if r.Ok? then None else Some(ToString(r.error))
  }

  /** How many of the items were stored. */
  function Stored(items: seq<BatchItem>, run: BatchItem -> TaskOutcome): nat
  {
    if items == [] then 0
    else Stored(items[..|items| - 1], run) + (if ItemFailure(items[|items| - 1], run(items[|items| - 1])).None? then 1 else 0)
  }

  /** The failure messages of the items, in item order. */
  function Failures(items: seq<BatchItem>, run: BatchItem -> TaskOutcome): seq<string>
  {
    if items == [] then []
    else
      var f := ItemFailure(items[|items| - 1], run(items[|items| - 1]));
      Failures(items[..|items| - 1], run) + (if f.Some? then [f.value] else [])
  }

  /** Every item is counted once, as stored or as failed. */
  lemma {:induction false} StoredAndFailuresCover(items: seq<BatchItem>, run: BatchItem -> TaskOutcome)
    ensures Stored(items, run) + |Failures(items, run)| == |items|
  {
    if items != [] {
      StoredAndFailuresCover(items[..|items| - 1], run);
    }
  }

  /** Every invalid item fails with the validation message and is never stored. */
  lemma {:induction false} InvalidItemsFail(items: seq<BatchItem>, run: BatchItem -> TaskOutcome)
    requires forall i :: 0 <= i < |items| ==> !IsValid(items[i]) && run(items[i]).Ran?
    ensures Stored(items, run) == 0
    ensures |Failures(items, run)| == |items|
    ensures forall i :: 0 <= i < |items| ==> Failures(items, run)[i] == ToString(ITEM_INVALID)
  {
    if items != [] {
      var n := |items| - 1;
      assert forall i :: 0 <= i < n ==> items[..n][i] == items[i];
      InvalidItemsFail(items[..n], run);
    }
  }

  /** The outcome of a drained batch whose items were run one by one, with the measured time. */
  function BatchOutcome(batchId: string, items: seq<BatchItem>, run: BatchItem -> TaskOutcome, elapsedMs: nat): BatchResult
  {
    BatchResult(batchId, |items|, Stored(items, run), |Failures(items, run)|, |items|, elapsedMs, Failures(items, run))
  }

  lemma BatchOutcomeBalanced(batchId: string, items: seq<BatchItem>, run: BatchItem -> TaskOutcome, elapsedMs: nat)
    ensures Balanced(BatchOutcome(batchId, items, run, elapsedMs))
    ensures BatchOutcome(batchId, items, run, elapsedMs).processedCount == |items|
  {
    StoredAndFailuresCover(items, run);
  }

  /**
   * Runs every item of a batch and records exactly one outcome for each:
   * the result counts the stored items and lists the failures in item order.
   */
  method ProcessBatch(batchId: string, items: seq<BatchItem>, run: BatchItem -> TaskOutcome, elapsedMs: nat)
    returns (r: BatchResult)
    ensures r == BatchOutcome(batchId, items, run, elapsedMs)
    ensures Balanced(r) && r.processedCount == r.batchSize == |items|
  {
    r := NewBatchResult(batchId, |items|, 0);
    for i := 0 to |items|
      invariant r == BatchOutcome(batchId, items[..i], run, 0).(batchSize := |items|)
    {
      assert items[..i + 1][..i] == items[..i];
      var failure := ItemFailure(items[i], run(items[i]));
      if failure.None? {
        r := RecordSuccess(r);
      } else {
        r := RecordFailure(r, failure.value);
      }
    }
    assert items[..|items|] == items;
    r := r.(processingTimeMs := elapsedMs);
    BatchOutcomeBalanced(batchId, items, run, elapsedMs);
  }

  // ---- running totals ----

  datatype BatchProcessorStats = BatchProcessorStats(
    batchesProcessed: nat,
    totalMessages: nat,
    successfulMessages: nat,
    failedMessages: nat,
    totalProcessingTimeMs: nat,
    avgBatchSize: real,
    avgProcessingTimeMs: real,
    throughputMsgPerSec: real)

  const ZERO_BATCH_STATS := BatchProcessorStats(0, 0, 0, 0, 0, 0.0, 0.0, 0.0)

  /**
   * The totals balance, the averages are totals over batches (0 before the
   * first), and the throughput is messages per second of processing time,
   * 0 while no time has been measured.
   */
  predicate BatchStatsValid(s: BatchProcessorStats)
  {
    s.totalMessages == s.successfulMessages + s.failedMessages
    && (s.batchesProcessed == 0 ==> s.totalMessages == 0 && s.totalProcessingTimeMs == 0)
    && s.avgBatchSize == Quotient(s.totalMessages, s.batchesProcessed)
    && s.avgProcessingTimeMs == Quotient(s.totalProcessingTimeMs, s.batchesProcessed)
    && s.throughputMsgPerSec == Quotient(s.totalMessages * 1000, s.totalProcessingTimeMs)
  }

  /** Adds a batch's counts and time to the totals; the throughput is refreshed only once some time has been measured. */
  function RecordBatch(s: BatchProcessorStats, r: BatchResult): (s': BatchProcessorStats)
    ensures s'.batchesProcessed == s.batchesProcessed + 1
    ensures s'.totalMessages == s.totalMessages + r.processedCount
    ensures s'.successfulMessages == s.successfulMessages + r.successCount
    ensures s'.failedMessages == s.failedMessages + r.failureCount
    ensures s'.totalProcessingTimeMs == s.totalProcessingTimeMs + r.processingTimeMs
    ensures s'.totalProcessingTimeMs == 0 ==> s'.throughputMsgPerSec == s.throughputMsgPerSec
  {
    var n := s.batchesProcessed + 1;
    var total := s.totalMessages + r.processedCount;
    var time := s.totalProcessingTimeMs + r.processingTimeMs;
    BatchProcessorStats(
      n, total, s.successfulMessages + r.successCount, s.failedMessages + r.failureCount, time,
      Quotient(total, n), Quotient(time, n),
      if time > 0 then Quotient(total * 1000, time) else s.throughputMsgPerSec)
  }

  /** Recording a balanced batch keeps the totals valid. */
  lemma RecordBatchValid(s: BatchProcessorStats, r: BatchResult)
    requires BatchStatsValid(s) && Balanced(r)
    ensures BatchStatsValid(RecordBatch(s, r))
  {
  }

  /** Successful over all messages, 0 before any; 1 exactly when none failed. */
  function BatchStatsSuccessRate(s: BatchProcessorStats): (rate: real)
    requires BatchStatsValid(s)
    ensures 0.0 <= rate <= 1.0
    ensures rate == 1.0 <==> s.totalMessages > 0 && s.failedMessages == 0
  {
    if s.totalMessages == 0 then 0.0
    else
      RatioCompare(s.successfulMessages, s.totalMessages);
      s.successfulMessages as real / s.totalMessages as real
  }

  // ---- the processor ----

  class BatchProcessor {
    const batchSize: nat
    const batchTimeoutMs: nat
    var currentBatch: seq<BatchItem>
    /** Whether the batch timer is running (the instant it started is a clock reading, not modelled). */
    var timerStarted: bool
    var stats: BatchProcessorStats

    /** The timer runs exactly while items are waiting, and a waiting batch is never full. */
    predicate Valid()
      reads this
    {
      (timerStarted <==> currentBatch != [])
      && (currentBatch == [] || |currentBatch| < batchSize)
      && BatchStatsValid(stats)
    }

    constructor(batchSize: nat, batchTimeoutMs: nat)
      ensures Valid()
      ensures this.batchSize == batchSize && this.batchTimeoutMs == batchTimeoutMs
      ensures currentBatch == [] && stats == ZERO_BATCH_STATS
    {
      this.batchSize := batchSize;
      this.batchTimeoutMs := batchTimeoutMs;
      currentBatch := [];
      timerStarted := false;
      stats := ZERO_BATCH_STATS;
    }

    /** Whether a batch holding `pending` items, whose timer has run `sinceStartMs`, is due. */
    predicate Due(pending: nat, sinceStartMs: nat)
    {
      pending >= batchSize || sinceStartMs >= batchTimeoutMs
    }

    /**
     * Adds an item; the batch is drained and processed once it reaches the
     * batch size or its timer (started by the batch's first item, so at 0
     * for that item) has run for the timeout. Never fails.
     */
    method AddItem(item: BatchItem, timerElapsedMs: nat, batchId: string, run: BatchItem -> TaskOutcome, processingMs: nat)
      returns (r: CoreResult<Option<BatchResult>>)
      requires Valid()
      modifies this
      ensures Valid()
      ensures var since := if old(currentBatch) == [] then 0 else timerElapsedMs;
              if Due(|old(currentBatch)| + 1, since) then
                r == Ok(Some(BatchOutcome(batchId, old(currentBatch) + [item], run, processingMs)))
                && currentBatch == [] && stats == RecordBatch(old(stats), r.value.value)
              else
                r == Ok(None) && currentBatch == old(currentBatch) + [item] && stats == old(stats)
    {
      var since := if currentBatch == [] then 0 else timerElapsedMs;
      var batch := currentBatch + [item];
      if Due(|batch|, since) {
        currentBatch, timerStarted := [], false;
        var result := ProcessBatch(batchId, batch, run, processingMs);
        RecordBatchValid(stats, result);
        stats := RecordBatch(stats, result);
        r := Ok(Some(result));
      } else {
        currentBatch, timerStarted := batch, true;
        r := Ok(None);
      }
    }

    /** Processes whatever is waiting; with nothing waiting, nothing happens. */
    method Flush(batchId: string, run: BatchItem -> TaskOutcome, processingMs: nat)
      returns (r: CoreResult<Option<BatchResult>>)
      requires Valid()
      modifies this
      ensures Valid()
      ensures old(currentBatch) == [] ==> r == Ok(None) && stats == old(stats) && currentBatch == []
      ensures old(currentBatch) != [] ==>
                r == Ok(Some(BatchOutcome(batchId, old(currentBatch), run, processingMs)))
                && currentBatch == [] && stats == RecordBatch(old(stats), r.value.value)
    {
      if currentBatch == [] {
        return Ok(None);
      }
      var batch := currentBatch;
      currentBatch, timerStarted := [], false;
      var result := ProcessBatch(batchId, batch, run, processingMs);
      RecordBatchValid(stats, result);
      stats := RecordBatch(stats, result);
      r := Ok(Some(result));
    }

    /** The running totals, consistent for a valid processor. */
    function GetStats(): (s: BatchProcessorStats)
      reads this
      ensures Valid() ==> BatchStatsValid(s)
    {
      stats
    }

    method ResetStats()
      requires Valid()
      modifies this
      ensures Valid() && stats == ZERO_BATCH_STATS
      ensures currentBatch == old(currentBatch)
    {
      stats := ZERO_BATCH_STATS;
    }
  }
}

=== FILE: dafny/ingestion_buffer.dfy ===
// The ingestion pipeline's bounded FIFO buffer and the statistics it keeps
// alongside. Locking is not modelled: each method is one atomic step.
module IngestionBuffer {
  import opened Wrappers
  import opened CoreError

  /** Sizes and message counts; the 64-bit counters are unbounded here. */
  datatype BufferStats = BufferStats(
    currentSize: nat,
    maxSize: nat,
    utilization: real,
    enqueuedMessages: nat,
    dequeuedMessages: nat,
    droppedMessages: nat)

  /** The fill ratio the buffer reports; a zero-capacity buffer never holds anything and reports 0. */
  function Utilization(size: nat, capacity: nat): (u: real)
    ensures capacity > 0 && size <= capacity ==> 0.0 <= u <= 1.0
    ensures u == 1.0 <==> capacity > 0 && size == capacity
    ensures u == 0.0 <==> capacity == 0 || size == 0
  {
    if capacity == 0 then 0.0 else size as real / capacity as real
  }

  class DataBuffer<T> {
    const bufferSize: nat
    var items: seq<T>
    var stats: BufferStats

    /**
     * The buffer never holds more than its capacity; the reported size and
     * fill ratio are those of the queue; the messages taken out and those
     * still queued were all accepted once (clearing discards the rest
     * uncounted).
     */
    predicate Valid()
      reads this
    {
      |items| <= bufferSize
      && stats.maxSize == bufferSize
      && stats.currentSize == |items|
      && stats.utilization == Utilization(|items|, bufferSize)
      && stats.dequeuedMessages + |items| <= stats.enqueuedMessages
    }

    constructor(bufferSize: nat)
      ensures Valid() && this.bufferSize == bufferSize && items == []
      ensures stats == BufferStats(0, bufferSize, 0.0, 0, 0, 0)
    {
      this.bufferSize := bufferSize;
      items := [];
      stats := BufferStats(0, bufferSize, 0.0, 0, 0, 0);
    }

    /**
     * Appends at the back. A full buffer refuses the item, which is counted
     * as dropped and leaves the queue as it was.
     */
    method Enqueue(item: T) returns (r: CoreResult<()>)
      requires Valid()
      modifies this
      ensures Valid()
      ensures r.Err? <==> old(IsFull())
      ensures |old(items)| >= bufferSize ==>
                r == Err(ResourceExhausted("Buffer is full")) && items == old(items)
                && stats == old(stats).(droppedMessages := old(stats).droppedMessages + 1)
      ensures |old(items)| < bufferSize ==>
                r == Ok(()) && items == old(items) + [item]
                && stats.enqueuedMessages == old(stats).enqueuedMessages + 1
                && stats.dequeuedMessages == old(stats).dequeuedMessages
                && stats.droppedMessages == old(stats).droppedMessages
    {
      if |items| >= bufferSize {
        stats := stats.(droppedMessages := stats.droppedMessages + 1);
        return Err(ResourceExhausted("Buffer is full"));
      }
      var next := items + [item];
      items := next;
      stats := stats.(enqueuedMessages := stats.enqueuedMessages + 1, currentSize := |next|,
                      utilization := Utilization(|next|, bufferSize));
      r := Ok(());
    }

    /** Takes the oldest item; an empty buffer yields nothing and counts nothing. */
    method Dequeue() returns (r: Option<T>)
      requires Valid()
      modifies this
      ensures Valid()
      ensures r.None? <==> old(IsEmpty())
      ensures old(items) == [] ==> r == None && items == [] && stats == old(stats)
      ensures old(items) != [] ==>
                r == Some(old(items)[0]) && items == old(items)[1..]
                && stats.dequeuedMessages == old(stats).dequeuedMessages + 1
                && stats.enqueuedMessages == old(stats).enqueuedMessages
                && stats.droppedMessages == old(stats).droppedMessages
    {
      if items == [] {
        return None;
      }
      var head, rest := items[0], items[1..];
      items := rest;
      stats := stats.(dequeuedMessages := stats.dequeuedMessages + 1, currentSize := |rest|,
                      utilization := Utilization(|rest|, bufferSize));
      r := Some(head);
    }

    /** The queue's length, which the statistics report and the capacity bounds. */
    function Size(): (n: nat)
      reads this
      ensures Valid() ==> n == stats.currentSize && n <= bufferSize
      ensures n == 0 <==> IsEmpty()
    {
      |items|
    }

    /** Empty exactly when nothing is queued, which is when `Dequeue` yields nothing. */
    predicate IsEmpty()
      reads this
      ensures IsEmpty() <==> items == []
      ensures Valid() ==> (IsEmpty() <==> stats.currentSize == 0)
    {
      |items| == 0
    }

    /**
     * Full once the queue has reached the capacity, which is when `Enqueue`
     * drops the item; a valid buffer is then exactly at capacity.
     */
    predicate IsFull()
      reads this
      ensures Valid() ==> (IsFull() <==> |items| == bufferSize)
      ensures Valid() && bufferSize > 0 ==> (IsFull() <==> stats.utilization == 1.0)
    {
      |items| >= bufferSize
    }

    /** The reported statistics agree with the queue and its capacity. */
    function GetStats(): (s: BufferStats)
      reads this
      ensures Valid() ==> s.currentSize == |items| && s.maxSize == bufferSize
      ensures Valid() ==> s.dequeuedMessages + s.currentSize <= s.enqueuedMessages
    {
      stats
    }

    /** Empties the queue; the message counters are kept. */
    method Clear()
      requires Valid()
      modifies this
      ensures Valid()
      ensures items == []
      ensures stats == old(stats).(currentSize := 0, utilization := 0.0)
    {
      items := [];
      stats := stats.(currentSize := 0, utilization := 0.0);
    }
  }
}

=== FILE: dafny/ingestion_parser.dfy ===
// The ingestion parser: the parsed-data record and its size estimate, the
// parse statistics, the conversion of JSON documents into values, the FIX
// tag=value parser, and the dispatch on the configured format. Decoding
// bytes as UTF-8, JSON text, bincode and CSV is done by libraries whose
// outcomes the caller passes in; clocks are parameters.
module IngestionParser {
  import opened Wrappers
  import opened Ints
  import opened Text
  import opened Floats
  import opened CoreError
  import opened CoreValue

  datatype ParsedData = ParsedData(
    value: Value,
    dataType: string,
    originalSize: nat,
    parsedSize: nat,
    parseTimeUs: nat,
    metadata: map<string, string>)

  // ---- size estimate ----

  /**
   * The size the parser reports for a value: fixed widths for the scalars,
   * the byte length of strings and binaries, the sum over an array's items,
   * and for structs and maps the sum of each key's byte length plus its
   * value's size; every other variant counts 0.
   */
  ghost function EstimateSize(v: Value): nat
    decreases v, 1
  {
    match v
    case Array(items) => ItemsSize(v, |items|)
    case Struct(fields) => EntriesSize(v, fields.Keys)
    case Map(entries) => EntriesSize(v, entries.Keys)
    case _ => LeafSize(v)
  }

  /** The size of a value that is not an array, struct or map. */
  function LeafSize(v: Value): nat
  {
    match v
    case Null => 0
    case Bool(_) => 1
    case Int8(_) => 1
    case Int16(_) => 2
    case Int32(_) => 4
    case Int64(_) => 8
    case Int128(_) => 16
    case UInt8(_) => 1
    case UInt16(_) => 2
    case UInt32(_) => 4
    case UInt64(_) => 8
    case UInt128(_) => 16
    case Float32(_) => 4
    case Float64(_) => 8
    case Str(s) => Utf8Len(s)
    case Binary(b) => |b|
    case _ => 0
  }

  /** The entries of a struct or map value. */
  function EntriesOf(v: Value): map<string, Value>
    requires v.Struct? || v.Map?
  {
    if v.Struct? then v.fields else v.entries
  }

  /** The sizes of an array's first `n` items, added up. */
  ghost function ItemsSize(v: Value, n: nat): nat
    requires v.Array? && n <= |v.items|
    decreases v, 0, n
  {
    if n == 0 then 0 else ItemsSize(v, n - 1) + EstimateSize(v.items[n - 1])
  }

  ghost function PickKey(keys: set<string>): string
    requires keys != {}
  {
    var k :| k in keys; k
  }

  /** Key length plus value size, added up over the given keys of a struct or map. */
  ghost function EntriesSize(v: Value, keys: set<string>): nat
    requires v.Struct? || v.Map?
    requires keys <= EntriesOf(v).Keys
    decreases v, 0, keys
  {
    if keys == {} then 0
    else
      var k := PickKey(keys);
      assert EntriesOf(v)[k] < v;
      Utf8Len(k) + EstimateSize(EntriesOf(v)[k]) + EntriesSize(v, keys - {k})
  }

  /** The sum does not depend on which key is taken first. */
  lemma {:induction false} EntriesSizeRemove(v: Value, keys: set<string>, k: string)
    requires v.Struct? || v.Map?
    requires keys <= EntriesOf(v).Keys && k in keys
    ensures EntriesSize(v, keys) == Utf8Len(k) + EstimateSize(EntriesOf(v)[k]) + EntriesSize(v, keys - {k})
    decreases |keys|
  {
    var j := PickKey(keys);
    if j != k {
      EntriesSizeRemove(v, keys - {j}, k);
      EntriesSizeRemove(v, keys - {k}, j);
      assert keys - {j} - {k} == keys - {k} - {j};
    }
  }

  /** Adding a new field to a struct adds its key's byte length and its value's size. */
  lemma StructSizeAddField(fields: map<string, Value>, k: string, x: Value)
    requires k !in fields
    ensures EstimateSize(Struct(fields[k := x])) == EstimateSize(Struct(fields)) + Utf8Len(k) + EstimateSize(x)
  {
    var v, w := Struct(fields[k := x]), Struct(fields);
    EntriesSizeRemove(v, v.fields.Keys, k);
    assert v.fields.Keys - {k} == w.fields.Keys;
    EntriesAgree(v, w, w.fields.Keys);
  }

  /** Two structs or maps that agree on some keys have the same sum over them. */
  lemma {:induction false} EntriesAgree(v: Value, w: Value, keys: set<string>)
    requires (v.Struct? || v.Map?) && (w.Struct? || w.Map?)
    requires keys <= EntriesOf(v).Keys && keys <= EntriesOf(w).Keys
    requires forall k :: k in keys ==> EntriesOf(v)[k] == EntriesOf(w)[k]
    ensures EntriesSize(v, keys) == EntriesSize(w, keys)
    decreases |keys|
  {
    if keys != {} {
      var k := PickKey(keys);
      EntriesAgree(v, w, keys - {k});
    }
  }

  /** A struct and a map with the same entries have the same size. */
  lemma StructMapSameSize(entries: map<string, Value>)
    ensures EstimateSize(Struct(entries)) == EstimateSize(Map(entries))
  {
    EntriesAgree(Struct(entries), Map(entries), entries.Keys);
  }

  /** Appending an item to an array adds that item's size. */
  lemma ArraySizeAppend(items: seq<Value>, x: Value)
    ensures EstimateSize(Array(items + [x])) == EstimateSize(Array(items)) + EstimateSize(x)
  {
    ItemsAgree(Array(items + [x]), Array(items), |items|);
  }

  /** Two arrays that agree on a prefix have the same sum over it. */
  lemma {:induction false} ItemsAgree(v: Value, w: Value, n: nat)
    requires v.Array? && w.Array? && n <= |v.items| && n <= |w.items|
    requires v.items[..n] == w.items[..n]
    ensures ItemsSize(v, n) == ItemsSize(w, n)
  {
    if n > 0 {
      assert v.items[..n - 1] == w.items[..n - 1];
      assert v.items[n - 1] == v.items[..n][n - 1];
      ItemsAgree(v, w, n - 1);
    }
  }

  /** Computes the size estimate, walking arrays in order and struct or map entries one key at a time. */
  method ComputeSize(v: Value) returns (n: nat)
    ensures n == EstimateSize(v)
    decreases v
  {
    match v
    case Array(items) =>
      n := 0;
      for i := 0 to |items|
        invariant n == ItemsSize(v, i)
      {
        var m := ComputeSize(items[i]);
        n := n + m;
      }
    case Struct(_) => n := ComputeEntriesSize(v);
    case Map(_) => n := ComputeEntriesSize(v);
    case _ => n := LeafSize(v);
  }

  method ComputeEntriesSize(v: Value) returns (n: nat)
    requires v.Struct? || v.Map?
    ensures n == EntriesSize(v, EntriesOf(v).Keys)
    decreases v, 0
  {
    var entries := EntriesOf(v);
    var pending := entries.Keys;
    n := 0;
    while pending != {}
      invariant pending <= entries.Keys
      invariant n + EntriesSize(v, pending) == EntriesSize(v, entries.Keys)
      decreases |pending|
    {
      var k :| k in pending;
      EntriesSizeRemove(v, pending, k);
      assert entries[k] < v;
      var m := ComputeSize(entries[k]);
      n := n + |Utf8Encode(k)| + m;
      pending := pending - {k};
    }
  }

  /** A parsed record as first built: its size estimate computed, no metadata yet. */
  method NewParsedData(value: Value, dataType: string, originalSize: nat, parseTimeUs: nat) returns (p: ParsedData)
    ensures p == ParsedData(value, dataType, originalSize, EstimateSize(value), parseTimeUs, map[])
  {
    var size := ComputeSize(value);
    p := ParsedData(value, dataType, originalSize, size, parseTimeUs, map[]);
  }

  function WithMetadata(p: ParsedData, key: string, value: string): ParsedData
  {
    p.(metadata := p.metadata[key := value])
  }

  /** Parsed size over original size, 0 for an empty original; it is 1 exactly when the two sizes agree. */
  function CompressionRatio(p: ParsedData): (ratio: real)
    ensures ratio >= 0.0
    ensures p.originalSize == 0 ==> ratio == 0.0
    ensures p.originalSize > 0 ==> (ratio == 1.0 <==> p.parsedSize == p.originalSize)
    ensures p.originalSize > 0 ==> (ratio < 1.0 <==> p.parsedSize < p.originalSize)
  {
    if p.originalSize == 0 then 0.0
    else
      RatioCompare(p.parsedSize, p.originalSize);
      p.parsedSize as real / p.originalSize as real
  }

  // ---- statistics ----

  datatype ParserStats = ParserStats(
    messagesParsed: nat,
    parseSuccesses: nat,
    parseFailures: nat,
    totalParseTimeUs: nat,
    avgParseTimeUs: real,
    minParseTimeUs: nat,
    maxParseTimeUs: nat,
    bytesProcessed: nat,
    throughputMsgPerSec: real)

  const ZERO_PARSER_STATS := ParserStats(0, 0, 0, 0, 0.0, 0, 0, 0, 0.0)

  /**
   * Every parse is a success or a failure; before the first parse all
   * figures are zero; afterwards the extremes are ordered, the total lies
   * between count times each extreme, and the average is total over count.
   */
  predicate ParserStatsValid(s: ParserStats)
  {
    s.messagesParsed == s.parseSuccesses + s.parseFailures
    && (s.messagesParsed == 0 ==>
          s.totalParseTimeUs == 0 && s.minParseTimeUs == 0 && s.maxParseTimeUs == 0 && s.avgParseTimeUs == 0.0)
    && (s.messagesParsed > 0 ==>
          s.minParseTimeUs <= s.maxParseTimeUs
          && s.minParseTimeUs * s.messagesParsed <= s.totalParseTimeUs <= s.maxParseTimeUs * s.messagesParsed
          && s.avgParseTimeUs == s.totalParseTimeUs as real / s.messagesParsed as real)
  }

  /** One more parse attempt: counted, its bytes and time added, and the extremes set by the first attempt and widened after. */
  function RecordParse(s: ParserStats, success: bool, parseTimeUs: nat, bytes: nat): (r: ParserStats)
    ensures r.messagesParsed == s.messagesParsed + 1
    ensures r.bytesProcessed == s.bytesProcessed + bytes
    ensures r.totalParseTimeUs == s.totalParseTimeUs + parseTimeUs
    ensures success ==> r.parseSuccesses == s.parseSuccesses + 1 && r.parseFailures == s.parseFailures
    ensures !success ==> r.parseFailures == s.parseFailures + 1 && r.parseSuccesses == s.parseSuccesses
    ensures s.messagesParsed == 0 ==> r.minParseTimeUs == parseTimeUs == r.maxParseTimeUs
    ensures s.messagesParsed > 0 ==>
              r.minParseTimeUs == (if parseTimeUs < s.minParseTimeUs then parseTimeUs else s.minParseTimeUs)
              && r.maxParseTimeUs == (if parseTimeUs > s.maxParseTimeUs then parseTimeUs else s.maxParseTimeUs)
    ensures r.throughputMsgPerSec == s.throughputMsgPerSec
  {
    var n := s.messagesParsed + 1;
    var total := s.totalParseTimeUs + parseTimeUs;
    var first := n == 1;
    s.(messagesParsed := n,
       bytesProcessed := s.bytesProcessed + bytes,
       totalParseTimeUs := total,
       parseSuccesses := if success then s.parseSuccesses + 1 else s.parseSuccesses,
       parseFailures := if success then s.parseFailures else s.parseFailures + 1,
       minParseTimeUs := if first || parseTimeUs < s.minParseTimeUs then parseTimeUs else s.minParseTimeUs,
       maxParseTimeUs := if first || parseTimeUs > s.maxParseTimeUs then parseTimeUs else s.maxParseTimeUs,
       avgParseTimeUs := total as real / n as real)
  }

  /** Recording a parse keeps the statistics consistent. */
  lemma RecordParseValid(s: ParserStats, success: bool, parseTimeUs: nat, bytes: nat)
    requires ParserStatsValid(s)
    ensures ParserStatsValid(RecordParse(s, success, parseTimeUs, bytes))
  {
    var r := RecordParse(s, success, parseTimeUs, bytes);
    if s.messagesParsed > 0 {
      MeanBoundsStep(s.minParseTimeUs, s.maxParseTimeUs, s.totalParseTimeUs, s.messagesParsed, parseTimeUs,
                     r.minParseTimeUs, r.maxParseTimeUs);
    }
  }

  /** So the reported average always lies between the fastest and the slowest parse. */
  lemma AverageParseTimeBetween(s: ParserStats)
    requires ParserStatsValid(s) && s.messagesParsed > 0
    ensures s.minParseTimeUs as real <= s.avgParseTimeUs <= s.maxParseTimeUs as real
  {
    DivBetween(s.minParseTimeUs, s.totalParseTimeUs, s.maxParseTimeUs, s.messagesParsed);
  }

  /** Successes over attempts, 0 before any; 1 exactly when every attempt succeeded. */
  function ParseSuccessRate(s: ParserStats): (rate: real)
    requires ParserStatsValid(s)
    ensures 0.0 <= rate <= 1.0
    ensures rate == 0.0 <==> s.parseSuccesses == 0
    ensures rate == 1.0 <==> s.messagesParsed > 0 && s.parseFailures == 0
  {
    if s.messagesParsed == 0 then 0.0
    else
      RatioCompare(s.parseSuccesses, s.messagesParsed);
      s.parseSuccesses as real / s.messagesParsed as real
  }

  // ---- JSON documents ----

  /**
   * A JSON document as the JSON library hands it over. A number carries
   * the `i64` and `f64` readings the library offers for it, either of
   * which may be absent; an object's keys are unique, the last duplicate
   * having won while reading.
   */
  datatype Json =
    | JNull
    | JBool(b: bool)
    | JNumber(asI64: Option<i64>, asF64: Option<Float>)
    | JString(s: string)
    | JArray(elements: seq<Json>)
    | JObject(members: map<string, Json>)

  const INVALID_NUMBER := Validation("Invalid number format")

  /** Every number in the document has an `i64` or an `f64` reading. */
  predicate NumbersReadable(j: Json)
  {
    match j
    case JNumber(i, f) => i.Some? || f.Some?
    case JArray(es) => forall k :: 0 <= k < |es| ==> NumbersReadable(es[k])
    case JObject(ms) => forall k :: k in ms ==> NumbersReadable(ms[k])
    case _ => true
  }

  /**
   * The document as a value: numbers become `Int64` when they fit and
   * `Float64` otherwise, arrays become arrays, objects become structs. A
   * number with neither reading fails the whole conversion.
   */
  function JsonToValue(j: Json): CoreResult<Value>
  {
    match j
    case JNull => Ok(Null)
    case JBool(b) => Ok(Bool(b))
    case JNumber(i, f) =>
      if i.Some? then Ok(Int64(i.value))
      else if f.Some? then Ok(Float64(f.value))
      else Err(INVALID_NUMBER)
    case JString(s) => Ok(Str(s))
    case JArray(es) =>
      if forall k :: 0 <= k < |es| ==> JsonToValue(es[k]).Ok? then
        Ok(Array(seq(|es|, k requires 0 <= k < |es| => JsonToValue(es[k]).value)))
      else Err(INVALID_NUMBER)
    case JObject(ms) =>
      if forall k :: k in ms ==> JsonToValue(ms[k]).Ok? then
        Ok(Struct(map k | k in ms :: JsonToValue(ms[k]).value))
      else Err(INVALID_NUMBER)
  }

  /**
   * The conversion succeeds exactly when every number is readable, and its
   * only failure is the number-format error; a successful result keeps the
   * document's shape (array lengths, object keys).
   */
  lemma {:induction false} JsonToValueExactly(j: Json)
    ensures JsonToValue(j).Ok? <==> NumbersReadable(j)
    ensures JsonToValue(j).Err? ==> JsonToValue(j).error == INVALID_NUMBER
    ensures JsonToValue(j).Ok? && j.JArray? ==> JsonToValue(j).value.Array? && |JsonToValue(j).value.items| == |j.elements|
    ensures JsonToValue(j).Ok? && j.JObject? ==> JsonToValue(j).value.Struct? && JsonToValue(j).value.fields.Keys == j.members.Keys
  {
    match j
    case JArray(es) =>
      forall k | 0 <= k < |es| ensures JsonToValue(es[k]).Ok? <==> NumbersReadable(es[k]) {
        JsonToValueExactly(es[k]);
      }
    case JObject(ms) =>
      forall k | k in ms ensures JsonToValue(ms[k]).Ok? <==> NumbersReadable(ms[k]) {
        JsonToValueExactly(ms[k]);
      }
    case _ =>
  }

  /** A JSON number with an integer reading becomes an `Int64`, never a timestamp: JSON input carries no `Timestamp` values. */
  lemma JsonNumbersAreNotTimestamps(j: Json)
    requires JsonToValue(j).Ok?
    ensures !JsonToValue(j).value.Timestamp?
    ensures j.JNumber? && j.asI64.Some? ==> JsonToValue(j).value == Int64(j.asI64.value)
  {
  }

  // ---- FIX ----

  const SOH: char := '\U{0001}'

  /** A FIX field's tag and value: the text before and after its first '='; a field without '=' has none. */
  function FixField(field: string): Option<(string, string)>
  {
    var eq := IndexOf(field, '=');
    if eq == -1 then None else Some((field[..eq], field[eq + 1..]))
  }

  /** The fields of a message as a map, each later field replacing an earlier one with the same tag. */
  function FixFields(fields: seq<string>): map<string, Value>
  {
    if fields == [] then map[]
    else
      var earlier := FixFields(fields[..|fields| - 1]);
      match FixField(fields[|fields| - 1])
      case None => earlier
      case Some((tag, value)) => earlier[tag := Str(value)]
  }

  /** The field has a '=' and the text before it is `tag`. */
  predicate Carries(field: string, tag: string)
  {
    FixField(field).Some? && FixField(field).value.0 == tag
  }

  /** A tag is in the map exactly when some field carries it. */
  lemma {:induction false} FixFieldsHasTag(fields: seq<string>, tag: string)
    ensures tag in FixFields(fields) <==> exists i :: 0 <= i < |fields| && Carries(fields[i], tag)
  {
    if fields != [] {
      var n := |fields| - 1;
      FixFieldsHasTag(fields[..n], tag);
      assert forall i :: 0 <= i < n ==> fields[..n][i] == fields[i];
    }
  }

  /** Its value is that of the last field carrying it. */
  lemma {:induction false} FixFieldsLastWins(fields: seq<string>, tag: string, i: nat)
    requires i < |fields| && Carries(fields[i], tag)
    requires forall j :: i < j < |fields| ==> !Carries(fields[j], tag)
    ensures tag in FixFields(fields) && FixFields(fields)[tag] == Str(FixField(fields[i]).value.1)
  {
    var n := |fields| - 1;
    if i < n {
      var init := fields[..n];
      assert init[i] == fields[i];
      assert forall j :: i < j < |init| ==> init[j] == fields[j];
      FixFieldsLastWins(init, tag, i);
      FixFieldsSkipsLast(fields, tag);
    } else {
      var f := FixField(fields[n]).value;
      assert FixFields(fields) == FixFields(fields[..n])[f.0 := Str(f.1)];
    }
  }

  /** A last field that does not carry `tag` leaves what the map says about `tag` unchanged. */
  lemma FixFieldsSkipsLast(fields: seq<string>, tag: string)
    requires fields != [] && !Carries(fields[|fields| - 1], tag)
    ensures var earlier := FixFields(fields[..|fields| - 1]);
            (tag in FixFields(fields) <==> tag in earlier)
            && (tag in earlier ==> FixFields(fields)[tag] == earlier[tag])
  {
  }

  /** Builds the field map of a decoded FIX message, one SOH-separated field at a time. */
  method ParseFixText(text: string) returns (fields: map<string, Value>)
    ensures fields == FixFields(SplitOn(text, SOH))
  {
    var parts := SplitOn(text, SOH);
    fields := map[];
    for i := 0 to |parts|
      invariant fields == FixFields(parts[..i])
    {
      assert parts[..i + 1][..i] == parts[..i];
      var eq := IndexOf(parts[i], '=');
      if eq != -1 {
        fields := fields[parts[i][..eq] := Str(parts[i][eq + 1..])];
      }
    }
    assert parts[..|parts|] == parts;
  }

  /** The text of a FIX message with the given fields, in order. */
  function EncodeFix(pairs: seq<(string, string)>): string
  {
    if pairs == [] then "" else Join(seq(|pairs|, i requires 0 <= i < |pairs| => pairs[i].0 + "=" + pairs[i].1), SOH)
  }

  /** The given fields as a map, each later pair replacing an earlier one with the same tag. */
  function PairsMap(pairs: seq<(string, string)>): map<string, Value>
  {
    if pairs == [] then map[] else PairsMap(pairs[..|pairs| - 1])[pairs[|pairs| - 1].0 := Str(pairs[|pairs| - 1].1)]
  }

  /** Tags free of '=' and SOH and values free of SOH can be carried in a FIX message. */
  predicate Encodable(pairs: seq<(string, string)>)
  {
    forall i :: 0 <= i < |pairs| ==> '=' !in pairs[i].0 && SOH !in pairs[i].0 && SOH !in pairs[i].1
  }

  /** Parsing an encoded message recovers its fields, the last duplicate winning. */
  lemma ParseEncodedFix(pairs: seq<(string, string)>)
    requires Encodable(pairs)
    ensures FixFields(SplitOn(EncodeFix(pairs), SOH)) == PairsMap(pairs)
  {
    if pairs == [] {
      assert IndexOf("", SOH) == -1;
      assert SplitOn("", SOH) == [""];
      assert FixField("") == None;
      assert [""][..0] == [];
    } else {
      var parts := seq(|pairs|, i requires 0 <= i < |pairs| => pairs[i].0 + "=" + pairs[i].1);
      forall i | 0 <= i < |parts| ensures SOH !in parts[i] {
        assert parts[i] == pairs[i].0 + "=" + pairs[i].1;
      }
      SplitOnJoin(parts, SOH);
      FixFieldsOfPairs(pairs, parts);
    }
  }

  lemma FixFieldOfPair(tag: string, value: string)
    requires '=' !in tag
    ensures FixField(tag + "=" + value) == Some((tag, value))
  {
    var f := tag + "=" + value;
    assert f[..|tag|] == tag && f[|tag|] == '=';
    assert IndexOf(f, '=') == |tag|;
    assert f[|tag| + 1..] == value;
  }

  lemma {:induction false} FixFieldsOfPairs(pairs: seq<(string, string)>, parts: seq<string>)
    requires Encodable(pairs)
    requires |parts| == |pairs| && forall i :: 0 <= i < |pairs| ==> parts[i] == pairs[i].0 + "=" + pairs[i].1
    ensures FixFields(parts) == PairsMap(pairs)
  {
    if pairs != [] {
      var n := |pairs| - 1;
      FixFieldsOfPairs(pairs[..n], parts[..n]);
      FixFieldOfPair(pairs[n].0, pairs[n].1);
    }
  }

  // ---- CSV ----

  /** One CSV record as a value: an array of its cells as strings. */
  function CsvRow(cells: seq<string>): Value
  {
    Array(seq(|cells|, i requires 0 <= i < |cells| => Str(cells[i])))
  }

  function CsvError(e: string): Error
  {
    Validation("CSV parsing error: " + e)
  }

  /** The records the CSV reader yielded, as an array of rows; the first record it could not read fails the whole parse. */
  function CsvValue(records: seq<Result<seq<string>, string>>): CoreResult<Value>
  {
    if records == [] then Ok(Array([]))
    else
      var earlier := CsvValue(records[..|records| - 1]);
      var last := records[|records| - 1];
      if earlier.Err? then earlier
      else if last.Err? then Err(CsvError(last.error))
      else if earlier.value.Array? then Ok(Array(earlier.value.items + [CsvRow(last.value)]))
      else earlier
  }

  function CsvRows(records: seq<Result<seq<string>, string>>): seq<Value>
    requires forall i :: 0 <= i < |records| ==> records[i].Ok?
  {
    seq(|records|, i requires 0 <= i < |records| => CsvRow(records[i].value))
  }

  /** Without unreadable records the result holds one row per record, in order. */
  lemma {:induction false} CsvValueAllRead(records: seq<Result<seq<string>, string>>)
    requires forall i :: 0 <= i < |records| ==> records[i].Ok?
    ensures CsvValue(records) == Ok(Array(CsvRows(records)))
  {
    if records != [] {
      var n := |records| - 1;
      CsvValueAllRead(records[..n]);
      assert CsvRows(records[..n]) + [CsvRow(records[n].value)] == CsvRows(records);
    }
  }

  /** Otherwise the result is the error of the first unreadable record. */
  lemma {:induction false} CsvValueFirstError(records: seq<Result<seq<string>, string>>, i: nat)
    requires i < |records| && records[i].Err?
    requires forall j :: 0 <= j < i ==> records[j].Ok?
    ensures CsvValue(records) == Err(CsvError(records[i].error))
  {
    var n := |records| - 1;
    if i < n {
      CsvValueFirstError(records[..n], i);
    } else {
      CsvValueAllRead(records[..n]);
    }
  }

  /** Collects the rows, stopping at the first record the reader could not read. */
  method CollectCsv(records: seq<Result<seq<string>, string>>) returns (r: CoreResult<Value>)
    ensures r == CsvValue(records)
  {
    var rows: seq<Value> := [];
    for i := 0 to |records|
      invariant CsvValue(records[..i]) == Ok(Array(rows))
    {
      assert records[..i + 1][..i] == records[..i];
      if records[i].Err? {
        r := Err(CsvError(records[i].error));
        CsvErrorSticks(records, i + 1);
        return;
      }
      rows := rows + [CsvRow(records[i].value)];
    }
    assert records[..|records|] == records;
    r := Ok(Array(rows));
  }

  /** Once a prefix fails, the whole sequence fails with the same error. */
  lemma {:induction false} CsvErrorSticks(records: seq<Result<seq<string>, string>>, n: nat)
    requires n <= |records| && CsvValue(records[..n]).Err?
    ensures CsvValue(records) == CsvValue(records[..n])
    decreases |records| - n
  {
    if n < |records| {
      assert records[..n + 1][..n] == records[..n];
      CsvErrorSticks(records, n + 1);
    } else {
      assert records[..n] == records;
    }
  }

  // ---- dispatch ----

  /**
   * What the libraries report for the received bytes: their UTF-8
   * decoding, the JSON document read from that text, the bincode-decoded
   * value, and each record the CSV reader yields after the header row.
   */
  datatype LibraryOutcomes = LibraryOutcomes(
    utf8: Result<string, string>,
    json: Result<Json, string>,
    bincode: Result<Value, string>,
    csvRecords: seq<Result<seq<string>, string>>)

  /**
   * The value of the received bytes in the configured format: "json",
   * "binary", "csv" or "fix"; any other format is unimplemented. The
   * textual formats first need valid UTF-8.
   */
  function Decoded(parserType: string, lib: LibraryOutcomes): CoreResult<Value>
  {
    if parserType == "json" then
      if lib.utf8.Err? then Err(Validation("Invalid UTF-8 in JSON data: " + lib.utf8.error))
      else if lib.json.Err? then Err(Validation("Invalid JSON: " + lib.json.error))
      else JsonToValue(lib.json.value)
    else if parserType == "binary" then
      if lib.bincode.Err? then Err(Validation("Binary deserialization failed: " + lib.bincode.error))
      else Ok(lib.bincode.value)
    else if parserType == "csv" then
      if lib.utf8.Err? then Err(Validation("Invalid UTF-8 in CSV data: " + lib.utf8.error))
      else CsvValue(lib.csvRecords)
    else if parserType == "fix" then
      if lib.utf8.Err? then Err(Validation("Invalid UTF-8 in FIX data: " + lib.utf8.error))
      else Ok(Struct(FixFields(SplitOn(lib.utf8.value, SOH))))
    else Err(Unimplemented("Parser type: " + parserType))
  }

  /** Computes `Decoded`, collecting CSV rows and FIX fields with loops. */
  method Decode(parserType: string, lib: LibraryOutcomes) returns (r: CoreResult<Value>)
    ensures r == Decoded(parserType, lib)
    ensures parserType == "json" ==>
              r == (if lib.utf8.Err? then Err(Validation("Invalid UTF-8 in JSON data: " + lib.utf8.error))
                    else if lib.json.Err? then Err(Validation("Invalid JSON: " + lib.json.error))
                    else JsonToValue(lib.json.value))
    ensures parserType == "binary" ==>
              r == (if lib.bincode.Err? then Err(Validation("Binary deserialization failed: " + lib.bincode.error))
                    else Ok(lib.bincode.value))
    ensures parserType == "csv" ==>
              r == (if lib.utf8.Err? then Err(Validation("Invalid UTF-8 in CSV data: " + lib.utf8.error))
                    else CsvValue(lib.csvRecords))
    ensures parserType == "fix" ==>
              r == (if lib.utf8.Err? then Err(Validation("Invalid UTF-8 in FIX data: " + lib.utf8.error))
                    else Ok(Struct(FixFields(SplitOn(lib.utf8.value, SOH)))))
    ensures parserType !in {"json", "binary", "csv", "fix"} ==> r == Err(Unimplemented("Parser type: " + parserType))
  {
    if parserType == "json" {
      if lib.utf8.Err? {
        r := Err(Validation("Invalid UTF-8 in JSON data: " + lib.utf8.error));
      } else if lib.json.Err? {
        r := Err(Validation("Invalid JSON: " + lib.json.error));
      } else {
        r := JsonToValue(lib.json.value);
      }
    } else if parserType == "binary" {
      r := if lib.bincode.Err? then Err(Validation("Binary deserialization failed: " + lib.bincode.error))
           else Ok(lib.bincode.value);
    } else if parserType == "csv" {
      if lib.utf8.Err? {
        r := Err(Validation("Invalid UTF-8 in CSV data: " + lib.utf8.error));
      } else {
        r := CollectCsv(lib.csvRecords);
      }
    } else if parserType == "fix" {
      if lib.utf8.Err? {
        r := Err(Validation("Invalid UTF-8 in FIX data: " + lib.utf8.error));
      } else {
        var fields := ParseFixText(lib.utf8.value);
        r := Ok(Struct(fields));
      }
    } else {
      r := Err(Unimplemented("Parser type: " + parserType));
    }
  }

  class DataParser {
    const parserType: string
    var stats: ParserStats

    constructor(parserType: string)
      ensures this.parserType == parserType && stats == ZERO_PARSER_STATS
    {
      this.parserType := parserType;
      stats := ZERO_PARSER_STATS;
    }

    /**
     * Decodes the received bytes in the configured format and records the
     * attempt, successful or not, with its time and the received size; a
     * success is wrapped as parsed data labelled with the format.
     */
    method Parse(lib: LibraryOutcomes, receivedSize: nat, parseTimeUs: nat) returns (r: CoreResult<ParsedData>)
      requires ParserStatsValid(stats)
      modifies this
      ensures ParserStatsValid(stats)
      ensures var v := Decoded(parserType, lib);
              && stats == RecordParse(old(stats), v.Ok?, parseTimeUs, receivedSize)
              && (v.Err? ==> r == Err(v.error))
              && (v.Ok? ==> r == Ok(ParsedData(v.value, parserType, receivedSize, EstimateSize(v.value), parseTimeUs, map[])))
    {
      var v := Decode(parserType, lib);
      RecordParseValid(stats, v.Ok?, parseTimeUs, receivedSize);
      stats := RecordParse(stats, v.Ok?, parseTimeUs, receivedSize);
      if v.Err? {
        return Err(v.error);
      }
      var p := NewParsedData(v.value, parserType, receivedSize, parseTimeUs);
      r := Ok(p);
    }

    method ResetStats()
      modifies this
      ensures stats == ZERO_PARSER_STATS
    {
      stats := ZERO_PARSER_STATS;
    }
  }
}

=== FILE: dafny/ingestion_recovery.dfy ===
// Retry decisions for failed ingestion work: whether another attempt is
// allowed, and how long to wait before it. Durations are whole milliseconds.
module IngestionRecovery {
  import opened Wrappers
  import opened Ints

  /** The strategies the crate names; the manager itself goes by the configured strategy's text. */
  datatype RecoveryStrategy = Immediate | FixedInterval | ExponentialBackoff | Custom(name: string)

  datatype RecoveryConfig = RecoveryConfig(
    autoRecovery: bool,
    maxRetries: u32,
    retryIntervalMs: nat,
    recoveryStrategy: string,
    deadLetterQueue: bool)

  const DEFAULT_RECOVERY_CONFIG := RecoveryConfig(true, 3, 1000, "exponential_backoff", true)

  datatype RecoveryManager = RecoveryManager(config: RecoveryConfig)

  predicate ShouldRetry(m: RecoveryManager, attempt: u32)
  {
    attempt < m.config.maxRetries
  }

  /** Exactly the first `maxRetries` attempts may be retried: allowed attempts form a prefix, and attempt `maxRetries` is refused. */
  lemma RetriesArePrefix(m: RecoveryManager, a: u32, b: u32)
    ensures ShouldRetry(m, a) && b <= a ==> ShouldRetry(m, b)
    ensures !ShouldRetry(m, m.config.maxRetries)
    ensures m.config.maxRetries == 0 ==> !ShouldRetry(m, a)
  {
  }

  /** `2^n` fits in 64 bits exactly below 64. */
  lemma {:induction false} Pow2Fits(n: nat)
    ensures Pow2(n) < TWO_64 <==> n < 64
  {
    Pow2Grows(n, 64);
    Pow2Grows(64, n);
    Pow2Sixty4();
  }

  lemma Pow2Sixty4()
    ensures Pow2(64) == TWO_64
  {
    assert Pow2(4) == 16;
    Pow2Add(4, 4);
    Pow2Add(8, 8);
    assert Pow2(16) == TWO_16;
    Pow2Add(16, 16);
    assert Pow2(32) == TWO_32;
    Pow2Add(32, 32);
  }

  lemma {:induction false} Pow2Add(a: nat, b: nat)
    ensures Pow2(a + b) == Pow2(a) * Pow2(b)
  {
    if b > 0 {
      Pow2Add(a, b - 1);
      assert Pow2(a + b) == 2 * Pow2(a + b - 1);
    }
  }

  lemma {:induction false} Pow2Grows(a: nat, b: nat)
    ensures a <= b ==> Pow2(a) <= Pow2(b)
    ensures a < b ==> Pow2(a) < Pow2(b)
  {
    if a < b {
      Pow2Grows(a, b - 1);
    }
  }

  /** The base delay: the interval in whole milliseconds, cast to 64 bits. */
  function BaseDelayMs(c: RecoveryConfig): u64
  {
    c.retryIntervalMs % TWO_64
  }

  /**
   * Whether computing the exponential delay overflows 64-bit arithmetic:
   * either the power of two itself does, or its product with the base.
   */
  predicate BackoffOverflows(c: RecoveryConfig, attempt: u32)
  {
    Pow2(attempt) >= TWO_64 || BaseDelayMs(c) * Pow2(attempt) >= TWO_64
  }

  /**
   * The delay before retrying: for the "exponential_backoff" strategy the
   * base delay times `2^attempt`, None where that overflows 64 bits (a
   * panic); for any other strategy the fixed interval, whatever the attempt.
   */
  function GetRetryDelay(m: RecoveryManager, attempt: u32): (d: Option<nat>)
    ensures m.config.recoveryStrategy != "exponential_backoff" ==> d == Some(m.config.retryIntervalMs)
    ensures m.config.recoveryStrategy == "exponential_backoff" ==>
              (d.None? <==> BackoffOverflows(m.config, attempt))
              && (d.Some? ==> d.value < TWO_64)
  {
    if m.config.recoveryStrategy == "exponential_backoff" then
      if BackoffOverflows(m.config, attempt) then None
      else Some(BaseDelayMs(m.config) * Pow2(attempt))
    else Some(m.config.retryIntervalMs)
  }

  /** At attempt 0 the exponential delay is the base interval itself. */
  lemma FirstDelayIsBase(m: RecoveryManager)
    requires m.config.recoveryStrategy == "exponential_backoff"
    requires m.config.retryIntervalMs < TWO_64
    ensures GetRetryDelay(m, 0) == Some(m.config.retryIntervalMs)
  {
  }

  /**
   * Each exponential delay doubles the one before, and once the arithmetic
   * overflows it overflows for every later attempt.
   */
  lemma {:induction false} DelayDoubles(m: RecoveryManager, attempt: u32)
    requires m.config.recoveryStrategy == "exponential_backoff"
    requires attempt < U32_MAX
    ensures GetRetryDelay(m, attempt + 1).Some? ==>
              GetRetryDelay(m, attempt).Some?
              && GetRetryDelay(m, attempt + 1).value == 2 * GetRetryDelay(m, attempt).value
    ensures GetRetryDelay(m, attempt).None? ==> GetRetryDelay(m, attempt + 1).None?
  {
    var b := BaseDelayMs(m.config);
    var p := Pow2(attempt);
    assert Pow2(attempt + 1) == 2 * p;
    assert b * (2 * p) == 2 * (b * p);
  }

  /** The default configuration waits 1s, 2s and 4s over its three retries. */
  lemma DefaultBackoff()
    ensures GetRetryDelay(RecoveryManager(DEFAULT_RECOVERY_CONFIG), 0) == Some(1000)
    ensures GetRetryDelay(RecoveryManager(DEFAULT_RECOVERY_CONFIG), 1) == Some(2000)
    ensures GetRetryDelay(RecoveryManager(DEFAULT_RECOVERY_CONFIG), 2) == Some(4000)
    ensures !ShouldRetry(RecoveryManager(DEFAULT_RECOVERY_CONFIG), 3)
  {
    assert Pow2(2) == 4;
  }
}

=== FILE: dafny/ingestion_validator.dfy ===
// The ingestion validator: rules parsed from configuration names, the
// required-field and data-type checks, the per-rule outcomes gathered into
// one result, and the statistics over all results. Clocks are parameters;
// the range, length and pattern rules accept everything, as in the source.
module IngestionValidator {
  import opened Wrappers
  import opened Floats
  import opened CoreError
  import opened CoreValue
  import opened IngestionParser
  import opened Seqs
  import opened Ints

  datatype ValidationRule =
    | RequiredFields(fields: seq<string>)
    | DataTypes(types: map<string, string>)
    | ValueRange(rangeField: string, min: Float, max: Float)
    | StringLength(lengthField: string, minLength: nat, maxLength: nat)
    | Regex(regexField: string, pattern: string)
    | Custom(name: string, expression: string)

  datatype ValidationErrorType =
    | MissingRequiredField
    | TypeMismatch
    | ValueOutOfRange
    | InvalidStringLength
    | RegexMismatch
    | CustomValidationFailed

  datatype ValidationError = ValidationError(
    errorType: ValidationErrorType,
    fieldPath: string,
    message: string,
    expected: Option<string>,
    actual: Option<string>)

  datatype ValidationWarning = ValidationWarning(warningType: string, fieldPath: string, message: string)

  datatype ValidationResult = ValidationResult(
    isValid: bool,
    errors: seq<ValidationError>,
    warnings: seq<ValidationWarning>,
    validationTimeUs: nat)

  function Success(validationTimeUs: nat): ValidationResult
  {
    ValidationResult(true, [], [], validationTimeUs)
  }

  function Failure(errors: seq<ValidationError>, validationTimeUs: nat): ValidationResult
  {
    ValidationResult(false, errors, [], validationTimeUs)
  }

  function WithWarnings(r: ValidationResult, warnings: seq<ValidationWarning>): ValidationResult
  {
    r.(warnings := warnings)
  }

  // ---- rules from configuration ----

  const REQUIRED_FIELDS_RULE := RequiredFields(["timestamp", "symbol"])
  const DEFAULT_TYPES := map["timestamp" := "timestamp", "price" := "float64", "volume" := "int64"]

  /** "required_fields" and "data_types" name the default rules; any other name is a custom rule carrying that name. */
  function ParseRule(ruleName: string): (rule: ValidationRule)
    ensures rule.Custom? <==> ruleName != "required_fields" && ruleName != "data_types"
    ensures rule.Custom? ==> rule.name == ruleName && rule.expression == ruleName
  {
    if ruleName == "required_fields" then REQUIRED_FIELDS_RULE
    else if ruleName == "data_types" then DataTypes(DEFAULT_TYPES)
    else ValidationRule.Custom(ruleName, ruleName)
  }

  /** Different names give different rules. */
  lemma ParseRuleInjective(a: string, b: string)
    requires ParseRule(a) == ParseRule(b)
    ensures a == b
  {
    if a == "required_fields" || a == "data_types" {
      assert !ParseRule(b).Custom?;
      assert b == "required_fields" || b == "data_types";
    }
  }

  /** One rule per name, in order. */
  method ParseRules(ruleNames: seq<string>) returns (rules: seq<ValidationRule>)
    ensures |rules| == |ruleNames|
    ensures forall i :: 0 <= i < |ruleNames| ==> rules[i] == ParseRule(ruleNames[i])
  {
    rules := [];
    for i := 0 to |ruleNames|
      invariant |rules| == i
      invariant forall j :: 0 <= j < i ==> rules[j] == ParseRule(ruleNames[j])
    {
      rules := rules + [ParseRule(ruleNames[i])];
    }
  }

  // ---- type names ----

  /** The type name the validator gives a value, as written: timestamps, among others, are "unknown". */
  function ValueTypeNameAsWritten(v: Value): string
  {
    match v
    case Null => "null"
    case Bool(_) => "bool"
    case Int8(_) => "int8"
    case Int16(_) => "int16"
    case Int32(_) => "int32"
    case Int64(_) => "int64"
    case Int128(_) => "int128"
    case UInt8(_) => "uint8"
    case UInt16(_) => "uint16"
    case UInt32(_) => "uint32"
    case UInt64(_) => "uint64"
    case UInt128(_) => "uint128"
    case Float32(_) => "float32"
    case Float64(_) => "float64"
    case Str(_) => "string"
    case Binary(_) => "binary"
    case Array(_) => "array"
    case Struct(_) => "struct"
    case Map(_) => "map"
    case _ => "unknown"
  }

  /** As written, no value is named "timestamp", so the default type rule rejects every record's timestamp field. */
  lemma NoValueNamedTimestampAsWritten(v: Value)
    ensures ValueTypeNameAsWritten(v) != DEFAULT_TYPES["timestamp"]
  {
  }

  /** The type name with timestamps named "timestamp", the name the default type rule expects. */
  function ValueTypeName(v: Value): string
  {
    match v
    case Null => "null"
    case Bool(_) => "bool"
    case Int8(_) => "int8"
    case Int16(_) => "int16"
    case Int32(_) => "int32"
    case Int64(_) => "int64"
    case Int128(_) => "int128"
    case UInt8(_) => "uint8"
    case UInt16(_) => "uint16"
    case UInt32(_) => "uint32"
    case UInt64(_) => "uint64"
    case UInt128(_) => "uint128"
    case Float32(_) => "float32"
    case Float64(_) => "float64"
    case Str(_) => "string"
    case Binary(_) => "binary"
    case Timestamp(_) => "timestamp"
    case Array(_) => "array"
    case Struct(_) => "struct"
    case Map(_) => "map"
    case _ => "unknown"
  }

  /**
   * The corrected name differs from the written one only on timestamps;
   * a timestamp, and only a timestamp, now meets the default rule's
   * expectation for the timestamp field.
   */
  lemma ValueTypeNameCorrects(v: Value)
    ensures v.Timestamp? ==> ValueTypeName(v) == DEFAULT_TYPES["timestamp"]
    ensures !v.Timestamp? ==> ValueTypeName(v) == ValueTypeNameAsWritten(v) && ValueTypeName(v) != DEFAULT_TYPES["timestamp"]
  {
  }

  // ---- required fields ----

  function MissingFieldError(field: string): ValidationError
  {
    ValidationError(MissingRequiredField, field, "Required field '" + field + "' is missing", Some("present"), Some("missing"))
  }

  /** One error per listed field absent from the map, in list order. */
  function MissingFieldErrors(fields: seq<string>, m: map<string, Value>): seq<ValidationError>
  {
    if fields == [] then []
    else
      var earlier := MissingFieldErrors(fields[..|fields| - 1], m);
      var f := fields[|fields| - 1];
      if f in m then earlier else earlier + [MissingFieldError(f)]
  }

  /**
   * Each error names a listed field that is absent, every absent listed
   * field has its error, and there are no more errors than listed fields.
   */
  lemma {:induction false} MissingFieldErrorsExactly(fields: seq<string>, m: map<string, Value>)
    ensures forall e :: e in MissingFieldErrors(fields, m) ==>
              e == MissingFieldError(e.fieldPath) && e.fieldPath in fields && e.fieldPath !in m
    ensures forall f :: f in fields && f !in m ==> MissingFieldError(f) in MissingFieldErrors(fields, m)
    ensures |MissingFieldErrors(fields, m)| <= |fields|
  {
    if fields != [] {
      var n := |fields| - 1;
      MissingFieldErrorsExactly(fields[..n], m);
      assert fields == fields[..n] + [fields[n]];
    }
  }

  /** So the required-field check passes exactly when every listed field is present. */
  lemma MissingFieldErrorsEmpty(fields: seq<string>, m: map<string, Value>)
    ensures MissingFieldErrors(fields, m) == [] <==> forall f :: f in fields ==> f in m
  {
    MissingFieldErrorsExactly(fields, m);
    if MissingFieldErrors(fields, m) != [] {
      var e := MissingFieldErrors(fields, m)[0];
      assert e in MissingFieldErrors(fields, m);
    }
  }

  /** What the required-field check yields: errors only for a struct lacking listed fields. */
  function RequiredFieldsOutcome(fields: seq<string>, value: Value): Result<seq<ValidationWarning>, seq<ValidationError>>
  {
    if value.Struct? && MissingFieldErrors(fields, value.fields) != [] then Err(MissingFieldErrors(fields, value.fields))
    else Ok([])
  }

  method ValidateRequiredFields(fields: seq<string>, value: Value) returns (r: Result<seq<ValidationWarning>, seq<ValidationError>>)
    ensures r == RequiredFieldsOutcome(fields, value)
  {
    var errors := [];
    if value.Struct? {
      for i := 0 to |fields|
        invariant errors == MissingFieldErrors(fields[..i], value.fields)
      {
        assert fields[..i + 1][..i] == fields[..i];
        if fields[i] !in value.fields {
          errors := errors + [MissingFieldError(fields[i])];
        }
      }
      assert fields[..|fields|] == fields;
    }
    r := if errors == [] then Ok([]) else Err(errors);
  }

  // ---- data types ----

  function TypeMismatchError(field: string, expectedType: string, actualType: string): ValidationError
  {
    ValidationError(TypeMismatch, field, "Field '" + field + "' has wrong type", Some(expectedType), Some(actualType))
  }

  /** The type name the validator gives each field present; a timestamp is "unknown". */
  function TypeNames(m: map<string, Value>): (names: map<string, string>)
    ensures names.Keys == m.Keys
    ensures forall f :: f in m && m[f].Timestamp? ==> names[f] == "unknown"
  {
    map f | f in m :: ValueTypeNameAsWritten(m[f])
  }

  /** The type name of each field present, with timestamps named "timestamp". */
  function TypeNamesCorrected(m: map<string, Value>): (names: map<string, string>)
    ensures names.Keys == m.Keys
  {
    map f | f in m :: ValueTypeName(m[f])
  }

  /** The field has an expected type and is present with another type name. */
  predicate IsMismatch(types: map<string, string>, actual: map<string, string>, f: string)
  {
    f in types && f in actual && actual[f] != types[f]
  }

  function MismatchedFields(types: map<string, string>, actual: map<string, string>): set<string>
  {
    set f | f in types && IsMismatch(types, actual, f)
  }

  /** The error reporting a mismatched field: its expected and actual type names. */
  predicate Reports(types: map<string, string>, actual: map<string, string>, e: ValidationError)
  {
    IsMismatch(types, actual, e.fieldPath)
    && e == TypeMismatchError(e.fieldPath, types[e.fieldPath], actual[e.fieldPath])
  }

  /** The errors report each mismatched field once, in some order. */
  ghost predicate ReportsMismatches(types: map<string, string>, actual: map<string, string>, errors: seq<ValidationError>)
  {
    |errors| == |MismatchedFields(types, actual)|
    && (forall i :: 0 <= i < |errors| ==> Reports(types, actual, errors[i]))
    && (forall i, j :: 0 <= i < j < |errors| ==> errors[i].fieldPath != errors[j].fieldPath)
  }

  /** Checks the expected types one field at a time, in the map's (unspecified) order. */
  method ValidateDataTypes(types: map<string, string>, value: Value) returns (r: Result<seq<ValidationWarning>, seq<ValidationError>>)
    ensures !value.Struct? || MismatchedFields(types, TypeNames(value.fields)) == {} ==> r == Ok([])
    ensures value.Struct? && MismatchedFields(types, TypeNames(value.fields)) != {} ==>
              r.Err? && ReportsMismatches(types, TypeNames(value.fields), r.error)
  {
    if !value.Struct? {
      return Ok([]);
    }
    var errors := ReportMismatches(types, TypeNames(value.fields));
    r := if errors == [] then Ok([]) else Err(errors);
  }

  /** Collects the mismatched fields one expected type at a time, then reports each. */
  method ReportMismatches(types: map<string, string>, actual: map<string, string>) returns (errors: seq<ValidationError>)
    ensures ReportsMismatches(types, actual, errors)
  {
    var found := MismatchedInOrder(types, actual);
    errors := seq(|found|, i requires 0 <= i < |found| && IsMismatch(types, actual, found[i]) =>
                TypeMismatchError(found[i], types[found[i]], actual[found[i]]));
  }

  /** The mismatched fields, each once, in the map's (unspecified) key order. */
  method MismatchedInOrder(types: map<string, string>, actual: map<string, string>) returns (found: seq<string>)
    ensures |found| == |MismatchedFields(types, actual)|
    ensures forall i :: 0 <= i < |found| ==> IsMismatch(types, actual, found[i])
    ensures Distinct(found)
  {
    var keys := SetToSeq(types.Keys);
    found := [];
    for i := 0 to |keys|
      invariant forall x :: x in found <==> x in keys[..i] && IsMismatch(types, actual, x)
      invariant Distinct(found)
    {
      assert keys[..i + 1] == keys[..i] + [keys[i]];
      if IsMismatch(types, actual, keys[i]) {
        assert keys[i] !in keys[..i];
        found := found + [keys[i]];
      }
    }
    assert keys[..|keys|] == keys;
    DistinctCard(found, MismatchedFields(types, actual));
    assert forall i :: 0 <= i < |found| ==> found[i] in found;
  }

  /** As written, the default type rule reports the timestamp field of every record that has one. */
  lemma DefaultTypesRejectTimestamp(m: map<string, Value>)
    requires "timestamp" in m
    ensures "timestamp" in MismatchedFields(DEFAULT_TYPES, TypeNames(m))
  {
    NoValueNamedTimestampAsWritten(m["timestamp"]);
  }

  /** With the corrected names, a record whose timestamp, price and volume have the expected variants passes the default type rule. */
  lemma DefaultTypesAcceptWellTypedRecord(m: map<string, Value>)
    requires "timestamp" in m && m["timestamp"].Timestamp?
    requires "price" in m && m["price"].Float64?
    requires "volume" in m && m["volume"].Int64?
    ensures MismatchedFields(DEFAULT_TYPES, TypeNamesCorrected(m)) == {}
  {
    assert DEFAULT_TYPES.Keys == {"timestamp", "price", "volume"};
  }

  // ---- rules applied ----

  function CustomWarning(name: string): ValidationWarning
  {
    ValidationWarning("custom_validation", "root", "Custom validation '" + name + "' not implemented")
  }

  /** How many errors a rule reports for a value: only the required-field and type rules report any, and only on a struct. */
  function RuleErrorCount(rule: ValidationRule, value: Value): nat
  {
    match rule
    case RequiredFields(fields) => if value.Struct? then |MissingFieldErrors(fields, value.fields)| else 0
    case DataTypes(types) => if value.Struct? then |MismatchedFields(types, TypeNames(value.fields))| else 0
    case _ => 0
  }

  /** The warnings a rule gives: one for a custom rule, none otherwise. */
  function RuleWarnings(rule: ValidationRule): seq<ValidationWarning>
  {
    if rule.Custom? then [CustomWarning(rule.name)] else []
  }

  /** What applying a rule to a value may yield. */
  ghost predicate RuleOutcome(rule: ValidationRule, value: Value, r: Result<seq<ValidationWarning>, seq<ValidationError>>)
  {
    match rule
    case RequiredFields(fields) => r == RequiredFieldsOutcome(fields, value)
    case DataTypes(types) =>
      if !value.Struct? || MismatchedFields(types, TypeNames(value.fields)) == {} then r == Ok([])
      else r.Err? && ReportsMismatches(types, TypeNames(value.fields), r.error)
    case Custom(name, _) => r == Ok([CustomWarning(name)])
    case _ => r == Ok([])
  }

  method ApplyRule(rule: ValidationRule, value: Value) returns (r: Result<seq<ValidationWarning>, seq<ValidationError>>)
    ensures RuleOutcome(rule, value, r)
  {
    match rule
    case RequiredFields(fields) => r := ValidateRequiredFields(fields, value);
    case DataTypes(types) => r := ValidateDataTypes(types, value);
    case Custom(name, _) => r := Ok([CustomWarning(name)]);
    case _ => r := Ok([]);
  }

  /**
   * A rule fails exactly when it reports errors, with as many errors as it
   * counts, all of them missing fields or type mismatches; a rule that
   * passes gives its warnings, and a rule that fails has none to give.
   */
  lemma RuleOutcomeCounts(rule: ValidationRule, value: Value, r: Result<seq<ValidationWarning>, seq<ValidationError>>)
    requires RuleOutcome(rule, value, r)
    ensures r.Ok? <==> RuleErrorCount(rule, value) == 0
    ensures r.Ok? ==> r.value == RuleWarnings(rule)
    ensures r.Err? ==> |r.error| == RuleErrorCount(rule, value) && RuleWarnings(rule) == []
    ensures r.Err? ==> forall e :: e in r.error ==> e.errorType == MissingRequiredField || e.errorType == TypeMismatch
  {
    match rule
    case RequiredFields(fields) =>
      if value.Struct? {
        MissingFieldErrorsExactly(fields, value.fields);
      }
    case DataTypes(types) =>
    case _ =>
  }

  /** Errors over all rules, added up. */
  function TotalErrors(rules: seq<ValidationRule>, value: Value): nat
  {
    if rules == [] then 0 else TotalErrors(rules[..|rules| - 1], value) + RuleErrorCount(rules[|rules| - 1], value)
  }

  /** Warnings of all rules, in rule order. */
  function AllWarnings(rules: seq<ValidationRule>): seq<ValidationWarning>
  {
    if rules == [] then [] else AllWarnings(rules[..|rules| - 1]) + RuleWarnings(rules[|rules| - 1])
  }

  /** The warnings are those of the custom rules, one each, in order. */
  lemma {:induction false} AllWarningsAreCustom(rules: seq<ValidationRule>)
    ensures forall w :: w in AllWarnings(rules) ==> w.warningType == "custom_validation" && w.fieldPath == "root"
    ensures |AllWarnings(rules)| == |set i | 0 <= i < |rules| && rules[i].Custom?|
  {
    if rules != [] {
      var n := |rules| - 1;
      AllWarningsAreCustom(rules[..n]);
      var before := set i | 0 <= i < n && rules[..n][i].Custom?;
      var now := set i | 0 <= i < |rules| && rules[i].Custom?;
      assert before == set i | 0 <= i < n && rules[i].Custom?;
      if rules[n].Custom? {
        assert now == before + {n};
      } else {
        assert now == before;
      }
    }
  }

  /**
   * Applies the rules in order, gathering every rule's errors and the
   * warnings of the rules that pass: there are no errors exactly when no
   * rule counts one.
   */
  method ApplyRules(rules: seq<ValidationRule>, value: Value) returns (errors: seq<ValidationError>, warnings: seq<ValidationWarning>)
    ensures |errors| == TotalErrors(rules, value) && warnings == AllWarnings(rules)
    ensures errors == [] <==> forall k :: 0 <= k < |rules| ==> RuleErrorCount(rules[k], value) == 0
    ensures forall e :: e in errors ==> e.errorType == MissingRequiredField || e.errorType == TypeMismatch
  {
    errors, warnings := [], [];
    for k := 0 to |rules|
      invariant |errors| == TotalErrors(rules[..k], value) && warnings == AllWarnings(rules[..k])
      invariant forall e :: e in errors ==> e.errorType == MissingRequiredField || e.errorType == TypeMismatch
    {
      var outcome := ApplyRule(rules[k], value);
      RuleOutcomeCounts(rules[k], value, outcome);
      RulesStep(rules, value, k);
      if outcome.Ok? {
        warnings := warnings + outcome.value;
      } else {
        errors := errors + outcome.error;
      }
    }
    assert rules[..|rules|] == rules;
    NoErrorsExactly(rules, value);
  }

  lemma RulesStep(rules: seq<ValidationRule>, value: Value, k: nat)
    requires k < |rules|
    ensures TotalErrors(rules[..k + 1], value) == TotalErrors(rules[..k], value) + RuleErrorCount(rules[k], value)
    ensures AllWarnings(rules[..k + 1]) == AllWarnings(rules[..k]) + RuleWarnings(rules[k])
  {
    assert rules[..k + 1][..k] == rules[..k];
  }

  /** The rules report no errors in total exactly when none of them reports one. */
  lemma {:induction false} NoErrorsExactly(rules: seq<ValidationRule>, value: Value)
    ensures TotalErrors(rules, value) == 0 <==> forall k :: 0 <= k < |rules| ==> RuleErrorCount(rules[k], value) == 0
  {
    if rules != [] {
      var n := |rules| - 1;
      NoErrorsExactly(rules[..n], value);
      assert forall k :: 0 <= k < n ==> rules[..n][k] == rules[k];
    }
  }

  // ---- statistics ----

  datatype ValidatorStats = ValidatorStats(
    messagesValidated: nat,
    validationSuccesses: nat,
    validationFailures: nat,
    totalValidationTimeUs: nat,
    avgValidationTimeUs: real,
    errorCounts: map<ValidationErrorType, nat>,
    warningCounts: map<string, nat>)

  const ZERO_VALIDATOR_STATS := ValidatorStats(0, 0, 0, 0, 0.0, map[], map[])

  function Count<K>(m: map<K, nat>, k: K): nat
  {
    if k in m then m[k] else 0
  }

  /** How many of the errors have the given type. */
  function ErrorsOfType(errors: seq<ValidationError>, t: ValidationErrorType): nat
  {
    if errors == [] then 0
    else ErrorsOfType(errors[..|errors| - 1], t) + (if errors[|errors| - 1].errorType == t then 1 else 0)
  }

  /** How many of the warnings have the given type. */
  function WarningsOfType(warnings: seq<ValidationWarning>, t: string): nat
  {
    if warnings == [] then 0
    else WarningsOfType(warnings[..|warnings| - 1], t) + (if warnings[|warnings| - 1].warningType == t then 1 else 0)
  }

  /** Every result counts as a success or a failure; the average is total time over results (0 before any). */
  predicate ValidatorStatsValid(s: ValidatorStats)
  {
    s.messagesValidated == s.validationSuccesses + s.validationFailures
    && s.avgValidationTimeUs == (if s.messagesValidated == 0 then 0.0 else s.totalValidationTimeUs as real / s.messagesValidated as real)
  }

  /**
   * Records one result: counted as a success or failure, its time added,
   * and each of its errors and warnings counted under its type.
   */
  method RecordValidation(s: ValidatorStats, result: ValidationResult) returns (r: ValidatorStats)
    requires ValidatorStatsValid(s)
    ensures ValidatorStatsValid(r)
    ensures r.messagesValidated == s.messagesValidated + 1
    ensures r.totalValidationTimeUs == s.totalValidationTimeUs + result.validationTimeUs
    ensures result.isValid ==> r.validationSuccesses == s.validationSuccesses + 1 && r.validationFailures == s.validationFailures
    ensures !result.isValid ==> r.validationFailures == s.validationFailures + 1 && r.validationSuccesses == s.validationSuccesses
    ensures forall t :: Count(r.errorCounts, t) == Count(s.errorCounts, t) + ErrorsOfType(result.errors, t)
    ensures forall t :: Count(r.warningCounts, t) == Count(s.warningCounts, t) + WarningsOfType(result.warnings, t)
  {
    var errorCounts: map<ValidationErrorType, nat> := s.errorCounts;
    for i := 0 to |result.errors|
      invariant forall t :: Count(errorCounts, t) == Count(s.errorCounts, t) + ErrorsOfType(result.errors[..i], t)
    {
      assert result.errors[..i + 1][..i] == result.errors[..i];
      var t := result.errors[i].errorType;
      errorCounts := errorCounts[t := Count(errorCounts, t) + 1];
    }
    assert result.errors[..|result.errors|] == result.errors;
    var warningCounts: map<string, nat> := s.warningCounts;
    for i := 0 to |result.warnings|
      invariant forall t :: Count(warningCounts, t) == Count(s.warningCounts, t) + WarningsOfType(result.warnings[..i], t)
    {
      assert result.warnings[..i + 1][..i] == result.warnings[..i];
      var t := result.warnings[i].warningType;
      warningCounts := warningCounts[t := Count(warningCounts, t) + 1];
    }
    assert result.warnings[..|result.warnings|] == result.warnings;
    var n := s.messagesValidated + 1;
    var total := s.totalValidationTimeUs + result.validationTimeUs;
    r := ValidatorStats(
      n,
      if result.isValid then s.validationSuccesses + 1 else s.validationSuccesses,
      if result.isValid then s.validationFailures else s.validationFailures + 1,
      total,
      total as real / n as real,
      errorCounts,
      warningCounts);
  }

  /** Successes over results, 0 before any; 1 exactly when every result was valid. */
  function ValidationSuccessRate(s: ValidatorStats): (rate: real)
    requires ValidatorStatsValid(s)
    ensures 0.0 <= rate <= 1.0
    ensures rate == 0.0 <==> s.validationSuccesses == 0
    ensures rate == 1.0 <==> s.messagesValidated > 0 && s.validationFailures == 0
  {
    if s.messagesValidated == 0 then 0.0
    else
      RatioCompare(s.validationSuccesses, s.messagesValidated);
      s.validationSuccesses as real / s.messagesValidated as real
  }

  // ---- the validator ----

  class DataValidator {
    const enabled: bool
    const rules: seq<ValidationRule>
    var stats: ValidatorStats

    /** The rules come from the configured names, one each, in order. */
    constructor(enabled: bool, ruleNames: seq<string>)
      ensures this.enabled == enabled && stats == ZERO_VALIDATOR_STATS
      ensures |rules| == |ruleNames| && forall i :: 0 <= i < |ruleNames| ==> rules[i] == ParseRule(ruleNames[i])
    {
      var parsed := ParseRules(ruleNames);
      this.enabled := enabled;
      rules := parsed;
      stats := ZERO_VALIDATOR_STATS;
    }

    /**
     * A disabled validator accepts at once, recording nothing. Otherwise
     * every rule is applied in order: the result is valid exactly when no
     * rule reports an error, carries every reported error and the custom
     * rules' warnings, and is recorded in the statistics.
     */
    method Validate(data: ParsedData, validationTimeUs: nat) returns (r: CoreResult<ValidationResult>)
      requires ValidatorStatsValid(stats)
      modifies this
      ensures ValidatorStatsValid(stats)
      ensures !enabled ==> r == Ok(Success(0)) && stats == old(stats)
      ensures enabled ==> r.Ok? && r.value.validationTimeUs == validationTimeUs
      ensures enabled ==> (r.value.isValid <==> r.value.errors == [])
      ensures enabled ==> (r.value.isValid <==> forall k :: 0 <= k < |rules| ==> RuleErrorCount(rules[k], data.value) == 0)
      ensures enabled ==> |r.value.errors| == TotalErrors(rules, data.value) && r.value.warnings == AllWarnings(rules)
      ensures enabled ==> forall e :: e in r.value.errors ==> e.errorType == MissingRequiredField || e.errorType == TypeMismatch
      ensures enabled ==> stats.messagesValidated == old(stats).messagesValidated + 1
                          && forall t :: Count(stats.errorCounts, t) == Count(old(stats).errorCounts, t) + ErrorsOfType(r.value.errors, t)
    {
      if !enabled {
        return Ok(Success(0));
      }
      var errors, warnings := ApplyRules(rules, data.value);
      var result := if errors == [] then WithWarnings(Success(validationTimeUs), warnings)
                    else WithWarnings(Failure(errors, validationTimeUs), warnings);
      stats := RecordValidation(stats, result);
      r := Ok(result);
    }

    method ResetStats()
      modifies this
      ensures stats == ZERO_VALIDATOR_STATS
    {
      stats := ZERO_VALIDATOR_STATS;
    }
  }
}

=== FILE: dafny/ints.dfy ===
// Fixed-width machine integers as subset types of `int`, with the
// wrap-around and saturating arithmetic the models need written out.
module Ints {

  const TWO_7: int := 0x80
  const TWO_8: int := 0x100
  const TWO_15: int := 0x8000
  const TWO_16: int := 0x1_0000
  const TWO_31: int := 0x8000_0000
  const TWO_32: int := 0x1_0000_0000
  const TWO_63: int := 0x8000_0000_0000_0000
  const TWO_64: int := 0x1_0000_0000_0000_0000
  const TWO_127: int := 0x8000_0000_0000_0000_0000_0000_0000_0000
  const TWO_128: int := 0x1_0000_0000_0000_0000_0000_0000_0000_0000

  type u8 = x: int | 0 <= x < TWO_8
  type u16 = x: int | 0 <= x < TWO_16
  type u32 = x: int | 0 <= x < TWO_32
  type u64 = x: int | 0 <= x < TWO_64
  type u128 = x: int | 0 <= x < TWO_128
  type i8 = x: int | -TWO_7 <= x < TWO_7
  type i16 = x: int | -TWO_15 <= x < TWO_15
  type i32 = x: int | -TWO_31 <= x < TWO_31
  type i64 = x: int | -TWO_63 <= x < TWO_63
  type i128 = x: int | -TWO_127 <= x < TWO_127

  const U32_MAX: u32 := TWO_32 - 1
  const U64_MAX: u64 := TWO_64 - 1
  const I32_MIN: i32 := -TWO_31
  const I64_MIN: i64 := -TWO_63

  /** Two's-complement reduction of any integer into the `i64` range. */
  function WrapI64(x: int): (r: i64)
    ensures (r - x) % TWO_64 == 0
  {
    var m := x % TWO_64;
    if m < TWO_63 then m else m - TWO_64
  }

  /** Two's-complement reduction of any integer into the `i32` range (Rust's `as i32`). */
  function WrapI32(x: int): (r: i32)
    ensures (r - x) % TWO_32 == 0
  {
    var m := x % TWO_32;
    if m < TWO_31 then m else m - TWO_32
  }

  lemma WrapI64Identity(x: int)
    requires -TWO_63 <= x < TWO_63
    ensures WrapI64(x) == x
  {
  }

  /** `u64::saturating_sub`. */
  function SatSubU64(a: u64, b: u64): (r: u64)
    ensures a >= b ==> r == a - b
    ensures a < b ==> r == 0
  {
    if a >= b then a - b else 0
  }

  /** `u64` addition saturating at the top (Rust's `saturating_add`). */
  function SatAddU64(a: u64, b: u64): (r: u64)
    ensures a + b <= U64_MAX ==> r == a + b
    ensures a + b > U64_MAX ==> r == U64_MAX
  {
    if a + b <= U64_MAX then a + b else U64_MAX
  }

  /** Rust's integer `/`, which truncates toward zero. */
  function TruncDiv(a: int, b: int): (q: int)
    requires b != 0
  {
    var ax := if a >= 0 then a else -a;
    var bx := if b > 0 then b else -b;
    if (a >= 0) == (b > 0) then ax / bx else -(ax / bx)
  }

  lemma MulNonneg(a: int, b: int)
    requires a >= 0 && b >= 0
    ensures a * b >= 0
  {
  }

  lemma MulSign(k: int, d: int)
    requires d > 0
    ensures k >= 1 ==> k * d >= d
    ensures k <= -1 ==> k * d <= -d
  {
    if k >= 1 {
      assert k * d == (k - 1) * d + d;
      MulNonneg(k - 1, d);
    }
    if k <= -1 {
      assert k * d == -((-k - 1) * d) - d;
      MulNonneg(-k - 1, d);
    }
  }

  /** A multiple of `d` leaves no remainder and divides back exactly. */
  lemma MultipleModZero(q: int, d: int)
    requires d > 0
    ensures (q * d) % d == 0
    ensures (q * d) / d == q
  {
    var m := q * d;
    var k := q - m / d;
    assert m == d * (m / d) + m % d;
    assert k * d == m % d;
    MulSign(k, d);
  }

  /** Euclidean division by a positive divisor rounds down. */
  lemma DivBounds(x: int, d: int)
    requires d > 0
    ensures (x / d) * d <= x < (x / d) * d + d
  {
    assert x == d * (x / d) + x % d;
  }

  /** Two multiples of `d` that differ by less than `d` are equal. */
  lemma MultiplesApart(a: int, b: int, d: int)
    requires d > 0 && a % d == 0 && b % d == 0 && a < b
    ensures b - a >= d
  {
    assert a == d * (a / d);
    assert b == d * (b / d);
    assert b - a == (b / d - a / d) * d;
    MulSign(b / d - a / d, d);
  }

  /** Truncating division by a positive divisor rounds toward zero, onto a multiple. */
  lemma TruncDivBounds(x: int, d: int)
    requires d > 0
    ensures x >= 0 ==> TruncDiv(x, d) * d <= x < TruncDiv(x, d) * d + d
    ensures x < 0 ==> x <= TruncDiv(x, d) * d < x + d
    ensures (TruncDiv(x, d) * d) % d == 0
  {
    if x >= 0 {
      DivBounds(x, d);
    } else {
      DivBounds(-x, d);
      assert TruncDiv(x, d) * d == -(((-x) / d) * d);
    }
    MultipleModZero(TruncDiv(x, d), d);
  }

  /** Rounding toward zero onto a multiple never moves a value away from zero. */
  lemma TruncDivShrinks(x: int, d: int)
    requires d != 0
    ensures x >= 0 ==> 0 <= TruncDiv(x, d) * d <= x
    ensures x < 0 ==> x <= TruncDiv(x, d) * d <= 0
  {
    if x >= 0 && d > 0 {
      ShrinkSameSign(x, d);
    } else if x >= 0 {
      ShrinkMixedSign(x, -d);
      assert TruncDiv(x, d) * d == TruncDiv(x, -d) * -d;
    } else if d > 0 {
      ShrinkMixedSign(-x, d);
      assert TruncDiv(x, d) * d == -(TruncDiv(-x, d) * d);
    } else {
      ShrinkSameSign(-x, -d);
      assert TruncDiv(x, d) * d == -(TruncDiv(-x, -d) * -d);
    }
  }

  lemma ShrinkSameSign(x: int, d: int)
    requires x >= 0 && d > 0
    ensures 0 <= TruncDiv(x, d) * d <= x
  {
    DivBounds(x, d);
    MulNonneg(x / d, d);
  }

  lemma ShrinkMixedSign(x: int, d: int)
    requires x >= 0 && d > 0
    ensures 0 <= TruncDiv(x, -d) * -d <= x
  {
    var q := x / d;
    DivBounds(x, d);
    MulNonneg(q, d);
    assert TruncDiv(x, -d) == -q;
    assert -q * -d == q * d;
  }

  /** Adding one time within new extremes keeps the total between count times each extreme. */
  lemma MeanBoundsStep(lo: nat, hi: nat, total: nat, n: nat, t: nat, lo': nat, hi': nat)
    requires lo * n <= total <= hi * n
    requires lo' <= lo && lo' <= t && hi <= hi' && t <= hi'
    ensures lo' * (n + 1) <= total + t <= hi' * (n + 1)
  {
    MulMono(lo', lo, n);
    MulMono(hi, hi', n);
    assert lo' * (n + 1) == lo' * n + lo';
    assert hi' * (n + 1) == hi' * n + hi';
  }

  lemma MulMono(a: nat, b: nat, n: nat)
    requires a <= b
    ensures a * n <= b * n
  {
  }

  /** A total between count times each bound has its mean between the bounds. */
  lemma DivBetween(lo: nat, total: nat, hi: nat, n: nat)
    requires n > 0 && lo * n <= total <= hi * n
    ensures lo as real <= total as real / n as real <= hi as real
  {
    assert (lo * n) as real == lo as real * n as real;
    assert (hi * n) as real == hi as real * n as real;
  }

  /** A ratio of naturals compares with 1 as its numerator compares with its denominator. */
  lemma RatioCompare(a: nat, b: nat)
    requires b > 0
    ensures 0.0 <= a as real / b as real
    ensures a as real / b as real == 1.0 <==> a == b
    ensures a as real / b as real < 1.0 <==> a < b
    ensures a as real / b as real == 0.0 <==> a == 0
  {
    var r := a as real / b as real;
    assert r * b as real == a as real;
  }

  /** `2^k`. */
  function Pow2(k: nat): (p: nat)
    ensures p >= 1
  {
    if k == 0 then 1 else 2 * Pow2(k - 1)
  }

  /** A quotient of naturals as a real, taken as 0 when the denominator is 0 (the sources' guard against dividing by zero). */
  function Quotient(num: nat, den: nat): (q: real)
    ensures q >= 0.0
    ensures den == 0 || num == 0 ==> q == 0.0
    ensures den > 0 ==> q * den as real == num as real
  {
    if den == 0 then 0.0 else num as real / den as real
  }

  /** A product with a positive factor has the sign of the other factor. */
  lemma SignOfFactor(a: real, d: real)
    requires d > 0.0
    ensures a * d >= 0.0 ==> a >= 0.0
    ensures a * d == 0.0 ==> a == 0.0
  {
  }

  /**
   * The share of `num` among `num + rest`: between 0 and 1, 0 exactly
   * when `num` is 0, 1 exactly when `rest` is 0 and `num` is not.
   */
  lemma QuotientIsShare(num: nat, rest: nat)
    ensures var q := Quotient(num, num + rest);
            0.0 <= q <= 1.0 && (q == 0.0 <==> num == 0) && (q == 1.0 <==> num > 0 && rest == 0)
            && (num + rest) as real * q == num as real
  {
    var den := num + rest;
    if den > 0 {
      var q := Quotient(num, den);
      var d := den as real;
      assert (1.0 - q) * d == rest as real;
      SignOfFactor(q, d);
      SignOfFactor(1.0 - q, d);
    }
  }
}

=== FILE: dafny/query_aggregates.dfy ===
// Aggregate functions over the values of one column: COUNT, SUM, AVG, MIN,
// MAX, FIRST and LAST. Sums are taken in double precision, modelled by
// the exact-real floats of the Floats module.
module QueryAggregates {
  import opened Wrappers
  import opened Ints
  import opened Floats
  import opened CoreError
  import opened CoreValue

  datatype AggregateFunction = Count | Sum | Avg | Min | Max | First | Last

  /**
   * A total order on values, as `Ord` would supply it: the caller's
   * comparison, since the value type itself only offers equality.
   */
  type ValueCmp = (Value, Value) -> Ordering

  /** The laws `Ord` promises, on the values at hand. */
  predicate OrdOn(cmp: ValueCmp, vs: seq<Value>)
  {
    (forall a, b :: a in vs && b in vs ==> cmp(b, a) == cmp(a, b).Reverse())
    && (forall a, b, c :: a in vs && b in vs && c in vs && cmp(a, b) != Greater && cmp(b, c) != Greater ==>
          cmp(a, c) != Greater)
  }

  predicate Numeric(v: Value)
  {
    v.Int32? || v.Int64? || v.Float32? || v.Float64?
  }

  predicate AllNumeric(values: seq<Value>)
  {
    forall k :: 0 <= k < |values| ==> Numeric(values[k])
  }

  /** A numeric value widened to a double (`as f64`). */
  function AsF64(v: Value): Float
    requires Numeric(v)
  {
    if v.Int32? then FromInt(v.i32v)
    else if v.Int64? then FromInt(v.i64v)
    else if v.Float32? then v.f32v
    else v.f64v
  }

  /** The running sum from 0.0, adding the values left to right. */
  function Total(values: seq<Value>): Float
    requires AllNumeric(values)
  {
    if values == [] then Finite(0.0)
    else Add(Total(values[..|values| - 1]), AsF64(values[|values| - 1]))
  }

  /** SUM: the values in order added to 0.0; any non-numeric value fails the whole sum. */
  method SumOf(values: seq<Value>) returns (r: CoreResult<Value>)
    ensures r.Err? <==> !AllNumeric(values)
    ensures r.Err? ==> r.error == Validation("SUM requires numeric values")
    ensures r.Ok? ==> r.value == Float64(Total(values))
  {
    var sum := Finite(0.0);
    for i := 0 to |values|
      invariant AllNumeric(values[..i])
      invariant sum == Total(values[..i])
    {
      assert values[..i + 1][..i] == values[..i];
      if !Numeric(values[i]) {
        return Err(Validation("SUM requires numeric values"));
      }
      sum := Add(sum, AsF64(values[i]));
    }
    assert values[..|values|] == values;
    return Ok(Float64(sum));
  }

  /** A value that widens to NaN makes the whole sum NaN. */
  lemma {:induction false} NaNPoisonsTotal(values: seq<Value>, k: nat)
    requires AllNumeric(values)
    requires k < |values| && AsF64(values[k]).NaN?
    ensures Total(values).NaN?
  {
    var n := |values| - 1;
    if k < n {
      assert values[..n][k] == values[k];
      NaNPoisonsTotal(values[..n], k);
    }
  }

  /** `n` copies of `x` added up. */
  function Scaled(n: nat, x: real): real
  {
    if n == 0 then 0.0 else Scaled(n - 1, x) + x
  }

  lemma {:induction false} ScaledIsProduct(n: nat, x: real)
    ensures Scaled(n, x) == n as real * x
  {
    if n > 0 {
      ScaledIsProduct(n - 1, x);
      AddOne((n - 1) as real, x);
    }
  }

  lemma AddOne(m: real, x: real)
    ensures (m + 1.0) * x == m * x + x
  {
  }

  /** Values that widen to finite reals between `lo` and `hi` sum to between `n` times `lo` and `n` times `hi`. */
  lemma {:induction false} TotalBounds(values: seq<Value>, lo: real, hi: real)
    requires AllNumeric(values)
    requires forall k :: 0 <= k < |values| ==> AsF64(values[k]).Finite? && lo <= AsF64(values[k]).r <= hi
    ensures Total(values).Finite?
    ensures Scaled(|values|, lo) <= Total(values).r <= Scaled(|values|, hi)
  {
    if values != [] {
      var n := |values| - 1;
      var prefix := values[..n];
      assert forall k :: 0 <= k < n ==> prefix[k] == values[k];
      TotalBounds(prefix, lo, hi);
    }
  }

  /**
   * AVG: at least one value, then the sum divided by the count; a
   * non-numeric value fails as SUM does.
   */
  method AvgOf(values: seq<Value>) returns (r: CoreResult<Value>)
    ensures values == [] ==> r == Err(Validation("AVG requires at least one value"))
    ensures values != [] && !AllNumeric(values) ==> r == Err(Validation("SUM requires numeric values"))
    ensures values != [] && AllNumeric(values) ==> r == Ok(Float64(DivByCount(Total(values), |values|)))
  {
    if values == [] {
      return Err(Validation("AVG requires at least one value"));
    }
    var sum := SumOf(values);
    if sum.Err? {
      return sum;
    }
    return Ok(Float64(DivByCount(sum.value.f64v, |values|)));
  }

  /** The average of finite values lies between their least and greatest bound. */
  lemma {:induction false} AverageWithinBounds(values: seq<Value>, lo: real, hi: real)
    requires values != [] && AllNumeric(values)
    requires forall k :: 0 <= k < |values| ==> AsF64(values[k]).Finite? && lo <= AsF64(values[k]).r <= hi
    ensures var a := DivByCount(Total(values), |values|);
            a.Finite? && lo <= a.r <= hi
  {
    TotalBounds(values, lo, hi);
    MeanOfBoundedTotal(Total(values), |values|, lo, hi);
  }

  lemma MeanOfBoundedTotal(t: Float, n: nat, lo: real, hi: real)
    requires n > 0 && t.Finite? && Scaled(n, lo) <= t.r <= Scaled(n, hi)
    ensures DivByCount(t, n).Finite? && lo <= DivByCount(t, n).r <= hi
  {
    ScaledIsProduct(n, lo);
    ScaledIsProduct(n, hi);
    QuotientBounds(t.r, n as real, lo, hi);
  }

  /** A quotient by a positive `n` of a number between `n * lo` and `n * hi` lies between `lo` and `hi`. */
  lemma QuotientBounds(t: real, n: real, lo: real, hi: real)
    requires n > 0.0 && n * lo <= t <= n * hi
    ensures lo <= t / n <= hi
  {
    var a := t / n;
    assert a * n == t;
    ScaleBack(a, lo, n);
    ScaleBack(hi, a, n);
  }

  /** Multiplying by a positive number keeps `<=` in both directions. */
  lemma ScaleBack(x: real, y: real, n: real)
    requires n > 0.0 && y * n <= x * n
    ensures y <= x
  {
  }

  /** The minimum by folding left, keeping the earlier of two equal values. */
  function MinOf(values: seq<Value>, cmp: ValueCmp): (m: Value)
    requires values != []
    ensures m in values
  {
    if |values| == 1 then values[0]
    else
      var acc := MinOf(values[..|values| - 1], cmp);
      var x := values[|values| - 1];
      if cmp(acc, x) == Greater then x else acc
  }

  /** The maximum by folding left, keeping the later of two equal values. */
  function MaxOf(values: seq<Value>, cmp: ValueCmp): (m: Value)
    requires values != []
    ensures m in values
  {
    if |values| == 1 then values[0]
    else
      var acc := MaxOf(values[..|values| - 1], cmp);
      var x := values[|values| - 1];
      if cmp(acc, x) == Greater then acc else x
  }

  lemma OrdOnPrefix(cmp: ValueCmp, vs: seq<Value>, n: nat)
    requires OrdOn(cmp, vs) && n <= |vs|
    ensures OrdOn(cmp, vs[..n])
  {
    assert forall a :: a in vs[..n] ==> a in vs;
  }

  /** Under a total order MIN is no greater than any value. */
  lemma {:induction false} MinIsLeast(values: seq<Value>, cmp: ValueCmp, v: Value)
    requires values != [] && OrdOn(cmp, values)
    requires v in values
    ensures cmp(MinOf(values, cmp), v) != Greater
  {
    var n := |values| - 1;
    var x := values[n];
    if n == 0 {
      assert cmp(x, x) == cmp(x, x).Reverse();
    } else {
      var prefix := values[..n];
      var acc := MinOf(prefix, cmp);
      OrdOnPrefix(cmp, values, n);
      assert values == prefix + [x];
      if v in prefix {
        MinIsLeast(prefix, cmp, v);
      } else {
        assert v == x;
        assert cmp(x, x) == cmp(x, x).Reverse();
      }
      if cmp(acc, x) == Greater {
        assert cmp(x, acc) == Less;
      }
    }
  }

  /** Under a total order MAX is no less than any value. */
  lemma {:induction false} MaxIsGreatest(values: seq<Value>, cmp: ValueCmp, v: Value)
    requires values != [] && OrdOn(cmp, values)
    requires v in values
    ensures cmp(v, MaxOf(values, cmp)) != Greater
  {
    var n := |values| - 1;
    var x := values[n];
    if n == 0 {
      assert cmp(x, x) == cmp(x, x).Reverse();
    } else {
      var prefix := values[..n];
      var acc := MaxOf(prefix, cmp);
      OrdOnPrefix(cmp, values, n);
      assert values == prefix + [x];
      if v in prefix {
        MaxIsGreatest(prefix, cmp, v);
      } else {
        assert v == x;
        assert cmp(x, x) == cmp(x, x).Reverse();
      }
      if cmp(acc, x) != Greater {
        assert cmp(acc, x) != Greater;
      }
    }
  }

  /**
   * Applies the aggregate: COUNT the number of values as a 64-bit integer,
   * SUM and AVG as above, MIN, MAX, FIRST and LAST a value from the input,
   * each of the last four failing on no values.
   */
  method Apply(f: AggregateFunction, values: seq<Value>, cmp: ValueCmp) returns (r: CoreResult<Value>)
    ensures f.Count? ==> r == Ok(Int64(WrapI64(|values|)))
    ensures f.Count? && |values| < TWO_63 ==> r == Ok(Int64(|values|))
    ensures f.Sum? ==> (r.Ok? <==> AllNumeric(values)) && (r.Ok? ==> r.value == Float64(Total(values)))
    ensures f.Avg? ==> (r.Ok? <==> values != [] && AllNumeric(values))
    ensures f.Avg? && r.Ok? ==> r.value == Float64(DivByCount(Total(values), |values|))
    ensures (f.Min? || f.Max? || f.First? || f.Last?) ==> (r.Ok? <==> values != [])
    ensures f.Min? && values == [] ==> r == Err(Validation("No values for MIN aggregate"))
    ensures f.Max? && values == [] ==> r == Err(Validation("No values for MAX aggregate"))
    ensures f.First? && values == [] ==> r == Err(Validation("No values for FIRST aggregate"))
    ensures f.Last? && values == [] ==> r == Err(Validation("No values for LAST aggregate"))
    ensures f.Min? && r.Ok? ==> r.value == MinOf(values, cmp)
    ensures f.Max? && r.Ok? ==> r.value == MaxOf(values, cmp)
    ensures f.First? && r.Ok? ==> r.value == values[0]
    ensures f.Last? && r.Ok? ==> r.value == values[|values| - 1]
  {
    match f
    case Count => r := Ok(Int64(WrapI64(|values|)));
    case Sum => r := SumOf(values);
    case Avg => r := AvgOf(values);
    case Min =>
      r := if values == [] then Err(Validation("No values for MIN aggregate")) else Ok(MinOf(values, cmp));
    case Max =>
      r := if values == [] then Err(Validation("No values for MAX aggregate")) else Ok(MaxOf(values, cmp));
    case First =>
      r := if values == [] then Err(Validation("No values for FIRST aggregate")) else Ok(values[0]);
    case Last =>
      r := if values == [] then Err(Validation("No values for LAST aggregate")) else Ok(values[|values| - 1]);
  }
}

=== FILE: dafny/query_cache.dfy ===
// The query result cache: results keyed by query hash, a bounded number of
// entries, and hit/miss/eviction counters. Instants are passed in as
// milliseconds from the caller's clock.
module QueryCache {
  import opened Wrappers
  import opened Ints

  /** The configured policy; eviction does not consult it. */
  datatype CachePolicy = Lru | Lfu | Fifo | Ttl(durationMs: nat)

  datatype CacheStats = CacheStats(hits: nat, misses: nat, evictions: nat, size: nat, capacity: nat)

  /** Hits over lookups, 0 before the first lookup. */
  function HitRate(s: CacheStats): (rate: real)
    ensures 0.0 <= rate <= 1.0
    ensures rate == 1.0 <==> s.hits > 0 && s.misses == 0
    ensures rate == 0.0 <==> s.hits == 0
    ensures (s.hits + s.misses) as real * rate == s.hits as real
  {
    QuotientIsShare(s.hits, s.misses);
    Quotient(s.hits, s.hits + s.misses)
  }

  datatype CacheEntry<T> = CacheEntry(result: T, createdAt: nat, lastAccessed: nat, accessCount: nat)

  class QueryCache<T> {
    const policy: CachePolicy
    const capacity: nat
    var entries: map<string, CacheEntry<T>>
    var stats: CacheStats

    /**
     * The size counter tracks the number of entries, and the cache never
     * holds more than its capacity, except that a cache of capacity 0
     * still keeps the last entry put in it.
     */
    ghost predicate Valid()
      reads this
    {
      stats.capacity == capacity
      && stats.size == |entries|
      && |entries| <= (if capacity == 0 then 1 else capacity)
    }

    constructor(policy: CachePolicy, capacity: nat)
      ensures Valid()
      ensures this.policy == policy && this.capacity == capacity
      ensures entries == map[] && stats == CacheStats(0, 0, 0, 0, capacity)
    {
      this.policy := policy;
      this.capacity := capacity;
      entries := map[];
      stats := CacheStats(0, 0, 0, 0, capacity);
    }

    /** A hit returns the cached result, counts a hit and touches the entry; a miss counts a miss. */
    method Get(queryHash: string, now: nat) returns (r: Option<T>)
      requires Valid()
      modifies this
      ensures Valid()
      ensures queryHash in old(entries) ==>
                var e := old(entries)[queryHash];
                r == Some(e.result)
                && entries == old(entries)[queryHash := e.(lastAccessed := now, accessCount := e.accessCount + 1)]
                && stats == old(stats).(hits := old(stats).hits + 1)
      ensures queryHash !in old(entries) ==>
                r == None && entries == old(entries) && stats == old(stats).(misses := old(stats).misses + 1)
    {
      if queryHash in entries {
        var e := entries[queryHash];
        entries := entries[queryHash := e.(lastAccessed := now, accessCount := e.accessCount + 1)];
        stats := stats.(hits := stats.hits + 1);
        r := Some(e.result);
      } else {
        stats := stats.(misses := stats.misses + 1);
        r := None;
      }
    }

    /**
     * At or over capacity, one entry (whichever the map yields first) is
     * dropped before the new one goes in, even when the new key is already
     * cached; the size counter is then refreshed.
     */
    method Put(queryHash: string, result: T, now: nat)
      requires Valid()
      modifies this
      ensures Valid()
      ensures queryHash in entries && entries[queryHash] == CacheEntry(result, now, now, 1)
      ensures |old(entries)| < capacity || old(entries) == map[] ==>
                entries == old(entries)[queryHash := CacheEntry(result, now, now, 1)]
                && stats.evictions == old(stats).evictions
      ensures |old(entries)| >= capacity && old(entries) != map[] ==>
                (exists evicted :: evicted in old(entries)
                   && entries == (old(entries) - {evicted})[queryHash := CacheEntry(result, now, now, 1)])
                && stats.evictions == old(stats).evictions + 1
      ensures stats.hits == old(stats).hits && stats.misses == old(stats).misses
    {
      if |entries| >= capacity {
        EvictOne();
      }
      ghost var before := entries;
      entries := entries[queryHash := CacheEntry(result, now, now, 1)];
      assert |entries| <= |before| + 1;
      stats := stats.(size := |entries|);
    }

    /** Drops one entry, if there is any, and counts the eviction. */
    method EvictOne()
      requires Valid()
      modifies this
      ensures stats.capacity == capacity && |entries| <= (if capacity == 0 then 1 else capacity)
      ensures stats == old(stats).(evictions := stats.evictions)
      ensures old(entries) == map[] ==> entries == old(entries) && stats == old(stats)
      ensures old(entries) != map[] ==>
                (exists evicted :: evicted in old(entries) && entries == old(entries) - {evicted})
                && |entries| == |old(entries)| - 1
                && stats.evictions == old(stats).evictions + 1
    {
      if entries != map[] {
        var key :| key in entries;
        var rest := entries - {key};
        assert rest.Keys == entries.Keys - {key};
        entries := rest;
        stats := stats.(evictions := stats.evictions + 1);
      }
    }

    /** The counters as they stand. */
    function Stats(): (s: CacheStats)
      reads this
      requires Valid()
      ensures s.size == |entries| && s.capacity == capacity
    {
      stats
    }

    /** Drops every entry; the hit, miss and eviction counters are kept. */
    method Clear()
      requires Valid()
      modifies this
      ensures Valid()
      ensures entries == map[] && stats == old(stats).(size := 0)
    {
      entries := map[];
      stats := stats.(size := 0);
    }
  }
}

=== FILE: dafny/query_filters.dfy ===
// Row filtering: keep the rows whose value in a column satisfies a
// comparison with a given value.
module QueryFilters {
  import opened Wrappers
  import opened Floats
  import opened CoreError
  import opened CoreValue

  /**
   * How two values compare under `PartialOrd` (`partial_cmp`). The ordering
   * of values is not defined in the files this model covers, so the
   * operators that need it take it as a parameter.
   */
  type ValueOrder = (Value, Value) -> Option<Ordering>

  const KNOWN_OPERATORS: set<string> := {"=", "!=", "<", "<=", ">", ">="}

  function UnknownOperator(op: string): Error
  {
    Validation("Unknown operator: " + op)
  }

  /**
   * The comparison `left op right`: equality is `PartialEq`, the four
   * orderings are `PartialOrd`'s (false where the values are unordered),
   * and any other operator is an error.
   */
  function EvaluateCondition(left: Value, op: string, right: Value, order: ValueOrder): (r: CoreResult<bool>)
    ensures r.Err? <==> op !in KNOWN_OPERATORS
    ensures r.Err? ==> r.error == UnknownOperator(op)
    ensures op == "=" ==> r == Ok(ValueEq(left, right))
    ensures op == "!=" ==> r == Ok(!ValueEq(left, right))
    ensures op in {"<", "<=", ">", ">="} && order(left, right).None? ==> r == Ok(false)
  {
    if op == "=" then Ok(ValueEq(left, right))
    else if op == "!=" then Ok(!ValueEq(left, right))
    else if op == "<" then Ok(order(left, right) == Some(Less))
    else if op == "<=" then Ok(order(left, right) == Some(Less) || order(left, right) == Some(Equal))
    else if op == ">" then Ok(order(left, right) == Some(Greater))
    else if op == ">=" then Ok(order(left, right) == Some(Greater) || order(left, right) == Some(Equal))
    else Err(UnknownOperator(op))
  }

  /** `<=` is `<` or equal-ordered, `>=` likewise, and for an antisymmetric order `a < b` is `b > a`. */
  lemma OrderOperatorsAgree(a: Value, b: Value, order: ValueOrder)
    requires forall x, y :: order(x, y).Some? ==> order(y, x) == Some(order(x, y).value.Reverse())
    ensures EvaluateCondition(a, "<", b, order) == EvaluateCondition(b, ">", a, order)
    ensures EvaluateCondition(a, "<=", b, order) == EvaluateCondition(b, ">=", a, order)
    ensures EvaluateCondition(a, "<=", b, order).value
            <==> EvaluateCondition(a, "<", b, order).value || order(a, b) == Some(Equal)
  {
    var ab, ba := order(a, b), order(b, a);
    assert ab.Some? ==> ba == Some(ab.value.Reverse());
    assert ba.Some? ==> ab == Some(ba.value.Reverse());
  }

  /** The row has the column and its value satisfies the condition. */
  predicate Holds(row: Row, column: string, op: string, value: Value, order: ValueOrder)
  {
    column in row && EvaluateCondition(row[column], op, value, order) == Ok(true)
  }

  /** The rows that satisfy the condition, in their original order. */
  function Kept(rows: seq<Row>, column: string, op: string, value: Value, order: ValueOrder): seq<Row>
  {
    if rows == [] then []
    else
      var last := rows[|rows| - 1];
      Kept(rows[..|rows| - 1], column, op, value, order) + (if Holds(last, column, op, value, order) then [last] else [])
  }

  /** Some row has the column, so the condition gets evaluated at least once. */
  predicate SomeRowHas(rows: seq<Row>, column: string)
  {
    exists i :: 0 <= i < |rows| && column in rows[i]
  }

  /**
   * Filters the rows: an unknown operator fails as soon as a row has the
   * column (and not at all otherwise); rows lacking the column are dropped.
   */
  method ApplyFilter(rows: seq<Row>, column: string, op: string, value: Value, order: ValueOrder)
    returns (r: CoreResult<seq<Row>>)
    ensures op !in KNOWN_OPERATORS && SomeRowHas(rows, column) ==> r == Err(UnknownOperator(op))
    ensures op in KNOWN_OPERATORS || !SomeRowHas(rows, column) ==> r == Ok(Kept(rows, column, op, value, order))
  {
    var result: seq<Row> := [];
    for i := 0 to |rows|
      invariant result == Kept(rows[..i], column, op, value, order)
      invariant op !in KNOWN_OPERATORS ==> forall j :: 0 <= j < i ==> column !in rows[j]
    {
      assert rows[..i + 1][..i] == rows[..i];
      if column in rows[i] {
        var holds := EvaluateCondition(rows[i][column], op, value, order);
        if holds.Err? {
          return Err(holds.error);
        }
        if holds.value {
          result := result + [rows[i]];
        }
      }
    }
    assert rows[..|rows|] == rows;
    r := Ok(result);
  }

  /** Exactly the rows that hold are kept: nothing else, none of them missed. */
  lemma {:induction false} KeptExactly(rows: seq<Row>, column: string, op: string, value: Value, order: ValueOrder)
    ensures forall row :: row in Kept(rows, column, op, value, order) <==> row in rows && Holds(row, column, op, value, order)
    ensures |Kept(rows, column, op, value, order)| <= |rows|
  {
    if rows != [] {
      KeptExactly(rows[..|rows| - 1], column, op, value, order);
      assert rows == rows[..|rows| - 1] + [rows[|rows| - 1]];
    }
  }

  /** The rows that have the column, in order. */
  function WithColumn(rows: seq<Row>, column: string): seq<Row>
  {
    if rows == [] then []
    else WithColumn(rows[..|rows| - 1], column) + (if column in rows[|rows| - 1] then [rows[|rows| - 1]] else [])
  }

  /** "=" and "!=" divide the rows that have the column between them. */
  lemma {:induction false} EqualsAndNotEqualsSplit(rows: seq<Row>, column: string, value: Value, order: ValueOrder)
    ensures |Kept(rows, column, "=", value, order)| + |Kept(rows, column, "!=", value, order)| == |WithColumn(rows, column)|
  {
    if rows != [] {
      EqualsAndNotEqualsSplit(rows[..|rows| - 1], column, value, order);
    }
  }
}

=== FILE: dafny/query_functions.dfy ===
// The built-in scalar functions a query can call by name: ABS, ROUND,
// UPPER, LOWER and LENGTH.
module QueryFunctions {
  import opened Wrappers
  import opened Ints
  import opened Text
  import Floats
  import opened CoreError
  import opened CoreValue

  datatype Builtin = Abs | Round | Upper | Lower | Length

  /** The function table: upper-case name to implementation. */
  datatype BuiltinFunctions = BuiltinFunctions(functions: map<string, Builtin>)

  function NewBuiltins(): (b: BuiltinFunctions)
    ensures b.functions.Keys == {"ABS", "ROUND", "UPPER", "LOWER", "LENGTH"}
  {
    BuiltinFunctions(map["ABS" := Abs, "ROUND" := Round, "UPPER" := Upper, "LOWER" := Lower, "LENGTH" := Length])
  }

  function Apply(f: Builtin, args: seq<Value>): CoreResult<Value>
  {
    match f
    case Abs => AbsOf(args)
    case Round => RoundOf(args)
    case Upper => UpperOf(args)
    case Lower => LowerOf(args)
    case Length => LengthOf(args)
  }

  /** Looks the name up upper-cased; an unknown name is a validation error quoting it as given. */
  function Call(b: BuiltinFunctions, name: string, args: seq<Value>): (r: CoreResult<Value>)
    ensures ToUpper(name) !in b.functions ==> r == Err(Validation("Unknown function: " + name))
    ensures ToUpper(name) in b.functions ==> r == Apply(b.functions[ToUpper(name)], args)
  {
    var key := ToUpper(name);
    if key in b.functions then Apply(b.functions[key], args)
    else Err(Validation("Unknown function: " + name))
  }

  lemma {:induction false} ToUpperIdempotent(s: string)
    ensures ToUpper(ToUpper(s)) == ToUpper(s)
  {
    var u := ToUpper(s);
    assert forall i :: 0 <= i < |u| ==> ToUpper(u)[i] == UpperChar(UpperChar(s[i])) == u[i];
  }

  /**
   * Function names are case-insensitive: any spelling of a registered name
   * calls the same function as its upper-case spelling, and only names
   * whose upper-case spelling is registered are found.
   */
  lemma CallIgnoresCase(name: string, args: seq<Value>)
    ensures var b := NewBuiltins();
            ToUpper(name) in b.functions ==> Call(b, name, args) == Call(b, ToUpper(name), args)
    ensures var b := NewBuiltins();
            Call(b, name, args).Err? && Call(b, name, args).error == Validation("Unknown function: " + name)
            <== ToUpper(name) !in {"ABS", "ROUND", "UPPER", "LOWER", "LENGTH"}
  {
    ToUpperIdempotent(name);
  }

  /** The magnitude of a signed integer of `width` bits, wrapping for the least value as a release build does. */
  function Magnitude(v: int, width: nat): int
  {
    var m := if v < 0 then -v else v;
    if width == 32 then WrapI32(m) else WrapI64(m)
  }

  /**
   * ABS: one numeric argument. An integer's magnitude, except that the
   * least value of its width stays itself; a float's magnitude, NaN
   * staying NaN.
   */
  function AbsOf(args: seq<Value>): (r: CoreResult<Value>)
    ensures |args| != 1 ==> r == Err(Validation("ABS requires exactly 1 argument"))
    ensures |args| == 1 ==>
              (r.Ok? <==> args[0].Int32? || args[0].Int64? || args[0].Float32? || args[0].Float64?)
    ensures r.Err? && |args| == 1 ==> r == Err(Validation("ABS requires numeric argument"))
    ensures r.Ok? && args[0].Int32? ==>
              r.value.Int32?
              && (args[0].i32v == I32_MIN ==> r.value.i32v == I32_MIN)
              && (args[0].i32v != I32_MIN ==> r.value.i32v >= 0 && (r.value.i32v == args[0].i32v || r.value.i32v == -args[0].i32v))
    ensures r.Ok? && args[0].Int64? ==>
              r.value.Int64?
              && (args[0].i64v == I64_MIN ==> r.value.i64v == I64_MIN)
              && (args[0].i64v != I64_MIN ==> r.value.i64v >= 0 && (r.value.i64v == args[0].i64v || r.value.i64v == -args[0].i64v))
    ensures r.Ok? && args[0].Float32? ==> r.value == Float32(Floats.Abs(args[0].f32v))
    ensures r.Ok? && args[0].Float64? ==> r.value == Float64(Floats.Abs(args[0].f64v))
  {
    if |args| != 1 then Err(Validation("ABS requires exactly 1 argument"))
    else
      var a := args[0];
      if a.Int32? then Ok(Int32(Magnitude(a.i32v, 32)))
      else if a.Int64? then Ok(Int64(Magnitude(a.i64v, 64)))
      else if a.Float32? then Ok(Float32(Floats.Abs(a.f32v)))
      else if a.Float64? then Ok(Float64(Floats.Abs(a.f64v)))
      else Err(Validation("ABS requires numeric argument"))
  }

  /** Taking ABS of a result of ABS changes nothing. */
  lemma AbsIdempotent(v: Value)
    requires AbsOf([v]).Ok?
    ensures AbsOf([AbsOf([v]).value]) == AbsOf([v])
  {
  }

  /**
   * ROUND: one or two arguments (a second is accepted and ignored); only a
   * float is rounded, to the nearest integer with halves away from zero.
   */
  function RoundOf(args: seq<Value>): (r: CoreResult<Value>)
    ensures (|args| == 0 || |args| > 2) ==> r == Err(Validation("ROUND requires 1 or 2 arguments"))
    ensures 1 <= |args| <= 2 ==> (r.Ok? <==> args[0].Float32? || args[0].Float64?)
    ensures 1 <= |args| <= 2 && r.Err? ==> r == Err(Validation("ROUND requires numeric argument"))
    ensures r.Ok? && args[0].Float64? && args[0].f64v.Finite? ==>
              r.value.Float64? && r.value.f64v.Finite?
              && args[0].f64v.r - 0.5 <= r.value.f64v.r <= args[0].f64v.r + 0.5
              && r.value.f64v.r == r.value.f64v.r.Floor as real
    ensures r.Ok? && args[0].Float32? && args[0].f32v.Finite? ==>
              r.value.Float32? && r.value.f32v.Finite?
              && args[0].f32v.r - 0.5 <= r.value.f32v.r <= args[0].f32v.r + 0.5
              && r.value.f32v.r == r.value.f32v.r.Floor as real
  {
    if |args| == 0 || |args| > 2 then Err(Validation("ROUND requires 1 or 2 arguments"))
    else if args[0].Float32? then Ok(Float32(Floats.Round(args[0].f32v)))
    else if args[0].Float64? then Ok(Float64(Floats.Round(args[0].f64v)))
    else Err(Validation("ROUND requires numeric argument"))
  }

  /** Rounding a rounded value changes nothing. */
  lemma RoundIdempotent(v: Value)
    requires RoundOf([v]).Ok?
    ensures RoundOf([RoundOf([v]).value]) == RoundOf([v])
  {
    if v.Float64? && v.f64v.Finite? {
      var n := Floats.RoundHalfAway(v.f64v.r);
      assert Floats.RoundHalfAway(n as real) == n;
    } else if v.Float32? && v.f32v.Finite? {
      var n := Floats.RoundHalfAway(v.f32v.r);
      assert Floats.RoundHalfAway(n as real) == n;
    }
  }

  predicate NoLowerAscii(s: string)
  {
    forall i :: 0 <= i < |s| ==> !('a' <= s[i] <= 'z')
  }

  predicate NoUpperAscii(s: string)
  {
    forall i :: 0 <= i < |s| ==> !('A' <= s[i] <= 'Z')
  }

  /** UPPER: one string argument, upper-cased: same length, no lower-case letter left. */
  function UpperOf(args: seq<Value>): (r: CoreResult<Value>)
    ensures |args| != 1 ==> r == Err(Validation("UPPER requires exactly 1 argument"))
    ensures |args| == 1 && !args[0].Str? ==> r == Err(Validation("UPPER requires string argument"))
    ensures |args| == 1 && args[0].Str? ==>
              r.Ok? && r.value.Str? && |r.value.s| == |args[0].s| && NoLowerAscii(r.value.s)
  {
    if |args| != 1 then Err(Validation("UPPER requires exactly 1 argument"))
    else if args[0].Str? then Ok(Str(ToUpper(args[0].s)))
    else Err(Validation("UPPER requires string argument"))
  }

  /** LOWER: one string argument, lower-cased: same length, no upper-case letter left. */
  function LowerOf(args: seq<Value>): (r: CoreResult<Value>)
    ensures |args| != 1 ==> r == Err(Validation("LOWER requires exactly 1 argument"))
    ensures |args| == 1 && !args[0].Str? ==> r == Err(Validation("LOWER requires string argument"))
    ensures |args| == 1 && args[0].Str? ==>
              r.Ok? && r.value.Str? && |r.value.s| == |args[0].s| && NoUpperAscii(r.value.s)
  {
    if |args| != 1 then Err(Validation("LOWER requires exactly 1 argument"))
    else if args[0].Str? then Ok(Str(ToLower(args[0].s)))
    else Err(Validation("LOWER requires string argument"))
  }

  /**
   * UPPER and LOWER only change a letter's case: lower-casing the
   * upper-cased string gives the lower-cased string, and the other way round.
   */
  lemma CaseMappingsAgree(s: string)
    ensures LowerOf([UpperOf([Str(s)]).value]) == LowerOf([Str(s)])
    ensures UpperOf([LowerOf([Str(s)]).value]) == UpperOf([Str(s)])
  {
    var u, l := ToUpper(s), ToLower(s);
    assert forall i :: 0 <= i < |s| ==> ToLower(u)[i] == LowerChar(UpperChar(s[i])) == l[i];
    assert forall i :: 0 <= i < |s| ==> ToUpper(l)[i] == UpperChar(LowerChar(s[i])) == u[i];
    assert ToLower(u) == l;
    assert ToUpper(l) == u;
  }

  /**
   * LENGTH: one string argument; its length in UTF-8 bytes, cast to a
   * 32-bit integer. Below 2^31 bytes that is the byte count, at least the
   * number of characters and at most four times it.
   */
  function LengthOf(args: seq<Value>): (r: CoreResult<Value>)
    ensures |args| != 1 ==> r == Err(Validation("LENGTH requires exactly 1 argument"))
    ensures |args| == 1 && !args[0].Str? ==> r == Err(Validation("LENGTH requires string argument"))
    ensures |args| == 1 && args[0].Str? ==> r.Ok? && r.value.Int32?
    ensures |args| == 1 && args[0].Str? && Utf8Len(args[0].s) < TWO_31 ==>
              r.Ok? && r.value == Int32(Utf8Len(args[0].s))
              && |args[0].s| <= r.value.i32v <= 4 * |args[0].s|
  {
    if |args| != 1 then Err(Validation("LENGTH requires exactly 1 argument"))
    else if args[0].Str? then
      Utf8LenAtLeastChars(args[0].s);
      Ok(Int32(WrapI32(Utf8Len(args[0].s))))
    else Err(Validation("LENGTH requires string argument"))
  }

  /** An ASCII string's LENGTH is its number of characters. */
  lemma {:induction false} AsciiLength(s: string)
    requires forall i :: 0 <= i < |s| ==> s[i] as int < 0x80
    requires |s| < TWO_31
    ensures LengthOf([Str(s)]) == Ok(Int32(|s|))
  {
    AsciiUtf8Len(s);
  }

  lemma {:induction false} AsciiUtf8Len(s: string)
    requires forall i :: 0 <= i < |s| ==> s[i] as int < 0x80
    ensures Utf8Len(s) == |s|
  {
    if |s| > 0 {
      AsciiUtf8Len(s[1..]);
    }
  }
}

=== FILE: dafny/query_joins.dfy ===
// Inner join of two row lists on a key column of each.
module QueryJoins {
  import opened Wrappers
  import opened CoreError
  import opened CoreValue

  const RIGHT_PREFIX := "right_"

  /** The right row's columns under their prefixed names. */
  function Prefixed(right: Row): (p: Row)
    ensures forall k :: k in right ==> RIGHT_PREFIX + k in p && p[RIGHT_PREFIX + k] == right[k]
    ensures forall k :: k in p ==> |k| >= 6 && k[..6] == RIGHT_PREFIX && k[6..] in right
  {
    assert forall a: string :: (RIGHT_PREFIX + a)[|RIGHT_PREFIX|..] == a;
    map k | k in right :: RIGHT_PREFIX + k := right[k]
  }

  /**
   * A joined row: the left row's columns, then each right column inserted
   * under its prefixed name (replacing a left column of that name).
   */
  function JoinedRow(left: Row, right: Row): Row
  {
    left + Prefixed(right)
  }

  /** Both rows have their key and the keys are equal (`PartialEq`, so a NaN key matches nothing). */
  predicate KeysMatch(left: Row, right: Row, leftKey: string, rightKey: string)
  {
    leftKey in left && rightKey in right && ValueEq(left[leftKey], right[rightKey])
  }

  /** The rows one left row contributes, in right-row order. */
  function Matches(left: Row, rights: seq<Row>, leftKey: string, rightKey: string): seq<Row>
  {
    if rights == [] then []
    else
      var r := rights[|rights| - 1];
      Matches(left, rights[..|rights| - 1], leftKey, rightKey)
      + (if KeysMatch(left, r, leftKey, rightKey) then [JoinedRow(left, r)] else [])
  }

  /** The join: each left row's matches, left rows in order. */
  function Join(lefts: seq<Row>, rights: seq<Row>, leftKey: string, rightKey: string): seq<Row>
  {
    if lefts == [] then []
    else Join(lefts[..|lefts| - 1], rights, leftKey, rightKey) + Matches(lefts[|lefts| - 1], rights, leftKey, rightKey)
  }

  /** Runs the nested loops of the join; it never fails. */
  method InnerJoin(lefts: seq<Row>, rights: seq<Row>, leftKey: string, rightKey: string) returns (r: CoreResult<seq<Row>>)
    ensures r == Ok(Join(lefts, rights, leftKey, rightKey))
  {
    var result: seq<Row> := [];
    for i := 0 to |lefts|
      invariant result == Join(lefts[..i], rights, leftKey, rightKey)
    {
      assert lefts[..i + 1][..i] == lefts[..i];
      if leftKey in lefts[i] {
        for j := 0 to |rights|
          invariant result == Join(lefts[..i], rights, leftKey, rightKey) + Matches(lefts[i], rights[..j], leftKey, rightKey)
        {
          assert rights[..j + 1][..j] == rights[..j];
          if rightKey in rights[j] && ValueEq(lefts[i][leftKey], rights[j][rightKey]) {
            result := result + [JoinedRow(lefts[i], rights[j])];
          }
        }
        assert rights[..|rights|] == rights;
      } else {
        NoKeyNoMatches(lefts[i], rights, leftKey, rightKey);
      }
    }
    assert lefts[..|lefts|] == lefts;
    r := Ok(result);
  }

  lemma {:induction false} NoKeyNoMatches(left: Row, rights: seq<Row>, leftKey: string, rightKey: string)
    requires leftKey !in left
    ensures Matches(left, rights, leftKey, rightKey) == []
  {
    if rights != [] {
      NoKeyNoMatches(left, rights[..|rights| - 1], leftKey, rightKey);
    }
  }

  /** Each row a left row contributes is its join with a right row whose key matches. */
  lemma {:induction false} MatchesSound(left: Row, rights: seq<Row>, leftKey: string, rightKey: string, row: Row)
    returns (j: nat)
    requires row in Matches(left, rights, leftKey, rightKey)
    ensures j < |rights| && KeysMatch(left, rights[j], leftKey, rightKey) && row == JoinedRow(left, rights[j])
  {
    var n := |rights| - 1;
    if row in Matches(left, rights[..n], leftKey, rightKey) {
      j := MatchesSound(left, rights[..n], leftKey, rightKey, row);
      assert rights[..n][j] == rights[j];
    } else {
      j := n;
    }
  }

  /** Each right row whose key matches contributes its join. */
  lemma {:induction false} MatchesComplete(left: Row, rights: seq<Row>, leftKey: string, rightKey: string, j: nat)
    requires j < |rights| && KeysMatch(left, rights[j], leftKey, rightKey)
    ensures JoinedRow(left, rights[j]) in Matches(left, rights, leftKey, rightKey)
  {
    var n := |rights| - 1;
    if j < n {
      assert rights[..n][j] == rights[j];
      MatchesComplete(left, rights[..n], leftKey, rightKey, j);
    }
  }

  /** Every output row is the join of a left row and a right row whose keys match. */
  lemma {:induction false} JoinSound(lefts: seq<Row>, rights: seq<Row>, leftKey: string, rightKey: string, row: Row)
    returns (i: nat, j: nat)
    requires row in Join(lefts, rights, leftKey, rightKey)
    ensures i < |lefts| && j < |rights| && KeysMatch(lefts[i], rights[j], leftKey, rightKey)
    ensures row == JoinedRow(lefts[i], rights[j])
  {
    var n := |lefts| - 1;
    if row in Join(lefts[..n], rights, leftKey, rightKey) {
      i, j := JoinSound(lefts[..n], rights, leftKey, rightKey, row);
      assert lefts[..n][i] == lefts[i];
    } else {
      i := n;
      j := MatchesSound(lefts[n], rights, leftKey, rightKey, row);
    }
  }

  /** Every pair of a left and a right row whose keys match appears in the output. */
  lemma {:induction false} JoinComplete(lefts: seq<Row>, rights: seq<Row>, leftKey: string, rightKey: string, i: nat, j: nat)
    requires i < |lefts| && j < |rights| && KeysMatch(lefts[i], rights[j], leftKey, rightKey)
    ensures JoinedRow(lefts[i], rights[j]) in Join(lefts, rights, leftKey, rightKey)
  {
    var n := |lefts| - 1;
    if i < n {
      assert lefts[..n][i] == lefts[i];
      JoinComplete(lefts[..n], rights, leftKey, rightKey, i, j);
    } else {
      MatchesComplete(lefts[n], rights, leftKey, rightKey, j);
    }
  }

  /** The output is left-major: joining two runs of left rows concatenates their joins. */
  lemma {:induction false} JoinIsLeftMajor(lefts1: seq<Row>, lefts2: seq<Row>, rights: seq<Row>, leftKey: string, rightKey: string)
    ensures Join(lefts1 + lefts2, rights, leftKey, rightKey)
            == Join(lefts1, rights, leftKey, rightKey) + Join(lefts2, rights, leftKey, rightKey)
  {
    if lefts2 != [] {
      var n := |lefts2| - 1;
      JoinIsLeftMajor(lefts1, lefts2[..n], rights, leftKey, rightKey);
      assert (lefts1 + lefts2)[..|lefts1 + lefts2| - 1] == lefts1 + lefts2[..n];
    } else {
      assert lefts1 + lefts2 == lefts1;
    }
  }

  /**
   * A joined row has the left columns and the prefixed right columns: each
   * right value is under its prefixed name, and each left column that no
   * prefixed name replaces keeps its value.
   */
  lemma JoinedRowColumns(left: Row, right: Row)
    ensures JoinedRow(left, right).Keys == left.Keys + Prefixed(right).Keys
    ensures forall k :: k in right ==> JoinedRow(left, right)[RIGHT_PREFIX + k] == right[k]
    ensures forall k :: k in left && k !in Prefixed(right) ==> JoinedRow(left, right)[k] == left[k]
  {
  }
}

=== FILE: dafny/query_metrics.dfy ===
// Counters kept by the query engine: queries started and completed, their
// outcomes, cache hits and misses, the fastest and slowest execution time,
// and the number of queries in flight. Execution times are whole
// microseconds passed in by the caller; counters are unbounded.
module QueryMetrics {
  import opened Ints

  datatype Counters = Counters(
    totalQueries: nat,
    successfulQueries: nat,
    failedQueries: nat,
    cacheHits: nat,
    cacheMisses: nat,
    minExecutionTimeUs: nat,
    maxExecutionTimeUs: nat,
    concurrentQueries: nat)

  const ZERO_COUNTERS := Counters(0, 0, 0, 0, 0, 0, 0, 0)

  /** The least of a non-empty sequence of times. */
  function MinTime(times: seq<nat>): (m: nat)
    requires times != []
    ensures m in times && forall k :: 0 <= k < |times| ==> m <= times[k]
  {
    if |times| == 1 then times[0]
    else
      var m := MinTime(times[..|times| - 1]);
      var t := times[|times| - 1];
      if t < m then t else m
  }

  /** The greatest of a non-empty sequence of times. */
  function MaxTime(times: seq<nat>): (m: nat)
    requires times != []
    ensures m in times && forall k :: 0 <= k < |times| ==> times[k] <= m
  {
    if |times| == 1 then times[0]
    else
      var m := MaxTime(times[..|times| - 1]);
      var t := times[|times| - 1];
      if t > m then t else m
  }

  /**
   * The counters agree with the execution times completed so far: one
   * outcome per completion, the extremes of those times (0 before the
   * first), and no more queries in flight than were ever started.
   */
  predicate Tracks(c: Counters, times: seq<nat>)
  {
    c.successfulQueries + c.failedQueries == |times|
    && (times == [] ==> c.minExecutionTimeUs == 0 && c.maxExecutionTimeUs == 0)
    && (times != [] ==> c.minExecutionTimeUs == MinTime(times) && c.maxExecutionTimeUs == MaxTime(times))
    && c.concurrentQueries <= c.totalQueries
  }

  /**
   * What the source's counters keep through its completions: one outcome
   * per completion, the largest time exactly, and for the smallest a time
   * that was completed, 0 only right after a completion of 0, and the true
   * least while no completion took 0 microseconds.
   */
  predicate TracksAsWritten(c: Counters, times: seq<nat>)
  {
    c.successfulQueries + c.failedQueries == |times|
    && (times == [] ==> c.minExecutionTimeUs == 0 && c.maxExecutionTimeUs == 0)
    && (times != [] ==> c.maxExecutionTimeUs == MaxTime(times) && c.minExecutionTimeUs in times
                        && (c.minExecutionTimeUs == 0 ==> times[|times| - 1] == 0))
    && (times != [] && (forall k :: 0 <= k < |times| ==> times[k] > 0) ==> c.minExecutionTimeUs == MinTime(times))
    && c.concurrentQueries <= c.totalQueries
  }

  function Started(c: Counters): Counters
  {
    c.(totalQueries := c.totalQueries + 1, concurrentQueries := c.concurrentQueries + 1)
  }

  /**
   * A completion as the source records it: the in-flight count goes down
   * without going below zero, the outcome is counted, and a minimum of 0
   * is taken to mean that no time has been recorded yet.
   */
  function CompleteAsWritten(c: Counters, timeUs: nat, success: bool): Counters
  {
    var c1 := c.(concurrentQueries := if c.concurrentQueries == 0 then 0 else c.concurrentQueries - 1);
    var c2 := if success then c1.(successfulQueries := c1.successfulQueries + 1) else c1.(failedQueries := c1.failedQueries + 1);
    var c3 := if c2.minExecutionTimeUs == 0 || timeUs < c2.minExecutionTimeUs then c2.(minExecutionTimeUs := timeUs) else c2;
    if timeUs > c3.maxExecutionTimeUs then c3.(maxExecutionTimeUs := timeUs) else c3
  }

  /**
   * After completions of 5, 0 and 7 microseconds the recorded minimum is
   * 7: the 0 recorded second is mistaken for "no time yet" and
   * overwritten.
   */
  lemma CompleteAsWrittenForgetsZero()
    ensures var c := CompleteAsWritten(CompleteAsWritten(CompleteAsWritten(ZERO_COUNTERS, 5, true), 0, true), 7, true);
            c.minExecutionTimeUs == 7 && MinTime([5, 0, 7]) == 0 && !Tracks(c, [5, 0, 7])
  {
  }

  /** A completion with the minimum updated when this is the first completion or the time is lower. */
  function Complete(c: Counters, timeUs: nat, success: bool): Counters
  {
    var first := c.successfulQueries + c.failedQueries == 0;
    var c1 := c.(concurrentQueries := if c.concurrentQueries == 0 then 0 else c.concurrentQueries - 1);
    var c2 := if success then c1.(successfulQueries := c1.successfulQueries + 1) else c1.(failedQueries := c1.failedQueries + 1);
    var c3 := if first || timeUs < c2.minExecutionTimeUs then c2.(minExecutionTimeUs := timeUs) else c2;
    if timeUs > c3.maxExecutionTimeUs then c3.(maxExecutionTimeUs := timeUs) else c3
  }

  /** Starting a query keeps the counters in agreement with the completed times, under either rule. */
  lemma StartedTracks(c: Counters, times: seq<nat>)
    ensures Tracks(c, times) ==> Tracks(Started(c), times)
    ensures TracksAsWritten(c, times) ==> TracksAsWritten(Started(c), times)
    ensures Started(c).concurrentQueries == c.concurrentQueries + 1
  {
  }

  /**
   * The source's completion keeps what its counters promise, now with
   * `timeUs` completed last, and counts the outcome.
   */
  lemma {:induction false} CompleteAsWrittenTracks(c: Counters, times: seq<nat>, timeUs: nat, success: bool)
    requires TracksAsWritten(c, times)
    ensures TracksAsWritten(CompleteAsWritten(c, timeUs, success), times + [timeUs])
    ensures var d := CompleteAsWritten(c, timeUs, success);
            (success ==> d.successfulQueries == c.successfulQueries + 1 && d.failedQueries == c.failedQueries)
            && (!success ==> d.failedQueries == c.failedQueries + 1 && d.successfulQueries == c.successfulQueries)
  {
    var ts := times + [timeUs];
    assert ts[..|ts| - 1] == times;
    if times != [] && forall k :: 0 <= k < |ts| ==> ts[k] > 0 {
      assert forall k :: 0 <= k < |times| ==> times[k] == ts[k];
    }
  }

  /**
   * Completing a query in `timeUs` keeps the counters in agreement with
   * the completed times, now ending in `timeUs`, and counts its outcome.
   */
  lemma {:induction false} CompleteTracks(c: Counters, times: seq<nat>, timeUs: nat, success: bool)
    requires Tracks(c, times)
    ensures Tracks(Complete(c, timeUs, success), times + [timeUs])
    ensures var d := Complete(c, timeUs, success);
            (success ==> d.successfulQueries == c.successfulQueries + 1 && d.failedQueries == c.failedQueries)
            && (!success ==> d.failedQueries == c.failedQueries + 1 && d.successfulQueries == c.successfulQueries)
  {
    var ts := times + [timeUs];
    assert ts[..|ts| - 1] == times;
  }

  /** While no completion took 0 microseconds, the source's rule and the corrected one agree. */
  lemma {:induction false} AsWrittenAgreesWithoutZeroTimes(c: Counters, times: seq<nat>, timeUs: nat, success: bool)
    requires Tracks(c, times)
    requires forall k :: 0 <= k < |times| ==> times[k] > 0
    ensures CompleteAsWritten(c, timeUs, success) == Complete(c, timeUs, success)
  {
    if times != [] {
      assert MinTime(times) > 0;
    }
  }

  /** Successful completions over all completions, 0 before the first. */
  function SuccessRate(c: Counters): (rate: real)
    ensures 0.0 <= rate <= 1.0
    ensures rate == 1.0 <==> c.successfulQueries > 0 && c.failedQueries == 0
    ensures rate == 0.0 <==> c.successfulQueries == 0
    ensures (c.successfulQueries + c.failedQueries) as real * rate == c.successfulQueries as real
  {
    QuotientIsShare(c.successfulQueries, c.failedQueries);
    Quotient(c.successfulQueries, c.successfulQueries + c.failedQueries)
  }

  /** Cache hits over cache lookups, 0 before the first. */
  function CacheHitRate(c: Counters): (rate: real)
    ensures 0.0 <= rate <= 1.0
    ensures rate == 1.0 <==> c.cacheHits > 0 && c.cacheMisses == 0
    ensures rate == 0.0 <==> c.cacheHits == 0
    ensures (c.cacheHits + c.cacheMisses) as real * rate == c.cacheHits as real
  {
    QuotientIsShare(c.cacheHits, c.cacheMisses);
    Quotient(c.cacheHits, c.cacheHits + c.cacheMisses)
  }

  class QueryMetrics {
    var counters: Counters
    /** Every execution time completed so far, oldest first. */
    ghost var times: seq<nat>

    ghost predicate Valid()
      reads this
    {
      TracksAsWritten(counters, times)
    }

    constructor()
      ensures Valid() && counters == ZERO_COUNTERS && times == []
    {
      counters := Counters(0, 0, 0, 0, 0, 0, 0, 0);
      times := [];
    }

    method RecordQueryStart()
      requires Valid()
      modifies this
      ensures Valid() && counters == Started(old(counters)) && times == old(times)
    {
      StartedTracks(counters, times);
      counters := Started(counters);
    }

    /** Counts the outcome and folds the time into the extremes, a minimum of 0 meaning "none yet". */
    method RecordQueryComplete(executionTimeUs: nat, success: bool)
      requires Valid()
      modifies this
      ensures Valid()
      ensures counters == CompleteAsWritten(old(counters), executionTimeUs, success)
      ensures times == old(times) + [executionTimeUs]
    {
      CompleteAsWrittenTracks(counters, times, executionTimeUs, success);
      counters := CompleteAsWritten(counters, executionTimeUs, success);
      times := times + [executionTimeUs];
    }

    method RecordCacheHit()
      requires Valid()
      modifies this
      ensures Valid() && counters == old(counters).(cacheHits := old(counters).cacheHits + 1) && times == old(times)
    {
      counters := counters.(cacheHits := counters.cacheHits + 1);
    }

    method RecordCacheMiss()
      requires Valid()
      modifies this
      ensures Valid() && counters == old(counters).(cacheMisses := old(counters).cacheMisses + 1) && times == old(times)
    {
      counters := counters.(cacheMisses := counters.cacheMisses + 1);
    }
  }
}

=== FILE: dafny/query_parser.dfy ===
// The parsed form of a SQL statement, and the keyword-based table-name
// extraction used for INSERT, DELETE, CREATE and DROP statements. The SQL
// grammar itself belongs to an external parser and is not part of this model.
module QueryParser {
  import opened Wrappers
  import opened Text

  datatype QueryType = Select | Insert | Update | Delete | Create | Drop | Alter | Show | Describe | Explain

  datatype ParsedQuery = ParsedQuery(
    queryType: QueryType,
    sql: string,
    ast: string,
    tables: seq<string>,
    parameters: map<string, string>,
    isReadonly: bool)

  predicate Distinct<T(==)>(xs: seq<T>)
  {
    forall i, j :: 0 <= i < j < |xs| ==> xs[i] != xs[j]
  }

  /** A fresh query: no tables, no parameters, read-only exactly for the four statements that only read. */
  function NewParsedQuery(queryType: QueryType, sql: string): (q: ParsedQuery)
    ensures q.queryType == queryType && q.sql == sql && q.ast == ""
    ensures q.tables == [] && q.parameters == map[]
    ensures q.isReadonly <==> queryType in {Select, Show, Describe, Explain}
    ensures q.isReadonly <==> !(queryType in {Insert, Update, Delete, Create, Drop, Alter})
  {
    ParsedQuery(queryType, sql, "", [], map[],
      queryType == Select || queryType == Show || queryType == Describe || queryType == Explain)
  }

  /** Appends a table not yet listed; a listed one leaves the query as it was. */
  function AddTable(q: ParsedQuery, table: string): (r: ParsedQuery)
    ensures table in q.tables ==> r == q
    ensures table !in q.tables ==> r == q.(tables := q.tables + [table])
  {
    if table in q.tables then q else q.(tables := q.tables + [table])
  }

  /** Adding tables one after another. */
  function AddTables(q: ParsedQuery, names: seq<string>): ParsedQuery
  {
    if names == [] then q else AddTable(AddTables(q, names[..|names| - 1]), names[|names| - 1])
  }

  /**
   * Adding tables keeps the list free of repeats, keeps every table already
   * listed where it was, and ends up listing exactly the old tables and the
   * added names.
   */
  lemma {:induction false} AddTablesDistinct(q: ParsedQuery, names: seq<string>)
    requires Distinct(q.tables)
    ensures var r := AddTables(q, names);
            Distinct(r.tables)
            && |q.tables| <= |r.tables| && r.tables[..|q.tables|] == q.tables
            && (forall t :: t in r.tables <==> t in q.tables || t in names)
            && r.queryType == q.queryType && r.sql == q.sql && r.isReadonly == q.isReadonly
  {
    if names != [] {
      var n := |names| - 1;
      AddTablesDistinct(q, names[..n]);
      var mid := AddTables(q, names[..n]);
      assert names == names[..n] + [names[n]];
      if names[n] !in mid.tables {
        assert (mid.tables + [names[n]])[..|q.tables|] == mid.tables[..|q.tables|];
      }
    }
  }

  function AddParameter(q: ParsedQuery, key: string, value: string): (r: ParsedQuery)
    ensures r.parameters == q.parameters[key := value]
    ensures r.tables == q.tables && r.queryType == q.queryType
  {
    q.(parameters := q.parameters[key := value])
  }

  /** The first table added, if any. */
  function PrimaryTable(q: ParsedQuery): (t: Option<string>)
    ensures t.None? <==> q.tables == []
    ensures t.Some? ==> t.value == q.tables[0]
  {
    if q.tables == [] then None else Some(q.tables[0])
  }

  predicate IsMultiTable(q: ParsedQuery)
  {
    |q.tables| > 1
  }

  /** The primary table is the first one ever added, whatever is added after it. */
  lemma {:induction false} PrimaryTableIsFirstAdded(q: ParsedQuery, names: seq<string>)
    requires q.tables == [] && names != []
    ensures PrimaryTable(AddTables(q, names)) == Some(names[0])
    ensures IsMultiTable(AddTables(q, names)) <==> exists i :: 0 <= i < |names| && names[i] != names[0]
  {
    AddTablesDistinct(q, names);
    FirstAddedStaysFirst(q, names);
    var r := AddTables(q, names);
    if IsMultiTable(r) {
      var t := r.tables[1];
      assert t in r.tables && t != r.tables[0];
      var i :| 0 <= i < |names| && names[i] == t;
    }
    if exists i :: 0 <= i < |names| && names[i] != names[0] {
      var i :| 0 <= i < |names| && names[i] != names[0];
      assert names[i] in r.tables;
      var j :| 0 <= j < |r.tables| && r.tables[j] == names[i];
      assert j != 0;
    }
  }

  lemma {:induction false} FirstAddedStaysFirst(q: ParsedQuery, names: seq<string>)
    requires q.tables == [] && names != []
    ensures AddTables(q, names).tables != [] && AddTables(q, names).tables[0] == names[0]
  {
    var n := |names| - 1;
    if n > 0 {
      FirstAddedStaysFirst(q, names[..n]);
    }
  }

  /** The first index at or after `i` that is not white space (or the end). */
  function SkipSpaceFrom(s: string, i: nat): (j: nat)
    requires i <= |s|
    ensures i <= j <= |s|
    ensures forall k :: i <= k < j ==> IsSpace(s[k])
    ensures j < |s| ==> !IsSpace(s[j])
    decreases |s| - i
  {
    if i == |s| || !IsSpace(s[i]) then i else SkipSpaceFrom(s, i + 1)
  }

  /** The first index at or after `i` that is white space (or the end). */
  function WordEndFrom(s: string, i: nat): (j: nat)
    requires i <= |s|
    ensures i <= j <= |s|
    ensures forall k :: i <= k < j ==> !IsSpace(s[k])
    ensures j < |s| ==> IsSpace(s[j])
    decreases |s| - i
  {
    if i == |s| || IsSpace(s[i]) then i else WordEndFrom(s, i + 1)
  }

  /** The first white-space-separated word of `s` from index `i` on. */
  function FirstWordFrom(s: string, i: nat): Option<string>
    requires i <= |s|
  {
    var a := SkipSpaceFrom(s, i);
    if a == |s| then None else Some(s[a..WordEndFrom(s, a)])
  }

  /**
   * The word after the first occurrence of `keyword` in the upper-cased
   * SQL, lower-cased; None when the keyword is absent or nothing but white
   * space follows it.
   */
  function ExtractTableFromSql(sql: string, keyword: string): Option<string>
  {
    var upper := ToUpper(sql);
    var start := Find(upper, keyword);
    if start < 0 then None
    else
      match FirstWordFrom(upper, start + |keyword|)
      case None => None
      case Some(word) => Some(ToLower(word))
  }

  lemma {:induction false} LowerOfUpper(s: string)
    ensures ToLower(ToUpper(s)) == ToLower(s)
  {
    assert forall i :: 0 <= i < |s| ==> ToLower(ToUpper(s))[i] == LowerChar(UpperChar(s[i])) == ToLower(s)[i];
  }

  /**
   * When no table is found, the keyword does not occur in the upper-cased
   * SQL or only white space follows its first occurrence; and conversely.
   */
  lemma {:induction false} ExtractTableNone(sql: string, keyword: string)
    ensures ExtractTableFromSql(sql, keyword).None? <==>
              var upper := ToUpper(sql);
              var start := Find(upper, keyword);
              start == -1 || forall k :: start + |keyword| <= k < |upper| ==> IsSpace(upper[k])
  {
  }

  /**
   * `t` is, lower-cased, a whole word of `s` at `p`: only white space lies
   * between `from` and `p`, and the word is non-empty, holds no white space
   * and ends at white space or the end of `s`.
   */
  predicate WordAt(s: string, from: nat, p: nat, t: string)
  {
    from <= p && p + |t| <= |s|
    && (forall k :: from <= k < p ==> IsSpace(s[k]))
    && t != [] && t == ToLower(s[p..p + |t|])
    && (forall k :: p <= k < p + |t| ==> !IsSpace(s[k]))
    && (p + |t| == |s| || IsSpace(s[p + |t|]))
  }

  /**
   * A table name found is a whole word of the SQL, lower-cased, that
   * follows the keyword's first occurrence with only white space in between.
   */
  lemma {:induction false} ExtractTableIsWord(sql: string, keyword: string) returns (p: nat)
    requires ExtractTableFromSql(sql, keyword).Some?
    ensures Find(ToUpper(sql), keyword) >= 0
    ensures WordAt(sql, Find(ToUpper(sql), keyword) + |keyword|, p, ExtractTableFromSql(sql, keyword).value)
  {
    var upper := ToUpper(sql);
    var start := Find(upper, keyword);
    var from := start + |keyword|;
    assert 0 <= start && from <= |sql| by {
      assert OccursAt(upper, keyword, start);
    }
    var t := ExtractTableFromSql(sql, keyword).value;
    assert t == ToLower(FirstWordFrom(upper, from).value);
    p := WordOfUpper(sql, from, t);
  }

  /** The first word of the upper-cased `s` from `from` on, lower-cased, is a word of `s` itself. */
  lemma {:induction false} WordOfUpper(s: string, from: nat, t: string) returns (p: nat)
    requires from <= |s| && FirstWordFrom(ToUpper(s), from).Some?
    requires t == ToLower(FirstWordFrom(ToUpper(s), from).value)
    ensures WordAt(s, from, p, t)
  {
    var upper := ToUpper(s);
    p := SkipSpaceFrom(upper, from);
    var e := WordEndFrom(upper, p);
    assert FirstWordFrom(upper, from).value == upper[p..e];
    UpperSlice(s, p, e);
    LowerOfUpper(s[p..e]);
    SpacesKept(s);
  }

  lemma {:induction false} UpperSlice(s: string, i: nat, j: nat)
    requires i <= j <= |s|
    ensures ToUpper(s)[i..j] == ToUpper(s[i..j])
  {
    assert forall k :: 0 <= k < j - i ==> ToUpper(s)[i..j][k] == UpperChar(s[i + k]) == ToUpper(s[i..j])[k];
  }

  /** Upper-casing changes no white space into a letter and no letter into white space. */
  lemma SpacesKept(s: string)
    ensures forall k :: 0 <= k < |s| ==> (IsSpace(ToUpper(s)[k]) <==> IsSpace(s[k]))
  {
  }
}

=== FILE: dafny/query_planner.dfy ===
// Execution plans and the planner that builds them from a parsed query and
// per-table statistics. Costs are kept as exact reals.
module QueryPlanner {
  import opened Wrappers
  import opened Text
  import opened CoreError
  import opened QueryParser

  datatype JoinType = Inner | Left | Right | Full | Cross

  datatype PlanNode =
    | TableScan(table: string, filters: seq<string>)
    | IndexScan(table: string, index: string, conditions: seq<string>)
    | Filter(condition: string)
    | Projection(columns: seq<string>)
    | Sort(columns: seq<string>, ascending: seq<bool>)
    | Limit(count: nat, offset: nat)
    | Aggregate(groupBy: seq<string>, aggregates: seq<string>)
    | Join(joinType: JoinType, condition: string)
    | Union(all: bool)

  datatype ExecutionPlan = ExecutionPlan(
    root: PlanNode,
    children: seq<ExecutionPlan>,
    estimatedCost: real,
    estimatedRows: nat,
    properties: map<string, string>)

  /** A plan of one node, with the default estimates of cost 100 and 1000 rows. */
  function NewPlan(root: PlanNode): (p: ExecutionPlan)
    ensures p.root == root && p.children == [] && p.properties == map[]
    ensures p.estimatedCost == 100.0 && p.estimatedRows == 1000
  {
    ExecutionPlan(root, [], 100.0, 1000, map[])
  }

  function AddChild(p: ExecutionPlan, child: ExecutionPlan): ExecutionPlan
  {
    p.(children := p.children + [child])
  }

  function SetEstimates(p: ExecutionPlan, cost: real, rows: nat): ExecutionPlan
  {
    p.(estimatedCost := cost, estimatedRows := rows)
  }

  function AddProperty(p: ExecutionPlan, key: string, value: string): ExecutionPlan
  {
    p.(properties := p.properties[key := value])
  }

  /** Levels of nodes from the root down to the deepest leaf. */
  function Depth(p: ExecutionPlan): (d: nat)
    ensures d >= 1
    decreases p
  {
    1 + DeepestChild(p.children)
  }

  /** The greatest depth among `children`, 0 for none. */
  function DeepestChild(children: seq<ExecutionPlan>): (d: nat)
    ensures forall i :: 0 <= i < |children| ==> Depth(children[i]) <= d
    ensures children == [] <==> d == 0
    decreases children
  {
    if children == [] then 0
    else
      var m := DeepestChild(children[..|children| - 1]);
      var x := Depth(children[|children| - 1]);
      if x > m then x else m
  }

  /** Some child reaches the greatest depth. */
  lemma {:induction false} DeepestChildReached(children: seq<ExecutionPlan>) returns (i: nat)
    requires children != []
    ensures i < |children| && Depth(children[i]) == DeepestChild(children)
  {
    var n := |children| - 1;
    if n == 0 || Depth(children[n]) > DeepestChild(children[..n]) {
      i := n;
    } else {
      i := DeepestChildReached(children[..n]);
    }
  }

  /**
   * A leaf has depth 1; otherwise every child is shallower than the plan
   * and some child is exactly one level shallower.
   */
  lemma DepthMeaning(p: ExecutionPlan) returns (deepest: nat)
    ensures p.children == [] <==> Depth(p) == 1
    ensures forall i :: 0 <= i < |p.children| ==> Depth(p.children[i]) < Depth(p)
    ensures p.children != [] ==> deepest < |p.children| && Depth(p.children[deepest]) == Depth(p) - 1
  {
    deepest := 0;
    if p.children != [] {
      deepest := DeepestChildReached(p.children);
    }
  }

  /** Wrapping a plan as the only child of a fresh node adds exactly one level. */
  lemma WrapAddsLevel(node: PlanNode, p: ExecutionPlan)
    ensures Depth(AddChild(NewPlan(node), p)) == Depth(p) + 1
  {
    var w := AddChild(NewPlan(node), p);
    assert w.children == [p];
    assert w.children[..0] == [];
  }

  /** The plan's own cost plus the total cost of each child. */
  function TotalCost(p: ExecutionPlan): real
    decreases p
  {
    p.estimatedCost + ChildrenCost(p.children)
  }

  function ChildrenCost(children: seq<ExecutionPlan>): real
    decreases children
  {
    if children == [] then 0.0
    else ChildrenCost(children[..|children| - 1]) + TotalCost(children[|children| - 1])
  }

  /**
   * Appending a child makes the plan as deep as the deeper of itself and
   * one level above the child, and adds the child's total cost; a fresh
   * plan is one level deep and costs its own estimate.
   */
  lemma AddChildLaws(p: ExecutionPlan, child: ExecutionPlan)
    ensures var r := AddChild(p, child);
            Depth(r) == (if Depth(child) + 1 > Depth(p) then Depth(child) + 1 else Depth(p))
            && TotalCost(r) == TotalCost(p) + TotalCost(child)
    ensures Depth(NewPlan(p.root)) == 1 && TotalCost(NewPlan(p.root)) == 100.0
  {
    var r := AddChild(p, child);
    assert r.children[..|r.children| - 1] == p.children;
  }

  /**
   * New estimates move the total cost by the change in the plan's own
   * cost; a property is recorded under its key without touching any other
   * key, the cost or the shape.
   */
  lemma AnnotationLaws(p: ExecutionPlan, cost: real, rows: nat, key: string, value: string)
    ensures var r := SetEstimates(p, cost, rows);
            TotalCost(r) == TotalCost(p) - p.estimatedCost + cost && Depth(r) == Depth(p)
            && r.estimatedCost == cost && r.estimatedRows == rows
    ensures var r := AddProperty(p, key, value);
            key in r.properties && r.properties[key] == value
            && (forall k :: k != key ==> (k in r.properties <==> k in p.properties))
            && (forall k :: k != key && k in p.properties ==> r.properties[k] == p.properties[k])
            && TotalCost(r) == TotalCost(p) && Depth(r) == Depth(p)
  {
  }

  datatype TableStats = TableStats(rowCount: nat, avgRowSize: nat, indexes: seq<string>)

  /** Statistics assumed for a table nobody has described: 1000 rows of 100 bytes, a primary index. */
  const DEFAULT_TABLE_STATS := TableStats(1000, 100, ["primary"])

  function GetTableStats(stats: map<string, TableStats>, table: string): (s: TableStats)
    ensures table in stats ==> s == stats[table]
    ensures table !in stats ==> s == DEFAULT_TABLE_STATS
  {
    if table in stats then stats[table] else DEFAULT_TABLE_STATS
  }

  /** Only described tables can have an index; the SQL text is not consulted. */
  predicate HasSuitableIndex(stats: map<string, TableStats>, table: string)
  {
    table in stats && stats[table].indexes != []
  }

  /**
   * A scan of one table: an index scan on "primary" when the SQL mentions
   * WHERE and the table has an index, a filtered table scan for WHERE
   * without one, a plain table scan otherwise; estimated at a tenth of the
   * row count in cost and the row count in rows.
   */
  function SingleTablePlan(stats: map<string, TableStats>, table: string, q: ParsedQuery): (r: CoreResult<ExecutionPlan>)
    ensures r.Ok? && r.value.children == []
    ensures r.value.estimatedRows == GetTableStats(stats, table).rowCount
    ensures r.value.estimatedCost == GetTableStats(stats, table).rowCount as real * 0.1
    ensures r.value.root.IndexScan? <==> Contains(ToLower(q.sql), "where") && HasSuitableIndex(stats, table)
    ensures (r.value.root.TableScan? || r.value.root.IndexScan?) && r.value.root.table == table
    ensures r.value.root.TableScan? ==> (r.value.root.filters == [] <==> !Contains(ToLower(q.sql), "where"))
  {
    var node :=
      if Contains(ToLower(q.sql), "where") then
        if HasSuitableIndex(stats, table) then IndexScan(table, "primary", ["id = ?"])
        else TableScan(table, ["condition"])
      else TableScan(table, []);
    var s := GetTableStats(stats, table);
    Ok(SetEstimates(NewPlan(node), s.rowCount as real * 0.1, s.rowCount))
  }

  /**
   * An inner join of the first two tables' scans (any further table is not
   * planned), estimated at cost 1000 and 500 rows; fewer than two tables is
   * a validation error.
   */
  function MultiTablePlan(stats: map<string, TableStats>, tables: seq<string>, q: ParsedQuery): (r: CoreResult<ExecutionPlan>)
    ensures |tables| < 2 ==> r == Err(Validation("Multi-table plan requires at least 2 tables"))
    ensures |tables| >= 2 ==>
              r.Ok? && r.value.root == JOIN_NODE
              && |r.value.children| == 2
              && r.value.children[0] == SingleTablePlan(stats, tables[0], q).value
              && r.value.children[1] == SingleTablePlan(stats, tables[1], q).value
              && r.value.estimatedCost == 1000.0 && r.value.estimatedRows == 500
  {
    if |tables| < 2 then Err(Validation("Multi-table plan requires at least 2 tables"))
    else
      var left := SingleTablePlan(stats, tables[0], q).value;
      var right := SingleTablePlan(stats, tables[1], q).value;
      var join := AddChild(AddChild(NewPlan(JOIN_NODE), left), right);
      Ok(SetEstimates(join, 1000.0, 500))
  }

  const SORT_NODE := Sort(["id"], [true])
  const LIMIT_NODE := Limit(100, 0)

  /** The scan or join for the query's tables, wrapped in a sort for ORDER BY, then in a limit for LIMIT. */
  function SelectPlan(stats: map<string, TableStats>, q: ParsedQuery): CoreResult<ExecutionPlan>
  {
    var base :=
      if |q.tables| == 1 then SingleTablePlan(stats, q.tables[0], q)
      else MultiTablePlan(stats, q.tables, q);
    if base.Err? then base
    else
      var sql := ToLower(q.sql);
      var sorted := if Contains(sql, "order by") then AddChild(NewPlan(SORT_NODE), base.value) else base.value;
      var limited := if Contains(sql, "limit") then AddChild(NewPlan(LIMIT_NODE), sorted) else sorted;
      Ok(limited)
  }

  const JOIN_NODE := Join(Inner, "left.id = right.id")

  /** The root of the scan or join a SELECT over `tables` starts from. */
  predicate IsBaseRoot(node: PlanNode, tables: seq<string>)
  {
    if |tables| == 1 then (node.TableScan? || node.IndexScan?) && node.table == tables[0]
    else node == JOIN_NODE
  }

  /**
   * A SELECT fails only when it names no table at all; otherwise LIMIT, if
   * present, is the root with a single child, and ORDER BY puts a sort with
   * a single child directly below it (or at the root), above the scan of
   * the one table or the join of the first two.
   */
  lemma SelectPlanShape(stats: map<string, TableStats>, q: ParsedQuery)
    ensures SelectPlan(stats, q).Err? <==> q.tables == []
    ensures var r := SelectPlan(stats, q);
            var sql := ToLower(q.sql);
            var hasSort, hasLimit := Contains(sql, "order by"), Contains(sql, "limit");
            r.Ok? ==>
              (hasLimit ==> r.value.root == LIMIT_NODE && |r.value.children| == 1)
              && (hasSort ==>
                    (var s := if hasLimit then r.value.children[0] else r.value;
                     s.root == SORT_NODE && |s.children| == 1 && IsBaseRoot(s.children[0].root, q.tables)))
              && (!hasSort && hasLimit ==> IsBaseRoot(r.value.children[0].root, q.tables))
              && (!hasSort && !hasLimit ==> IsBaseRoot(r.value.root, q.tables))
  {
  }

  /**
   * SELECT, INSERT, UPDATE and DELETE are planned; every other statement is
   * unimplemented. INSERT, UPDATE and DELETE plan a single scan of the
   * first table with the statement's filter, and fail with a validation
   * error naming the statement when the query has no table.
   */
  function CreatePlan(stats: map<string, TableStats>, q: ParsedQuery): (r: CoreResult<ExecutionPlan>)
    ensures q.queryType == Select ==> r == SelectPlan(stats, q)
    ensures q.queryType in {Insert, Update, Delete} ==> (r.Ok? <==> q.tables != [])
    ensures q.queryType in {Insert, Update, Delete} && r.Ok? ==>
              r.value.children == [] && r.value.root.TableScan? && r.value.root.table == q.tables[0]
    ensures q.queryType == Insert && r.Ok? ==> r.value.root.filters == []
    ensures q.queryType == Update && r.Ok? ==> r.value.root.filters == ["update_condition"]
    ensures q.queryType == Delete && r.Ok? ==> r.value.root.filters == ["delete_condition"]
    ensures q.queryType == Insert && r.Err? ==> r == Err(Validation("INSERT query must specify a table"))
    ensures q.queryType == Update && r.Err? ==> r == Err(Validation("UPDATE query must specify a table"))
    ensures q.queryType == Delete && r.Err? ==> r == Err(Validation("DELETE query must specify a table"))
    ensures q.queryType !in {Select, Insert, Update, Delete} ==>
              r == Err(Unimplemented("Query type not supported for planning"))
  {
    match q.queryType
    case Select => SelectPlan(stats, q)
    case Insert => WritePlan(q, [], "INSERT query must specify a table")
    case Update => WritePlan(q, ["update_condition"], "UPDATE query must specify a table")
    case Delete => WritePlan(q, ["delete_condition"], "DELETE query must specify a table")
    case _ => Err(Unimplemented("Query type not supported for planning"))
  }

  /** A scan of the primary table, or a validation error when the query names none. */
  function WritePlan(q: ParsedQuery, filters: seq<string>, missing: string): CoreResult<ExecutionPlan>
  {
    match PrimaryTable(q)
    case Some(table) => Ok(NewPlan(TableScan(table, filters)))
    case None => Err(Validation(missing))
  }

  /** The planner keeps statistics per table; every plan is built from them. */
  class Planner {
    var tableStats: map<string, TableStats>

    constructor()
      ensures tableStats == map[]
    {
      tableStats := map[];
    }

    function Plan(q: ParsedQuery): (r: CoreResult<ExecutionPlan>)
      reads this
      ensures r == CreatePlan(tableStats, q)
    {
      CreatePlan(tableStats, q)
    }

    /** Describes a table: its row count and row size, with a primary index. */
    method SetTableStats(table: string, rowCount: nat, avgRowSize: nat)
      modifies this
      ensures tableStats == old(tableStats)[table := TableStats(rowCount, avgRowSize, ["primary"])]
    {
      tableStats := tableStats[table := TableStats(rowCount, avgRowSize, ["primary"])];
    }
  }

  /** Once a table is described, a WHERE query on it alone is planned as an index scan. */
  lemma DescribedTableGetsIndexScan(stats: map<string, TableStats>, table: string, rowCount: nat, avgRowSize: nat, q: ParsedQuery)
    requires q.queryType == Select && q.tables == [table]
    requires Contains(ToLower(q.sql), "where")
    requires !Contains(ToLower(q.sql), "order by") && !Contains(ToLower(q.sql), "limit")
    ensures var p := CreatePlan(stats[table := TableStats(rowCount, avgRowSize, ["primary"])], q);
            p.Ok? && p.value.root == IndexScan(table, "primary", ["id = ?"])
            && p.value.estimatedRows == rowCount
  {
  }
}

=== FILE: dafny/query_projections.dfy ===
// Projection of result rows onto a list of columns, where "*" keeps every
// column.
module QueryProjections {
  import opened Wrappers
  import opened CoreError
  import opened CoreValue

  const ALL_COLUMNS := "*"

  /** The listed columns the row has, each with the row's value. */
  function Picked(row: Row, columns: seq<string>): Row
  {
    map c | c in columns && c in row :: row[c]
  }

  /** One projected row: the whole row once "*" is listed, else the listed columns it has. */
  function ProjectRow(row: Row, columns: seq<string>): Row
  {
    if ALL_COLUMNS in columns then row else Picked(row, columns)
  }

  /**
   * A projection never invents a column or changes a value; without "*"
   * it keeps exactly the listed columns the row has, and with "*" (wherever
   * it stands in the list) the whole row.
   */
  lemma ProjectRowMeaning(row: Row, columns: seq<string>)
    ensures forall c :: c in ProjectRow(row, columns) ==> c in row && ProjectRow(row, columns)[c] == row[c]
    ensures ALL_COLUMNS !in columns ==>
              forall c :: c in ProjectRow(row, columns) <==> c in columns && c in row
    ensures ALL_COLUMNS in columns ==> ProjectRow(row, columns) == row
  {
  }

  /** Projecting on the columns a row already has, and only those, gives the row back. */
  lemma ProjectOnOwnColumns(row: Row, columns: seq<string>)
    requires forall c :: c in row <==> c in columns
    ensures ProjectRow(row, columns) == row
  {
  }

  /**
   * Walks the columns of each row in order, inserting the ones the row has
   * and stopping at the first "*" with a copy of the whole row; one output
   * row per input row, and it never fails.
   */
  method Project(rows: seq<Row>, columns: seq<string>) returns (r: CoreResult<seq<Row>>)
    ensures r.Ok? && |r.value| == |rows|
    ensures forall i :: 0 <= i < |rows| ==>
              (forall c :: c in r.value[i] ==> c in rows[i] && r.value[i][c] == rows[i][c])
              && (ALL_COLUMNS in columns ==> r.value[i] == rows[i])
              && (ALL_COLUMNS !in columns ==> forall c :: c in r.value[i] <==> c in columns && c in rows[i])
  {
    var result: seq<Row> := [];
    for i := 0 to |rows|
      invariant |result| == i
      invariant forall k :: 0 <= k < i ==> result[k] == ProjectRow(rows[k], columns)
    {
      var row := rows[i];
      var projected: Row := map[];
      var j := 0;
      while j < |columns|
        invariant 0 <= j <= |columns|
        invariant ALL_COLUMNS !in columns[..j]
        invariant projected == Picked(row, columns[..j])
      {
        if columns[j] == ALL_COLUMNS {
          projected := row;
          break;
        } else if columns[j] in row {
          projected := projected[columns[j] := row[columns[j]]];
        }
        assert columns[..j + 1] == columns[..j] + [columns[j]];
        j := j + 1;
      }
      if j == |columns| {
        assert columns[..j] == columns;
      }
      result := result + [projected];
    }
    r := Ok(result);
    forall i | 0 <= i < |rows| {
      ProjectRowMeaning(rows[i], columns);
    }
  }
}

=== FILE: dafny/query_sorts.dfy ===
// Sorting result rows on one column, ascending or descending. The library
// sort is stable; it is modelled by a stable insertion sort over the same
// comparator.
module QuerySorts {
  import opened Wrappers
  import opened Floats
  import opened CoreError
  import opened CoreValue

  function CmpInt(a: int, b: int): Ordering
  {
    if a < b then Less else if a == b then Equal else Greater
  }

  /**
   * `String::cmp`: lexicographic over the UTF-8 bytes, which orders the
   * same way as lexicographic order over the code points.
   */
  function CmpStr(a: string, b: string): Ordering
  {
    if a == [] then (if b == [] then Equal else Less)
    else if b == [] then Greater
    else if a[0] < b[0] then Less
    else if a[0] > b[0] then Greater
    else CmpStr(a[1..], b[1..])
  }

  lemma {:induction false} CmpStrReverse(a: string, b: string)
    ensures CmpStr(b, a) == CmpStr(a, b).Reverse()
  {
    if a != [] && b != [] && a[0] == b[0] {
      CmpStrReverse(a[1..], b[1..]);
    }
  }

  /**
   * Integers of the same width by value, floats of the same width by
   * `partial_cmp` with NaN comparing equal to everything, strings
   * lexicographically; any other pair compares equal.
   */
  function CompareValues(a: Value, b: Value): Ordering
  {
    if a.Int32? && b.Int32? then CmpInt(a.i32v, b.i32v)
    else if a.Int64? && b.Int64? then CmpInt(a.i64v, b.i64v)
    else if a.Float32? && b.Float32? then PartialCmp(a.f32v, b.f32v).UnwrapOr(Equal)
    else if a.Float64? && b.Float64? then PartialCmp(a.f64v, b.f64v).UnwrapOr(Equal)
    else if a.Str? && b.Str? then CmpStr(a.s, b.s)
    else Equal
  }

  /** Swapping the values reverses the comparison, for every pair of values. */
  lemma CompareValuesReverse(a: Value, b: Value)
    ensures CompareValues(b, a) == CompareValues(a, b).Reverse()
  {
    if a.Float32? && b.Float32? {
      PartialCmpAntisymmetric(a.f32v, b.f32v);
    } else if a.Float64? && b.Float64? {
      PartialCmpAntisymmetric(a.f64v, b.f64v);
    } else if a.Str? && b.Str? {
      CmpStrReverse(a.s, b.s);
    }
  }

  /** The comparator: rows holding the column come before rows without it. */
  function RowOrder(a: Row, b: Row, column: string, ascending: bool): Ordering
  {
    var o :=
      if column in a && column in b then CompareValues(a[column], b[column])
      else if column in a then Less
      else if column in b then Greater
      else Equal;
    if ascending then o else o.Reverse()
  }

  lemma RowOrderReverse(a: Row, b: Row, column: string, ascending: bool)
    ensures RowOrder(b, a, column, ascending) == RowOrder(a, b, column, ascending).Reverse()
  {
    if column in a && column in b {
      CompareValuesReverse(a[column], b[column]);
    }
  }

  /** Inserts `x` into `s` after every element that does not compare greater than it. */
  function Insert(x: Row, s: seq<Row>, column: string, ascending: bool): (t: seq<Row>)
    ensures |t| == |s| + 1
  {
    if s == [] then [x]
    else if RowOrder(s[|s| - 1], x, column, ascending) == Greater then
      Insert(x, s[..|s| - 1], column, ascending) + [s[|s| - 1]]
    else s + [x]
  }

  /** The sorted rows: each row in turn inserted into the sorted rows before it. */
  function SortRows(rows: seq<Row>, column: string, ascending: bool): (s: seq<Row>)
    ensures |s| == |rows|
  {
    if rows == [] then []
    else Insert(rows[|rows| - 1], SortRows(rows[..|rows| - 1], column, ascending), column, ascending)
  }

  /** No two neighbours are out of order. */
  predicate Sorted(s: seq<Row>, column: string, ascending: bool)
  {
    forall i :: 0 <= i < |s| - 1 ==> RowOrder(s[i], s[i + 1], column, ascending) != Greater
  }

  /** The sort never fails. */
  function Sort(rows: seq<Row>, column: string, ascending: bool): (r: CoreResult<seq<Row>>)
    ensures r.Ok? && multiset(r.value) == multiset(rows)
    ensures r.Ok? && Sorted(r.value, column, ascending)
  {
    SortPermutes(rows, column, ascending);
    SortSorts(rows, column, ascending);
    Ok(SortRows(rows, column, ascending))
  }

  lemma {:induction false} InsertPermutes(x: Row, s: seq<Row>, column: string, ascending: bool)
    ensures multiset(Insert(x, s, column, ascending)) == multiset(s) + multiset{x}
  {
    if s != [] && RowOrder(s[|s| - 1], x, column, ascending) == Greater {
      InsertPermutes(x, s[..|s| - 1], column, ascending);
      assert s == s[..|s| - 1] + [s[|s| - 1]];
    }
  }

  /** The output holds the same rows as the input, each as often. */
  lemma {:induction false} SortPermutes(rows: seq<Row>, column: string, ascending: bool)
    ensures multiset(SortRows(rows, column, ascending)) == multiset(rows)
  {
    if rows != [] {
      var n := |rows| - 1;
      SortPermutes(rows[..n], column, ascending);
      InsertPermutes(rows[n], SortRows(rows[..n], column, ascending), column, ascending);
      assert rows == rows[..n] + [rows[n]];
    }
  }

  /** Inserting keeps the rows in order; its last row is `x` or the last row of `s`. */
  lemma {:induction false} InsertSorts(x: Row, s: seq<Row>, column: string, ascending: bool)
    requires Sorted(s, column, ascending)
    ensures Sorted(Insert(x, s, column, ascending), column, ascending)
    ensures var t := Insert(x, s, column, ascending);
            t[|t| - 1] == x || (s != [] && t[|t| - 1] == s[|s| - 1])
  {
    if s != [] {
      var n := |s| - 1;
      var last := s[n];
      if RowOrder(last, x, column, ascending) == Greater {
        InsertSorts(x, s[..n], column, ascending);
        RowOrderReverse(last, x, column, ascending);
        var t := Insert(x, s[..n], column, ascending);
        assert t[|t| - 1] == x || (n > 0 && t[|t| - 1] == s[n - 1]);
        assert RowOrder(t[|t| - 1], last, column, ascending) != Greater;
      }
    }
  }

  /** The output is in order, for any rows: no row compares greater than the one after it. */
  lemma {:induction false} SortSorts(rows: seq<Row>, column: string, ascending: bool)
    ensures Sorted(SortRows(rows, column, ascending), column, ascending)
  {
    if rows != [] {
      var n := |rows| - 1;
      SortSorts(rows[..n], column, ascending);
      InsertSorts(rows[n], SortRows(rows[..n], column, ascending), column, ascending);
    }
  }

  /**
   * Ascending, every row holding the column comes before every row
   * without it; descending, the other way round.
   */
  lemma {:induction false} MissingColumnPlacement(s: seq<Row>, column: string, ascending: bool, i: nat, j: nat)
    requires Sorted(s, column, ascending)
    requires i < j < |s|
    ensures ascending && column !in s[i] ==> column !in s[j]
    ensures !ascending && column in s[i] ==> column in s[j]
    decreases j - i
  {
    assert RowOrder(s[i], s[i + 1], column, ascending) != Greater;
    if i + 1 < j {
      MissingColumnPlacement(s, column, ascending, i + 1, j);
    }
  }

  /**
   * Two values `compare_values` orders by their payload: the same integer,
   * float or string variant, and no NaN.
   */
  predicate Comparable(a: Value, b: Value)
  {
    (a.Int32? && b.Int32?) || (a.Int64? && b.Int64?) || (a.Str? && b.Str?)
    || (a.Float32? && b.Float32? && !a.f32v.NaN? && !b.f32v.NaN?)
    || (a.Float64? && b.Float64? && !a.f64v.NaN? && !b.f64v.NaN?)
  }

  /** Every row holds the column, and its values there are pairwise comparable. */
  predicate UniformColumn(rows: seq<Row>, column: string)
  {
    forall r1: Row, r2: Row :: r1 in rows && r2 in rows ==>
      column in r1 && column in r2 && Comparable(r1[column], r2[column])
  }

  /** String comparison is transitive. */
  lemma {:induction false} CmpStrTransitive(a: string, b: string, c: string)
    requires CmpStr(a, b) != Greater && CmpStr(b, c) != Greater
    ensures CmpStr(a, c) != Greater
  {
    if a != [] && b != [] && c != [] && a[0] == b[0] && b[0] == c[0] {
      CmpStrTransitive(a[1..], b[1..], c[1..]);
    }
  }

  /** On values of one comparable variant, `compare_values` is transitive. */
  lemma CompareValuesTransitive(a: Value, b: Value, c: Value)
    requires Comparable(a, b) && Comparable(b, c)
    requires CompareValues(a, b) != Greater && CompareValues(b, c) != Greater
    ensures CompareValues(a, c) != Greater
  {
    if a.Str? {
      CmpStrTransitive(a.s, b.s, c.s);
    }
  }

  /** On a uniform column the row order is transitive, ascending and descending. */
  lemma RowOrderTransitive(a: Row, b: Row, c: Row, column: string, ascending: bool)
    requires column in a && column in b && column in c
    requires Comparable(a[column], b[column]) && Comparable(b[column], c[column])
    requires RowOrder(a, b, column, ascending) != Greater && RowOrder(b, c, column, ascending) != Greater
    ensures RowOrder(a, c, column, ascending) != Greater
  {
    var x, y, z := a[column], b[column], c[column];
    if ascending {
      CompareValuesTransitive(x, y, z);
    } else {
      CompareValuesReverse(x, y);
      CompareValuesReverse(y, z);
      CompareValuesReverse(x, z);
      assert Comparable(z, y) && Comparable(y, x);
      CompareValuesTransitive(z, y, x);
    }
  }

  /**
   * In a sorted sequence over a uniform column (one variant, no NaN), the
   * neighbour order extends to every pair.
   */
  lemma {:induction false} ColumnChain(s: seq<Row>, column: string, ascending: bool, i: nat, j: nat)
    requires UniformColumn(s, column) && Sorted(s, column, ascending)
    requires i < j < |s|
    ensures RowOrder(s[i], s[j], column, ascending) != Greater
    decreases j - i
  {
    assert RowOrder(s[i], s[i + 1], column, ascending) != Greater;
    if i + 1 < j {
      ColumnChain(s, column, ascending, i + 1, j);
      assert s[i] in s && s[i + 1] in s && s[j] in s;
      RowOrderTransitive(s[i], s[i + 1], s[j], column, ascending);
    }
  }

  /**
   * When the column holds values of one integer, float or string variant
   * and no NaN, the output is ordered throughout, not only between
   * neighbours.
   */
  lemma ColumnOrdered(rows: seq<Row>, column: string, ascending: bool, i: nat, j: nat)
    requires UniformColumn(rows, column)
    requires i < j < |rows|
    ensures var s := SortRows(rows, column, ascending);
            UniformColumn(s, column) && RowOrder(s[i], s[j], column, ascending) != Greater
  {
    var s := SortRows(rows, column, ascending);
    SortPermutes(rows, column, ascending);
    SortSorts(rows, column, ascending);
    UniformColumnPermuted(rows, s, column);
    ColumnChain(s, column, ascending, i, j);
  }

  lemma UniformColumnPermuted(rows: seq<Row>, s: seq<Row>, column: string)
    requires UniformColumn(rows, column) && multiset(s) == multiset(rows)
    ensures UniformColumn(s, column)
  {
    forall r1: Row, r2: Row | r1 in s && r2 in s
      ensures column in r1 && column in r2 && Comparable(r1[column], r2[column])
    {
      assert r1 in multiset(s) && r2 in multiset(s);
      assert r1 in rows && r2 in rows;
    }
  }

  /**
   * With every pair of values compared, `compare_values` is not transitive
   * across variants: an `Int32` and a string compare equal either way,
   * while the two integers do not.
   */
  lemma MixedVariantsNotTransitive()
    ensures CompareValues(Int32(2), Str("x")) == Equal && CompareValues(Str("x"), Int32(1)) == Equal
    ensures CompareValues(Int32(2), Int32(1)) == Greater
  {
  }

  /** Every row holds a 64-bit integer in the column. */
  predicate AllInt64(rows: seq<Row>, column: string)
  {
    forall r: Row :: r in rows ==> column in r && r[column].Int64?
  }

  /**
   * When every row holds a 64-bit integer in the column, the output is
   * ordered by that integer throughout.
   */
  lemma Int64ColumnOrdered(rows: seq<Row>, column: string, ascending: bool, i: nat, j: nat)
    requires AllInt64(rows, column)
    requires i < j < |rows|
    ensures var s := SortRows(rows, column, ascending);
            AllInt64(s, column)
            && (ascending ==> s[i][column].i64v <= s[j][column].i64v)
            && (!ascending ==> s[i][column].i64v >= s[j][column].i64v)
  {
    var s := SortRows(rows, column, ascending);
    ColumnOrdered(rows, column, ascending, i, j);
    SortPermutes(rows, column, ascending);
    assert forall k :: 0 <= k < |s| ==> s[k] in multiset(rows);
    assert s[i] in s && s[j] in s;
  }
}

=== FILE: dafny/seqs.dfy ===
// Sequences without repeats, and the listing of a set in some order: the
// order in which the source's hash maps hand out their keys is unspecified,
// and these helpers let a loop visit every key exactly once.
module Seqs {

  predicate Distinct<T(==)>(xs: seq<T>)
  {
    forall i, j :: 0 <= i < j < |xs| ==> xs[i] != xs[j]
  }

  /** A listing of `s`, each member once, in an unspecified order. */
  method SetToSeq<T>(s: set<T>) returns (xs: seq<T>)
    ensures |xs| == |s|
    ensures forall x :: x in xs <==> x in s
    ensures Distinct(xs)
  {
    xs := [];
    var pending := s;
    while pending != {}
      invariant pending <= s
      invariant |xs| + |pending| == |s|
      invariant forall x :: x in xs <==> x in s && x !in pending
      invariant Distinct(xs)
      decreases |pending|
    {
      var x :| x in pending;
      xs := xs + [x];
      pending := pending - {x};
    }
  }

  /** A sequence without repeats has as many elements as the set of its elements. */
  lemma {:induction false} DistinctCard<T>(xs: seq<T>, s: set<T>)
    requires Distinct(xs)
    requires forall x :: x in xs <==> x in s
    ensures |xs| == |s|
  {
    if xs != [] {
      var n := |xs| - 1;
      var last := xs[n];
      assert forall x :: x in xs[..n] <==> x in s - {last} by {
        forall x ensures x in xs[..n] <==> x in s - {last} {
          if x in xs[..n] {
            var i :| 0 <= i < n && xs[..n][i] == x;
            assert xs[i] == x && i < n;
          }
          if x in s - {last} {
            var i :| 0 <= i < |xs| && xs[i] == x;
            assert i != n;
            assert xs[..n][i] == x;
          }
        }
      }
      DistinctCard(xs[..n], s - {last});
    } else {
      assert forall x :: x !in s;
      assert s == {};
    }
  }
}

=== FILE: dafny/storage_cache.dfy ===
// The storage layer's byte cache: a bounded key-value map with hit, miss and
// eviction counters. The policy is recorded but eviction always removes
// whichever key the map yields first.
module StorageCache {
  import opened Wrappers
  import opened Ints
  import SME = StorageMemoryEngine

  datatype CachePolicy = LRU | LFU | FIFO | Random

  /** `capacity` keeps its default of 0: the manager never sets it. */
  datatype CacheStats = CacheStats(hits: nat, misses: nat, evictions: nat, size: nat, capacity: nat)
  {
    /** Hits over lookups, 0 before the first lookup. */
    function HitRate(): (rate: real)
      ensures 0.0 <= rate <= 1.0
      ensures rate == 0.0 <==> hits == 0
      ensures rate == 1.0 <==> hits > 0 && misses == 0
      ensures (hits + misses) as real * rate == hits as real
    {
      QuotientIsShare(hits, misses);
      Quotient(hits, hits + misses)
    }
  }

  const ZERO_STATS := CacheStats(0, 0, 0, 0, 0)

  /** The most entries a cache of `capacity` ever holds: a put always inserts, so a zero capacity still holds one. */
  function Bound(capacity: nat): (b: nat)
    ensures b >= 1 && b >= capacity
    ensures capacity > 0 ==> b == capacity
  {
    if capacity == 0 then 1 else capacity
  }

  class CacheManager {
    const policy: CachePolicy
    const capacity: nat
    var stats: CacheStats
    var data: map<SME.Bytes, SME.Bytes>

    /** The size counter matches the map, and the map never outgrows the capacity. */
    predicate Valid()
      reads this
    {
      stats.size == |data| && |data| <= Bound(capacity) && stats.capacity == 0
    }

    constructor(policy: CachePolicy, capacity: nat)
      ensures Valid()
      ensures this.policy == policy && this.capacity == capacity
      ensures stats == ZERO_STATS && data == map[]
    {
      this.policy := policy;
      this.capacity := capacity;
      stats := ZERO_STATS;
      data := map[];
    }

    /** Returns the cached value; counts a hit or a miss. */
    method Get(key: SME.Bytes) returns (r: Option<SME.Bytes>)
      requires Valid()
      modifies this
      ensures Valid()
      ensures data == old(data)
      ensures key in data ==> r == Some(data[key]) && stats == old(stats).(hits := old(stats).hits + 1)
      ensures key !in data ==> r.None? && stats == old(stats).(misses := old(stats).misses + 1)
    {
      if key in data {
        stats := stats.(hits := stats.hits + 1);
        r := Some(data[key]);
      } else {
        stats := stats.(misses := stats.misses + 1);
        r := None;
      }
    }

    /**
     * Stores `value` under `key`, first evicting one entry when the map is at
     * capacity (even when `key` is already cached).
     */
    method Put(key: SME.Bytes, value: SME.Bytes)
      requires Valid()
      modifies this
      ensures Valid()
      ensures key in data && data[key] == value
      ensures |old(data)| < capacity || old(data) == map[] ==>
                data == old(data)[key := value] && stats.evictions == old(stats).evictions
      ensures |old(data)| >= capacity && old(data) != map[] ==>
                (exists victim :: victim in old(data) && data == (old(data) - {victim})[key := value])
                && stats.evictions == old(stats).evictions + 1
      ensures stats.hits == old(stats).hits && stats.misses == old(stats).misses
    {
      if |data| >= capacity {
        EvictOne();
      }
      data := data[key := value];
      stats := stats.(size := |data|);
    }

    /** Removes one arbitrary entry, if there is any. */
    method EvictOne()
      requires Valid()
      modifies this
      ensures |data| <= Bound(capacity) && stats.capacity == 0
      ensures stats.hits == old(stats).hits && stats.misses == old(stats).misses && stats.size == old(stats).size
      ensures old(data) == map[] ==> data == old(data) && stats.evictions == old(stats).evictions
      ensures old(data) != map[] ==>
                (exists victim :: victim in old(data) && data == old(data) - {victim})
                && |data| == |old(data)| - 1
                && stats.evictions == old(stats).evictions + 1
    {
      if data != map[] {
        var victim :| victim in data;
        data := data - {victim};
        stats := stats.(evictions := stats.evictions + 1);
      }
    }

    /** The statistics, whose size is the number of cached entries, within the bound. */
    function Stats(): (s: CacheStats)
      reads this
      ensures Valid() ==> s.size == |data| && s.size <= Bound(capacity)
    {
      stats
    }
  }
}

=== FILE: dafny/storage_config.dfy ===
// Storage configuration: the per-tier settings, sharding, replication,
// backup and compression choices, with their builders and validation.
module StorageConfiguration {
  import opened Wrappers
  import opened Ints
  import opened StorageTiers
  import StorageCache

  /** The compression choices; Rust's `None` variant is `NoCompression` here. */
  datatype CompressionAlgorithm = NoCompression | Lz4 | Zstd | Snappy

  datatype ShardStrategy = Hash | Range | CustomShard(name: string)

  const DEFAULT_L1_CACHE_SIZE: nat := 1024 * 1024 * 1024
  const DEFAULT_L2_CACHE_SIZE: nat := 8 * 1024 * 1024 * 1024
  const DEFAULT_SHARD_COUNT: nat := 16
  const DEFAULT_COMPRESSION: CompressionAlgorithm := Lz4

  datatype StorageConfig = StorageConfig(
    tiers: map<Tier, TierConfig>,
    defaultCompression: CompressionAlgorithm,
    cachePolicy: StorageCache.CachePolicy,
    shardStrategy: ShardStrategy,
    shardCount: u32,
    enableReplication: bool,
    replicationFactor: u8,
    enableBackup: bool,
    backupPath: Option<string>,
    enableMetrics: bool,
    dataDir: string)

  /** All four tiers with their default engines, L1 and L2 size-capped. */
  function DefaultTiers(): map<Tier, TierConfig>
  {
    map[
      L1 := WithMigrationThreshold(WithMaxSize(NewTierConfig(L1), DEFAULT_L1_CACHE_SIZE), 0.9),
      L2 := WithMigrationThreshold(WithMaxSize(NewTierConfig(L2), DEFAULT_L2_CACHE_SIZE), 0.8),
      L3 := WithMigrationThreshold(NewTierConfig(L3), 0.7),
      L4 := WithMigrationThreshold(NewTierConfig(L4), 0.6)]
  }

  function DefaultConfig(): StorageConfig
  {
    StorageConfig(DefaultTiers(), DEFAULT_COMPRESSION, StorageCache.LRU, Hash, DEFAULT_SHARD_COUNT,
                  false, 1, true, Some("./backups"), true, "./data")
  }

  function WithDataDir(c: StorageConfig, dataDir: string): StorageConfig
  {
    c.(dataDir := dataDir)
  }

  function WithShardCount(c: StorageConfig, count: u32): StorageConfig
  {
    c.(shardCount := count)
  }

  function WithReplication(c: StorageConfig, factor: u8): StorageConfig
  {
    c.(enableReplication := true, replicationFactor := factor)
  }

  function WithBackupPath(c: StorageConfig, path: string): StorageConfig
  {
    c.(backupPath := Some(path), enableBackup := true)
  }

  function WithoutBackup(c: StorageConfig): StorageConfig
  {
    c.(enableBackup := false, backupPath := None)
  }

  function WithCompression(c: StorageConfig, algorithm: CompressionAlgorithm): StorageConfig
  {
    c.(defaultCompression := algorithm)
  }

  function WithCachePolicy(c: StorageConfig, policy: StorageCache.CachePolicy): StorageConfig
  {
    c.(cachePolicy := policy)
  }

  /** The checks in order; the first failing one names the problem. */
  function Validate(c: StorageConfig): Result<(), string>
  {
    if |c.dataDir| == 0 then Err("Data directory cannot be empty")
    else if c.shardCount == 0 then Err("Shard count must be greater than 0")
    else if c.enableReplication && c.replicationFactor < 2 then Err("Replication factor must be at least 2 when replication is enabled")
    else if |c.tiers| == 0 then Err("At least one storage tier must be configured")
    else Ok(())
  }

  predicate WellFormed(c: StorageConfig)
  {
    |c.dataDir| > 0 && c.shardCount > 0 && (c.enableReplication ==> c.replicationFactor >= 2) && c.tiers != map[]
  }

  /** Validation accepts exactly the well-formed configurations, and each rejection names its first failing check. */
  lemma ValidateAcceptsWellFormed(c: StorageConfig)
    ensures Validate(c).Ok? <==> WellFormed(c)
    ensures |c.dataDir| == 0 ==> Validate(c) == Err("Data directory cannot be empty")
    ensures |c.dataDir| > 0 && c.shardCount == 0 ==> Validate(c) == Err("Shard count must be greater than 0")
  {
    if c.tiers != map[] {
      var t :| t in c.tiers;
      assert |c.tiers| > 0;
    }
  }

  /** The default configuration is valid, has all four tiers and enables every one of them. */
  lemma DefaultConfigValid()
    ensures Validate(DefaultConfig()).Ok?
    ensures DefaultConfig().tiers.Keys == {L1, L2, L3, L4}
    ensures EnabledTiers(DefaultConfig()) == {L1, L2, L3, L4}
  {
    var c := DefaultConfig();
    assert L1 in c.tiers;
    assert |c.tiers| > 0;
    assert EnabledTiers(c) == {L1, L2, L3, L4} by {
      forall t | t in {L1, L2, L3, L4} ensures t in EnabledTiers(c) {
        assert c.tiers[t].tier == t && c.tiers[t].enabled;
      }
    }
  }

  /**
   * The builders the validation looks at: an empty data directory, zero
   * shards or replication below 2 make a configuration invalid, while the
   * backup builders never change whether it is valid.
   */
  lemma BuildersAndValidation(c: StorageConfig, path: string, factor: u8)
    ensures Validate(WithDataDir(c, "")).Err?
    ensures Validate(WithShardCount(c, 0)).Err?
    ensures factor < 2 ==> Validate(WithReplication(c, factor)).Err?
    ensures Validate(WithoutBackup(c)) == Validate(c)
    ensures Validate(WithBackupPath(c, path)) == Validate(c)
  {
  }

  /** The compression and cache-policy builders never change whether a configuration is valid. */
  lemma TuningBuildersKeepValidity(c: StorageConfig, algorithm: CompressionAlgorithm, policy: StorageCache.CachePolicy)
    ensures Validate(WithCompression(c, algorithm)) == Validate(c)
    ensures Validate(WithCachePolicy(c, policy)) == Validate(c)
  {
  }

  /** `without_backup` and `with_backup_path` undo each other's backup settings. */
  lemma BackupBuilders(c: StorageConfig, path: string)
    ensures !WithoutBackup(WithBackupPath(c, path)).enableBackup && WithoutBackup(WithBackupPath(c, path)).backupPath.None?
    ensures WithBackupPath(WithoutBackup(c), path).enableBackup && WithBackupPath(WithoutBackup(c), path).backupPath == Some(path)
  {
  }

  function GetTierConfig(c: StorageConfig, t: Tier): Option<TierConfig>
  {
    if t in c.tiers then Some(c.tiers[t]) else None
  }

  function AddTierConfig(c: StorageConfig, config: TierConfig): StorageConfig
  {
    c.(tiers := c.tiers[config.tier := config])
  }

  function RemoveTierConfig(c: StorageConfig, t: Tier): StorageConfig
  {
    c.(tiers := c.tiers - {t})
  }

  /** Adding then looking up a tier finds the added settings; removing it makes the lookup miss. */
  lemma TierConfigRoundTrip(c: StorageConfig, config: TierConfig)
    ensures GetTierConfig(AddTierConfig(c, config), config.tier) == Some(config)
    ensures GetTierConfig(RemoveTierConfig(AddTierConfig(c, config), config.tier), config.tier).None?
    ensures forall t :: t != config.tier ==> GetTierConfig(AddTierConfig(c, config), t) == GetTierConfig(c, t)
  {
  }

  /** The tiers named by enabled settings (the order of the source's list is the map's, not modelled). */
  function EnabledTiers(c: StorageConfig): set<Tier>
  {
    set t | t in c.tiers && c.tiers[t].enabled :: c.tiers[t].tier
  }

  /** Settings stored under their own tier, as `add_tier_config` stores them. */
  predicate KeyedByTier(c: StorageConfig)
  {
    forall t :: t in c.tiers ==> c.tiers[t].tier == t
  }

  /** With settings keyed by their own tier, the enabled tiers are exactly the keys whose settings are enabled. */
  lemma EnabledTiersExactly(c: StorageConfig, t: Tier)
    requires KeyedByTier(c)
    ensures t in EnabledTiers(c) <==> t in c.tiers && c.tiers[t].enabled
  {
    if t in EnabledTiers(c) {
      var u :| u in c.tiers && c.tiers[u].enabled && c.tiers[u].tier == t;
    }
  }

  /** The tier-settings operations keep every setting under its own tier. */
  lemma TierConfigOpsKeepKeying(c: StorageConfig, config: TierConfig, t: Tier)
    requires KeyedByTier(c)
    ensures KeyedByTier(AddTierConfig(c, config))
    ensures KeyedByTier(RemoveTierConfig(c, t))
  {
  }
}

=== FILE: dafny/storage_memory_engine.dfy ===
// The in-memory (L1) storage engine: a byte-keyed map with byte accounting,
// an optional capacity, per-operation counters, batches and range scans.
module StorageMemoryEngine {
  import opened Wrappers
  import opened Ints
  import opened Text
  import opened CoreError

  type Bytes = seq<u8>
  type Entry = (Bytes, Bytes)

  /** The order of Rust byte slices: lexicographic, a proper prefix first. */
  predicate LexLess(a: Bytes, b: Bytes)
    decreases |a|
  {
    if |a| == 0 then |b| > 0
    else if |b| == 0 then false
    else a[0] < b[0] || (a[0] == b[0] && LexLess(a[1..], b[1..]))
  }

  lemma {:induction false} LexIrreflexive(a: Bytes)
    ensures !LexLess(a, a)
    decreases |a|
  {
    if |a| > 0 {
      LexIrreflexive(a[1..]);
    }
  }

  lemma {:induction false} LexTransitive(a: Bytes, b: Bytes, c: Bytes)
    requires LexLess(a, b) && LexLess(b, c)
    ensures LexLess(a, c)
    decreases |a|
  {
    if |a| > 0 && a[0] == b[0] && b[0] == c[0] {
      LexTransitive(a[1..], b[1..], c[1..]);
    }
  }

  lemma {:induction false} LexTotal(a: Bytes, b: Bytes)
    ensures a == b || LexLess(a, b) || LexLess(b, a)
    decreases |a|
  {
    if |a| > 0 && |b| > 0 && a[0] == b[0] {
      LexTotal(a[1..], b[1..]);
      if a[1..] == b[1..] {
        assert a == [a[0]] + a[1..] && b == [b[0]] + b[1..];
      }
    }
  }

  lemma LexAsymmetric(a: Bytes, b: Bytes)
    requires LexLess(a, b)
    ensures !LexLess(b, a)
  {
    if LexLess(b, a) {
      LexTransitive(a, b, a);
      LexIrreflexive(a);
    }
  }

  /** No entry has a smaller key than the one before it. */
  predicate SortedByKey(s: seq<Entry>)
  {
    forall i :: 0 < i < |s| ==> !LexLess(s[i].0, s[i - 1].0)
  }

  /** In a sorted sequence no later key is smaller than an earlier one. */
  lemma {:induction false} SortedByKeyPairs(s: seq<Entry>, i: nat, j: nat)
    requires SortedByKey(s) && i <= j < |s|
    ensures !LexLess(s[j].0, s[i].0)
    decreases j - i
  {
    if i == j {
      LexIrreflexive(s[i].0);
    } else {
      SortedByKeyPairs(s, i, j - 1);
      LexTotal(s[j - 1].0, s[i].0);
      if LexLess(s[i].0, s[j - 1].0) && LexLess(s[j].0, s[i].0) {
        LexTransitive(s[j].0, s[i].0, s[j - 1].0);
      }
    }
  }

  function InsertByKey(e: Entry, s: seq<Entry>): (r: seq<Entry>)
    requires SortedByKey(s)
    ensures |r| == |s| + 1 && (r[0] == e || (|s| > 0 && r[0] == s[0]))
    ensures SortedByKey(r)
    ensures multiset(r) == multiset(s) + multiset{e}
    decreases |s|
  {
    if s == [] then [e]
    else if !LexLess(s[0].0, e.0) then
      assert s == [s[0]] + s[1..];
      [e] + s
    else
      assert s == [s[0]] + s[1..];
      var rest := InsertByKey(e, s[1..]);
      LexAsymmetric(s[0].0, e.0);
      [s[0]] + rest
  }

  /** `sort_by` on the key: the entries in ascending key order. */
  function SortByKey(s: seq<Entry>): (r: seq<Entry>)
    ensures SortedByKey(r)
    ensures multiset(r) == multiset(s)
    ensures |r| == |s|
  {
    if s == [] then []
    else
      assert s == [s[0]] + s[1..];
      InsertByKey(s[0], SortByKey(s[1..]))
  }

  /** The bytes an entry occupies: key plus value. */
  function EntrySize(key: Bytes, value: Bytes): nat
  {
    |key| + |value|
  }

  /** The bytes all entries of `m` occupy. */
  ghost function TotalSize(m: map<Bytes, Bytes>): nat
    decreases |m|
  {
    if m == map[] then 0
    else
      var k :| k in m;
      EntrySize(k, m[k]) + TotalSize(m - {k})
  }

  lemma {:induction false} TotalSizeRemove(m: map<Bytes, Bytes>, key: Bytes)
    requires key in m
    ensures TotalSize(m) == TotalSize(m - {key}) + EntrySize(key, m[key])
    decreases |m|
  {
    var k :| k in m && TotalSize(m) == EntrySize(k, m[k]) + TotalSize(m - {k});
    if k != key {
      assert |m - {k}| < |m|;
      TotalSizeRemove(m - {k}, key);
      assert |m - {key}| < |m|;
      TotalSizeRemove(m - {key}, k);
      assert m - {k} - {key} == m - {key} - {k};
    }
  }

  /** Storing `value` under `key` changes the total by the new entry minus the old one. */
  lemma TotalSizeUpdate(m: map<Bytes, Bytes>, key: Bytes, value: Bytes)
    ensures TotalSize(m[key := value]) ==
      TotalSize(m) - (if key in m then EntrySize(key, m[key]) else 0) + EntrySize(key, value)
  {
    TotalSizeRemove(m[key := value], key);
    if key in m {
      TotalSizeRemove(m, key);
      assert m[key := value] - {key} == m - {key};
    } else {
      assert m[key := value] - {key} == m;
    }
  }

  /** The kinds of storage engine a tier can be configured with. */
  datatype StorageEngineType = Memory | Redb | DuckDB | RocksDB | Custom(name: string)

  datatype StorageOperation = GetOp | PutOp | DeleteOp | ScanOp | QueryOp | BatchOp

  /** The engine's counters; latency, cache and compression figures are not modelled. */
  datatype StorageStats = StorageStats(readCount: nat, writeCount: nat, deleteCount: nat, scanCount: nat, queryCount: nat, totalSize: nat, keyCount: nat)

  const ZERO_STATS := StorageStats(0, 0, 0, 0, 0, 0, 0)

  function TotalOperations(st: StorageStats): nat
  {
    st.readCount + st.writeCount + st.deleteCount + st.scanCount + st.queryCount
  }

  /** `record_operation`: one counter per kind of operation; a batch counts as one write. */
  function RecordOperation(st: StorageStats, op: StorageOperation): (r: StorageStats)
    ensures TotalOperations(r) == TotalOperations(st) + 1
    ensures r.totalSize == st.totalSize && r.keyCount == st.keyCount
  {
    match op
    case GetOp => st.(readCount := st.readCount + 1)
    case PutOp => st.(writeCount := st.writeCount + 1)
    case DeleteOp => st.(deleteCount := st.deleteCount + 1)
    case ScanOp => st.(scanCount := st.scanCount + 1)
    case QueryOp => st.(queryCount := st.queryCount + 1)
    case BatchOp => st.(writeCount := st.writeCount + 1)
  }

  datatype BatchOperation = PutKey(key: Bytes, value: Bytes) | DeleteKey(key: Bytes)

  function ApplyOne(m: map<Bytes, Bytes>, op: BatchOperation): map<Bytes, Bytes>
  {
    match op
    case PutKey(k, v) => m[k := v]
    case DeleteKey(k) => m - {k}
  }

  /** The map after applying `ops` one after another. */
  function ApplyBatch(m: map<Bytes, Bytes>, ops: seq<BatchOperation>): map<Bytes, Bytes>
    decreases |ops|
  {
    if ops == [] then m else ApplyOne(ApplyBatch(m, ops[..|ops| - 1]), ops[|ops| - 1])
  }

  /** A batch is its operations in order: splitting it anywhere and applying the halves in turn is the same. */
  lemma {:induction false} ApplyBatchAppend(m: map<Bytes, Bytes>, a: seq<BatchOperation>, b: seq<BatchOperation>)
    ensures ApplyBatch(m, a + b) == ApplyBatch(ApplyBatch(m, a), b)
    decreases |b|
  {
    if b == [] {
      assert a + b == a;
    } else {
      assert (a + b)[..|a + b| - 1] == a + b[..|b| - 1];
      ApplyBatchAppend(m, a, b[..|b| - 1]);
    }
  }

  /** A later put of a key wins over an earlier one, and a delete after a put removes it. */
  lemma LaterOperationsWin(m: map<Bytes, Bytes>, k: Bytes, v1: Bytes, v2: Bytes)
    ensures ApplyBatch(m, [PutKey(k, v1), PutKey(k, v2)])[k] == v2
    ensures k !in ApplyBatch(m, [PutKey(k, v1), DeleteKey(k)])
  {
    assert [PutKey(k, v1), PutKey(k, v2)][..1] == [PutKey(k, v1)];
    assert [PutKey(k, v1), DeleteKey(k)][..1] == [PutKey(k, v1)];
    assert [PutKey(k, v1)][..0] == [];
  }

  /** `update_size`: add a delta, saturating at zero when it is negative. */
  function UpdateSize(current: nat, delta: int): (r: nat)
    ensures current + delta >= 0 ==> r == current + delta
    ensures current + delta < 0 ==> r == 0
  {
    if delta < 0 then (if current + delta < 0 then 0 else current + delta) else current + delta
  }

  /** A key lies in the scan range: at or after `start`, strictly before `end`. */
  predicate InRange(k: Bytes, start: Option<Bytes>, end: Option<Bytes>)
  {
    (start.None? || !LexLess(k, start.value)) && (end.None? || LexLess(k, end.value))
  }

  /** The entries whose keys, visited in `order`, lie in range. */
  function InRangeEntries(order: seq<Bytes>, data: map<Bytes, Bytes>, start: Option<Bytes>, end: Option<Bytes>): (r: seq<Entry>)
    requires forall i :: 0 <= i < |order| ==> order[i] in data
    ensures forall e :: e in r ==> e.0 in data && data[e.0] == e.1 && InRange(e.0, start, end)
    decreases |order|
  {
    if order == [] then []
    else
      var rest := InRangeEntries(order[..|order| - 1], data, start, end);
      var k := order[|order| - 1];
      if InRange(k, start, end) then rest + [(k, data[k])] else rest
  }

  /** Every key of `order` in range contributes its entry. */
  lemma {:induction false} InRangeEntriesComplete(order: seq<Bytes>, data: map<Bytes, Bytes>, start: Option<Bytes>, end: Option<Bytes>, i: nat)
    requires forall i :: 0 <= i < |order| ==> order[i] in data
    requires i < |order| && InRange(order[i], start, end)
    ensures (order[i], data[order[i]]) in InRangeEntries(order, data, start, end)
    decreases |order|
  {
    if i < |order| - 1 {
      InRangeEntriesComplete(order[..|order| - 1], data, start, end, i);
    }
  }

  /** The first `limit` entries, or all of them. */
  function Take(s: seq<Entry>, limit: Option<nat>): (r: seq<Entry>)
    ensures limit.Some? ==> |r| == if limit.value < |s| then limit.value else |s|
    ensures limit.None? ==> r == s
    ensures r == s[..|r|]
  {
    if limit.Some? && limit.value < |s| then s[..limit.value] else s
  }

  /**
   * The scan loop: entries in range are pushed in iteration order, and the
   * count is compared with the limit only after a push. Returns the entries
   * kept, after those already in `acc`.
   */
  function CollectAsWritten(order: seq<Bytes>, data: map<Bytes, Bytes>, start: Option<Bytes>, end: Option<Bytes>,
                            limit: Option<nat>, acc: seq<Entry>): (r: seq<Entry>)
    requires forall i :: 0 <= i < |order| ==> order[i] in data
    ensures acc <= r
    ensures forall e :: e in r ==> e in acc || (e.0 in data && data[e.0] == e.1 && InRange(e.0, start, end))
    ensures limit.Some? ==> |r| <= if |acc| < limit.value then limit.value else |acc| + 1
    ensures limit.None? ==> r == acc + InRangeEntries(order, data, start, end)
    decreases |order|
  {
    if order == [] then acc
    else
      InRangeEntriesFirst(order, data, start, end);
      if !InRange(order[0], start, end) then CollectAsWritten(order[1..], data, start, end, limit, acc)
      else
        var acc' := acc + [(order[0], data[order[0]])];
        if limit.Some? && |acc'| >= limit.value then acc'
        else CollectAsWritten(order[1..], data, start, end, limit, acc')
  }

  /** The in-range entries split at the first key visited. */
  lemma {:induction false} InRangeEntriesFirst(order: seq<Bytes>, data: map<Bytes, Bytes>, start: Option<Bytes>, end: Option<Bytes>)
    requires forall i :: 0 <= i < |order| ==> order[i] in data
    requires order != []
    ensures InRangeEntries(order, data, start, end) ==
              (if InRange(order[0], start, end) then [(order[0], data[order[0]])] else []) + InRangeEntries(order[1..], data, start, end)
    decreases |order|
  {
    if |order| > 1 {
      InRangeEntriesFirst(order[..|order| - 1], data, start, end);
      assert order[..|order| - 1][1..] == order[1..][..|order[1..]| - 1];
    } else {
      assert order[1..] == [];
    }
  }

  /** `scan`: collect in iteration order under the limit, then sort by key. */
  function ScanAsWritten(order: seq<Bytes>, data: map<Bytes, Bytes>, start: Option<Bytes>, end: Option<Bytes>,
                         limit: Option<nat>): (r: seq<Entry>)
    requires forall i :: 0 <= i < |order| ==> order[i] in data
    ensures SortedByKey(r)
  {
    SortByKey(CollectAsWritten(order, data, start, end, limit, []))
  }

  /**
   * The scan returns stored entries in range, sorted by key, at most
   * `limit` of them but one for a limit of zero; with no limit it returns
   * every stored entry in range, as the corrected scan does.
   */
  lemma ScanAsWrittenEntries(order: seq<Bytes>, data: map<Bytes, Bytes>, start: Option<Bytes>, end: Option<Bytes>, limit: Option<nat>)
    requires forall i :: 0 <= i < |order| ==> order[i] in data
    ensures var r := ScanAsWritten(order, data, start, end, limit);
            SortedByKey(r)
            && (forall e :: e in r ==> e.0 in data && data[e.0] == e.1 && InRange(e.0, start, end))
            && (limit.Some? ==> |r| <= if limit.value == 0 then 1 else limit.value)
            && (limit.None? ==> r == ScanCorrected(order, data, start, end, None))
  {
    var collected := CollectAsWritten(order, data, start, end, limit, []);
    var r := SortByKey(collected);
    assert r == ScanAsWritten(order, data, start, end, limit);
    forall e | e in r
      ensures e.0 in data && data[e.0] == e.1 && InRange(e.0, start, end)
    {
      assert e in multiset(collected);
    }
    if limit.None? {
      assert collected == InRangeEntries(order, data, start, end) by {
        assert [] + InRangeEntries(order, data, start, end) == InRangeEntries(order, data, start, end);
      }
    }
  }

  /**
   * A limit of zero still yields one entry, and with a limit of one the
   * entry kept is whichever comes first in iteration order, not the
   * smallest key.
   */
  lemma ScanAsWrittenIgnoresLimit()
    ensures var data := map[[1] := [10], [2] := [20]];
            |ScanAsWritten([[2], [1]], data, None, None, Some(0))| == 1 &&
            ScanAsWritten([[2], [1]], data, None, None, Some(1)) == [([2], [20])]
  {
    var data := map[[1] := [10], [2] := [20]];
    assert InRange([2], None, None);
    assert CollectAsWritten([[2], [1]], data, None, None, Some(0), []) == [([2], [20])];
    assert CollectAsWritten([[2], [1]], data, None, None, Some(1), []) == [([2], [20])];
  }

  class MemoryEngine {
    const maxSize: Option<nat>
    var data: map<Bytes, Bytes>
    var currentSize: nat
    var stats: StorageStats

    /** The size counter is the number of bytes the stored entries occupy. */
    ghost predicate Valid()
      reads this
    {
      currentSize == TotalSize(data)
    }

    /** `new`: an empty engine whose capacity is the "max_size" setting, when it parses. */
    constructor (config: map<string, string>)
      ensures maxSize == (if "max_size" in config then ParseUnsigned(config["max_size"], U64_MAX) else None)
      ensures data == map[] && currentSize == 0 && stats == ZERO_STATS
      ensures Valid()
    {
      maxSize := if "max_size" in config then ParseUnsigned(config["max_size"], U64_MAX) else None;
      data := map[];
      currentSize := 0;
      stats := ZERO_STATS;
    }

    /** `check_capacity`: refuse when the size plus `additional` would pass the capacity. */
    function CheckCapacity(additional: nat): (r: CoreResult<()>)
      reads this
      ensures r.Ok? <==> maxSize.None? || currentSize + additional <= maxSize.value
      ensures r.Err? ==> r.error == ResourceExhausted("Memory engine capacity exceeded")
    {
      if maxSize.Some? && currentSize + additional > maxSize.value then
        Err(ResourceExhausted("Memory engine capacity exceeded"))
      else Ok(())
    }

    /** `shutdown`: drop every entry and zero the size; the counters stay as they were. */
    method Shutdown()
      modifies this
      ensures data == map[] && currentSize == 0 && stats == old(stats)
      ensures Valid()
    {
      data := map[];
      currentSize := 0;
    }

    method Get(key: Bytes) returns (r: Option<Bytes>)
      modifies this
      ensures r.Some? <==> key in data
      ensures r.Some? ==> r.value == data[key]
      ensures data == old(data) && currentSize == old(currentSize)
      ensures stats == RecordOperation(old(stats), GetOp)
    {
      r := if key in data then Some(data[key]) else None;
      stats := RecordOperation(stats, GetOp);
    }

    /**
     * `put`: refused, with nothing changed, when the full size of the new
     * entry does not fit; otherwise stores it, adjusts the size by the
     * difference and counts a write.
     */
    method Put(key: Bytes, value: Bytes) returns (r: CoreResult<()>)
      requires Valid()
      modifies this
      ensures Valid()
      ensures r.Err? <==> maxSize.Some? && old(currentSize) + EntrySize(key, value) > maxSize.value
      ensures r.Err? ==> r.error == ResourceExhausted("Memory engine capacity exceeded") && unchanged(this)
      ensures r.Ok? ==> (data == old(data)[key := value] && data[key] == value &&
        stats == RecordOperation(old(stats), PutOp).(totalSize := currentSize, keyCount := |data|))
    {
      r := CheckCapacity(EntrySize(key, value));
      if r.Err? {
        return;
      }
      var oldSize := if key in data then EntrySize(key, data[key]) else 0;
      TotalSizeUpdate(data, key, value);
      data := data[key := value];
      currentSize := UpdateSize(currentSize, EntrySize(key, value) - oldSize);
      stats := RecordOperation(stats, PutOp).(totalSize := currentSize, keyCount := |data|);
    }

    /** `delete`: removes the key if present, shrinking the size by its entry; always counts a delete. */
    method Delete(key: Bytes) returns (r: CoreResult<()>)
      requires Valid()
      modifies this
      ensures Valid() && r.Ok?
      ensures data == old(data) - {key} && key !in data
      ensures currentSize == old(currentSize) - (if key in old(data) then EntrySize(key, old(data)[key]) else 0)
      ensures stats == RecordOperation(old(stats), DeleteOp).(totalSize := currentSize, keyCount := |data|)
    {
      if key in data {
        TotalSizeRemove(data, key);
        var oldSize := EntrySize(key, data[key]);
        data := data - {key};
        currentSize := UpdateSize(currentSize, -(oldSize as int));
      }
      stats := RecordOperation(stats, DeleteOp).(totalSize := currentSize, keyCount := |data|);
      r := Ok(());
    }

    /**
     * `batch`: applies the operations in order, with no capacity check,
     * then adjusts the size by the summed delta and counts one write.
     */
    method Batch(ops: seq<BatchOperation>) returns (r: CoreResult<()>)
      requires Valid()
      modifies this
      ensures Valid() && r.Ok?
      ensures data == ApplyBatch(old(data), ops)
      ensures stats == RecordOperation(old(stats), BatchOp).(totalSize := currentSize, keyCount := |data|)
    {
      var d0, cs0, st0 := data, currentSize, stats;
      var m := d0;
      var sizeDelta: int := 0;
      for i := 0 to |ops|
        invariant m == ApplyBatch(d0, ops[..i])
        invariant TotalSize(m) == TotalSize(d0) + sizeDelta
      {
        assert ops[..i + 1][..i] == ops[..i];
        assert ApplyBatch(d0, ops[..i + 1]) == ApplyOne(ApplyBatch(d0, ops[..i]), ops[i]);
        match ops[i]
        case PutKey(k, v) =>
          var oldSize := if k in m then EntrySize(k, m[k]) else 0;
          TotalSizeUpdate(m, k, v);
          m := m[k := v];
          sizeDelta := sizeDelta + EntrySize(k, v) - oldSize;
        case DeleteKey(k) =>
          if k in m {
            TotalSizeRemove(m, k);
            sizeDelta := sizeDelta - EntrySize(k, m[k]);
            m := m - {k};
          }
      }
      assert ops[..|ops|] == ops;
      var size := UpdateSize(cs0, sizeDelta);
      data, currentSize, stats := m, size, RecordOperation(st0, BatchOp).(totalSize := size, keyCount := |m|);
      r := Ok(());
    }

    /**
     * `scan`: visits the keys in `order` (the map's iteration order, which
     * lists every key once), pushes each entry in range and stops once the
     * count reaches the limit; then sorts by key and counts a scan.
     */
    method Scan(start: Option<Bytes>, end: Option<Bytes>, limit: Option<nat>, order: seq<Bytes>) returns (r: seq<Entry>)
      requires forall k :: k in data <==> k in order
      requires forall i, j :: 0 <= i < j < |order| ==> order[i] != order[j]
      modifies this
      ensures data == old(data) && currentSize == old(currentSize)
      ensures stats == RecordOperation(old(stats), ScanOp)
      ensures r == ScanAsWritten(order, data, start, end, limit)
    {
      var d0 := data;
      var results: seq<Entry> := [];
      var i := 0;
      while i < |order|
        invariant 0 <= i <= |order|
        invariant CollectAsWritten(order[i..], d0, start, end, limit, results) == CollectAsWritten(order, d0, start, end, limit, [])
      {
        var k := order[i];
        assert order[i..][1..] == order[i + 1..];
        if InRange(k, start, end) {
          results := results + [(k, d0[k])];
          if limit.Some? && |results| >= limit.value {
            break;
          }
        }
        i := i + 1;
      }
      r := SortByKey(results);
      stats := RecordOperation(stats, ScanOp);
    }
  }

  /**
   * The scan as evidently intended, with its limit applied after sorting:
   * every stored entry in range, in ascending key order, cut to the first
   * `limit`.
   */
  function ScanCorrected(order: seq<Bytes>, data: map<Bytes, Bytes>, start: Option<Bytes>, end: Option<Bytes>, limit: Option<nat>): (r: seq<Entry>)
    requires forall i :: 0 <= i < |order| ==> order[i] in data
    ensures SortedByKey(r)
    ensures limit.Some? ==> |r| <= limit.value
  {
    var r := Take(SortByKey(InRangeEntries(order, data, start, end)), limit);
    assert SortedByKey(r) by {
      var sorted := SortByKey(InRangeEntries(order, data, start, end));
      forall i | 0 < i < |r|
        ensures !LexLess(r[i].0, r[i - 1].0)
      {
        assert r[i] == sorted[i] && r[i - 1] == sorted[i - 1];
      }
    }
    r
  }

  /** What the corrected scan returns is stored, and in range. */
  lemma ScanEntriesStored(order: seq<Bytes>, data: map<Bytes, Bytes>, start: Option<Bytes>, end: Option<Bytes>, limit: Option<nat>)
    requires forall i :: 0 <= i < |order| ==> order[i] in data
    ensures forall e :: e in ScanCorrected(order, data, start, end, limit) ==>
      e.0 in data && data[e.0] == e.1 && InRange(e.0, start, end)
  {
    var all := InRangeEntries(order, data, start, end);
    var sorted := SortByKey(all);
    forall e | e in Take(sorted, limit)
      ensures e.0 in data && data[e.0] == e.1 && InRange(e.0, start, end)
    {
      assert e in sorted;
      assert e in multiset(all);
    }
  }

  /**
   * The corrected scan misses nothing and prefers small keys: with no limit
   * every stored key in range is returned, and an in-range key left out
   * by the limit is no smaller than any key returned.
   */
  lemma ScanKeepsSmallest(order: seq<Bytes>, data: map<Bytes, Bytes>, start: Option<Bytes>, end: Option<Bytes>,
                          limit: Option<nat>, k: Bytes)
    requires forall k :: k in data <==> k in order
    requires forall i, j :: 0 <= i < j < |order| ==> order[i] != order[j]
    requires k in data && InRange(k, start, end)
    ensures var r := ScanCorrected(order, data, start, end, limit);
            (k, data[k]) !in r ==> limit.Some? && |r| == limit.value && forall e :: e in r ==> !LexLess(k, e.0)
  {
    var i :| 0 <= i < |order| && order[i] == k;
    InRangeEntriesComplete(order, data, start, end, i);
    TakeSortedKeepsSmallest(InRangeEntries(order, data, start, end), limit, (k, data[k]));
  }

  /** Sorting then cutting keeps the smallest keys: an entry cut off is no smaller than any kept. */
  lemma TakeSortedKeepsSmallest(all: seq<Entry>, limit: Option<nat>, x: Entry)
    requires x in all
    ensures var r := Take(SortByKey(all), limit);
            x !in r ==> limit.Some? && |r| == limit.value && forall e :: e in r ==> !LexLess(x.0, e.0)
  {
    var sorted := SortByKey(all);
    var r := Take(sorted, limit);
    assert x in multiset(all);
    assert x in multiset(sorted);
    var j :| 0 <= j < |sorted| && sorted[j] == x;
    if x !in r {
      PrefixBelow(sorted, |r|, j);
    }
  }

  /** In a sorted sequence, an entry at or past position `n` has a key no smaller than any before `n`. */
  lemma PrefixBelow(sorted: seq<Entry>, n: nat, j: nat)
    requires SortedByKey(sorted) && n <= j < |sorted|
    ensures forall e :: e in sorted[..n] ==> !LexLess(sorted[j].0, e.0)
  {
    forall e | e in sorted[..n]
      ensures !LexLess(sorted[j].0, e.0)
    {
      var a :| 0 <= a < n && sorted[a] == e;
      SortedByKeyPairs(sorted, a, j);
    }
  }
}

=== FILE: dafny/storage_tier.dfy ===
// Tiered storage: four tiers from ultra-hot (L1) to cold (L4), each backed by
// its own engine, with per-key access tracking, promotion scheduling and
// migration between tiers.
module StorageTiers {
  import opened Wrappers
  import opened Ints
  import opened CoreError
  import Text
  import SME = StorageMemoryEngine

  datatype Tier = L1 | L2 | L3 | L4

  /** Smaller is hotter. */
  function Priority(t: Tier): (p: nat)
    ensures 1 <= p <= 4
  {
    match t
    case L1 => 1
    case L2 => 2
    case L3 => 3
    case L4 => 4
  }

  /** Each tier's priority is its level, so no two tiers share one. */
  lemma PriorityIsLevel(a: Tier, b: Tier)
    ensures Priority(L1) == 1 && Priority(L2) == 2 && Priority(L3) == 3 && Priority(L4) == 4
    ensures Priority(a) == Priority(b) ==> a == b
  {
  }

  function DefaultEngineType(t: Tier): SME.StorageEngineType
  {
    match t
    case L1 => SME.Memory
    case L2 => SME.Redb
    case L3 => SME.DuckDB
    case L4 => SME.RocksDB
  }

  /** Every tier has its own default engine, and only L1 is kept in memory. */
  lemma DefaultEnginesDistinct(a: Tier, b: Tier)
    ensures DefaultEngineType(a) == DefaultEngineType(b) ==> a == b
    ensures DefaultEngineType(a) == SME.Memory <==> a == L1
  {
  }

  function Name(t: Tier): string
  {
    match t
    case L1 => "L1-UltraHot"
    case L2 => "L2-Hot"
    case L3 => "L3-Warm"
    case L4 => "L4-Cold"
  }

  /** A tier's settings; the retention period is in seconds. */
  datatype TierConfig = TierConfig(
    tier: Tier,
    engineType: SME.StorageEngineType,
    maxSize: Option<nat>,
    retentionSeconds: Option<int>,
    migrationThreshold: real,
    engineConfig: map<string, string>,
    enabled: bool)

  function NewTierConfig(t: Tier): TierConfig
  {
    TierConfig(t, DefaultEngineType(t), None, None, 0.8, map[], true)
  }

  function WithMaxSize(c: TierConfig, maxSize: nat): TierConfig
  {
    c.(maxSize := Some(maxSize))
  }

  function WithRetention(c: TierConfig, seconds: int): TierConfig
  {
    c.(retentionSeconds := Some(seconds))
  }

  function WithMigrationThreshold(c: TierConfig, threshold: real): TierConfig
  {
    c.(migrationThreshold := threshold)
  }

  function WithEngineConfig(c: TierConfig, key: string, value: string): TierConfig
  {
    c.(engineConfig := c.engineConfig[key := value])
  }

  /**
   * A new tier's settings are enabled, use the tier's default engine, have
   * no size or retention limit and migrate at 80% use; the builders change
   * only their own setting, so the tier, engine and enabled flag survive
   * any chain of them.
   */
  lemma TierConfigBuilders(t: Tier, maxSize: nat, seconds: int, threshold: real, key: string, value: string)
    ensures var c := NewTierConfig(t);
            c.tier == t && c.engineType == DefaultEngineType(t) && c.enabled
            && c.maxSize.None? && c.retentionSeconds.None? && c.migrationThreshold == 0.8 && c.engineConfig == map[]
    ensures var c := WithEngineConfig(WithMigrationThreshold(WithRetention(WithMaxSize(NewTierConfig(t), maxSize), seconds), threshold), key, value);
            c.tier == t && c.engineType == DefaultEngineType(t) && c.enabled
            && c.maxSize == Some(maxSize) && c.retentionSeconds == Some(seconds)
            && c.migrationThreshold == threshold && c.engineConfig == map[key := value]
  {
  }

  // ---------------------------------------------------------------------
  // Access patterns

  const SECONDS_PER_HOUR: int := 3600

  type Positive = n: nat | n > 0 witness 1

  /** A non-negative rate kept exact, as `num / den`. */
  datatype Ratio = Ratio(num: nat, den: Positive)

  predicate RatioLe(a: Ratio, b: Ratio)
  {
    a.num * b.den <= b.num * a.den
  }

  /** How often a key is used; timestamps are seconds since the epoch, rates are per hour. */
  datatype AccessPattern = AccessPattern(lastAccess: int, accessCount: nat, accessFrequency: Ratio, dataSize: nat, heatScore: Ratio)

  function NewPattern(dataSize: nat, now: int): AccessPattern
  {
    AccessPattern(now, 1, Ratio(0, 1), dataSize, Ratio(1, 1))
  }

  /** Whole hours between two timestamps, truncated toward zero. */
  function HoursBetween(earlier: int, later: int): int
  {
    TruncDiv(later - earlier, SECONDS_PER_HOUR)
  }

  /**
   * One more access at `now`: once at least an hour has passed the frequency
   * becomes the access count per elapsed hour, and the heat score follows it
   * (its time decay is over the zero hours between two reads of the clock in
   * one call).
   */
  function RecordAccess(p: AccessPattern, now: int): (r: AccessPattern)
    ensures r.accessCount == p.accessCount + 1 && r.lastAccess == now && r.dataSize == p.dataSize
    ensures HoursBetween(p.lastAccess, now) > 0 ==>
              r.accessFrequency == Ratio(r.accessCount, HoursBetween(p.lastAccess, now))
    ensures HoursBetween(p.lastAccess, now) <= 0 ==> r.accessFrequency == p.accessFrequency
    ensures r.heatScore == r.accessFrequency
  {
    var hours := HoursBetween(p.lastAccess, now);
    var count := p.accessCount + 1;
    var frequency := if hours > 0 then Ratio(count, hours) else p.accessFrequency;
    AccessPattern(now, count, frequency, p.dataSize, frequency)
  }

  /** Above 10 per hour is L1, above 1 is L2, above 0.1 is L3, the rest L4. */
  function RecommendedTier(p: AccessPattern): Tier
  {
    var h := p.heatScore;
    if h.num > 10 * h.den then L1
    else if h.num > h.den then L2
    else if 10 * h.num > h.den then L3
    else L4
  }

  /** A hotter pattern never recommends a colder tier. */
  lemma RecommendedTierMonotone(a: AccessPattern, b: AccessPattern)
    requires RatioLe(a.heatScore, b.heatScore)
    ensures Priority(RecommendedTier(b)) <= Priority(RecommendedTier(a))
  {
    var x, y := a.heatScore, b.heatScore;
    if x.num > 10 * x.den {
      ThresholdCarries(x, y, 100);
    } else if x.num > x.den {
      ThresholdCarries(x, y, 10);
    } else if 10 * x.num > x.den {
      ThresholdCarries(x, y, 1);
    }
  }

  /** A rate above k/10 stays above it when the rate grows. */
  lemma ThresholdCarries(x: Ratio, y: Ratio, k: nat)
    requires RatioLe(x, y) && k * x.den < 10 * x.num
    ensures k * y.den < 10 * y.num
  {
    // k * x.den * y.den < 10 * x.num * y.den <= 10 * y.num * x.den
    assert k * x.den * y.den < 10 * x.num * y.den by {
      MulStrict(k * x.den, 10 * x.num, y.den);
    }
    assert 10 * x.num * y.den <= 10 * y.num * x.den;
    assert (k * y.den) * x.den < (10 * y.num) * x.den;
    if k * y.den >= 10 * y.num {
      MulMono(10 * y.num, k * y.den, x.den);
    }
  }

  lemma MulStrict(a: int, b: int, c: int)
    requires a < b && c > 0
    ensures a * c < b * c
  {
  }

  lemma MulMono(a: int, b: int, c: int)
    requires a <= b && c >= 0
    ensures a * c <= b * c
  {
  }

  /** The access-pattern table after `key` is read or written with `dataSize` bytes. */
  function Touch(patterns: map<SME.Bytes, AccessPattern>, key: SME.Bytes, dataSize: nat, now: int): map<SME.Bytes, AccessPattern>
  {
    var p := if key in patterns then patterns[key] else NewPattern(dataSize, now);
    patterns[key := RecordAccess(p, now)]
  }

  /** Where a put places a key: the tier its pattern recommends, L2 for an unseen key. */
  function InitialTier(patterns: map<SME.Bytes, AccessPattern>, key: SME.Bytes): (t: Tier)
    ensures key !in patterns ==> t == L2
    ensures key in patterns ==> t == RecommendedTier(patterns[key])
  {
    if key in patterns then RecommendedTier(patterns[key]) else L2
  }

  /**
   * The first access of an unseen key leaves it with frequency and heat 0, so
   * the next put of that key goes to the coldest tier.
   */
  lemma SecondPutGoesCold(patterns: map<SME.Bytes, AccessPattern>, key: SME.Bytes, dataSize: nat, now: int)
    requires key !in patterns
    ensures InitialTier(patterns, key) == L2
    ensures InitialTier(Touch(patterns, key, dataSize, now), key) == L4
  {
    assert HoursBetween(now, now) == 0;
  }

  // ---------------------------------------------------------------------
  // Engines and lookup

  /** The contents of one tier's engine. */
  type Store = map<SME.Bytes, SME.Bytes>

  /**
   * One tier's engine as the manager drives it: its type, the capacity read
   * from its "max_size" setting, its entries and its size counter. Only the
   * memory engine keeps entries; the redb, DuckDB and RocksDB engines are
   * stubs whose every data operation fails.
   */
  datatype TierEngine = TierEngine(engineType: SME.StorageEngineType, maxSize: Option<nat>, data: Store, size: nat)

  /** The engine the factory builds for a tier's settings: empty, and capped only when it is the memory engine. */
  function NewEngine(c: TierConfig): TierEngine
  {
    var maxSize := if c.engineType.Memory? && "max_size" in c.engineConfig
                   then Text.ParseUnsigned(c.engineConfig["max_size"], U64_MAX) else None;
    TierEngine(c.engineType, maxSize, map[], 0)
  }

  /** The name a stub engine gives itself in its errors. */
  function StubName(t: SME.StorageEngineType): string
  {
    match t
    case Memory => "memory"
    case Redb => "redb"
    case DuckDB => "DuckDB"
    case RocksDB => "RocksDB"
    case Custom(name) => name
  }

  /** An engine the manager can hold: the factory builds no custom engine, and a stub holds nothing. */
  predicate EngineOk(e: TierEngine)
  {
    !e.engineType.Custom? && (!e.engineType.Memory? ==> e.data == map[])
  }

  predicate EnginesOk(engines: map<Tier, TierEngine>)
  {
    forall t :: t in engines ==> EngineOk(engines[t])
  }

  /** What each engine holds. */
  function Contents(engines: map<Tier, TierEngine>): (r: map<Tier, Store>)
    ensures r.Keys == engines.Keys
    ensures forall t :: t in r ==> r[t] == engines[t].data
  {
    map t | t in engines :: engines[t].data
  }

  /** `get` on one engine: the memory engine answers from its entries, a stub fails. */
  function EngineGet(e: TierEngine, key: SME.Bytes): (r: CoreResult<Option<SME.Bytes>>)
    ensures r.Err? <==> !e.engineType.Memory?
    ensures r.Err? ==> r.error == Unimplemented(StubName(e.engineType) + " get not implemented")
    ensures r.Ok? ==> (r.value.Some? <==> key in e.data) && (r.value.Some? ==> r.value.value == e.data[key])
  {
    if !e.engineType.Memory? then Err(Unimplemented(StubName(e.engineType) + " get not implemented"))
    else if key in e.data then Ok(Some(e.data[key]))
    else Ok(None)
  }

  /**
   * `put` on one engine: a stub fails; the memory engine refuses an entry
   * whose full size would pass its capacity, and otherwise stores it and
   * moves its size counter by the difference.
   */
  function EnginePut(e: TierEngine, key: SME.Bytes, value: SME.Bytes): (r: CoreResult<TierEngine>)
    ensures r.Err? <==> !e.engineType.Memory? || (e.maxSize.Some? && e.size + SME.EntrySize(key, value) > e.maxSize.value)
    ensures r.Err? && !e.engineType.Memory? ==> r.error == Unimplemented(StubName(e.engineType) + " put not implemented")
    ensures r.Err? && e.engineType.Memory? ==> r.error == ResourceExhausted("Memory engine capacity exceeded")
    ensures r.Ok? ==> r.value.engineType == e.engineType && r.value.maxSize == e.maxSize && r.value.data == e.data[key := value]
  {
    if !e.engineType.Memory? then Err(Unimplemented(StubName(e.engineType) + " put not implemented"))
    else if e.maxSize.Some? && e.size + SME.EntrySize(key, value) > e.maxSize.value then
      Err(ResourceExhausted("Memory engine capacity exceeded"))
    else
      var oldSize := if key in e.data then SME.EntrySize(key, e.data[key]) else 0;
      Ok(e.(data := e.data[key := value], size := SME.UpdateSize(e.size, SME.EntrySize(key, value) - oldSize)))
  }

  /** `delete` on one engine, its error ignored: the memory engine drops the key and its bytes, a stub is unchanged. */
  function EngineDelete(e: TierEngine, key: SME.Bytes): (r: TierEngine)
    ensures r.engineType == e.engineType && r.maxSize == e.maxSize
    ensures e.engineType.Memory? ==> r.data == e.data - {key}
    ensures !e.engineType.Memory? ==> r == e
    ensures EngineOk(e) ==> EngineOk(r) && r.data == e.data - {key}
  {
    if e.engineType.Memory? && key in e.data then
      e.(data := e.data - {key}, size := SME.UpdateSize(e.size, -(SME.EntrySize(key, e.data[key]) as int)))
    else e
  }

  predicate Holds(engines: map<Tier, Store>, t: Tier, key: SME.Bytes)
  {
    t in engines && key in engines[t]
  }

  predicate Ascending(order: seq<Tier>)
  {
    forall i, j :: 0 <= i < j < |order| ==> Priority(order[i]) < Priority(order[j])
  }

  /** The elements of `order` that are in `tiers`, in the same order. */
  function Select(order: seq<Tier>, tiers: set<Tier>): (r: seq<Tier>)
    ensures forall t :: t in r <==> t in order && t in tiers
    ensures Ascending(order) ==> Ascending(r)
    decreases |order|
  {
    if order == [] then []
    else
      var rest := Select(order[1..], tiers);
      assert Ascending(order) ==> forall t :: t in rest ==> Priority(order[0]) < Priority(t);
      if order[0] in tiers then [order[0]] + rest else rest
  }

  const ALL_TIERS: seq<Tier> := [L1, L2, L3, L4]

  /** The configured tiers sorted by priority, as a get visits them. */
  function ByPriority(tiers: set<Tier>): (r: seq<Tier>)
    ensures forall t :: t in r <==> t in tiers
    ensures Ascending(r)
  {
    assert forall t: Tier :: t in ALL_TIERS by {
      forall t: Tier ensures t in ALL_TIERS {
        assert ALL_TIERS[Priority(t) - 1] == t;
      }
    }
    Select(ALL_TIERS, tiers)
  }

  /** The first tier of `order` whose engine holds `key`. */
  function FirstHolder(order: seq<Tier>, engines: map<Tier, Store>, key: SME.Bytes): (r: Option<Tier>)
    ensures r.Some? ==> r.value in order && Holds(engines, r.value, key)
    ensures r.None? ==> forall t :: t in order ==> !Holds(engines, t, key)
    decreases |order|
  {
    if order == [] then None
    else if Holds(engines, order[0], key) then Some(order[0])
    else FirstHolder(order[1..], engines, key)
  }

  /** The first tier of `order` whose engine returns the key, skipping the engines whose get fails, as a get does. */
  function FirstServing(order: seq<Tier>, engines: map<Tier, TierEngine>, key: SME.Bytes): (r: Option<Tier>)
    ensures r.Some? ==> r.value in order && r.value in engines && EngineGet(engines[r.value], key).Ok?
                        && key in engines[r.value].data
    decreases |order|
  {
    if order == [] then None
    else if order[0] in engines && EngineGet(engines[order[0]], key).Ok? && EngineGet(engines[order[0]], key).value.Some? then
      Some(order[0])
    else FirstServing(order[1..], engines, key)
  }

  /** A stub holds nothing, so skipping the failing engines finds the first holder. */
  lemma {:induction false} FirstServingIsFirstHolder(order: seq<Tier>, engines: map<Tier, TierEngine>, key: SME.Bytes)
    requires EnginesOk(engines)
    ensures FirstServing(order, engines, key) == FirstHolder(order, Contents(engines), key)
    decreases |order|
  {
    if order != [] {
      FirstServingIsFirstHolder(order[1..], engines, key);
    }
  }

  lemma {:induction false} FirstHolderIsHottest(order: seq<Tier>, engines: map<Tier, Store>, key: SME.Bytes)
    requires Ascending(order)
    ensures var r := FirstHolder(order, engines, key);
            r.Some? ==> forall t :: t in order && Priority(t) < Priority(r.value) ==> !Holds(engines, t, key)
    decreases |order|
  {
    if order != [] && !Holds(engines, order[0], key) {
      FirstHolderIsHottest(order[1..], engines, key);
      var r := FirstHolder(order, engines, key);
      if r.Some? {
        forall t | t in order && Priority(t) < Priority(r.value)
          ensures !Holds(engines, t, key)
        {
          if t != order[0] {
            assert t in order[1..];
          }
        }
      }
    }
  }

  /** What a get returns: the value held by the hottest configured tier holding the key. */
  function Lookup(tiers: set<Tier>, engines: map<Tier, Store>, key: SME.Bytes): Option<SME.Bytes>
  {
    match FirstHolder(ByPriority(tiers), engines, key)
    case None => None
    case Some(t) => Some(engines[t][key])
  }

  /** A lookup misses exactly when no configured tier holds the key, and otherwise hits the hottest one. */
  lemma LookupFindsHottest(tiers: set<Tier>, engines: map<Tier, Store>, key: SME.Bytes)
    ensures Lookup(tiers, engines, key).None? <==> forall t :: t in tiers ==> !Holds(engines, t, key)
    ensures Lookup(tiers, engines, key).Some? ==>
              exists t :: t in tiers && Holds(engines, t, key) && Lookup(tiers, engines, key).value == engines[t][key]
                          && forall u :: u in tiers && Priority(u) < Priority(t) ==> !Holds(engines, u, key)
  {
    var order := ByPriority(tiers);
    FirstHolderIsHottest(order, engines, key);
    var r := FirstHolder(order, engines, key);
    if r.Some? {
      var t := r.value;
      assert t in tiers && Holds(engines, t, key) && Lookup(tiers, engines, key).value == engines[t][key];
    }
  }

  /** A configured holder with no hotter configured holder is the one a lookup answers from. */
  lemma LookupIsHottestHolder(tiers: set<Tier>, engines: map<Tier, Store>, key: SME.Bytes, t: Tier)
    requires t in tiers && Holds(engines, t, key)
    requires forall u :: u in tiers && Priority(u) < Priority(t) ==> !Holds(engines, u, key)
    ensures Lookup(tiers, engines, key) == Some(engines[t][key])
  {
    LookupFindsHottest(tiers, engines, key);
    var s :| s in tiers && Holds(engines, s, key) && Lookup(tiers, engines, key).value == engines[s][key]
             && forall u :: u in tiers && Priority(u) < Priority(s) ==> !Holds(engines, u, key);
    PriorityIsLevel(s, t);
  }

  // ---------------------------------------------------------------------
  // Writes

  /**
   * `put`: the engine of the tier the key's pattern recommends (L2 for an
   * unseen key) stores the value and the access is recorded; an engine
   * error is returned with nothing changed, and with no engine for that
   * tier nothing is stored. Copies of the key in other tiers are kept.
   */
  function PutAsWritten(engines: map<Tier, TierEngine>, patterns: map<SME.Bytes, AccessPattern>, key: SME.Bytes, value: SME.Bytes, now: int)
    : (r: (CoreResult<()>, map<Tier, TierEngine>, map<SME.Bytes, AccessPattern>))
    ensures r.1.Keys == engines.Keys
    ensures EnginesOk(engines) ==> EnginesOk(r.1)
  {
    var target := InitialTier(patterns, key);
    if target !in engines then (Ok(()), engines, patterns)
    else match EnginePut(engines[target], key, value)
      case Err(e) => (Err(e), engines, patterns)
      case Ok(stored) => (Ok(()), engines[target := stored], Touch(patterns, key, |value|, now))
  }

  /**
   * A put fails exactly when the recommended tier's engine refuses the
   * value, and then changes nothing; a put that succeeds stores the value
   * in that tier alone and records the access, and with no engine there it
   * changes nothing at all.
   */
  lemma PutAsWrittenOutcome(engines: map<Tier, TierEngine>, patterns: map<SME.Bytes, AccessPattern>, key: SME.Bytes, value: SME.Bytes, now: int)
    ensures var target := InitialTier(patterns, key);
            var r := PutAsWritten(engines, patterns, key, value, now);
            (r.0.Err? <==> target in engines && (!engines[target].engineType.Memory? ||
                           (engines[target].maxSize.Some? && engines[target].size + SME.EntrySize(key, value) > engines[target].maxSize.value)))
            && (r.0.Err? || target !in engines ==> r.1 == engines && r.2 == patterns)
            && (r.0.Ok? && target in engines ==>
                  Contents(r.1) == Contents(engines)[target := engines[target].data[key := value]]
                  && r.2 == Touch(patterns, key, |value|, now))
  {
    var target := InitialTier(patterns, key);
    var r := PutAsWritten(engines, patterns, key, value, now);
    if r.0.Ok? && target in engines {
      assert Contents(r.1) == Contents(engines)[target := engines[target].data[key := value]];
    }
  }

  /**
   * After a put that reached its tier's engine, a get of the key returns the
   * new value exactly when no configured tier hotter than that one holds
   * the key; otherwise the get returns what it returned before the put.
   */
  lemma PutAsWrittenThenLookup(tiers: set<Tier>, engines: map<Tier, TierEngine>, patterns: map<SME.Bytes, AccessPattern>,
                               key: SME.Bytes, value: SME.Bytes, now: int)
    requires InitialTier(patterns, key) in engines && InitialTier(patterns, key) in tiers
    requires PutAsWritten(engines, patterns, key, value, now).0.Ok?
    ensures var target := InitialTier(patterns, key);
            var before := Contents(engines);
            var after := Contents(PutAsWritten(engines, patterns, key, value, now).1);
            var hotter := exists u :: u in tiers && Priority(u) < Priority(target) && Holds(before, u, key);
            (!hotter ==> Lookup(tiers, after, key) == Some(value))
            && (hotter ==> Lookup(tiers, after, key) == Lookup(tiers, before, key))
  {
    var target := InitialTier(patterns, key);
    PutAsWrittenOutcome(engines, patterns, key, value, now);
    WriteOneThenLookup(tiers, Contents(engines), target, key, value);
  }

  /** A write of `key` to `target` alone shows through a lookup unless a hotter configured tier holds the key. */
  lemma WriteOneThenLookup(tiers: set<Tier>, before: map<Tier, Store>, target: Tier, key: SME.Bytes, value: SME.Bytes)
    requires target in before && target in tiers
    ensures var after := before[target := before[target][key := value]];
            var hotter := exists u :: u in tiers && Priority(u) < Priority(target) && Holds(before, u, key);
            (!hotter ==> Lookup(tiers, after, key) == Some(value))
            && (hotter ==> Lookup(tiers, after, key) == Lookup(tiers, before, key))
  {
    if exists u :: u in tiers && Priority(u) < Priority(target) && Holds(before, u, key) {
      var w :| w in tiers && Priority(w) < Priority(target) && Holds(before, w, key);
      WriteShadowed(tiers, before, target, key, value, w);
    } else {
      WriteShows(tiers, before, target, key, value);
    }
  }

  lemma WriteShows(tiers: set<Tier>, before: map<Tier, Store>, target: Tier, key: SME.Bytes, value: SME.Bytes)
    requires target in before && target in tiers
    requires forall u :: u in tiers && Priority(u) < Priority(target) ==> !Holds(before, u, key)
    ensures Lookup(tiers, before[target := before[target][key := value]], key) == Some(value)
  {
    var after := before[target := before[target][key := value]];
    forall u | u in tiers && Priority(u) < Priority(target)
      ensures !Holds(after, u, key)
    {
      OtherTierUnchanged(before, target, key, value, u);
    }
    OtherTierUnchanged(before, target, key, value, target);
    LookupIsHottestHolder(tiers, after, key, target);
  }

  lemma WriteShadowed(tiers: set<Tier>, before: map<Tier, Store>, target: Tier, key: SME.Bytes, value: SME.Bytes, w: Tier)
    requires target in before && target in tiers
    requires w in tiers && Priority(w) < Priority(target) && Holds(before, w, key)
    ensures Lookup(tiers, before[target := before[target][key := value]], key) == Lookup(tiers, before, key)
  {
    var after := before[target := before[target][key := value]];
    var order := ByPriority(tiers);
    FirstHolderIsHottest(order, before, key);
    var h := FirstHolder(order, before, key).value;
    assert Priority(h) <= Priority(w);
    OtherTierUnchanged(before, target, key, value, h);
    forall u | u in tiers && Priority(u) < Priority(h)
      ensures !Holds(after, u, key)
    {
      OtherTierUnchanged(before, target, key, value, u);
    }
    LookupIsHottestHolder(tiers, after, key, h);
  }

  lemma OtherTierUnchanged(before: map<Tier, Store>, target: Tier, key: SME.Bytes, value: SME.Bytes, u: Tier)
    requires target in before
    ensures var after := before[target := before[target][key := value]];
            (u != target ==> (u in after <==> u in before) && (u in before ==> after[u] == before[u]))
            && Holds(after, target, key) && after[target][key] == value
  {
  }

  /** A write to `target` that also drops the key's copies in every other tier. */
  function StoreOnly(engines: map<Tier, Store>, target: Tier, key: SME.Bytes, value: SME.Bytes): (r: map<Tier, Store>)
    requires target in engines
    ensures r.Keys == engines.Keys
    ensures forall t :: Holds(r, t, key) <==> t == target
    ensures Holds(r, target, key) && r[target][key] == value
  {
    map t | t in engines :: if t == target then engines[t][key := value] else engines[t] - {key}
  }

  /** Every other key keeps its place and value. */
  lemma StoreOnlyKeepsOtherKeys(engines: map<Tier, Store>, target: Tier, key: SME.Bytes, value: SME.Bytes, t: Tier, k: SME.Bytes)
    requires target in engines && k != key
    ensures Holds(StoreOnly(engines, target, key, value), t, k) <==> Holds(engines, t, k)
    ensures Holds(engines, t, k) ==> StoreOnly(engines, target, key, value)[t][k] == engines[t][k]
  {
  }

  /** A put is visible to the next get: only the target tier holds the key. */
  lemma StoreOnlyThenLookup(tiers: set<Tier>, engines: map<Tier, Store>, target: Tier, key: SME.Bytes, value: SME.Bytes)
    requires target in engines && target in tiers
    ensures Lookup(tiers, StoreOnly(engines, target, key, value), key) == Some(value)
  {
    var e := StoreOnly(engines, target, key, value);
    var r := FirstHolder(ByPriority(tiers), e, key);
    assert target in ByPriority(tiers);
  }

  /** Removing a key from every engine's contents. */
  function RemoveEverywhere(engines: map<Tier, Store>, key: SME.Bytes): (r: map<Tier, Store>)
    ensures r.Keys == engines.Keys
    ensures forall t :: !Holds(r, t, key)
  {
    map t | t in engines :: engines[t] - {key}
  }

  /** `delete` on every engine, errors ignored. */
  function DeleteEverywhere(engines: map<Tier, TierEngine>, key: SME.Bytes): (r: map<Tier, TierEngine>)
    requires EnginesOk(engines)
    ensures EnginesOk(r)
    ensures Contents(r) == RemoveEverywhere(Contents(engines), key)
  {
    var r := map t | t in engines :: EngineDelete(engines[t], key);
    assert Contents(r) == RemoveEverywhere(Contents(engines), key);
    r
  }

  /** The engines after the delete loop has visited the tiers of priority at most `n`. */
  function DeleteUpTo(engines: map<Tier, TierEngine>, key: SME.Bytes, n: nat): map<Tier, TierEngine>
  {
    map t | t in engines :: if Priority(t) <= n then EngineDelete(engines[t], key) else engines[t]
  }

  /** After a delete no configured tier serves the key. */
  lemma RemoveEverywhereMisses(tiers: set<Tier>, engines: map<Tier, Store>, key: SME.Bytes)
    ensures Lookup(tiers, RemoveEverywhere(engines, key), key).None?
  {
    LookupFindsHottest(tiers, RemoveEverywhere(engines, key), key);
  }

  lemma DeleteUpToStep(engines: map<Tier, TierEngine>, key: SME.Bytes, i: nat)
    requires i < |ALL_TIERS|
    ensures var e := DeleteUpTo(engines, key, i);
            var t := ALL_TIERS[i];
            DeleteUpTo(engines, key, i + 1) == if t in e then e[t := EngineDelete(e[t], key)] else e
  {
    var t := ALL_TIERS[i];
    assert Priority(t) == i + 1;
    PriorityIsLevel(t, t);
    forall u ensures Priority(u) <= i + 1 <==> Priority(u) <= i || u == t {
      PriorityIsLevel(u, t);
    }
  }

  lemma DeleteUpToAll(engines: map<Tier, TierEngine>, key: SME.Bytes)
    requires EnginesOk(engines)
    ensures DeleteUpTo(engines, key, |ALL_TIERS|) == DeleteEverywhere(engines, key)
  {
  }

  /** A memory engine with no capacity limit holding `data`; its size counter is not consulted without a limit. */
  function Uncapped(data: Store): TierEngine
  {
    TierEngine(SME.Memory, None, data, 0)
  }

  /**
   * With memory engines in L2 and L4, writing a key twice puts the first
   * value in L2 and the second in L4; a get searches L2 first and returns
   * the old value.
   */
  lemma PutAsWrittenServesStaleValue()
    ensures var e0: map<Tier, TierEngine> := map[L2 := Uncapped(map[]), L4 := Uncapped(map[])];
            var first := PutAsWritten(e0, map[], [1], [10], 0);
            var second := PutAsWritten(first.1, first.2, [1], [20], 0);
            second.0.Ok? && Lookup({L2, L4}, Contents(second.1), [1]) == Some([10])
  {
    var e0: map<Tier, TierEngine> := map[L2 := Uncapped(map[]), L4 := Uncapped(map[])];
    var p0: map<SME.Bytes, AccessPattern> := map[];
    SecondPutGoesCold(p0, [1], 1, 0);
    var first := PutAsWritten(e0, p0, [1], [10], 0);
    PutAsWrittenOutcome(e0, p0, [1], [10], 0);
    var c1: map<Tier, Store> := map[L2 := map[[1] := [10]], L4 := map[]];
    assert Contents(e0)[L2 := map[][[1] := [10]]] == c1;
    assert Contents(first.1) == c1;
    var second := PutAsWritten(first.1, first.2, [1], [20], 0);
    PutAsWrittenOutcome(first.1, first.2, [1], [20], 0);
    var c2: map<Tier, Store> := c1[L4 := map[[1] := [20]]];
    assert c1[L4][[1] := [20]] == map[[1] := [20]];
    assert Contents(second.1) == c2;
    HotCopyShadowsCold(c2);
  }

  /** With the key in both L2 and L4, a lookup answers from L2. */
  lemma HotCopyShadowsCold(engines: map<Tier, Store>)
    requires L2 in engines && L4 in engines && [1] in engines[L2] && [1] in engines[L4]
    ensures Lookup({L2, L4}, engines, [1]) == Some(engines[L2][[1]])
  {
    assert ByPriority({L2, L4}) == [L2, L4];
  }

  // ---------------------------------------------------------------------
  // Promotion and migration

  datatype MigrationTask = MigrationTask(key: SME.Bytes, fromTier: Tier, toTier: Tier, createdAt: int, priority: u8)

  /** The tier one step hotter; L1 has none. */
  function PromotionTarget(t: Tier): (r: Option<Tier>)
    ensures r.None? <==> t == L1
    ensures r.Some? ==> Priority(r.value) + 1 == Priority(t)
  {
    match t
    case L4 => Some(L3)
    case L3 => Some(L2)
    case L2 => Some(L1)
    case L1 => None
  }

  /** The tasks a promotion of `key` from `current` queues. */
  function PromotionTasks(key: SME.Bytes, current: Tier, now: int): (r: seq<MigrationTask>)
    ensures r == [] <==> current == L1
    ensures |r| <= 1
    ensures forall task :: task in r ==> task.key == key && task.fromTier == current && Priority(task.toTier) + 1 == Priority(current)
  {
    match PromotionTarget(current)
    case None => []
    case Some(target) => [MigrationTask(key, current, target, now, 1)]
  }

  /** Every key some tier holds. */
  function StoredKeys(engines: map<Tier, Store>): set<SME.Bytes>
  {
    set t, k | t in engines && k in engines[t] :: k
  }

  lemma StoredKeysHolds(engines: map<Tier, Store>, k: SME.Bytes)
    ensures k in StoredKeys(engines) <==> exists t :: Holds(engines, t, k)
  {
    if k in StoredKeys(engines) {
      var t :| t in engines && k in engines[t];
      assert Holds(engines, t, k);
    }
    if exists t :: Holds(engines, t, k) {
      var t :| Holds(engines, t, k);
      assert k in engines[t];
    }
  }

  /**
   * `migrate_data`: with no source engine nothing happens; a failing read of
   * the source is returned; a value found is written to the target's engine
   * if there is one, a failing write is returned, and then, whenever the
   * target is hotter, the source copy is deleted, errors ignored.
   */
  function MigrateAsWritten(engines: map<Tier, TierEngine>, task: MigrationTask): (r: (CoreResult<()>, map<Tier, TierEngine>))
    ensures r.1.Keys == engines.Keys
    ensures EnginesOk(engines) ==> EnginesOk(r.1)
    ensures r.0.Err? ==> r.1 == engines
    ensures r.0.Err? <==>
              (task.fromTier in engines &&
               (!engines[task.fromTier].engineType.Memory? ||
                (task.key in engines[task.fromTier].data && task.toTier in engines &&
                 EnginePut(engines[task.toTier], task.key, engines[task.fromTier].data[task.key]).Err?)))
  {
    if task.fromTier !in engines then (Ok(()), engines)
    else match EngineGet(engines[task.fromTier], task.key)
      case Err(e) => (Err(e), engines)
      case Ok(None) => (Ok(()), engines)
      case Ok(Some(value)) =>
        var put := if task.toTier in engines then EnginePut(engines[task.toTier], task.key, value) else Ok(engines[task.fromTier]);
        if put.Err? then (Err(put.error), engines)
        else
          var copied := if task.toTier in engines then engines[task.toTier := put.value] else engines;
          if Priority(task.toTier) < Priority(task.fromTier) then
            (Ok(()), copied[task.fromTier := EngineDelete(copied[task.fromTier], task.key)])
          else (Ok(()), copied)
  }

  /** A successful migration loses `task.key`: its source held it, the hotter target has no engine and no other tier holds it. */
  predicate LosesKey(engines: map<Tier, TierEngine>, task: MigrationTask)
  {
    var c := Contents(engines);
    Holds(c, task.fromTier, task.key) && task.toTier !in engines && Priority(task.toTier) < Priority(task.fromTier)
    && forall t :: t != task.fromTier ==> !Holds(c, t, task.key)
  }

  /** The contents after a migration that found `value` under its key and stored it. */
  function Moved(c: map<Tier, Store>, task: MigrationTask, value: SME.Bytes): map<Tier, Store>
  {
    var copied := if task.toTier in c then c[task.toTier := c[task.toTier][task.key := value]] else c;
    if Priority(task.toTier) < Priority(task.fromTier) && task.fromTier in copied
    then copied[task.fromTier := copied[task.fromTier] - {task.key}]
    else copied
  }

  lemma ContentsUpdate(engines: map<Tier, TierEngine>, t: Tier, e: TierEngine)
    ensures Contents(engines[t := e]) == Contents(engines)[t := e.data]
  {
  }

  lemma MigrateAsWrittenContents(engines: map<Tier, TierEngine>, task: MigrationTask)
    requires EnginesOk(engines)
    requires task.fromTier in engines && task.key in engines[task.fromTier].data
    requires MigrateAsWritten(engines, task).0.Ok?
    ensures Contents(MigrateAsWritten(engines, task).1) == Moved(Contents(engines), task, engines[task.fromTier].data[task.key])
  {
    var key, from, to := task.key, task.fromTier, task.toTier;
    var value := engines[from].data[key];
    assert EngineGet(engines[from], key) == Ok(Some(value));
    var put := if to in engines then EnginePut(engines[to], key, value) else Ok(engines[from]);
    var copied := if to in engines then engines[to := put.value] else engines;
    if to in engines {
      ContentsUpdate(engines, to, put.value);
    }
    if Priority(to) < Priority(from) {
      ContentsUpdate(copied, from, EngineDelete(copied[from], key));
    }
  }

  /**
   * After a migration that found its key and succeeded, the target tier
   * holds the key as well, and the source lost it when the target is
   * hotter; every other tier and key is as before.
   */
  lemma MigrateAsWrittenHolds(engines: map<Tier, TierEngine>, task: MigrationTask, t: Tier, k: SME.Bytes)
    requires EnginesOk(engines)
    requires task.fromTier in engines && task.key in engines[task.fromTier].data
    requires MigrateAsWritten(engines, task).0.Ok?
    ensures Holds(Contents(MigrateAsWritten(engines, task).1), t, k) <==>
              (Holds(Contents(engines), t, k) && !(k == task.key && t == task.fromTier && Priority(task.toTier) < Priority(task.fromTier)))
              || (k == task.key && t == task.toTier && task.toTier in engines)
  {
    MigrateAsWrittenContents(engines, task);
    MovedHolds(Contents(engines), task, engines[task.fromTier].data[task.key], t, k);
  }

  lemma MovedHolds(c: map<Tier, Store>, task: MigrationTask, value: SME.Bytes, t: Tier, k: SME.Bytes)
    requires Holds(c, task.fromTier, task.key)
    ensures Holds(Moved(c, task, value), t, k) <==>
              (Holds(c, t, k) && !(k == task.key && t == task.fromTier && Priority(task.toTier) < Priority(task.fromTier)))
              || (k == task.key && t == task.toTier && task.toTier in c)
  {
  }

  /**
   * A migration that succeeds keeps every stored key but its own, and loses
   * its own key exactly when `LosesKey` says so.
   */
  lemma MigrateAsWrittenStoredKeys(engines: map<Tier, TierEngine>, task: MigrationTask)
    requires EnginesOk(engines)
    ensures var r := MigrateAsWritten(engines, task);
            r.0.Ok? ==> StoredKeys(Contents(r.1)) == StoredKeys(Contents(engines)) - (if LosesKey(engines, task) then {task.key} else {})
  {
    var r := MigrateAsWritten(engines, task);
    var b, a := Contents(engines), Contents(r.1);
    var key, from, to := task.key, task.fromTier, task.toTier;
    if r.0.Ok? {
      if from in engines && key in engines[from].data {
        forall k ensures k in StoredKeys(a) <==> k in StoredKeys(b) - (if LosesKey(engines, task) then {key} else {}) {
          StoredKeysHolds(a, k);
          StoredKeysHolds(b, k);
          forall t ensures Holds(a, t, k) <==> (Holds(b, t, k) && !(k == key && t == from && Priority(to) < Priority(from)))
                                               || (k == key && t == to && to in engines) {
            MigrateAsWrittenHolds(engines, task, t, k);
          }
          if k == key && !LosesKey(engines, task) {
            if to in engines {
              assert Holds(a, to, k);
            } else if !(Priority(to) < Priority(from)) {
              assert Holds(a, from, k);
            } else {
              var t :| t != from && Holds(b, t, k);
              assert Holds(a, t, k);
            }
          }
        }
      } else {
        assert r.1 == engines;
      }
    }
  }

  /** A promotion into a tier with no engine deletes the only copy. */
  lemma MigrateAsWrittenLosesKey()
    ensures var e: map<Tier, TierEngine> := map[L2 := Uncapped(map[[1] := [10]])];
            var after := MigrateAsWritten(e, MigrationTask([1], L2, L1, 0, 1));
            after.0.Ok? && [1] in StoredKeys(Contents(e)) && [1] !in StoredKeys(Contents(after.1))
  {
    var e: map<Tier, TierEngine> := map[L2 := Uncapped(map[[1] := [10]])];
    var task := MigrationTask([1], L2, L1, 0, 1);
    assert Holds(Contents(e), L2, [1]);
    StoredKeysHolds(Contents(e), [1]);
    assert LosesKey(e, task);
    MigrateAsWrittenStoredKeys(e, task);
  }

  /**
   * `process_migrations`: the queue drained from its end, as `Vec::pop`
   * does, stopping at the first migration that fails; gives the result,
   * the engines and the tasks left in the queue.
   */
  function DrainAsWritten(engines: map<Tier, TierEngine>, queue: seq<MigrationTask>)
    : (r: (CoreResult<()>, map<Tier, TierEngine>, seq<MigrationTask>))
    ensures r.0.Ok? ==> r.2 == []
    ensures r.0.Err? ==> |r.2| < |queue| && r.2 == queue[..|r.2|]
    ensures r.1.Keys == engines.Keys
    ensures EnginesOk(engines) ==> EnginesOk(r.1)
    decreases |queue|
  {
    if queue == [] then (Ok(()), engines, [])
    else
      var rest := queue[..|queue| - 1];
      var step := MigrateAsWritten(engines, queue[|queue| - 1]);
      if step.0.Err? then (step.0, step.1, rest)
      else
        var r := DrainAsWritten(step.1, rest);
        assert r.0.Err? ==> r.2 == queue[..|r.2|] by {
          if r.0.Err? {
            assert rest[..|r.2|] == queue[..|r.2|];
          }
        }
        r
  }

  /** With an engine for every task's target, draining the queue loses no stored key, even when it stops early. */
  lemma {:induction false} DrainAsWrittenKeepsKeys(engines: map<Tier, TierEngine>, queue: seq<MigrationTask>)
    requires EnginesOk(engines)
    requires forall i :: 0 <= i < |queue| ==> queue[i].toTier in engines
    ensures StoredKeys(Contents(DrainAsWritten(engines, queue).1)) == StoredKeys(Contents(engines))
    decreases |queue|
  {
    if queue != [] {
      var task := queue[|queue| - 1];
      var step := MigrateAsWritten(engines, task);
      MigrateAsWrittenStoredKeys(engines, task);
      assert !LosesKey(engines, task);
      if step.0.Ok? {
        DrainAsWrittenKeepsKeys(step.1, queue[..|queue| - 1]);
      }
    }
  }

  /** One migration: the source copy is deleted only once the hotter target holds it. */
  function Migrate(engines: map<Tier, Store>, task: MigrationTask): (r: map<Tier, Store>)
    ensures r.Keys == engines.Keys
    ensures StoredKeys(r) == StoredKeys(engines)
    ensures forall t :: t in r && t != task.fromTier && t != task.toTier ==> r[t] == engines[t]
    ensures Holds(engines, task.fromTier, task.key) && task.toTier in engines ==>
              Holds(r, task.toTier, task.key) && r[task.toTier][task.key] == engines[task.fromTier][task.key]
  {
    if task.fromTier !in engines || task.key !in engines[task.fromTier] || task.toTier !in engines then engines
    else
      var value := engines[task.fromTier][task.key];
      var copied := engines[task.toTier := engines[task.toTier][task.key := value]];
      assert StoredKeys(copied) == StoredKeys(engines) by {
        forall k | k in StoredKeys(copied) ensures k in StoredKeys(engines) {
          if k != task.key {
            var t :| t in copied && k in copied[t];
            assert k in engines[t];
          } else {
            assert Holds(engines, task.fromTier, k);
          }
        }
        forall k | k in StoredKeys(engines) ensures k in StoredKeys(copied) {
          var t :| t in engines && k in engines[t];
          if t == task.toTier {
            assert k in copied[t];
          } else {
            assert copied[t] == engines[t];
          }
        }
      }
      if Priority(task.toTier) < Priority(task.fromTier) then
        var moved := copied[task.fromTier := copied[task.fromTier] - {task.key}];
        assert StoredKeys(moved) == StoredKeys(copied) by {
          forall k | k in StoredKeys(copied) ensures k in StoredKeys(moved) {
            if k == task.key {
              assert Holds(moved, task.toTier, k);
            } else {
              var t :| t in copied && k in copied[t];
              assert k in moved[t];
            }
          }
          forall k | k in StoredKeys(moved) ensures k in StoredKeys(copied) {
            var t :| t in moved && k in moved[t];
            assert k in copied[t];
          }
        }
        moved
      else copied
  }

  /** The queue drained from its end with the corrected migration. */
  function MigrateAll(engines: map<Tier, Store>, queue: seq<MigrationTask>): (r: map<Tier, Store>)
    ensures r.Keys == engines.Keys
    ensures StoredKeys(r) == StoredKeys(engines)
    decreases |queue|
  {
    if queue == [] then engines
    else MigrateAll(Migrate(engines, queue[|queue| - 1]), queue[..|queue| - 1])
  }


  /** Engines for the enabled tiers of `order`, created empty, in that order. */
  function InstallEngines(engines: map<Tier, TierEngine>, tiers: map<Tier, TierConfig>, order: seq<Tier>): map<Tier, TierEngine>
    requires forall t :: t in order ==> t in tiers
    decreases |order|
  {
    if order == [] then engines
    else
      var before := InstallEngines(engines, tiers, order[..|order| - 1]);
      var t := order[|order| - 1];
      if tiers[t].enabled then before[t := NewEngine(tiers[t])] else before
  }

  /** Each enabled tier listed gets a fresh empty engine of its type; every other engine is kept. */
  lemma {:induction false} InstallEnginesContents(engines: map<Tier, TierEngine>, tiers: map<Tier, TierConfig>, order: seq<Tier>)
    requires forall t :: t in order ==> t in tiers
    ensures var r := InstallEngines(engines, tiers, order);
            forall t :: (t in r <==> t in engines || (t in order && tiers[t].enabled))
                        && (t in order && tiers[t].enabled ==> r[t] == NewEngine(tiers[t]))
                        && (t in engines && !(t in order && tiers[t].enabled) ==> r[t] == engines[t])
    decreases |order|
  {
    if order != [] {
      var prefix := order[..|order| - 1];
      InstallEnginesContents(engines, tiers, prefix);
      forall t | t in order
        ensures t in prefix || t == order[|order| - 1]
      {
        var i :| 0 <= i < |order| && order[i] == t;
        if i < |order| - 1 {
          assert prefix[i] == t;
        }
      }
    }
  }

  const CUSTOM_ENGINE_MESSAGE := "Custom engine not implemented: "

  /** The first enabled tier of `order` with a custom engine, which the engine factory refuses. */
  function FirstCustom(tiers: map<Tier, TierConfig>, order: seq<Tier>): (r: Option<nat>)
    requires forall t :: t in order ==> t in tiers
    ensures r.Some? ==> r.value < |order| && tiers[order[r.value]].enabled && tiers[order[r.value]].engineType.Custom?
    ensures r.Some? ==> forall j :: 0 <= j < r.value ==> !(tiers[order[j]].enabled && tiers[order[j]].engineType.Custom?)
    ensures r.None? ==> forall j :: 0 <= j < |order| ==> !(tiers[order[j]].enabled && tiers[order[j]].engineType.Custom?)
    decreases |order|
  {
    if order == [] then None
    else if tiers[order[0]].enabled && tiers[order[0]].engineType.Custom? then Some(0)
    else match FirstCustom(tiers, order[1..])
      case None => None
      case Some(i) => Some(i + 1)
  }

  // ---------------------------------------------------------------------
  // The manager

  class TierManager {
    var tiers: map<Tier, TierConfig>
    var engines: map<Tier, TierEngine>
    var patterns: map<SME.Bytes, AccessPattern>
    var queue: seq<MigrationTask>

    /** Only configured tiers have engines, none of them custom, and the stubs hold nothing. */
    predicate Valid()
      reads this
    {
      engines.Keys <= tiers.Keys && EnginesOk(engines)
    }

    constructor()
      ensures Valid()
      ensures tiers == map[] && engines == map[] && patterns == map[] && queue == []
    {
      tiers, engines, patterns, queue := map[], map[], map[], [];
    }

    method AddTier(config: TierConfig)
      requires Valid()
      modifies this
      ensures Valid()
      ensures tiers == old(tiers)[config.tier := config]
      ensures engines == old(engines) && patterns == old(patterns) && queue == old(queue)
    {
      tiers := tiers[config.tier := config];
    }

    /**
     * Creates an engine for every enabled tier, visiting the tiers in `order`
     * (the map's iteration order); stops at the first custom engine type.
     */
    method Initialize(order: seq<Tier>) returns (r: CoreResult<()>)
      requires Valid()
      requires forall t :: t in order <==> t in tiers
      modifies this
      ensures Valid()
      ensures tiers == old(tiers) && patterns == old(patterns) && queue == old(queue)
      ensures r.Ok? <==> FirstCustom(tiers, order).None?
      ensures r.Ok? ==> engines == InstallEngines(old(engines), tiers, order)
      ensures r.Err? ==>
                var i := FirstCustom(tiers, order).value;
                engines == InstallEngines(old(engines), tiers, order[..i])
                && r.error == Unimplemented(CUSTOM_ENGINE_MESSAGE + tiers[order[i]].engineType.name)
    {
      var e := engines;
      var i := 0;
      while i < |order|
        invariant 0 <= i <= |order|
        invariant e == InstallEngines(old(engines), tiers, order[..i])
        invariant forall j :: 0 <= j < i ==> !(tiers[order[j]].enabled && tiers[order[j]].engineType.Custom?)
        invariant e.Keys <= tiers.Keys && EnginesOk(e)
      {
        assert order[..i + 1][..i] == order[..i];
        var t := order[i];
        var config := tiers[t];
        if config.enabled {
          if config.engineType.Custom? {
            FirstCustomAt(tiers, order, i);
            engines := e;
            return Err(Unimplemented(CUSTOM_ENGINE_MESSAGE + config.engineType.name));
          }
          e := e[t := NewEngine(config)];
        }
        i := i + 1;
      }
      assert order[..|order|] == order;
      engines := e;
      r := Ok(());
    }

    /**
     * Searches the configured tiers hottest first, skipping engines whose
     * get fails; a hit records the access and, below L1, queues a promotion
     * one tier up.
     */
    method Get(key: SME.Bytes, now: int) returns (r: Option<SME.Bytes>)
      requires Valid()
      modifies this
      ensures Valid()
      ensures r == Lookup(tiers.Keys, Contents(engines), key)
      ensures tiers == old(tiers) && engines == old(engines)
      ensures match FirstHolder(ByPriority(tiers.Keys), Contents(engines), key)
              case None => patterns == old(patterns) && queue == old(queue)
              case Some(t) =>
                patterns == Touch(old(patterns), key, |engines[t].data[key]|, now)
                && queue == old(queue) + PromotionTasks(key, t, now)
    {
      FirstServingIsFirstHolder(ByPriority(tiers.Keys), engines, key);
      var p', q';
      r, p', q' := LookupAndTrack(tiers.Keys, engines, patterns, queue, key, now);
      patterns, queue := p', q';
    }

    /**
     * Writes into the engine of the tier the key's access pattern recommends
     * (L2 for an unseen key) and records the access; the engine's error is
     * returned with nothing changed, and with no engine for that tier
     * nothing is stored.
     */
    method Put(key: SME.Bytes, value: SME.Bytes, now: int) returns (r: CoreResult<()>)
      requires Valid()
      modifies this
      ensures Valid()
      ensures tiers == old(tiers) && queue == old(queue)
      ensures (r, engines, patterns) == PutAsWritten(old(engines), old(patterns), key, value, now)
    {
      var target := InitialTier(patterns, key);
      if target in engines {
        var stored := EnginePut(engines[target], key, value);
        if stored.Err? {
          return Err(stored.error);
        }
        engines := engines[target := stored.value];
        patterns := Touch(patterns, key, |value|, now);
      }
      r := Ok(());
    }

    /** Removes the key from every engine, errors ignored, and forgets its access pattern. */
    method Delete(key: SME.Bytes) returns (r: CoreResult<()>)
      requires Valid()
      modifies this
      ensures Valid() && r.Ok?
      ensures tiers == old(tiers) && queue == old(queue)
      ensures engines == DeleteEverywhere(old(engines), key)
      ensures patterns == old(patterns) - {key}
    {
      var e0 := engines;
      var e := e0;
      var i := 0;
      while i < |ALL_TIERS|
        invariant 0 <= i <= |ALL_TIERS|
        invariant e == DeleteUpTo(e0, key, i)
        invariant unchanged(this)
      {
        var t := ALL_TIERS[i];
        if t in e {
          e := e[t := EngineDelete(e[t], key)];
        }
        DeleteUpToStep(e0, key, i);
        i := i + 1;
      }
      DeleteUpToAll(e0, key);
      engines, patterns := e, patterns - {key};
      r := Ok(());
    }

    method SchedulePromotion(key: SME.Bytes, current: Tier, now: int)
      modifies this
      ensures queue == old(queue) + PromotionTasks(key, current, now)
      ensures tiers == old(tiers) && engines == old(engines) && patterns == old(patterns)
    {
      match PromotionTarget(current)
      case None =>
      case Some(target) =>
        queue := queue + [MigrationTask(key, current, target, now, 1)];
    }

    /**
     * Pops and runs the queued migrations, last queued first, and stops at
     * the first one that fails, returning its error; that task is gone from
     * the queue and the ones below it stay queued.
     */
    method ProcessMigrations() returns (r: CoreResult<()>)
      requires Valid()
      modifies this
      ensures Valid()
      ensures (r, engines, queue) == DrainAsWritten(old(engines), old(queue))
      ensures tiers == old(tiers) && patterns == old(patterns)
    {
      var q := queue;
      var e := engines;
      while |q| > 0
        invariant DrainAsWritten(e, q) == DrainAsWritten(old(engines), old(queue))
        invariant e.Keys == old(engines).Keys && EnginesOk(e)
        decreases |q|
      {
        var task := q[|q| - 1];
        q := q[..|q| - 1];
        var step := MigrateAsWritten(e, task);
        if step.0.Err? {
          engines, queue := e, q;
          return step.0;
        }
        e := step.1;
      }
      engines, queue := e, [];
      r := Ok(());
    }

    function AccessPatternsCount(): nat
      reads this
    {
      |patterns|
    }

    function MigrationQueueLength(): nat
      reads this
    {
      |queue|
    }
  }

  /**
   * `get` on the tier manager's state: searches the tiers in priority order,
   * skipping engines whose get fails; a hit records the access and, below
   * L1, queues a promotion one tier up.
   */
  method LookupAndTrack(tiers: set<Tier>, engines: map<Tier, TierEngine>, patterns: map<SME.Bytes, AccessPattern>,
                        queue: seq<MigrationTask>, key: SME.Bytes, now: int)
    returns (r: Option<SME.Bytes>, patterns': map<SME.Bytes, AccessPattern>, queue': seq<MigrationTask>)
    ensures match FirstServing(ByPriority(tiers), engines, key)
            case None => r.None? && patterns' == patterns && queue' == queue
            case Some(t) =>
              r == Some(engines[t].data[key])
              && patterns' == Touch(patterns, key, |engines[t].data[key]|, now)
              && queue' == queue + PromotionTasks(key, t, now)
  {
    var hit := SearchTiers(ByPriority(tiers), engines, key);
    if hit.Some? {
      var t := hit.value;
      var value := engines[t].data[key];
      var promotions := if Priority(t) > 1 then PromotionTasks(key, t, now) else [];
      patterns', queue' := Touch(patterns, key, |value|, now), queue + promotions;
      r := Some(value);
    } else {
      r, patterns', queue' := None, patterns, queue;
    }
  }

  /** The search loop of a get: the first tier of `order` whose engine returns `key`. */
  method SearchTiers(order: seq<Tier>, engines: map<Tier, TierEngine>, key: SME.Bytes) returns (hit: Option<Tier>)
    ensures hit == FirstServing(order, engines, key)
  {
    var i := 0;
    while i < |order|
      invariant 0 <= i <= |order|
      invariant FirstServing(order[i..], engines, key) == FirstServing(order, engines, key)
    {
      var t := order[i];
      if t in engines {
        var got := EngineGet(engines[t], key);
        if got.Ok? && got.value.Some? {
          return Some(t);
        }
      }
      assert order[i..][1..] == order[i + 1..];
      i := i + 1;
    }
    return None;
  }

  lemma FirstCustomAt(tiers: map<Tier, TierConfig>, order: seq<Tier>, i: nat)
    requires forall t :: t in order ==> t in tiers
    requires i < |order| && tiers[order[i]].enabled && tiers[order[i]].engineType.Custom?
    requires forall j :: 0 <= j < i ==> !(tiers[order[j]].enabled && tiers[order[j]].engineType.Custom?)
    ensures FirstCustom(tiers, order) == Some(i)
  {
    var r := FirstCustom(tiers, order);
  }
}

=== FILE: dafny/text.dfy ===
// Character and string helpers shared by the models: UTF-8 byte length,
// ASCII case mapping, ASCII white space, decimal rendering and parsing of naturals.
module Text {
  import opened Wrappers

  type byte = x: int | 0 <= x < 256

  /** Number of bytes a scalar value takes in UTF-8 (Rust's `char::len_utf8`). */
  function Utf8Width(c: char): (n: nat)
    ensures 1 <= n <= 4
  {
    if c as int < 0x80 then 1
    else if c as int < 0x800 then 2
    else if c as int < 0x10000 then 3
    else 4
  }

  /** The UTF-8 encoding of one scalar value. */
  function EncodeChar(c: char): (bs: seq<byte>)
    ensures |bs| == Utf8Width(c)
  {
    var x := c as int;
    if x < 0x80 then [x]
    else if x < 0x800 then [0xC0 + x / 64, 0x80 + x % 64]
    else if x < 0x10000 then [0xE0 + x / 4096, 0x80 + (x / 64) % 64, 0x80 + x % 64]
    else [0xF0 + x / 262144, 0x80 + (x / 4096) % 64, 0x80 + (x / 64) % 64, 0x80 + x % 64]
  }

  /** The UTF-8 bytes of a string (Rust's `str::as_bytes`). */
  function Utf8Encode(s: string): (bs: seq<byte>)
    ensures |bs| == Utf8Len(s)
  {
    if |s| == 0 then [] else EncodeChar(s[0]) + Utf8Encode(s[1..])
  }

  /** Length in bytes of the UTF-8 encoding (Rust's `str::len`). */
  function Utf8Len(s: string): nat
  {
    if |s| == 0 then 0 else Utf8Width(s[0]) + Utf8Len(s[1..])
  }

  lemma {:induction false} Utf8LenAtLeastChars(s: string)
    ensures |s| <= Utf8Len(s) <= 4 * |s|
  {
    if |s| > 0 {
      Utf8LenAtLeastChars(s[1..]);
    }
  }

  lemma {:induction false} Utf8LenAppend(a: string, b: string)
    ensures Utf8Len(a + b) == Utf8Len(a) + Utf8Len(b)
  {
    if |a| == 0 {
      assert a + b == b;
    } else {
      assert (a + b)[1..] == a[1..] + b;
      Utf8LenAppend(a[1..], b);
    }
  }

  function UpperChar(c: char): char
  {
    if 'a' <= c <= 'z' then (c as int - 32) as char else c
  }

  function LowerChar(c: char): char
  {
    if 'A' <= c <= 'Z' then (c as int + 32) as char else c
  }

  /** ASCII upper-casing; characters outside a-z are kept. */
  function ToUpper(s: string): (r: string)
    ensures |r| == |s|
    ensures forall i :: 0 <= i < |s| ==> r[i] == UpperChar(s[i])
  {
    seq(|s|, i requires 0 <= i < |s| => UpperChar(s[i]))
  }

  /** ASCII lower-casing; characters outside A-Z are kept. */
  function ToLower(s: string): (r: string)
    ensures |r| == |s|
    ensures forall i :: 0 <= i < |s| ==> r[i] == LowerChar(s[i])
  {
    seq(|s|, i requires 0 <= i < |s| => LowerChar(s[i]))
  }

  predicate IsSpace(c: char)
  {
    c == ' ' || c == '\t' || c == '\n' || c == '\r' || c == '\U{000B}' || c == '\U{000C}'
  }

  /** `sub` occurs in `s` starting at index `i`. */
  predicate OccursAt(s: string, sub: string, i: nat)
  {
    i + |sub| <= |s| && s[i..i + |sub|] == sub
  }

  /** Index of the first occurrence of `sub` in `s` at or after `from` (Rust's `str::find`). */
  function FindFrom(s: string, sub: string, from: nat): (r: int)
    decreases |s| - from
    ensures r == -1 || (from <= r && OccursAt(s, sub, r))
    ensures r == -1 ==> forall j :: from <= j && j + |sub| <= |s| ==> !OccursAt(s, sub, j)
    ensures r != -1 ==> forall j :: from <= j < r ==> !OccursAt(s, sub, j)
  {
    if from + |sub| > |s| then -1
    else if s[from..from + |sub|] == sub then from
    else FindFrom(s, sub, from + 1)
  }

  function Find(s: string, sub: string): (r: int)
    ensures r == -1 || (r >= 0 && OccursAt(s, sub, r))
    ensures r == -1 <==> forall j :: 0 <= j && j + |sub| <= |s| ==> !OccursAt(s, sub, j)
  {
    FindFrom(s, sub, 0)
  }

  predicate Contains(s: string, sub: string)
  {
    Find(s, sub) != -1
  }

  function DigitChar(d: nat): (c: char)
    requires d < 10
    ensures '0' <= c <= '9'
  {
    ['0', '1', '2', '3', '4', '5', '6', '7', '8', '9'][d]
  }

  /** Decimal rendering of a natural number, as `format!("{}", n)` prints it. */
  function NatToString(n: nat): (s: string)
    ensures |s| >= 1
    ensures forall i :: 0 <= i < |s| ==> '0' <= s[i] <= '9'
    decreases n
  {
    if n < 10 then [DigitChar(n)] else NatToString(n / 10) + [DigitChar(n % 10)]
  }

  /** Decimal text of an integer, with a leading '-' when negative. */
  function IntToString(i: int): (s: string)
    ensures |s| >= 1
    ensures (s[0] == '-') <==> i < 0
  {
    if i < 0 then "-" + NatToString(-i) else NatToString(i)
  }

  predicate IsDigit(c: char)
  {
    '0' <= c <= '9'
  }

  /** The value of a run of decimal digits. */
  function DigitsValue(s: string): nat
    requires forall i :: 0 <= i < |s| ==> IsDigit(s[i])
  {
    if s == [] then 0
    else
      assert IsDigit(s[|s| - 1]);
      DigitsValue(s[..|s| - 1]) * 10 + ((s[|s| - 1] as int) - ('0' as int))
  }

  /**
   * `str::parse` for an unsigned integer type whose largest value is `max`:
   * an optional '+', then at least one decimal digit and nothing else, and
   * a value that fits.
   */
  function ParseUnsigned(s: string, max: nat): (r: Option<nat>)
    ensures r.Some? ==> r.value <= max
    ensures s == [] ==> r.None?
  {
    var body := if |s| > 0 && s[0] == '+' then s[1..] else s;
    if body == [] || exists i :: 0 <= i < |body| && !IsDigit(body[i]) then None
    else if DigitsValue(body) > max then None
    else Some(DigitsValue(body))
  }

  lemma DigitCharValue(d: nat)
    requires d < 10
    ensures (DigitChar(d) as int) - ('0' as int) == d
  {
  }

  lemma {:induction false} DigitsOfNatToString(n: nat)
    ensures forall i :: 0 <= i < |NatToString(n)| ==> IsDigit(NatToString(n)[i])
    ensures DigitsValue(NatToString(n)) == n
    decreases n
  {
    var s := NatToString(n);
    if n < 10 {
      DigitCharValue(n);
      assert s[..|s| - 1] == [];
    } else {
      DigitsOfNatToString(n / 10);
      DigitCharValue(n % 10);
      assert s[..|s| - 1] == NatToString(n / 10);
    }
  }

  /** Parsing the decimal text of a value that fits gives the value back. */
  lemma ParseNatToString(n: nat, max: nat)
    requires n <= max
    ensures ParseUnsigned(NatToString(n), max) == Some(n)
  {
    DigitsOfNatToString(n);
  }

  /** Index of the first `c` in `s`, or -1 (Rust's `str::find` with a `char` pattern, counted in characters). */
  function IndexOf(s: string, c: char): (i: int)
    ensures i == -1 <==> c !in s
    ensures i != -1 ==> 0 <= i < |s| && s[i] == c && c !in s[..i]
  {
    if |s| == 0 then -1
    else if s[0] == c then 0
    else
      var j := IndexOf(s[1..], c);
      assert s[1..] == s[..|s|][1..];
      if j == -1 then -1
      else
        assert s[..j + 1] == [s[0]] + s[1..][..j];
        j + 1
  }

  /** The pieces between occurrences of `sep`, empty pieces included (Rust's `str::split` with a `char`). */
  function SplitOn(s: string, sep: char): (parts: seq<string>)
    ensures |parts| >= 1
    ensures forall i :: 0 <= i < |parts| ==> sep !in parts[i]
    decreases |s|
  {
    var i := IndexOf(s, sep);
    if i == -1 then [s] else [s[..i]] + SplitOn(s[i + 1..], sep)
  }

  /** The pieces with `sep` between each neighbouring pair. */
  function Join(parts: seq<string>, sep: char): string
    requires |parts| >= 1
  {
    if |parts| == 1 then parts[0] else parts[0] + [sep] + Join(parts[1..], sep)
  }

  /** Joining the pieces of a split gives the text back. */
  lemma {:induction false} JoinSplitOn(s: string, sep: char)
    ensures Join(SplitOn(s, sep), sep) == s
    decreases |s|
  {
    var i := IndexOf(s, sep);
    if i != -1 {
      JoinSplitOn(s[i + 1..], sep);
      assert s == s[..i] + [sep] + s[i + 1..];
    }
  }

  /** Splitting joined pieces that do not contain the separator gives the pieces back. */
  lemma {:induction false} SplitOnJoin(parts: seq<string>, sep: char)
    requires |parts| >= 1
    requires forall i :: 0 <= i < |parts| ==> sep !in parts[i]
    ensures SplitOn(Join(parts, sep), sep) == parts
    decreases |parts|
  {
    var s := Join(parts, sep);
    if |parts| == 1 {
      assert IndexOf(s, sep) == -1;
    } else {
      var rest := Join(parts[1..], sep);
      assert s == parts[0] + [sep] + rest;
      var i := |parts[0]|;
      assert s[i] == sep && s[..i] == parts[0];
      assert IndexOf(s, sep) == i;
      assert s[i + 1..] == rest;
      SplitOnJoin(parts[1..], sep);
    }
  }
}

=== FILE: dafny/types_conversion.dfy ===
// Conversion of a core value to a named target type (fdc-types).
module TypesConversion {
  import opened Wrappers
  import opened Ints
  import opened CoreError
  import CV = CoreValue

  /**
   * `TypeConverter::convert`: Int32 widens to "i64", Int64 wraps to "i32",
   * Float32 and Float64 trade places under "f64" and "f32" (narrowing is not
   * rounded in this model); every other pair is a type error.
   */
  function Convert(value: CV.Value, targetType: string): (r: CoreResult<CV.Value>)
    ensures r.Ok? <==>
      (value.Int32? && targetType == "i64") || (value.Int64? && targetType == "i32") ||
      (value.Float32? && targetType == "f64") || (value.Float64? && targetType == "f32")
    ensures value.Int32? && targetType == "i64" ==> r == Ok(CV.Int64(value.i32v))
    ensures value.Int64? && targetType == "i32" ==> r.Ok? && r.value.Int32? && (r.value.i32v - value.i64v) % TWO_32 == 0
    ensures value.Float32? && targetType == "f64" ==> r == Ok(CV.Float64(value.f32v))
    ensures value.Float64? && targetType == "f32" ==> r == Ok(CV.Float32(value.f64v))
    ensures r.Err? ==> r.error == TypeError("Cannot convert " + CV.VariantName(value) + " to " + targetType)
  {
    if value.Int32? && targetType == "i64" then Ok(CV.Int64(value.i32v))
    else if value.Int64? && targetType == "i32" then Ok(CV.Int32(WrapI32(value.i64v)))
    else if value.Float32? && targetType == "f64" then Ok(CV.Float64(value.f32v))
    else if value.Float64? && targetType == "f32" then Ok(CV.Float32(value.f64v))
    else Err(TypeError("Cannot convert " + CV.VariantName(value) + " to " + targetType))
  }

  /** Widening an i32 to i64 and narrowing it back gives the original value. */
  lemma WidenThenNarrow(x: i32)
    ensures Convert(CV.Int32(x), "i64").Ok?
    ensures Convert(Convert(CV.Int32(x), "i64").value, "i32") == Ok(CV.Int32(x))
  {
    assert WrapI32(x) == x by {
      var m := x % TWO_32;
      if x >= 0 { assert m == x; } else { assert m == x + TWO_32; }
    }
  }

  /** Narrowing keeps every i64 that fits in 32 bits. */
  lemma NarrowKeepsSmall(x: i64)
    requires -TWO_31 <= x < TWO_31
    ensures Convert(CV.Int64(x), "i32") == Ok(CV.Int32(x))
  {
    assert WrapI32(x) == x by {
      var m := x % TWO_32;
      if x >= 0 { assert m == x; } else { assert m == x + TWO_32; }
    }
  }

  /** Narrowing 2^31 wraps it to -2^31. */
  lemma NarrowTruncates()
    ensures Convert(CV.Int64(TWO_31), "i32") == Ok(CV.Int32(-TWO_31))
  {
  }
}

=== FILE: dafny/types_definition.dfy ===
// Type definitions of fdc-types: a tree of named types whose structs hold
// fields of further types, with size hints, constraints and validation.
module TypesDefinition {
  import opened Wrappers
  import opened Floats
  import opened CoreError

  datatype PrimitiveType =
    | Bool | I8 | I16 | I32 | I64 | I128 | U8 | U16 | U32 | U64 | U128
    | F32 | F64 | String | Bytes | Timestamp | Decimal | BigInt
  {
    /** The `Display` text of the primitive. */
    function Name(): string
    {
      match this
      case Bool => "bool"
      case I8 => "i8"
      case I16 => "i16"
      case I32 => "i32"
      case I64 => "i64"
      case I128 => "i128"
      case U8 => "u8"
      case U16 => "u16"
      case U32 => "u32"
      case U64 => "u64"
      case U128 => "u128"
      case F32 => "f32"
      case F64 => "f64"
      case String => "string"
      case Bytes => "bytes"
      case Timestamp => "timestamp"
      case Decimal => "decimal"
      case BigInt => "bigint"
    }
  }

  datatype TypeKind =
    | Primitive(prim: PrimitiveType)
    | StructKind
    | EnumKind
    | UnionKind
    | ArrayKind(element: TypeDefinition)
    | MapKind(key: TypeDefinition, value: TypeDefinition)
    | OptionalKind(inner: TypeDefinition)
    | Reference(target: string)
    | FunctionKind(inputs: seq<TypeDefinition>, output: TypeDefinition)
    | CustomKind(custom: string)

  /** A type definition; its id is a UUID kept abstract, and its timestamps are left out. */
  datatype TypeDefinition = TypeDefinition(
    id: nat,
    name: string,
    kind: TypeKind,
    description: Option<string>,
    version: string,
    fields: seq<FieldDefinition>,
    constraints: seq<TypeConstraint>,
    attributes: map<string, string>)

  datatype FieldDefinition = FieldDefinition(
    name: string,
    fieldType: TypeDefinition,
    optional: bool,
    defaultValue: Option<string>,
    description: Option<string>,
    constraints: seq<FieldConstraint>,
    attributes: map<string, string>)

  datatype TypeConstraint =
    | MinValue(min: Float)
    | MaxValue(max: Float)
    | MinLength(minLen: nat)
    | MaxLength(maxLen: nat)
    | Pattern(pattern: string)
    | EnumValues(values: seq<string>)
    | CustomConstraint(constraintName: string, expression: string)

  datatype FieldConstraint = Required | Unique | Indexed | Immutable | CustomField(fieldName: string, fieldExpression: string)

  /** `TypeDefinition::new`: version "1.0.0", nothing else set. */
  function NewDefinition(id: nat, name: string, kind: TypeKind): (d: TypeDefinition)
    ensures d.name == name && d.kind == kind && d.id == id
    ensures d.version == "1.0.0" && d.description == None
    ensures d.fields == [] && d.constraints == [] && d.attributes == map[]
  {
    TypeDefinition(id, name, kind, None, "1.0.0", [], [], map[])
  }

  /** `FieldDefinition::new`: required, no default, no description, no constraints. */
  function NewField(name: string, fieldType: TypeDefinition): (f: FieldDefinition)
    ensures f.name == name && f.fieldType == fieldType && !f.optional
    ensures f.defaultValue == None && f.description == None && f.constraints == [] && f.attributes == map[]
  {
    FieldDefinition(name, fieldType, false, None, None, [], map[])
  }

  /** `add_field`: the field goes last and nothing else changes. */
  function AddField(d: TypeDefinition, field: FieldDefinition): (r: TypeDefinition)
    ensures r.fields == d.fields + [field] && r == d.(fields := r.fields)
  {
    d.(fields := d.fields + [field])
  }

  /** `add_constraint`: the constraint goes last and nothing else changes. */
  function AddConstraint(d: TypeDefinition, c: TypeConstraint): (r: TypeDefinition)
    ensures r.constraints == d.constraints + [c] && r == d.(constraints := r.constraints)
  {
    d.(constraints := d.constraints + [c])
  }

  /** `set_attribute`: insert or overwrite one attribute. */
  function SetAttribute(d: TypeDefinition, key: string, value: string): (r: TypeDefinition)
    ensures key in r.attributes && r.attributes[key] == value
    ensures forall k :: k in d.attributes && k != key ==> k in r.attributes && r.attributes[k] == d.attributes[k]
    ensures r == d.(attributes := r.attributes)
  {
    d.(attributes := d.attributes[key := value])
  }

  predicate IsPrimitive(d: TypeDefinition) { d.kind.Primitive? }

  predicate IsComposite(d: TypeDefinition) { d.kind.StructKind? || d.kind.EnumKind? || d.kind.UnionKind? }

  predicate IsContainer(d: TypeDefinition) { d.kind.ArrayKind? || d.kind.MapKind? }

  /** The first field, from index `from` on, with the given name. */
  function FindFieldFrom(fields: seq<FieldDefinition>, name: string, from: nat): (r: Option<nat>)
    requires from <= |fields|
    ensures r.None? <==> forall j :: from <= j < |fields| ==> fields[j].name != name
    ensures r.Some? ==> (from <= r.value < |fields| && fields[r.value].name == name &&
      forall j :: from <= j < r.value ==> fields[j].name != name)
    decreases |fields| - from
  {
    if from == |fields| then None
    else if fields[from].name == name then Some(from)
    else FindFieldFrom(fields, name, from + 1)
  }

  /** `get_field`: the first field with that name, if any. */
  function GetField(d: TypeDefinition, name: string): (r: Option<FieldDefinition>)
    ensures r.None? <==> forall j :: 0 <= j < |d.fields| ==> d.fields[j].name != name
    ensures r.Some? ==> (r.value.name == name &&
      exists j :: 0 <= j < |d.fields| && d.fields[j] == r.value && forall k :: 0 <= k < j ==> d.fields[k].name != name)
  {
    match FindFieldFrom(d.fields, name, 0)
    case None => None
    case Some(j) => Some(d.fields[j])
  }

  /** The fixed width of a primitive, or None for String, Bytes, Decimal and BigInt. */
  function PrimitiveSize(p: PrimitiveType): Option<nat>
  {
    match p
    case Bool => Some(1)
    case I8 | U8 => Some(1)
    case I16 | U16 => Some(2)
    case I32 | U32 | F32 => Some(4)
    case I64 | U64 | F64 => Some(8)
    case I128 | U128 => Some(16)
    case Timestamp => Some(8)
    case _ => None
  }

  /** `size_hint`: primitives by width, structs by the running total of their fields, everything else unknown. */
  function SizeHint(d: TypeDefinition): Option<nat>
    decreases d, 1
  {
    match d.kind
    case Primitive(p) => PrimitiveSize(p)
    case StructKind => SumFieldSizes(d, 0, 0)
    case _ => None
  }

  /** The loop over fields from `i` on, starting from `total`; any unsized field makes it None. */
  function SumFieldSizes(d: TypeDefinition, i: nat, total: nat): Option<nat>
    requires i <= |d.fields|
    decreases d, 0, |d.fields| - i
  {
    if i == |d.fields| then Some(total)
    else match SizeHint(d.fields[i].fieldType)
      case None => None
      case Some(size) => SumFieldSizes(d, i + 1, total + size)
  }

  /** The sum of the sizes of `fields`, counting an unsized field as 0. */
  function FieldSizes(fields: seq<FieldDefinition>): nat
  {
    if fields == [] then 0 else SizeHint(fields[0].fieldType).UnwrapOr(0) + FieldSizes(fields[1..])
  }

  /** The loop is None exactly when some remaining field is unsized, and otherwise adds the remaining sizes. */
  lemma {:induction false} SumFieldSizesSpec(d: TypeDefinition, i: nat, total: nat)
    requires i <= |d.fields|
    ensures SumFieldSizes(d, i, total).None? <==> exists j :: i <= j < |d.fields| && SizeHint(d.fields[j].fieldType).None?
    ensures SumFieldSizes(d, i, total).Some? ==> SumFieldSizes(d, i, total).value == total + FieldSizes(d.fields[i..])
    decreases |d.fields| - i
  {
    if i < |d.fields| {
      assert d.fields[i..][1..] == d.fields[i + 1..];
      if SizeHint(d.fields[i].fieldType).Some? {
        SumFieldSizesSpec(d, i + 1, total + SizeHint(d.fields[i].fieldType).value);
      }
    }
  }

  /** A struct's size is the sum of its field sizes, or None when some field has no size. */
  lemma StructSizeHint(d: TypeDefinition)
    requires d.kind.StructKind?
    ensures SizeHint(d).None? <==> exists j :: 0 <= j < |d.fields| && SizeHint(d.fields[j].fieldType).None?
    ensures SizeHint(d).Some? ==> SizeHint(d).value == FieldSizes(d.fields)
  {
    SumFieldSizesSpec(d, 0, 0);
    assert d.fields[0..] == d.fields;
  }

  /** Primitive sizes: 1, 8 and 4 for bool, i64 and f32; String has none. */
  lemma PrimitiveSizes()
    ensures PrimitiveSize(Bool) == Some(1) && PrimitiveSize(I64) == Some(8) && PrimitiveSize(F32) == Some(4)
    ensures PrimitiveSize(String).None? && PrimitiveSize(Bytes).None? && PrimitiveSize(PrimitiveType.Decimal).None? && PrimitiveSize(BigInt).None?
  {
  }

  /**
   * `TypeConstraint::validate`. `regexError` stands for compiling a pattern
   * with the regex crate: None when it compiles, else the crate's message.
   */
  function ValidateConstraint(c: TypeConstraint, regexError: string -> Option<string>): (r: CoreResult<()>)
    ensures r.Ok? <==> ConstraintWellFormed(c, regexError)
    ensures r.Err? ==> r.error.Validation?
  {
    match c
    case MinValue(m) => if !m.Finite? then Err(Validation("MinValue constraint must be finite")) else Ok(())
    case MaxValue(m) => if !m.Finite? then Err(Validation("MaxValue constraint must be finite")) else Ok(())
    case Pattern(p) =>
      (match regexError(p)
       case Some(e) => Err(Validation("Invalid regex pattern: " + e))
       case None => Ok(()))
    case EnumValues(vs) => if vs == [] then Err(Validation("Enum constraint cannot be empty")) else Ok(())
    case CustomConstraint(n, e) =>
      if n == [] then Err(Validation("Custom constraint name cannot be empty"))
      else if e == [] then Err(Validation("Custom constraint expression cannot be empty"))
      else Ok(())
    case _ => Ok(())
  }

  /** What a constraint must satisfy: finite bounds, a compiling pattern, a non-empty enum, a named custom rule. */
  predicate ConstraintWellFormed(c: TypeConstraint, regexError: string -> Option<string>)
  {
    (c.MinValue? ==> c.min.Finite?) &&
    (c.MaxValue? ==> c.max.Finite?) &&
    (c.Pattern? ==> regexError(c.pattern).None?) &&
    (c.EnumValues? ==> c.values != []) &&
    (c.CustomConstraint? ==> c.constraintName != [] && c.expression != [])
  }

  /**
   * The circular-reference check: a type whose name is already among the
   * names on the path from the root is rejected; the fields are checked in
   * order with this type's name added to the path.
   */
  function CheckCircular(d: TypeDefinition, visited: set<string>): CoreResult<()>
    decreases d, 1
  {
    if d.name in visited then Err(Validation("Circular reference detected in type: " + d.name))
    else CheckCircularFields(d, 0, visited + {d.name})
  }

  function CheckCircularFields(d: TypeDefinition, i: nat, visited: set<string>): CoreResult<()>
    requires i <= |d.fields|
    decreases d, 0, |d.fields| - i
  {
    if i == |d.fields| then Ok(())
    else match CheckCircular(d.fields[i].fieldType, visited)
      case Err(e) => Err(e)
      case Ok(_) => CheckCircularFields(d, i + 1, visited)
  }

  /** Some type below `d` (or `d` itself) repeats a name already on its path from the root. */
  predicate NameRepeatsOnPath(d: TypeDefinition, path: set<string>)
    decreases d
  {
    d.name in path ||
    exists j :: 0 <= j < |d.fields| && NameRepeatsOnPath(d.fields[j].fieldType, path + {d.name})
  }

  /** The circular-reference check fails exactly when a name repeats along some path, and only with a validation error. */
  lemma {:induction false} CheckCircularSpec(d: TypeDefinition, visited: set<string>)
    ensures CheckCircular(d, visited).Ok? <==> !NameRepeatsOnPath(d, visited)
    ensures CheckCircular(d, visited).Err? ==> CheckCircular(d, visited).error.Validation?
    decreases d, 1
  {
    if d.name !in visited {
      CheckCircularFieldsSpec(d, 0, visited + {d.name});
    }
  }

  lemma {:induction false} CheckCircularFieldsSpec(d: TypeDefinition, i: nat, visited: set<string>)
    requires i <= |d.fields|
    ensures CheckCircularFields(d, i, visited).Ok? <==>
      forall j :: i <= j < |d.fields| ==> !NameRepeatsOnPath(d.fields[j].fieldType, visited)
    ensures CheckCircularFields(d, i, visited).Err? ==> CheckCircularFields(d, i, visited).error.Validation?
    decreases d, 0, |d.fields| - i
  {
    if i < |d.fields| {
      CheckCircularSpec(d.fields[i].fieldType, visited);
      CheckCircularFieldsSpec(d, i + 1, visited);
    }
  }

  /** `TypeDefinition::validate`: name, version, fields in order, constraints in order, then the circular check. */
  function Validate(d: TypeDefinition, regexError: string -> Option<string>): CoreResult<()>
    decreases d, 2
  {
    if d.name == [] then Err(Validation("Type name cannot be empty"))
    else if d.version == [] then Err(Validation("Type version cannot be empty"))
    else match ValidateFields(d, 0, regexError)
      case Err(e) => Err(e)
      case Ok(_) =>
        match ValidateConstraints(d.constraints, 0, regexError)
        case Err(e) => Err(e)
        case Ok(_) => CheckCircular(d, {})
  }

  /** `FieldDefinition::validate` for every field from `i` on, stopping at the first failure. */
  function ValidateFields(d: TypeDefinition, i: nat, regexError: string -> Option<string>): CoreResult<()>
    requires i <= |d.fields|
    decreases d, 0, |d.fields| - i
  {
    if i == |d.fields| then Ok(())
    else if d.fields[i].name == [] then Err(Validation("Field name cannot be empty"))
    else match Validate(d.fields[i].fieldType, regexError)
      case Err(e) => Err(e)
      case Ok(_) => ValidateFields(d, i + 1, regexError)
  }

  function ValidateConstraints(cs: seq<TypeConstraint>, i: nat, regexError: string -> Option<string>): CoreResult<()>
    requires i <= |cs|
    decreases |cs| - i
  {
    if i == |cs| then Ok(())
    else match ValidateConstraint(cs[i], regexError)
      case Err(e) => Err(e)
      case Ok(_) => ValidateConstraints(cs, i + 1, regexError)
  }

  /**
   * What validation demands: a name and a version, named and well-formed
   * fields all the way down, well-formed constraints, and no name repeated
   * along a path from the root.
   */
  predicate WellFormed(d: TypeDefinition, regexError: string -> Option<string>)
    decreases d
  {
    d.name != [] && d.version != [] &&
    (forall j :: 0 <= j < |d.fields| ==> d.fields[j].name != [] && WellFormed(d.fields[j].fieldType, regexError)) &&
    (forall j :: 0 <= j < |d.constraints| ==> ConstraintWellFormed(d.constraints[j], regexError)) &&
    !NameRepeatsOnPath(d, {})
  }

  /** Validation succeeds exactly on well-formed definitions, and fails only with validation errors. */
  lemma {:induction false} ValidateSpec(d: TypeDefinition, regexError: string -> Option<string>)
    ensures Validate(d, regexError).Ok? <==> WellFormed(d, regexError)
    ensures Validate(d, regexError).Err? ==> Validate(d, regexError).error.Validation?
    decreases d, 2
  {
    if d.name != [] && d.version != [] {
      ValidateFieldsSpec(d, 0, regexError);
      ValidateConstraintsSpec(d.constraints, 0, regexError);
      CheckCircularSpec(d, {});
    }
  }

  lemma {:induction false} ValidateFieldsSpec(d: TypeDefinition, i: nat, regexError: string -> Option<string>)
    requires i <= |d.fields|
    ensures ValidateFields(d, i, regexError).Ok? <==>
      forall j :: i <= j < |d.fields| ==> d.fields[j].name != [] && WellFormed(d.fields[j].fieldType, regexError)
    ensures ValidateFields(d, i, regexError).Err? ==> ValidateFields(d, i, regexError).error.Validation?
    decreases d, 0, |d.fields| - i
  {
    if i < |d.fields| && d.fields[i].name != [] {
      ValidateSpec(d.fields[i].fieldType, regexError);
      ValidateFieldsSpec(d, i + 1, regexError);
    }
  }

  lemma {:induction false} ValidateConstraintsSpec(cs: seq<TypeConstraint>, i: nat, regexError: string -> Option<string>)
    requires i <= |cs|
    ensures ValidateConstraints(cs, i, regexError).Ok? <==> forall j :: i <= j < |cs| ==> ConstraintWellFormed(cs[j], regexError)
    ensures ValidateConstraints(cs, i, regexError).Err? ==> ValidateConstraints(cs, i, regexError).error.Validation?
    decreases |cs| - i
  {
    if i < |cs| {
      ValidateConstraintsSpec(cs, i + 1, regexError);
    }
  }

  /** A struct holding a field whose type reuses the struct's own name is rejected. */
  lemma SelfNamedFieldIsCircular(d: TypeDefinition, regexError: string -> Option<string>)
    requires |d.fields| > 0 && d.fields[0].fieldType.name == d.name
    ensures Validate(d, regexError).Err?
  {
    ValidateSpec(d, regexError);
    assert NameRepeatsOnPath(d.fields[0].fieldType, {} + {d.name});
    assert NameRepeatsOnPath(d, {});
  }
}

=== FILE: dafny/types_registry.dfy ===
// The fdc-types registry: type definitions indexed by id and by name, a
// by-name lookup cache, and statistics kept in step with registration.
module TypesRegistry {
  import opened Wrappers
  import opened Text
  import opened CoreError
  import opened TypesDefinition
  import opened Ints

  const DEFAULT_MAX_TYPES: nat := 1000
  const DEFAULT_MAX_FIELDS: nat := 100
  const DEFAULT_MAX_NESTING_DEPTH: nat := 10

  datatype TypeRegistryConfig = TypeRegistryConfig(
    maxTypes: nat, maxFields: nat, maxNestingDepth: nat,
    enableCache: bool, enableValidation: bool, enableVersioning: bool)

  const DEFAULT_CONFIG := TypeRegistryConfig(DEFAULT_MAX_TYPES, DEFAULT_MAX_FIELDS, DEFAULT_MAX_NESTING_DEPTH, true, true, true)

  datatype TypeRegistryStats = TypeRegistryStats(
    totalTypes: nat, primitiveTypes: nat, structTypes: nat, enumTypes: nat, customTypes: nat,
    cacheHits: nat, cacheMisses: nat, validationSuccesses: nat, validationFailures: nat)
  {
    /** Cache hits over lookups that consulted the cache, 0 before the first. */
    function CacheHitRate(): (rate: real)
      ensures 0.0 <= rate <= 1.0
      ensures rate == 0.0 <==> cacheHits == 0
      ensures rate == 1.0 <==> cacheHits > 0 && cacheMisses == 0
      ensures (cacheHits + cacheMisses) as real * rate == cacheHits as real
    {
      QuotientIsShare(cacheHits, cacheMisses);
      Quotient(cacheHits, cacheHits + cacheMisses)
    }

    /** Successful validations over all validations, 0 before the first. */
    function ValidationSuccessRate(): (rate: real)
      ensures 0.0 <= rate <= 1.0
      ensures rate == 0.0 <==> validationSuccesses == 0
      ensures rate == 1.0 <==> validationSuccesses > 0 && validationFailures == 0
      ensures (validationSuccesses + validationFailures) as real * rate == validationSuccesses as real
    {
      QuotientIsShare(validationSuccesses, validationFailures);
      Quotient(validationSuccesses, validationSuccesses + validationFailures)
    }
  }

  /** The built-in primitives in registration order. */
  const BUILTIN_PRIMITIVES: seq<(string, PrimitiveType)> := [
    ("bool", Bool), ("i8", I8), ("i16", I16), ("i32", I32), ("i64", I64), ("i128", I128),
    ("u8", U8), ("u16", U16), ("u32", U32), ("u64", U64), ("u128", U128),
    ("f32", F32), ("f64", F64), ("string", String), ("bytes", Bytes),
    ("timestamp", Timestamp), ("decimal", PrimitiveType.Decimal), ("bigint", BigInt)
  ]

  lemma BuiltinPrimitiveNamesDistinct()
    ensures forall i, j :: 0 <= i < j < |BUILTIN_PRIMITIVES| ==> BUILTIN_PRIMITIVES[i].0 != BUILTIN_PRIMITIVES[j].0
  {
  }

  /** The definitions `register_builtin_types` creates, given the fresh ids. */
  function BuiltinDefinitions(ids: seq<nat>): (r: seq<TypeDefinition>)
    requires |ids| == |BUILTIN_PRIMITIVES|
    ensures |r| == |ids|
    ensures forall i :: 0 <= i < |r| ==>
      r[i] == NewDefinition(ids[i], BUILTIN_PRIMITIVES[i].0, Primitive(BUILTIN_PRIMITIVES[i].1)) &&
      r[i].id == ids[i] && r[i].kind.Primitive? && r[i].name == BUILTIN_PRIMITIVES[i].0
  {
    seq(|ids|, i requires 0 <= i < |ids| => NewDefinition(ids[i], BUILTIN_PRIMITIVES[i].0, Primitive(BUILTIN_PRIMITIVES[i].1)))
  }

  lemma BuiltinDefinitionsDistinct(ids: seq<nat>)
    requires |ids| == |BUILTIN_PRIMITIVES|
    requires forall i, j :: 0 <= i < j < |ids| ==> ids[i] != ids[j]
    ensures var defs := BuiltinDefinitions(ids);
      forall a, b :: 0 <= a < b < |defs| ==> defs[a].id != defs[b].id && defs[a].name != defs[b].name
  {
    BuiltinPrimitiveNamesDistinct();
  }

  /** The first `i` definitions are stored under their ids. */
  ghost predicate Inserted(byId: map<nat, TypeDefinition>, defs: seq<TypeDefinition>, i: nat)
    requires i <= |defs|
  {
    forall j :: 0 <= j < i ==> defs[j].id in byId && byId[defs[j].id] == defs[j]
  }

  /** Neither the id nor the name of any definition from `i` on is present yet. */
  ghost predicate NotYetInserted(byId: map<nat, TypeDefinition>, byName: map<string, nat>, defs: seq<TypeDefinition>, i: nat)
    requires i <= |defs|
  {
    forall j :: i <= j < |defs| ==> defs[j].id !in byId && defs[j].name !in byName
  }

  lemma InsertNext(byId: map<nat, TypeDefinition>, byName: map<string, nat>, defs: seq<TypeDefinition>, i: nat)
    requires i < |defs|
    requires forall a, b :: 0 <= a < b < |defs| ==> defs[a].id != defs[b].id && defs[a].name != defs[b].name
    requires Inserted(byId, defs, i) && NotYetInserted(byId, byName, defs, i)
    ensures Inserted(byId[defs[i].id := defs[i]], defs, i + 1)
    ensures NotYetInserted(byId[defs[i].id := defs[i]], byName[defs[i].name := defs[i].id], defs, i + 1)
  {
  }

  /** The kinds the statistics count separately. */
  datatype KindClass = StructClass | EnumClass | CustomClass | OtherClass

  function ClassOf(k: TypeKind): KindClass
  {
    match k
    case StructKind => StructClass
    case EnumKind => EnumClass
    case CustomKind(_) => CustomClass
    case _ => OtherClass
  }

  /** How many definitions in `m` are of class `c`. */
  ghost function CountClass(m: map<nat, TypeDefinition>, c: KindClass): nat
    decreases |m|
  {
    if m == map[] then 0
    else
      var k :| k in m;
      (if ClassOf(m[k].kind) == c then 1 else 0) + CountClass(m - {k}, c)
  }

  /** The count does not depend on which key the definition picks first. */
  lemma {:induction false} CountClassRemove(m: map<nat, TypeDefinition>, id: nat, c: KindClass)
    requires id in m
    ensures CountClass(m, c) == CountClass(m - {id}, c) + (if ClassOf(m[id].kind) == c then 1 else 0)
    decreases |m|
  {
    var k :| k in m && CountClass(m, c) == (if ClassOf(m[k].kind) == c then 1 else 0) + CountClass(m - {k}, c);
    if k != id {
      assert |m - {k}| < |m|;
      CountClassRemove(m - {k}, id, c);
      assert |m - {id}| < |m|;
      CountClassRemove(m - {id}, k, c);
      assert m - {k} - {id} == m - {id} - {k};
    }
  }

  lemma CountClassInsert(m: map<nat, TypeDefinition>, id: nat, d: TypeDefinition, c: KindClass)
    requires id !in m
    ensures CountClass(m[id := d], c) == CountClass(m, c) + (if ClassOf(d.kind) == c then 1 else 0)
  {
    CountClassRemove(m[id := d], id, c);
    assert m[id := d] - {id} == m;
  }

  /** The numeric names `is_compatible` treats as interchangeable. */
  const NUMERIC_TYPE_NAMES: set<string> :=
    {"i8", "i16", "i32", "i64", "i128", "u8", "u16", "u32", "u64", "u128", "f32", "f64", "decimal", "bigint"}

  /** `is_compatible`: equal names, or two numeric names. */
  predicate IsCompatible(fromType: string, toType: string)
  {
    fromType == toType || (fromType in NUMERIC_TYPE_NAMES && toType in NUMERIC_TYPE_NAMES)
  }

  /** Compatibility is reflexive and symmetric, holds between any two numerics, and fails between a numeric and anything else. */
  lemma CompatibilityLaws(a: string, b: string)
    ensures IsCompatible(a, a)
    ensures IsCompatible(a, b) == IsCompatible(b, a)
    ensures a != b ==> (IsCompatible(a, b) <==> a in NUMERIC_TYPE_NAMES && b in NUMERIC_TYPE_NAMES)
    ensures IsCompatible("i32", "i64") && IsCompatible("f32", "f64") && !IsCompatible("string", "i32")
  {
  }

  /**
   * `type_depends_on`: references match by name; arrays, maps, optionals
   * and functions look inside their component types; every other kind
   * looks at its fields.
   */
  predicate DependsOn(d: TypeDefinition, target: string)
    decreases d
  {
    match d.kind
    case Reference(n) => n == target
    case ArrayKind(inner) => DependsOn(inner, target)
    case MapKind(k, v) => DependsOn(k, target) || DependsOn(v, target)
    case OptionalKind(inner) => DependsOn(inner, target)
    case FunctionKind(inputs, output) =>
      (exists i :: 0 <= i < |inputs| && DependsOn(inputs[i], target)) || DependsOn(output, target)
    case _ => exists j :: 0 <= j < |d.fields| && DependsOn(d.fields[j].fieldType, target)
  }

  /** `check_dependencies`: some registered type depends on `name`. */
  predicate HasDependent(byId: map<nat, TypeDefinition>, name: string)
  {
    exists other {:trigger DependsOn(byId[other], name)} :: other in byId && DependsOn(byId[other], name)
  }

  /** A primitive built-in depends on nothing, so the dependency check never blocks on it. */
  lemma PrimitiveDependsOnNothing(d: TypeDefinition, target: string)
    requires d.kind.Primitive? && d.fields == []
    ensures !DependsOn(d, target)
  {
  }

  /** The id index and the name index are inverse to each other. */
  ghost predicate IndexesAgree(byId: map<nat, TypeDefinition>, byName: map<string, nat>)
  {
    (forall n :: n in byName ==> byName[n] in byId && byId[byName[n]].name == n) &&
    (forall id :: id in byId ==> byId[id].name in byName && byName[byId[id].name] == id)
  }

  /** Every cached entry is the registered definition of its name. */
  ghost predicate CacheAgrees(cache: map<string, TypeDefinition>, byId: map<nat, TypeDefinition>, byName: map<string, nat>)
  {
    forall n :: n in cache ==> n in byName && byName[n] in byId && cache[n] == byId[byName[n]]
  }

  /** The total and per-kind counters agree with the table. */
  ghost predicate CountsAgree(st: TypeRegistryStats, byId: map<nat, TypeDefinition>)
  {
    st.totalTypes == |byId| &&
    st.structTypes == CountClass(byId, StructClass) &&
    st.enumTypes == CountClass(byId, EnumClass) &&
    st.customTypes == CountClass(byId, CustomClass)
  }

  /** The invariant of the registry, on its field values. */
  ghost predicate Agrees(byId: map<nat, TypeDefinition>, byName: map<string, nat>, cache: map<string, TypeDefinition>,
                         cacheEnabled: bool, st: TypeRegistryStats)
  {
    IndexesAgree(byId, byName) && CacheAgrees(cache, byId, byName) &&
    (!cacheEnabled ==> cache == map[]) && CountsAgree(st, byId)
  }

  /** The counters after `d` is registered. */
  function Added(st: TypeRegistryStats, d: TypeDefinition): TypeRegistryStats
  {
    st.(totalTypes := st.totalTypes + 1,
        structTypes := st.structTypes + (if d.kind.StructKind? then 1 else 0),
        enumTypes := st.enumTypes + (if d.kind.EnumKind? then 1 else 0),
        customTypes := st.customTypes + (if d.kind.CustomKind? then 1 else 0))
  }

  /** The counters after `d` is unregistered. */
  function Removed(st: TypeRegistryStats, d: TypeDefinition): TypeRegistryStats
    requires st.totalTypes >= 1
    requires d.kind.StructKind? ==> st.structTypes >= 1
    requires d.kind.EnumKind? ==> st.enumTypes >= 1
    requires d.kind.CustomKind? ==> st.customTypes >= 1
  {
    st.(totalTypes := st.totalTypes - 1,
        structTypes := st.structTypes - (if d.kind.StructKind? then 1 else 0),
        enumTypes := st.enumTypes - (if d.kind.EnumKind? then 1 else 0),
        customTypes := st.customTypes - (if d.kind.CustomKind? then 1 else 0))
  }

  lemma InsertKeepsAgreement(byId: map<nat, TypeDefinition>, byName: map<string, nat>, st: TypeRegistryStats, d: TypeDefinition)
    requires IndexesAgree(byId, byName) && CountsAgree(st, byId)
    requires d.id !in byId && d.name !in byName
    ensures IndexesAgree(byId[d.id := d], byName[d.name := d.id])
    ensures CountsAgree(Added(st, d), byId[d.id := d])
  {
    CountClassInsert(byId, d.id, d, StructClass);
    CountClassInsert(byId, d.id, d, EnumClass);
    CountClassInsert(byId, d.id, d, CustomClass);
  }

  lemma RemoveKeepsIndexes(byId: map<nat, TypeDefinition>, byName: map<string, nat>, cache: map<string, TypeDefinition>, id: nat)
    requires IndexesAgree(byId, byName) && CacheAgrees(cache, byId, byName)
    requires id in byId
    ensures IndexesAgree(byId - {id}, byName - {byId[id].name})
    ensures CacheAgrees(cache - {byId[id].name}, byId - {id}, byName - {byId[id].name})
  {
  }

  lemma RemoveKeepsCounts(byId: map<nat, TypeDefinition>, st: TypeRegistryStats, id: nat)
    requires CountsAgree(st, byId) && id in byId
    ensures st.totalTypes >= 1
    ensures byId[id].kind.StructKind? ==> st.structTypes >= 1
    ensures byId[id].kind.EnumKind? ==> st.enumTypes >= 1
    ensures byId[id].kind.CustomKind? ==> st.customTypes >= 1
    ensures CountsAgree(Removed(st, byId[id]), byId - {id})
  {
    CountClassRemove(byId, id, StructClass);
    CountClassRemove(byId, id, EnumClass);
    CountClassRemove(byId, id, CustomClass);
  }

  lemma UnregisterKeepsAgreement(byId: map<nat, TypeDefinition>, byName: map<string, nat>, cache: map<string, TypeDefinition>,
                                  cacheEnabled: bool, st: TypeRegistryStats, id: nat)
    requires Agrees(byId, byName, cache, cacheEnabled, st) && id in byId
    ensures st.totalTypes >= 1
    ensures byId[id].kind.StructKind? ==> st.structTypes >= 1
    ensures byId[id].kind.EnumKind? ==> st.enumTypes >= 1
    ensures byId[id].kind.CustomKind? ==> st.customTypes >= 1
    ensures Agrees(byId - {id}, byName - {byId[id].name}, if cacheEnabled then cache - {byId[id].name} else cache,
                   cacheEnabled, Removed(st, byId[id]))
  {
    RemoveKeepsIndexes(byId, byName, cache, id);
    RemoveKeepsCounts(byId, st, id);
  }

  lemma RegisterKeepsAgreement(byId: map<nat, TypeDefinition>, byName: map<string, nat>, cache: map<string, TypeDefinition>,
                                cacheEnabled: bool, st: TypeRegistryStats, d: TypeDefinition)
    requires Agrees(byId, byName, cache, cacheEnabled, st)
    requires d.id !in byId && d.name !in byName
    ensures Agrees(byId[d.id := d], byName[d.name := d.id], if cacheEnabled then map[] else cache, cacheEnabled, Added(st, d))
  {
    InsertKeepsAgreement(byId, byName, st, d);
  }

  lemma CacheInsertKeepsAgreement(cache: map<string, TypeDefinition>, byId: map<nat, TypeDefinition>, byName: map<string, nat>, n: string)
    requires CacheAgrees(cache, byId, byName) && n in byName && byName[n] in byId
    ensures CacheAgrees(cache[n := byId[byName[n]]], byId, byName)
  {
  }

  /** Every registered definition is found again under its own name. */
  ghost predicate Indexed(byId: map<nat, TypeDefinition>, byName: map<string, nat>)
  {
    forall id :: id in byId ==> byId[id].name in byName && byName[byId[id].name] == id
  }

  /**
   * Every cached name is in the name index, and a cached name whose index
   * entry still leads to a definition of that name caches that definition.
   */
  ghost predicate CacheCurrent(cache: map<string, TypeDefinition>, byId: map<nat, TypeDefinition>, byName: map<string, nat>)
  {
    forall n :: n in cache ==>
      n in byName && (byName[n] in byId && byId[byName[n]].name == n ==> cache[n] == byId[byName[n]])
  }

  /** The total and per-kind counters are at least what the table holds. */
  ghost predicate CountsCover(st: TypeRegistryStats, byId: map<nat, TypeDefinition>)
  {
    st.totalTypes >= |byId| &&
    st.structTypes >= CountClass(byId, StructClass) &&
    st.enumTypes >= CountClass(byId, EnumClass) &&
    st.customTypes >= CountClass(byId, CustomClass)
  }

  /** What registering and unregistering keep, whatever ids the definitions carry. */
  ghost predicate Consistent(byId: map<nat, TypeDefinition>, byName: map<string, nat>, cache: map<string, TypeDefinition>,
                             cacheEnabled: bool, st: TypeRegistryStats)
  {
    Indexed(byId, byName) && CacheCurrent(cache, byId, byName) &&
    (!cacheEnabled ==> cache == map[]) && CountsCover(st, byId)
  }

  lemma AgreesIsConsistent(byId: map<nat, TypeDefinition>, byName: map<string, nat>, cache: map<string, TypeDefinition>,
                           cacheEnabled: bool, st: TypeRegistryStats)
    requires Agrees(byId, byName, cache, cacheEnabled, st)
    ensures Consistent(byId, byName, cache, cacheEnabled, st)
  {
  }

  /** Storing a definition under an id, taken or not, raises the count of a kind by at most one. */
  lemma CountClassOverwrite(m: map<nat, TypeDefinition>, id: nat, d: TypeDefinition, c: KindClass)
    ensures CountClass(m[id := d], c) <= CountClass(m, c) + (if ClassOf(d.kind) == c then 1 else 0)
  {
    if id in m {
      CountClassRemove(m[id := d], id, c);
      CountClassRemove(m, id, c);
      assert m[id := d] - {id} == m - {id};
    } else {
      CountClassInsert(m, id, d, c);
    }
  }

  /**
   * The source's registration step (a new name, any id, the cache emptied,
   * the counters raised) keeps the weaker invariant.
   */
  lemma RegisterKeepsConsistency(byId: map<nat, TypeDefinition>, byName: map<string, nat>, cache: map<string, TypeDefinition>,
                                 cacheEnabled: bool, st: TypeRegistryStats, d: TypeDefinition)
    requires Consistent(byId, byName, cache, cacheEnabled, st)
    requires d.name !in byName
    ensures Consistent(byId[d.id := d], byName[d.name := d.id], if cacheEnabled then map[] else cache, cacheEnabled, Added(st, d))
  {
    RegisterKeepsIndexed(byId, byName, d);
    if !cacheEnabled {
      RegisterKeepsCacheCurrent(cache, byId, byName, d);
    }
    RegisterKeepsCountsCover(byId, st, d);
  }

  lemma RegisterKeepsIndexed(byId: map<nat, TypeDefinition>, byName: map<string, nat>, d: TypeDefinition)
    requires Indexed(byId, byName) && d.name !in byName
    ensures Indexed(byId[d.id := d], byName[d.name := d.id])
  {
  }

  lemma RegisterKeepsCacheCurrent(cache: map<string, TypeDefinition>, byId: map<nat, TypeDefinition>, byName: map<string, nat>,
                                  d: TypeDefinition)
    requires CacheCurrent(cache, byId, byName) && d.name !in byName
    ensures CacheCurrent(cache, byId[d.id := d], byName[d.name := d.id])
  {
  }

  lemma RegisterKeepsCountsCover(byId: map<nat, TypeDefinition>, st: TypeRegistryStats, d: TypeDefinition)
    requires CountsCover(st, byId)
    ensures CountsCover(Added(st, d), byId[d.id := d])
  {
    CountClassOverwrite(byId, d.id, d, StructClass);
    CountClassOverwrite(byId, d.id, d, EnumClass);
    CountClassOverwrite(byId, d.id, d, CustomClass);
  }

  /**
   * From an agreeing registry, the source's registration step keeps the
   * agreement exactly when the id is new: a taken id leaves the name of
   * the overwritten definition leading to a definition of another name.
   */
  lemma RegisterAgreesIffFresh(byId: map<nat, TypeDefinition>, byName: map<string, nat>, cache: map<string, TypeDefinition>,
                               cacheEnabled: bool, st: TypeRegistryStats, d: TypeDefinition)
    requires Agrees(byId, byName, cache, cacheEnabled, st)
    requires d.name !in byName
    ensures Agrees(byId[d.id := d], byName[d.name := d.id], if cacheEnabled then map[] else cache, cacheEnabled, Added(st, d))
        <==> d.id !in byId
  {
    if d.id in byId {
      var o := byId[d.id];
      assert o.name in byName && byName[o.name] == d.id;
      var nm := byName[d.name := d.id];
      assert o.name in nm && nm[o.name] == d.id && byId[d.id := d][d.id].name != o.name;
    } else {
      RegisterKeepsAgreement(byId, byName, cache, cacheEnabled, st, d);
    }
  }

  /** Unregistering a registered id keeps the weaker invariant, and its counters can go down. */
  lemma UnregisterKeepsConsistency(byId: map<nat, TypeDefinition>, byName: map<string, nat>, cache: map<string, TypeDefinition>,
                                   cacheEnabled: bool, st: TypeRegistryStats, id: nat)
    requires Consistent(byId, byName, cache, cacheEnabled, st) && id in byId
    ensures st.totalTypes >= 1
    ensures byId[id].kind.StructKind? ==> st.structTypes >= 1
    ensures byId[id].kind.EnumKind? ==> st.enumTypes >= 1
    ensures byId[id].kind.CustomKind? ==> st.customTypes >= 1
    ensures Consistent(byId - {id}, byName - {byId[id].name}, if cacheEnabled then cache - {byId[id].name} else cache,
                       cacheEnabled, Removed(st, byId[id]))
  {
    CountClassRemove(byId, id, StructClass);
    CountClassRemove(byId, id, EnumClass);
    CountClassRemove(byId, id, CustomClass);
  }

  class TypeRegistry {
    const config: TypeRegistryConfig
    var typesById: map<nat, TypeDefinition>
    var typesByName: map<string, nat>
    var typeCache: map<string, TypeDefinition>
    var stats: TypeRegistryStats

    /**
     * What the registry keeps whatever definitions it is given: every
     * registered definition is found again under its own name, a cached
     * entry of a name whose index is current is that name's definition,
     * the cache stays empty when disabled, and the counters are at least
     * what the table holds.
     */
    ghost predicate Valid()
      reads this
    {
      Consistent(typesById, typesByName, typeCache, config.enableCache, stats)
    }

    /**
     * The stronger invariant that holds while every registration brought a
     * new id: the indexes are inverse, the cache is exact and the counters
     * equal the table's.
     */
    ghost predicate Agreeing()
      reads this
    {
      Agrees(typesById, typesByName, typeCache, config.enableCache, stats)
    }

    /**
     * `new`: registers the 18 primitives without validation. `ids` are the
     * fresh UUIDs the source draws, one per primitive, all different.
     */
    constructor (config: TypeRegistryConfig, ids: seq<nat>)
      requires |ids| == |BUILTIN_PRIMITIVES|
      requires forall i, j :: 0 <= i < j < |ids| ==> ids[i] != ids[j]
      ensures this.config == config && Valid() && Agreeing()
      ensures Inserted(typesById, BuiltinDefinitions(ids), |ids|)
      ensures stats == TypeRegistryStats(|BUILTIN_PRIMITIVES|, |BUILTIN_PRIMITIVES|, 0, 0, 0, 0, 0, 0, 0)
      ensures typeCache == map[]
    {
      var defs := BuiltinDefinitions(ids);
      BuiltinDefinitionsDistinct(ids);
      var byId: map<nat, TypeDefinition> := map[];
      var byName: map<string, nat> := map[];
      var st := TypeRegistryStats(0, 0, 0, 0, 0, 0, 0, 0, 0);
      for i := 0 to |defs|
        invariant IndexesAgree(byId, byName) && CountsAgree(st, byId)
        invariant st == TypeRegistryStats(i, 0, 0, 0, 0, 0, 0, 0, 0)
        invariant Inserted(byId, defs, i) && NotYetInserted(byId, byName, defs, i)
      {
        var def := defs[i];
        InsertKeepsAgreement(byId, byName, st, def);
        InsertNext(byId, byName, defs, i);
        byId := byId[def.id := def];
        byName := byName[def.name := def.id];
        st := Added(st, def);
      }
      AgreesIsConsistent(byId, byName, map[], config.enableCache, st.(primitiveTypes := |BUILTIN_PRIMITIVES|));
      this.config := config;
      typesById := byId;
      typesByName := byName;
      typeCache := map[];
      stats := st.(primitiveTypes := |BUILTIN_PRIMITIVES|);
    }

    /**
     * `register_type`: refuses when the table is full, when validation is on
     * and fails, or when the name is taken; otherwise stores the definition
     * under its id (replacing whatever that id held) and its name, raises
     * the counters of its kind and empties the cache. The agreement of the
     * indexes and counters survives exactly when the id was new.
     */
    method RegisterType(def: TypeDefinition, regexError: string -> Option<string>) returns (r: CoreResult<nat>)
      requires Valid()
      modifies this
      ensures Valid()
      ensures |old(typesById)| >= config.maxTypes ==>
        r == Err(ResourceExhausted("Maximum number of types reached")) && unchanged(this)
      ensures |old(typesById)| < config.maxTypes && config.enableValidation && Validate(def, regexError).Err? ==>
        r == Err(Validate(def, regexError).error) && unchanged(this)
      ensures r.Ok? <==>
        |old(typesById)| < config.maxTypes &&
        (config.enableValidation ==> Validate(def, regexError).Ok?) &&
        def.name !in old(typesByName)
      ensures (|old(typesById)| < config.maxTypes && (config.enableValidation ==> Validate(def, regexError).Ok?) &&
               def.name in old(typesByName)) ==> r == Err(AlreadyExists("Type name: " + def.name))
      ensures r.Ok? ==> (r.value == def.id &&
        typesById == old(typesById)[def.id := def] && typesByName == old(typesByName)[def.name := def.id] &&
        (config.enableCache ==> typeCache == map[]) &&
        stats.totalTypes == old(stats.totalTypes) + 1 &&
        stats.structTypes == old(stats.structTypes) + (if def.kind.StructKind? then 1 else 0) &&
        stats.enumTypes == old(stats.enumTypes) + (if def.kind.EnumKind? then 1 else 0) &&
        stats.customTypes == old(stats.customTypes) + (if def.kind.CustomKind? then 1 else 0))
      ensures r.Ok? ==>
        RegisterAsWritten(Snapshot(old(typesById), old(typesByName), old(stats.totalTypes)), def) ==
        Ok(Snapshot(typesById, typesByName, stats.totalTypes))
      ensures r.Ok? && old(Agreeing()) ==> (Agreeing() <==> def.id !in old(typesById))
      ensures r.Err? ==> typesById == old(typesById) && typesByName == old(typesByName) && typeCache == old(typeCache)
      ensures r.Err? ==> (Agreeing() <==> old(Agreeing()))
      ensures stats.validationSuccesses ==
        old(stats.validationSuccesses) + (if |old(typesById)| < config.maxTypes && config.enableValidation && Validate(def, regexError).Ok? then 1 else 0)
      ensures stats.validationFailures == old(stats.validationFailures)
      ensures stats.cacheHits == old(stats.cacheHits) && stats.cacheMisses == old(stats.cacheMisses)
      ensures stats.primitiveTypes == old(stats.primitiveTypes)
    {
      if |typesById| >= config.maxTypes {
        return Err(ResourceExhausted("Maximum number of types reached"));
      }
      if config.enableValidation {
        var v := Validate(def, regexError);
        if v.Err? {
          return Err(v.error);
        }
        CountValidation();
      }
      if def.name in typesByName {
        return Err(AlreadyExists("Type name: " + def.name));
      }
      Store(def);
      r := Ok(def.id);
    }

    /** Counts one successful validation; nothing else changes. */
    method CountValidation()
      requires Valid()
      modifies this
      ensures Valid() && (Agreeing() <==> old(Agreeing()))
      ensures typesById == old(typesById) && typesByName == old(typesByName) && typeCache == old(typeCache)
      ensures stats == old(stats).(validationSuccesses := old(stats.validationSuccesses) + 1)
    {
      stats := stats.(validationSuccesses := stats.validationSuccesses + 1);
    }

    /** The insertion step of `register_type`, once its checks have passed. */
    method Store(def: TypeDefinition)
      requires Valid() && def.name !in typesByName
      modifies this
      ensures Valid()
      ensures typesById == old(typesById)[def.id := def] && typesByName == old(typesByName)[def.name := def.id]
      ensures typeCache == (if config.enableCache then map[] else old(typeCache)) && stats == Added(old(stats), def)
      ensures RegisterAsWritten(Snapshot(old(typesById), old(typesByName), old(stats.totalTypes)), def) ==
              Ok(Snapshot(typesById, typesByName, stats.totalTypes))
      ensures old(Agreeing()) ==> (Agreeing() <==> def.id !in old(typesById))
    {
      var byId, byName, cache, st := typesById, typesByName, typeCache, stats;
      RegisterAsWrittenFreshName(Snapshot(byId, byName, st.totalTypes), def);
      RegisterKeepsConsistency(byId, byName, cache, config.enableCache, st, def);
      if Agrees(byId, byName, cache, config.enableCache, st) {
        RegisterAgreesIffFresh(byId, byName, cache, config.enableCache, st, def);
      }
      typesById, typesByName := byId[def.id := def], byName[def.name := def.id];
      typeCache, stats := if config.enableCache then map[] else cache, Added(st, def);
    }

    /**
     * The corrected registration: an id that is already registered is
     * refused before anything else, so the agreement is never lost.
     */
    method RegisterFreshType(def: TypeDefinition, regexError: string -> Option<string>) returns (r: CoreResult<nat>)
      requires Valid()
      modifies this
      ensures Valid()
      ensures def.id in old(typesById) ==> r == Err(AlreadyExists("Type ID: " + NatToString(def.id))) && unchanged(this)
      ensures r.Ok? <==>
        def.id !in old(typesById) && |old(typesById)| < config.maxTypes &&
        (config.enableValidation ==> Validate(def, regexError).Ok?) &&
        def.name !in old(typesByName)
      ensures r.Ok? ==>
        r.value == def.id && typesById == old(typesById)[def.id := def] && typesByName == old(typesByName)[def.name := def.id]
      ensures r.Err? ==> typesById == old(typesById) && typesByName == old(typesByName) && typeCache == old(typeCache)
      ensures old(Agreeing()) ==> Agreeing()
    {
      if def.id in typesById {
        return Err(AlreadyExists("Type ID: " + NatToString(def.id)));
      }
      r := RegisterType(def, regexError);
    }

    function GetTypeById(id: nat): (r: Option<TypeDefinition>)
      reads this
      ensures r.Some? <==> id in typesById
      ensures r.Some? ==> r.value == typesById[id]
    {
      if id in typesById then Some(typesById[id]) else None
    }

    /** Where the name index leads, when it leads to a stored definition. */
    function Resolve(name: string): Option<TypeDefinition>
      reads this
    {
      if name in typesByName && typesByName[name] in typesById then Some(typesById[typesByName[name]]) else None
    }

    /**
     * `get_type_by_name`: a cached entry is a hit; otherwise (with the cache
     * on) a miss, then the two index lookups, whose result is cached. A
     * registered definition is always returned for its own name; while the
     * registry agrees, the answer is none exactly for an unknown name.
     */
    method GetTypeByName(name: string) returns (r: Option<TypeDefinition>)
      requires Valid()
      modifies this
      ensures Valid()
      ensures typesById == old(typesById) && typesByName == old(typesByName)
      ensures forall id :: id in typesById && typesById[id].name == name ==> r == Some(typesById[id])
      ensures old(Agreeing()) ==> Agreeing() && (r.Some? <==> name in typesByName) && (r.Some? ==> r.value.name == name)
      ensures config.enableCache && name in old(typeCache) ==>
        r == Some(old(typeCache)[name]) &&
        stats == old(stats).(cacheHits := old(stats.cacheHits) + 1) && typeCache == old(typeCache)
      ensures !(config.enableCache && name in old(typeCache)) ==> r == Resolve(name)
      ensures config.enableCache && name !in old(typeCache) ==>
        stats == old(stats).(cacheMisses := old(stats.cacheMisses) + 1) &&
        typeCache == (if r.Some? then old(typeCache)[name := r.value] else old(typeCache))
      ensures !config.enableCache ==> stats == old(stats) && typeCache == old(typeCache)
    {
      if config.enableCache {
        if name in typeCache {
          stats := stats.(cacheHits := stats.cacheHits + 1);
          return Some(typeCache[name]);
        }
        stats := stats.(cacheMisses := stats.cacheMisses + 1);
      }
      if name !in typesByName || typesByName[name] !in typesById {
        return None;
      }
      var def := typesById[typesByName[name]];
      if config.enableCache {
        if Agrees(typesById, typesByName, typeCache, config.enableCache, stats) {
          CacheInsertKeepsAgreement(typeCache, typesById, typesByName, name);
        }
        typeCache := typeCache[name := def];
      }
      r := Some(def);
    }

    /**
     * `unregister_type`: an unknown id is NotFound; a type that some
     * registered type depends on is refused; otherwise the type leaves the
     * id index, its name leaves the name index and the cache, and the
     * counters of its kind go down by one.
     */
    method UnregisterType(id: nat) returns (r: CoreResult<()>)
      requires Valid()
      modifies this
      ensures Valid()
      ensures old(Agreeing()) ==> Agreeing()
      ensures id !in old(typesById) ==> r == Err(NotFound("Type ID: " + NatToString(id))) && unchanged(this)
      ensures id in old(typesById) ==> (r.Ok? <==> !HasDependent(old(typesById), old(typesById)[id].name))
      ensures id in old(typesById) && r.Err? ==> r.error.Validation? && unchanged(this)
      ensures r.Ok? ==> (id in old(typesById) &&
        var d := old(typesById)[id];
        typesById == old(typesById) - {id} && typesByName == old(typesByName) - {d.name} &&
        typeCache == (if config.enableCache then old(typeCache) - {d.name} else old(typeCache)) &&
        stats.totalTypes == old(stats.totalTypes) - 1 &&
        stats.structTypes == old(stats.structTypes) - (if d.kind.StructKind? then 1 else 0) &&
        stats.enumTypes == old(stats.enumTypes) - (if d.kind.EnumKind? then 1 else 0) &&
        stats.customTypes == old(stats.customTypes) - (if d.kind.CustomKind? then 1 else 0) &&
        stats.primitiveTypes == old(stats.primitiveTypes) &&
        stats.cacheHits == old(stats.cacheHits) && stats.cacheMisses == old(stats.cacheMisses) &&
        stats.validationSuccesses == old(stats.validationSuccesses) && stats.validationFailures == old(stats.validationFailures))
    {
      if id !in typesById {
        return Err(NotFound("Type ID: " + NatToString(id)));
      }
      var def := typesById[id];
      if HasDependent(typesById, def.name) {
        var other :| other in typesById && DependsOn(typesById[other], def.name);
        return Err(Validation("Cannot unregister type '" + def.name + "': it is used by type '" + typesById[other].name + "'"));
      }
      Drop(id);
      r := Ok(());
    }

    /** The removal step of `unregister_type`, once its checks have passed. */
    method Drop(id: nat)
      requires Valid() && id in typesById
      modifies this
      ensures Valid() && (old(Agreeing()) ==> Agreeing())
      ensures var d := old(typesById)[id];
        typesById == old(typesById) - {id} && typesByName == old(typesByName) - {d.name} &&
        typeCache == (if config.enableCache then old(typeCache) - {d.name} else old(typeCache)) &&
        old(stats.totalTypes) >= 1 && stats.totalTypes == old(stats.totalTypes) - 1 &&
        stats == old(stats).(totalTypes := stats.totalTypes, structTypes := stats.structTypes,
                             enumTypes := stats.enumTypes, customTypes := stats.customTypes) &&
        stats.structTypes == old(stats.structTypes) - (if d.kind.StructKind? then 1 else 0) &&
        stats.enumTypes == old(stats.enumTypes) - (if d.kind.EnumKind? then 1 else 0) &&
        stats.customTypes == old(stats.customTypes) - (if d.kind.CustomKind? then 1 else 0)
    {
      var def := typesById[id];
      UnregisterKeepsConsistency(typesById, typesByName, typeCache, config.enableCache, stats, id);
      if Agrees(typesById, typesByName, typeCache, config.enableCache, stats) {
        UnregisterKeepsAgreement(typesById, typesByName, typeCache, config.enableCache, stats, id);
      }
      var newCache := if config.enableCache then typeCache - {def.name} else typeCache;
      typesById, typesByName, typeCache, stats := typesById - {id}, typesByName - {def.name}, newCache, Removed(stats, def);
    }

    /** `type_count`: the size of the id table, never above the total counter and equal to it while the registry agrees. */
    function TypeCount(): (n: nat)
      reads this
      requires Valid()
      ensures n <= stats.totalTypes
      ensures Agreeing() ==> n == stats.totalTypes
    {
      |typesById|
    }

    /** The registered definitions; the source lists them in hash order, kept here as a set. */
    function ListTypes(): set<TypeDefinition>
      reads this
    {
      typesById.Values
    }

    /**
     * The keys of the name index: the name of every listed definition, and
     * while the registry agrees, no other name.
     */
    function ListTypeNames(): (r: set<string>)
      reads this
      requires Valid()
      ensures forall d :: d in ListTypes() ==> d.name in r
      ensures Agreeing() ==> forall n :: n in r <==> exists d :: d in ListTypes() && d.name == n
    {
      typesByName.Keys
    }

    /**
     * `has_type`, read from the name index: true for the name of every
     * listed definition, and while the registry agrees, for no other name.
     */
    function HasType(name: string): (b: bool)
      reads this
      requires Valid()
      ensures (exists d :: d in ListTypes() && d.name == name) ==> b
      ensures Agreeing() ==> (b <==> exists d :: d in ListTypes() && d.name == name)
    {
      name in typesByName
    }

    /** `list_types_by_kind`: definitions with the same variant of kind (payloads ignored). */
    function ListTypesByKind(kind: TypeKind): (r: set<TypeDefinition>)
      reads this
      ensures forall d :: d in r <==> d in typesById.Values && SameVariant(d.kind, kind)
    {
      set d | d in typesById.Values && SameVariant(d.kind, kind)
    }

    /** `search_types`: names or descriptions containing the query, compared in lower case (ASCII only here). */
    function SearchTypes(query: string): (r: set<TypeDefinition>)
      reads this
      ensures forall d :: d in r <==> d in typesById.Values && Matches(d, ToLower(query))
    {
      set d | d in typesById.Values && Matches(d, ToLower(query))
    }

    method ClearCache()
      requires Valid()
      modifies this
      ensures Valid()
      ensures old(Agreeing()) ==> Agreeing()
      ensures typesById == old(typesById) && typesByName == old(typesByName) && stats == old(stats)
      ensures config.enableCache ==> typeCache == map[]
      ensures !config.enableCache ==> typeCache == old(typeCache)
    {
      if config.enableCache {
        typeCache := map[];
      }
    }
  }

  predicate SameVariant(a: TypeKind, b: TypeKind)
  {
    (a.Primitive? && b.Primitive?) || (a.StructKind? && b.StructKind?) || (a.EnumKind? && b.EnumKind?) ||
    (a.UnionKind? && b.UnionKind?) || (a.ArrayKind? && b.ArrayKind?) || (a.MapKind? && b.MapKind?) ||
    (a.OptionalKind? && b.OptionalKind?) || (a.Reference? && b.Reference?) ||
    (a.FunctionKind? && b.FunctionKind?) || (a.CustomKind? && b.CustomKind?)
  }

  predicate Matches(d: TypeDefinition, lowerQuery: string)
  {
    Contains(ToLower(d.name), lowerQuery) ||
    (d.description.Some? && Contains(ToLower(d.description.value), lowerQuery))
  }

  /** The registry's indexes and total, as `register_type` in the source updates them. */
  datatype Snapshot = Snapshot(byId: map<nat, TypeDefinition>, byName: map<string, nat>, totalTypes: nat)

  /** The source's insertion step, which checks the name but not the id. */
  function RegisterAsWritten(s: Snapshot, def: TypeDefinition): (r: Result<Snapshot, Error>)
    ensures def.name in s.byName ==> r.Err?
    ensures r.Ok? ==> r.value.totalTypes == s.totalTypes + 1 && def.id in r.value.byId && r.value.byId[def.id] == def
  {
    if def.name in s.byName then Err(AlreadyExists("Type name: " + def.name))
    else Ok(Snapshot(s.byId[def.id := def], s.byName[def.name := def.id], s.totalTypes + 1))
  }

  /** With a free name the source's step stores the definition under its id and name and counts it. */
  lemma RegisterAsWrittenFreshName(s: Snapshot, def: TypeDefinition)
    requires def.name !in s.byName
    ensures RegisterAsWritten(s, def) == Ok(Snapshot(s.byId[def.id := def], s.byName[def.name := def.id], s.totalTypes + 1))
  {
  }

  /**
   * Registering a second definition with an existing id but a new name
   * overwrites the first: the count says two types while the table holds
   * one, and the first name now leads to a definition of another name.
   */
  lemma RegisterAsWrittenDuplicateId()
    ensures var a := NewDefinition(7, "A", StructKind);
            var b := NewDefinition(7, "B", StructKind);
            var s1 := RegisterAsWritten(Snapshot(map[], map[], 0), a);
            s1.Ok? && RegisterAsWritten(s1.value, b).Ok? &&
            var s2 := RegisterAsWritten(s1.value, b).value;
            s2.totalTypes == 2 && |s2.byId| == 1 && s2.byId[s2.byName["A"]].name == "B"
  {
    var a := NewDefinition(7, "A", StructKind);
    var b := NewDefinition(7, "B", StructKind);
    var s1 := RegisterAsWritten(Snapshot(map[], map[], 0), a);
    assert "B" !in s1.value.byName;
    var s2 := RegisterAsWritten(s1.value, b).value;
    assert s2.byId == map[7 := b];
  }
}

=== FILE: dafny/types_wasm_types.dfy ===
// The fdc-types bridge between core values and WASM values, which keeps
// only the scalar and string variants.
module TypesWasmTypes {
  import opened Wrappers
  import opened CoreError
  import CV = CoreValue
  import W = WasmTypes

  /** Values that this bridge carries across: Bool, Int32, Int64, the two floats and String. */
  predicate Carried(v: CV.Value)
  {
    v.Bool? || v.Int32? || v.Int64? || v.Float32? || v.Float64? || v.Str?
  }

  /** `to_wasm_value`: carried variants map across, every other value becomes WASM Null. It never fails. */
  function ToWasmValue(value: CV.Value): (r: CoreResult<W.WasmValue>)
    ensures r.Ok?
    ensures !Carried(value) ==> r.value == W.Null
  {
    match value
    case Bool(b) => Ok(W.Bool(b))
    case Int32(i) => Ok(W.I32(i))
    case Int64(i) => Ok(W.I64(i))
    case Float32(f) => Ok(W.F32(f))
    case Float64(f) => Ok(W.F64(f))
    case Str(s) => Ok(W.Str(s))
    case _ => Ok(W.Null)
  }

  /** `from_wasm_value`: the inverse on carried variants; Null, Bytes, Array and Object become core Null. */
  function FromWasmValue(w: W.WasmValue): (r: CoreResult<CV.Value>)
    ensures r.Ok?
    ensures r.value.Null? || Carried(r.value)
    ensures (w.Null? || w.Bytes? || w.Array? || w.Object?) ==> r.value == CV.Null
  {
    match w
    case Bool(b) => Ok(CV.Bool(b))
    case I32(i) => Ok(CV.Int32(i))
    case I64(i) => Ok(CV.Int64(i))
    case F32(f) => Ok(CV.Float32(f))
    case F64(f) => Ok(CV.Float64(f))
    case Str(s) => Ok(CV.Str(s))
    case _ => Ok(CV.Null)
  }

  /** A carried value survives the round trip; any other value comes back as Null. */
  lemma RoundTrip(value: CV.Value)
    ensures FromWasmValue(ToWasmValue(value).value).value == if Carried(value) then value else CV.Null
  {
  }
}

=== FILE: dafny/wasm_bridge.dfy ===
// The host-function bridge: functions the host offers to plugins, keyed by
// name, each with call statistics that the bridge keeps alongside.
module WasmBridge {
  import opened Wrappers
  import opened CoreError
  import opened WasmTypes
  import opened WasmPlugins

  /**
   * A host function as `SimpleHostFunction` implements it: a name, a
   * signature, an optional description and a handler. Other implementations
   * of the host-function interface are not part of this model.
   */
  datatype HostFunction = HostFunction(
    name: string,
    signature: WasmFunctionSignature,
    description: Option<string>,
    handler: seq<WasmValue> -> CoreResult<WasmValue>)

  /** The bridge's per-function statistics have the same fields and update rule as a plugin's. */
  type FunctionCallStats = PluginStats

  /**
   * Checks the arguments against the signature before running the handler,
   * and the handler's value against the output type after it: a successful
   * call always returns a value of the declared output type.
   */
  function CallHost(f: HostFunction, args: seq<WasmValue>): (r: CoreResult<WasmValue>)
    ensures ValidateArgs(f.signature, args).Err? ==> r == Err(ValidateArgs(f.signature, args).error)
    ensures ValidateArgs(f.signature, args).Ok? && f.handler(args).Err? ==> r == f.handler(args)
    ensures ValidateArgs(f.signature, args).Ok? && f.handler(args).Ok? ==>
              r == (if ValidateReturn(f.signature, f.handler(args).value).Ok? then f.handler(args)
                    else Err(ValidateReturn(f.signature, f.handler(args).value).error))
    ensures r.Ok? ==> r == f.handler(args) && ValueType(r.value) == f.signature.outputType
    ensures r.Ok? ==> |args| == |f.signature.inputTypes|
                      && forall i :: 0 <= i < |args| ==> ValueType(args[i]) == f.signature.inputTypes[i]
  {
    var checked := ValidateArgs(f.signature, args);
    if checked.Err? then Err(checked.error)
    else
      var result := f.handler(args);
      if result.Err? then result
      else
        var returned := ValidateReturn(f.signature, result.value);
        if returned.Err? then Err(returned.error) else result
  }

  /** Overwrites every entry with zeroed statistics, one entry at a time. */
  method ZeroAll(stats: map<string, FunctionCallStats>) returns (zeroed: map<string, FunctionCallStats>)
    ensures zeroed.Keys == stats.Keys
    ensures forall n :: n in zeroed ==> zeroed[n] == ZERO_PLUGIN_STATS
  {
    var pending := stats.Keys;
    zeroed := stats;
    while pending != {}
      invariant zeroed.Keys == stats.Keys && pending <= zeroed.Keys
      invariant forall n :: n in zeroed && n !in pending ==> zeroed[n] == ZERO_PLUGIN_STATS
      decreases |pending|
    {
      var n :| n in pending;
      zeroed := zeroed[n := ZERO_PLUGIN_STATS];
      pending := pending - {n};
    }
  }

  function HostNotFound(name: string): Error
  {
    NotFound("Host function: " + name)
  }

  class Bridge {
    var functions: map<string, HostFunction>
    var stats: map<string, FunctionCallStats>

    /** Every registered function has statistics and only those do; each is stored under its own name; all counts balance. */
    predicate Valid()
      reads this
    {
      functions.Keys == stats.Keys
      && (forall n :: n in functions ==> functions[n].name == n)
      && (forall n :: n in stats ==> StatsBalanced(stats[n]))
    }

    constructor()
      ensures Valid() && functions == map[] && stats == map[]
    {
      functions := map[];
      stats := map[];
    }

    /** Adds a function under its name with zeroed statistics; a taken name is refused. */
    method RegisterHostFunction(f: HostFunction) returns (r: CoreResult<()>)
      requires Valid()
      modifies this
      ensures Valid()
      ensures f.name in old(functions) ==>
                r == Err(AlreadyExists("Host function: " + f.name)) && functions == old(functions) && stats == old(stats)
      ensures f.name !in old(functions) ==>
                r.Ok? && functions == old(functions)[f.name := f] && stats == old(stats)[f.name := ZERO_PLUGIN_STATS]
    {
      if f.name in functions {
        return Err(AlreadyExists("Host function: " + f.name));
      }
      functions, stats := functions[f.name := f], stats[f.name := ZERO_PLUGIN_STATS];
      r := Ok(());
    }

    /** Removes a function together with its statistics; an unknown name is not found. */
    method UnregisterHostFunction(name: string) returns (r: CoreResult<()>)
      requires Valid()
      modifies this
      ensures Valid()
      ensures name !in old(functions) ==> r == Err(HostNotFound(name)) && functions == old(functions) && stats == old(stats)
      ensures name in old(functions) ==> r.Ok? && functions == old(functions) - {name} && stats == old(stats) - {name}
    {
      if name !in functions {
        return Err(HostNotFound(name));
      }
      functions, stats := functions - {name}, stats - {name};
      r := Ok(());
    }

    /**
     * Calls a registered function and counts the call, as a success or as a
     * failure carrying the error's text; an unknown name is not found and
     * counted nowhere.
     */
    method CallHostFunction(name: string, args: seq<WasmValue>, elapsedMs: nat) returns (r: CoreResult<WasmValue>)
      requires Valid()
      modifies this
      ensures Valid()
      ensures functions == old(functions)
      ensures name !in old(functions) ==> r == Err(HostNotFound(name)) && stats == old(stats)
      ensures name in old(functions) ==>
                r == CallHost(functions[name], args)
                && stats == old(stats)[name := RecordCall(old(stats)[name], elapsedMs, r.Ok?,
                                                          if r.Err? then Some(ToString(r.error)) else None)]
      ensures name in old(functions) ==> stats[name].callCount == old(stats)[name].callCount + 1
    {
      if name !in functions {
        return Err(HostNotFound(name));
      }
      r := CallHost(functions[name], args);
      var error := if r.Err? then Some(ToString(r.error)) else None;
      stats := stats[name := RecordCall(stats[name], elapsedMs, r.Ok?, error)];
    }

    /** The registered names (the source returns them in hash order, which is not modelled). */
    function ListHostFunctions(): (names: set<string>)
      reads this
      ensures forall n :: n in names <==> HasFunction(n)
      ensures |names| == FunctionCount()
    {
      functions.Keys
    }

    /** The signature of a registered function; none exactly for an unknown name. */
    function GetFunctionSignature(name: string): (r: Option<WasmFunctionSignature>)
      reads this
      ensures r.Some? <==> HasFunction(name)
      ensures r.Some? ==> r.value == functions[name].signature
    {
      if name in functions then Some(functions[name].signature) else None
    }

    /** A registered function's description, if it has one; an unknown name has none. */
    function GetFunctionDescription(name: string): (r: Option<string>)
      reads this
      ensures !HasFunction(name) ==> r == None
      ensures HasFunction(name) ==> r == functions[name].description
    {
      if name in functions then functions[name].description else None
    }

    /** A function's call statistics: present exactly for registered functions, and balanced. */
    function GetFunctionStats(name: string): (r: Option<FunctionCallStats>)
      reads this
      ensures Valid() ==> (r.Some? <==> HasFunction(name))
      ensures Valid() && r.Some? ==> StatsBalanced(r.value)
    {
      if name in stats then Some(stats[name]) else None
    }

    /** Zeroes one function's statistics; an unknown name is not found. */
    method ResetFunctionStats(name: string) returns (r: CoreResult<()>)
      requires Valid()
      modifies this
      ensures Valid()
      ensures functions == old(functions)
      ensures name !in old(stats) ==> r == Err(HostNotFound(name)) && stats == old(stats)
      ensures name in old(stats) ==> r.Ok? && stats == old(stats)[name := ZERO_PLUGIN_STATS]
    {
      if name in stats {
        stats := stats[name := ZERO_PLUGIN_STATS];
        r := Ok(());
      } else {
        r := Err(HostNotFound(name));
      }
    }

    /** Zeroes every function's statistics. */
    method ResetAllStats()
      requires Valid()
      modifies this
      ensures Valid()
      ensures functions == old(functions) && stats.Keys == old(stats).Keys
      ensures forall n :: n in stats ==> stats[n] == ZERO_PLUGIN_STATS
    {
      var zeroed := ZeroAll(stats);
      stats := zeroed;
    }

    predicate HasFunction(name: string)
      reads this
      ensures Valid() ==> (HasFunction(name) <==> name in stats)
    {
      name in functions
    }

    function FunctionCount(): (n: nat)
      reads this
      ensures Valid() ==> n == |stats|
      ensures n == 0 <==> functions == map[]
    {
      |functions|
    }
  }
}

=== FILE: dafny/wasm_events.dfy ===
// Events the WASM runtime announces, their classifiers, and the listener
// that turns them into metrics. Timestamps and the console and file
// listeners' output are not part of this model.
module WasmEvents {
  import opened Wrappers
  import opened WasmMetricsCollector

  datatype WasmEvent =
    | ModuleLoaded(moduleName: string, moduleSize: nat)
    | ModuleUnloaded(moduleName: string)
    | FunctionCallStarted(moduleName: string, functionName: string, argsCount: nat)
    | FunctionCallCompleted(moduleName: string, functionName: string, executionTimeMs: nat, success: bool)
    | MemoryLimitExceeded(moduleName: string, currentUsage: nat, limit: nat)
    | ExecutionTimeout(moduleName: string, functionName: string, timeoutMs: nat)
    | SecurityViolation(moduleName: string, violationType: string, details: string)
    | PluginHotReloaded(pluginName: string, oldVersion: string, newVersion: string)
    | PluginError(pluginName: string, errorMessage: string)

  function EventType(e: WasmEvent): string
  {
    match e
    case ModuleLoaded(_, _) => "module_loaded"
    case ModuleUnloaded(_) => "module_unloaded"
    case FunctionCallStarted(_, _, _) => "function_call_started"
    case FunctionCallCompleted(_, _, _, _) => "function_call_completed"
    case MemoryLimitExceeded(_, _, _) => "memory_limit_exceeded"
    case ExecutionTimeout(_, _, _) => "execution_timeout"
    case SecurityViolation(_, _, _) => "security_violation"
    case PluginHotReloaded(_, _, _) => "plugin_hot_reloaded"
    case PluginError(_, _) => "plugin_error"
  }

  /** The position of the event's variant in the declaration. */
  function VariantIndex(e: WasmEvent): nat
  {
    match e
    case ModuleLoaded(_, _) => 0
    case ModuleUnloaded(_) => 1
    case FunctionCallStarted(_, _, _) => 2
    case FunctionCallCompleted(_, _, _, _) => 3
    case MemoryLimitExceeded(_, _, _) => 4
    case ExecutionTimeout(_, _, _) => 5
    case SecurityViolation(_, _, _) => 6
    case PluginHotReloaded(_, _, _) => 7
    case PluginError(_, _) => 8
  }

  /** The variant a type name stands for, if any. */
  function VariantOfType(eventType: string): Option<nat>
  {
    if eventType == "module_loaded" then Some(0)
    else if eventType == "module_unloaded" then Some(1)
    else if eventType == "function_call_started" then Some(2)
    else if eventType == "function_call_completed" then Some(3)
    else if eventType == "memory_limit_exceeded" then Some(4)
    else if eventType == "execution_timeout" then Some(5)
    else if eventType == "security_violation" then Some(6)
    else if eventType == "plugin_hot_reloaded" then Some(7)
    else if eventType == "plugin_error" then Some(8)
    else None
  }

  /** Each variant's type name leads back to that variant. */
  lemma EventTypeRoundTrip(e: WasmEvent)
    ensures VariantOfType(EventType(e)) == Some(VariantIndex(e))
  {
    var t := EventType(e);
    if e.MemoryLimitExceeded? {
      assert t[0] == 'm' && t[1] == 'e';
    } else if e.FunctionCallStarted? {
      assert t[0] == 'f';
    }
  }

  /** So two events have the same type name exactly when they are of the same variant. */
  lemma EventTypeNamesVariant(a: WasmEvent, b: WasmEvent)
    ensures EventType(a) == EventType(b) <==> VariantIndex(a) == VariantIndex(b)
  {
    EventTypeRoundTrip(a);
    EventTypeRoundTrip(b);
    if VariantIndex(a) == VariantIndex(b) {
      assert a.ModuleLoaded? <==> b.ModuleLoaded?;
    }
  }

  /** The name the event concerns: the module's, or the plugin's for plugin events; never absent. */
  function ModuleName(e: WasmEvent): (r: Option<string>)
    ensures r.Some?
    ensures (e.PluginHotReloaded? || e.PluginError?) ==> r.value == e.pluginName
    ensures !(e.PluginHotReloaded? || e.PluginError?) ==> r.value == e.moduleName
  {
    match e
    case PluginHotReloaded(pluginName, _, _) => Some(pluginName)
    case PluginError(pluginName, _) => Some(pluginName)
    case _ => Some(e.moduleName)
  }

  predicate IsError(e: WasmEvent)
  {
    e.MemoryLimitExceeded? || e.ExecutionTimeout? || e.SecurityViolation? || e.PluginError?
  }

  predicate IsPerformanceRelated(e: WasmEvent)
  {
    e.FunctionCallCompleted? || e.MemoryLimitExceeded? || e.ExecutionTimeout?
  }

  /**
   * The error events are the failures the runtime reports: four variants,
   * of which exactly the memory and time limits are also performance
   * events; a completed call is performance-related whether or not it
   * succeeded, and never an error.
   */
  lemma EventClasses(e: WasmEvent)
    ensures IsError(e) <==> VariantIndex(e) in {4, 5, 6, 8}
    ensures IsPerformanceRelated(e) <==> VariantIndex(e) in {3, 4, 5}
    ensures IsError(e) && IsPerformanceRelated(e) <==> e.MemoryLimitExceeded? || e.ExecutionTimeout?
  {
  }

  /** The console listener prints an event when it is verbose, and otherwise only the error events. */
  predicate ConsolePrints(verbose: bool, e: WasmEvent)
  {
    if e.FunctionCallCompleted? || e.FunctionCallStarted? then verbose else verbose || IsError(e)
  }

  lemma ConsolePrintsExactly(verbose: bool, e: WasmEvent)
    ensures ConsolePrints(verbose, e) <==> verbose || IsError(e)
  {
  }

  /** The event types the metrics listener asks for. */
  predicate MetricsInterestedIn(eventType: string)
  {
    eventType in {"module_loaded", "module_unloaded", "function_call_completed", "execution_timeout", "security_violation"}
  }

  /** The metrics listener asks for an event exactly when it records something for it. */
  lemma MetricsInterestExactly(e: WasmEvent)
    ensures MetricsInterestedIn(EventType(e)) <==>
              e.ModuleLoaded? || e.ModuleUnloaded? || e.FunctionCallCompleted? || e.ExecutionTimeout? || e.SecurityViolation?
  {
    var t := EventType(e);
    if e.FunctionCallStarted? || e.MemoryLimitExceeded? || e.PluginHotReloaded? || e.PluginError? {
      assert t != "module_loaded" && t != "module_unloaded" && t != "function_call_completed";
      assert t != "execution_timeout" && t != "security_violation";
    }
  }

  /** Records events in a collector it shares with the runtime. */
  class MetricsEventListener {
    const name: string
    const metrics: WasmMetrics

    constructor(name: string, metrics: WasmMetrics)
      ensures this.name == name && this.metrics == metrics
    {
      this.name := name;
      this.metrics := metrics;
    }

    /**
     * Loads, unloads, completed calls (with no memory usage), timeouts and
     * security violations are recorded; every other event leaves the
     * collector as it was.
     */
    method OnEvent(e: WasmEvent)
      requires metrics.Valid()
      modifies metrics
      ensures metrics.Valid()
      ensures e.ModuleLoaded? ==> metrics.counters == old(metrics.counters).(
                modulesLoaded := old(metrics.counters).modulesLoaded + 1,
                currentModules := old(metrics.counters).currentModules + 1)
      ensures e.FunctionCallCompleted? ==>
                metrics.counters == CountCall(old(metrics.counters), e.executionTimeMs, e.success, 0)
      ensures e.ModuleUnloaded? ==> metrics.counters == old(metrics.counters).(
                modulesUnloaded := old(metrics.counters).modulesUnloaded + 1,
                currentModules := if old(metrics.counters).currentModules > 0
                                  then old(metrics.counters).currentModules - 1 else 0)
      ensures e.ExecutionTimeout? ==> metrics.counters == old(metrics.counters).(
                timeoutCount := old(metrics.counters).timeoutCount + 1,
                failedCalls := old(metrics.counters).failedCalls + 1)
      ensures e.SecurityViolation? ==> metrics.counters == old(metrics.counters).(
                securityViolations := old(metrics.counters).securityViolations + 1)
      ensures !MetricsInterestedIn(EventType(e)) ==> metrics.counters == old(metrics.counters)
      ensures metrics.moduleStats == old(metrics.moduleStats) && metrics.functionStats == old(metrics.functionStats)
    {
      MetricsInterestExactly(e);
      match e
      case ModuleLoaded(_, _) => metrics.RecordModuleLoaded();
      case ModuleUnloaded(_) => metrics.RecordModuleUnloaded();
      case FunctionCallCompleted(_, _, executionTimeMs, success) => metrics.RecordFunctionCall(executionTimeMs, success, 0);
      case ExecutionTimeout(_, _, _) => metrics.RecordTimeout();
      case SecurityViolation(_, _, _) => metrics.RecordSecurityViolation();
      case _ =>
    }
  }
}

=== FILE: dafny/wasm_loader.dfy ===
// The plugin loader's pure parts: a plugin configuration's security-policy
// overrides, building a plugin from its configuration and file contents,
// the hot-reload switch, and the WASM file header check. Reading files and
// directories and parsing TOML are not part of this model: what they yield
// is passed in.
module WasmLoader {
  import opened Wrappers
  import opened Ints
  import opened Text
  import opened CoreError
  import opened WasmSecurity
  import opened WasmPlugins

  /** Optional overrides of a policy; only the fields given replace the policy's. */
  datatype SecurityPolicyConfig = SecurityPolicyConfig(
    memoryLimit: Option<nat>,
    executionTimeoutMs: Option<nat>,
    networkAccess: Option<bool>,
    fileAccess: Option<bool>,
    envAccess: Option<bool>,
    allowedPaths: Option<seq<string>>,
    allowedHosts: Option<seq<string>>)

  function Override<T>(o: Option<T>, current: T): T
  {
    if o.Some? then o.value else current
  }

  function ElementSet(xs: seq<string>): (r: set<string>)
    ensures forall x :: x in r <==> x in xs
  {
    set x | x in xs
  }

  /**
   * `apply_to`: each override that is present replaces its field (a list of
   * paths or hosts becomes the allow-set of its elements); every other
   * field, including those the configuration cannot express, is kept.
   */
  function ApplyTo(c: SecurityPolicyConfig, p: SecurityPolicy): (q: SecurityPolicy)
    ensures q.memoryLimit == (if c.memoryLimit.Some? then c.memoryLimit.value else p.memoryLimit)
    ensures q.executionTimeoutMs == (if c.executionTimeoutMs.Some? then c.executionTimeoutMs.value else p.executionTimeoutMs)
    ensures q.networkAccess == (if c.networkAccess.Some? then c.networkAccess.value else p.networkAccess)
    ensures q.fileAccess == (if c.fileAccess.Some? then c.fileAccess.value else p.fileAccess)
    ensures q.envAccess == (if c.envAccess.Some? then c.envAccess.value else p.envAccess)
    ensures c.allowedPaths.Some? ==> q.allowedPaths == ElementSet(c.allowedPaths.value)
    ensures c.allowedPaths.None? ==> q.allowedPaths == p.allowedPaths
    ensures c.allowedHosts.Some? ==> q.allowedHosts == ElementSet(c.allowedHosts.value)
    ensures c.allowedHosts.None? ==> q.allowedHosts == p.allowedHosts
    ensures q.allowedSyscalls == p.allowedSyscalls && q.maxFileSize == p.maxFileSize
    ensures q.maxConnections == p.maxConnections && q.cpuLimitPercent == p.cpuLimitPercent
    ensures q.sandboxEnabled == p.sandboxEnabled
  {
    p.(memoryLimit := Override(c.memoryLimit, p.memoryLimit),
       executionTimeoutMs := Override(c.executionTimeoutMs, p.executionTimeoutMs),
       networkAccess := Override(c.networkAccess, p.networkAccess),
       fileAccess := Override(c.fileAccess, p.fileAccess),
       envAccess := Override(c.envAccess, p.envAccess),
       allowedPaths := if c.allowedPaths.Some? then ElementSet(c.allowedPaths.value) else p.allowedPaths,
       allowedHosts := if c.allowedHosts.Some? then ElementSet(c.allowedHosts.value) else p.allowedHosts)
  }

  const NO_OVERRIDES := SecurityPolicyConfig(None, None, None, None, None, None, None)

  /**
   * Applying no overrides changes nothing, applying the same overrides twice
   * is the same as once, and overrides that leave the limits alone keep the
   * policy's validity.
   */
  lemma ApplyToLaws(c: SecurityPolicyConfig, p: SecurityPolicy)
    ensures ApplyTo(NO_OVERRIDES, p) == p
    ensures ApplyTo(c, ApplyTo(c, p)) == ApplyTo(c, p)
    ensures c.memoryLimit.None? && c.executionTimeoutMs.None? ==> ValidatePolicy(ApplyTo(c, p)) == ValidatePolicy(p)
    ensures c.memoryLimit == Some(0) ==> ValidatePolicy(ApplyTo(c, p)).Err?
  {
  }

  /** A plugin's configuration file, as parsed. */
  datatype PluginConfig = PluginConfig(
    name: string,
    version: string,
    description: Option<string>,
    author: Option<string>,
    pluginType: PluginType,
    wasmFile: string,
    dependencies: seq<string>,
    exportedFunctions: seq<string>,
    permissions: seq<string>,
    securityPolicy: Option<SecurityPolicyConfig>,
    config: Option<map<string, string>>,
    metadata: Option<map<string, string>>)

  /** The plugin's policy: the loader's default with the configuration's overrides applied. */
  function MergedPolicy(config: PluginConfig, default: SecurityPolicy): SecurityPolicy
  {
    if config.securityPolicy.Some? then ApplyTo(config.securityPolicy.value, default) else default
  }

  /**
   * `load_plugin_from_config` after the file system: `wasmPath` is the
   * configuration directory joined with the file name, `fileExists` whether
   * it exists, `bytes` its contents and `id` the fresh UUID of the record.
   */
  function LoadPluginFromConfig(config: PluginConfig, default: SecurityPolicy, wasmPath: string, fileExists: bool,
                                bytes: seq<u8>, id: Uuid): (r: CoreResult<WasmPlugin>)
    ensures !fileExists ==> r == Err(NotFound("WASM file: \"" + wasmPath + "\""))
    ensures r.Ok? ==> r.value.wasmBytes == bytes && r.value.securityPolicy == MergedPolicy(config, default)
  {
    if !fileExists then Err(NotFound("WASM file: \"" + wasmPath + "\""))
    else
      var info := NewPluginInfo(id, config.name, config.version, config.pluginType, wasmPath).(
                    description := config.description,
                    author := config.author,
                    dependencies := config.dependencies,
                    exportedFunctions := config.exportedFunctions,
                    permissions := config.permissions,
                    metadata := config.metadata.UnwrapOr(map[]));
      var policy := MergedPolicy(config, default);
      var validPolicy := ValidatePolicy(policy);
      if validPolicy.Err? then Err(validPolicy.error)
      else
        var plugin := WasmPlugin(info, bytes, policy, config.config.UnwrapOr(map[]), ZERO_PLUGIN_STATS);
        var validPlugin := ValidatePlugin(plugin, true);
        if validPlugin.Err? then Err(validPlugin.error) else Ok(plugin)
  }

  /**
   * Loading succeeds exactly when the file exists, the merged policy
   * validates and the bytes, name and version are non-empty; a bad policy is
   * reported before the plugin's own checks. A loaded plugin is a fresh,
   * valid record carrying the configuration's fields.
   */
  lemma LoadPluginFromConfigExactly(config: PluginConfig, default: SecurityPolicy, wasmPath: string, fileExists: bool,
                                    bytes: seq<u8>, id: Uuid)
    ensures var r := LoadPluginFromConfig(config, default, wasmPath, fileExists, bytes, id);
            r.Ok? <==> (fileExists && ValidatePolicy(MergedPolicy(config, default)).Ok?
                        && |bytes| > 0 && |config.name| > 0 && |config.version| > 0)
    ensures var r := LoadPluginFromConfig(config, default, wasmPath, fileExists, bytes, id);
            fileExists && ValidatePolicy(MergedPolicy(config, default)).Err? ==>
              r == Err(ValidatePolicy(MergedPolicy(config, default)).error)
    ensures var r := LoadPluginFromConfig(config, default, wasmPath, fileExists, bytes, id);
            r.Ok? ==> (r.value.info.id == id && r.value.info.name == config.name
                       && r.value.info.version == config.version && r.value.info.pluginType == config.pluginType
                       && r.value.info.status == NotLoaded && r.value.info.wasmPath == wasmPath
                       && r.value.info.dependencies == config.dependencies
                       && r.value.info.exportedFunctions == config.exportedFunctions
                       && r.value.info.metadata == config.metadata.UnwrapOr(map[])
                       && r.value.config == config.config.UnwrapOr(map[])
                       && r.value.stats == ZERO_PLUGIN_STATS
                       && ValidatePlugin(r.value, true).Ok?)
  {
    if fileExists && ValidatePolicy(MergedPolicy(config, default)).Ok? {
      var info := NewPluginInfo(id, config.name, config.version, config.pluginType, wasmPath).(
                    description := config.description,
                    author := config.author,
                    dependencies := config.dependencies,
                    exportedFunctions := config.exportedFunctions,
                    permissions := config.permissions,
                    metadata := config.metadata.UnwrapOr(map[]));
      var plugin := WasmPlugin(info, bytes, MergedPolicy(config, default), config.config.UnwrapOr(map[]), ZERO_PLUGIN_STATS);
      ValidatePluginExactly(plugin, true);
    }
  }

  class PluginLoader {
    const pluginDir: string
    const defaultSecurityPolicy: SecurityPolicy
    var hotReloadEnabled: bool

    constructor(pluginDir: string, defaultSecurityPolicy: SecurityPolicy)
      ensures this.pluginDir == pluginDir && this.defaultSecurityPolicy == defaultSecurityPolicy
      ensures !hotReloadEnabled
    {
      this.pluginDir := pluginDir;
      this.defaultSecurityPolicy := defaultSecurityPolicy;
      hotReloadEnabled := false;
    }

    /** Only sets the flag: no watcher exists behind it. */
    method EnableHotReload() returns (r: CoreResult<()>)
      modifies this
      ensures r.Ok? && hotReloadEnabled
    {
      hotReloadEnabled := true;
      r := Ok(());
    }

    method DisableHotReload()
      modifies this
      ensures !hotReloadEnabled
    {
      hotReloadEnabled := false;
    }
  }

  const WASM_MAGIC: seq<u8> := [0x00, 0x61, 0x73, 0x6d]

  /** A little-endian 32-bit word. */
  function LeU32(b0: u8, b1: u8, b2: u8, b3: u8): (v: nat)
    ensures v < TWO_32
  {
    b0 + 0x100 * b1 + 0x1_0000 * b2 + 0x100_0000 * b3
  }

  /** The word is 1 exactly for the bytes 1, 0, 0, 0. */
  lemma LeU32IsOne(b0: u8, b1: u8, b2: u8, b3: u8)
    ensures LeU32(b0, b1, b2, b3) == 1 <==> b0 == 1 && b1 == 0 && b2 == 0 && b3 == 0
  {
  }

  /**
   * `validate_plugin_file` after reading the file (`fileExists` says whether it
   * exists, `bytes` is its contents): the magic number, then the version.
   */
  function ValidatePluginFile(path: string, fileExists: bool, bytes: seq<u8>): (r: CoreResult<()>)
  {
    if !fileExists then Err(NotFound("WASM file: \"" + path + "\""))
    else if |bytes| < 4 || bytes[..4] != WASM_MAGIC then Err(Validation("Invalid WASM file: missing magic number"))
    else if |bytes| < 8 then Err(Validation("Invalid WASM file: missing version"))
    else
      var version := LeU32(bytes[4], bytes[5], bytes[6], bytes[7]);
      if version != 1 then Err(Validation("Unsupported WASM version: " + NatToString(version)))
      else Ok(())
  }

  /** The standard eight-byte header of a version-1 module. */
  const WASM_HEADER: seq<u8> := WASM_MAGIC + [0x01, 0x00, 0x00, 0x00]

  /**
   * An existing file passes exactly when it starts with the version-1
   * header, whatever follows; a short or wrong magic number is reported
   * before the version.
   */
  lemma ValidatePluginFileExactly(path: string, bytes: seq<u8>)
    ensures ValidatePluginFile(path, true, bytes).Ok? <==> |bytes| >= 8 && bytes[..8] == WASM_HEADER
    ensures |bytes| < 4 ==> ValidatePluginFile(path, true, bytes) == Err(Validation("Invalid WASM file: missing magic number"))
    ensures |bytes| >= 4 && bytes[..4] == WASM_MAGIC && |bytes| < 8 ==>
              ValidatePluginFile(path, true, bytes) == Err(Validation("Invalid WASM file: missing version"))
  {
    if |bytes| >= 8 {
      LeU32IsOne(bytes[4], bytes[5], bytes[6], bytes[7]);
      assert bytes[..8] == bytes[..4] + [bytes[4], bytes[5], bytes[6], bytes[7]];
      if bytes[..8] == WASM_HEADER {
        assert bytes[..4] == bytes[..8][..4];
        assert bytes[4..8] == WASM_HEADER[4..8];
      }
    }
  }
}

=== FILE: dafny/wasm_metrics.dfy ===
// The WASM runtime's metrics collector: global counters, execution-time and
// memory extremes, and per-module and per-function entries, all updated by
// the record operations. Averages and rates are exact rationals here; the
// source's floating-point rounding, clock readings and 64-bit counter
// overflow are not modelled.
module WasmMetricsCollector {
  import opened Wrappers
  import opened Ints

  function Min(a: nat, b: nat): nat { if a <= b then a else b }
  function Max(a: nat, b: nat): nat { if a >= b then a else b }

  /** The sum of a sequence of durations, added from the front. */
  function Sum(s: seq<nat>): nat
  {
    if |s| == 0 then 0 else s[0] + Sum(s[1..])
  }

  lemma {:induction false} SumAppend(s: seq<nat>, t: nat)
    ensures Sum(s + [t]) == Sum(s) + t
  {
    if |s| > 0 {
      assert (s + [t])[1..] == s[1..] + [t];
      SumAppend(s[1..], t);
    }
  }

  /** One module's entry: created on its first call, updated by every call after. */
  datatype ModuleMetrics = ModuleMetrics(
    name: string,
    loadCount: nat,
    unloadCount: nat,
    functionCalls: nat,
    successfulCalls: nat,
    failedCalls: nat,
    totalExecutionTimeMs: nat,
    peakMemoryUsage: nat,
    currentMemoryUsage: nat,
    errorCount: nat)

  /** One function's entry, keyed by "module::function". */
  datatype FunctionMetrics = FunctionMetrics(
    name: string,
    moduleName: string,
    callCount: nat,
    successCount: nat,
    errorCount: nat,
    totalExecutionTimeMs: nat,
    minExecutionTimeMs: nat,
    maxExecutionTimeMs: nat)

  function FunctionKey(moduleName: string, functionName: string): string
  {
    moduleName + "::" + functionName
  }

  /**
   * The key does not tell its parts apart: a module name containing "::"
   * can share a key with another module's function, so their calls are
   * counted in one entry.
   */
  lemma FunctionKeyAmbiguous()
    ensures FunctionKey("a::b", "c") == FunctionKey("a", "b::c")
  {
  }

  /** A module's entry balances its outcomes, counts every failure as an error and never reports usage above its peak. */
  predicate ModuleEntryValid(key: string, m: ModuleMetrics)
  {
    m.name == key && m.successfulCalls + m.failedCalls == m.functionCalls
    && m.errorCount == m.failedCalls && m.currentMemoryUsage <= m.peakMemoryUsage
  }

  /** A function's entry is stored under its own key, has been called, balances its outcomes and orders its extremes. */
  predicate FunctionEntryValid(key: string, f: FunctionMetrics)
  {
    key == FunctionKey(f.moduleName, f.name) && f.callCount > 0
    && f.successCount + f.errorCount == f.callCount && f.minExecutionTimeMs <= f.maxExecutionTimeMs
    && f.minExecutionTimeMs * f.callCount <= f.totalExecutionTimeMs <= f.maxExecutionTimeMs * f.callCount
  }

  function NewModuleMetrics(name: string): (m: ModuleMetrics)
    ensures ModuleEntryValid(name, m) && m.functionCalls == 0
  {
    ModuleMetrics(name, 0, 0, 0, 0, 0, 0, 0, 0, 0)
  }

  /** A module's entry after one call: the call counts once, as a success or as a failure and an error. */
  function RecordModuleCall(m: ModuleMetrics, executionTimeMs: nat, success: bool, memoryUsage: nat): (r: ModuleMetrics)
    ensures ModuleEntryValid(m.name, m) ==> ModuleEntryValid(m.name, r)
    ensures r.name == m.name && r.functionCalls == m.functionCalls + 1
    ensures r.successfulCalls == m.successfulCalls + (if success then 1 else 0)
    ensures r.failedCalls == m.failedCalls + (if success then 0 else 1)
    ensures r.totalExecutionTimeMs == m.totalExecutionTimeMs + executionTimeMs
    ensures r.currentMemoryUsage == memoryUsage && r.peakMemoryUsage == Max(m.peakMemoryUsage, memoryUsage)
  {
    m.(functionCalls := m.functionCalls + 1,
       totalExecutionTimeMs := m.totalExecutionTimeMs + executionTimeMs,
       currentMemoryUsage := memoryUsage,
       successfulCalls := if success then m.successfulCalls + 1 else m.successfulCalls,
       failedCalls := if success then m.failedCalls else m.failedCalls + 1,
       errorCount := if success then m.errorCount else m.errorCount + 1,
       peakMemoryUsage := Max(m.peakMemoryUsage, memoryUsage))
  }

  /** A function's entry as first created: no calls yet, both extremes at the first call's time. */
  function NewFunctionMetrics(moduleName: string, functionName: string, executionTimeMs: nat): FunctionMetrics
  {
    FunctionMetrics(functionName, moduleName, 0, 0, 0, 0, executionTimeMs, executionTimeMs)
  }

  /** A function's entry after one call. */
  function RecordFunctionEntryCall(f: FunctionMetrics, executionTimeMs: nat, success: bool): (r: FunctionMetrics)
    ensures r.name == f.name && r.moduleName == f.moduleName && r.callCount == f.callCount + 1
    ensures r.successCount == f.successCount + (if success then 1 else 0)
    ensures r.errorCount == f.errorCount + (if success then 0 else 1)
    ensures r.minExecutionTimeMs <= executionTimeMs <= r.maxExecutionTimeMs
    ensures r.minExecutionTimeMs == Min(f.minExecutionTimeMs, executionTimeMs)
    ensures r.maxExecutionTimeMs == Max(f.maxExecutionTimeMs, executionTimeMs)
  {
    f.(callCount := f.callCount + 1,
       totalExecutionTimeMs := f.totalExecutionTimeMs + executionTimeMs,
       successCount := if success then f.successCount + 1 else f.successCount,
       errorCount := if success then f.errorCount else f.errorCount + 1,
       minExecutionTimeMs := Min(f.minExecutionTimeMs, executionTimeMs),
       maxExecutionTimeMs := Max(f.maxExecutionTimeMs, executionTimeMs))
  }

  /** A first call leaves a valid entry, and so does every later call to a valid one. */
  lemma FunctionEntryStep(key: string, f: FunctionMetrics, executionTimeMs: nat, success: bool)
    requires FunctionEntryValid(key, f) || (f.callCount == 0 && f.successCount == 0 && f.errorCount == 0
                                             && f.totalExecutionTimeMs == 0 && key == FunctionKey(f.moduleName, f.name)
                                             && f.minExecutionTimeMs == executionTimeMs == f.maxExecutionTimeMs)
    ensures FunctionEntryValid(key, RecordFunctionEntryCall(f, executionTimeMs, success))
  {
    var r := RecordFunctionEntryCall(f, executionTimeMs, success);
    if f.callCount > 0 {
      MeanBoundsStep(f.minExecutionTimeMs, f.maxExecutionTimeMs, f.totalExecutionTimeMs, f.callCount, executionTimeMs,
                     r.minExecutionTimeMs, r.maxExecutionTimeMs);
    }
  }

  /** The execution times seen so far: `times` lists one per call, and total, min and max agree with it. */
  ghost predicate TimesAgree(times: seq<nat>, calls: nat, total: nat, minTime: nat, maxTime: nat)
  {
    |times| == calls && total == Sum(times)
    && (calls == 0 ==> minTime == 0 && maxTime == 0)
    && (calls > 0 ==> minTime in times && maxTime in times)
    && (forall i :: 0 <= i < |times| ==> minTime <= times[i] <= maxTime)
  }

  /** The memory usages seen so far: the peak is the largest of them (0 before any), and the current one is among them. */
  ghost predicate MemoryAgrees(usages: seq<nat>, current: nat, peak: nat)
  {
    (peak == 0 || peak in usages)
    && (forall i :: 0 <= i < |usages| ==> usages[i] <= peak)
    && current <= peak
  }

  lemma TimesStep(times: seq<nat>, calls: nat, total: nat, minTime: nat, maxTime: nat, t: nat)
    requires TimesAgree(times, calls, total, minTime, maxTime)
    ensures TimesAgree(times + [t], calls + 1, total + t,
                       if calls == 0 then t else Min(minTime, t),
                       if calls == 0 then t else Max(maxTime, t))
  {
    SumAppend(times, t);
    var s := times + [t];
    var lo := if calls == 0 then t else Min(minTime, t);
    var hi := if calls == 0 then t else Max(maxTime, t);
    assert s[|times|] == t;
    if calls > 0 {
      var i :| 0 <= i < |times| && times[i] == minTime;
      assert s[i] == minTime;
      var j :| 0 <= j < |times| && times[j] == maxTime;
      assert s[j] == maxTime;
    }
    forall i | 0 <= i < |s|
      ensures lo <= s[i] <= hi
    {
      if i < |times| {
        assert s[i] == times[i];
      }
    }
  }

  lemma MemoryStep(usages: seq<nat>, current: nat, peak: nat, m: nat)
    requires MemoryAgrees(usages, current, peak)
    ensures MemoryAgrees(usages + [m], m, Max(peak, m))
  {
    var s := usages + [m];
    assert s[|usages|] == m;
    if peak != 0 && m < peak {
      var i :| 0 <= i < |usages| && usages[i] == peak;
      assert s[i] == peak;
    }
    forall i | 0 <= i < |s|
      ensures s[i] <= Max(peak, m)
    {
      if i < |usages| {
        assert s[i] == usages[i];
      }
    }
  }

  predicate Distinct(ks: seq<string>)
  {
    forall i, j :: 0 <= i < j < |ks| ==> ks[i] != ks[j]
  }

  /** Listed in non-increasing order of score. */
  predicate RankedBy(ks: seq<string>, score: map<string, real>)
  {
    (forall i :: 0 <= i < |ks| ==> ks[i] in score)
    && (forall i, j :: 0 <= i < j < |ks| ==> score[ks[i]] >= score[ks[j]])
  }

  /** Inserts a key after every key scoring at least as much. */
  function InsertRanked(ks: seq<string>, k: string, score: map<string, real>): (r: seq<string>)
    requires k in score && forall i :: 0 <= i < |ks| ==> ks[i] in score
    ensures |r| == |ks| + 1
    ensures forall x :: x in r <==> x in ks || x == k
  {
    if |ks| == 0 then [k]
    else if score[ks[0]] < score[k] then [k] + ks
    else
      assert forall x :: x in ks[1..] ==> x in ks;
      [ks[0]] + InsertRanked(ks[1..], k, score)
  }

  /** Inserting keeps the ranking and introduces no repeated key. */
  lemma {:induction false} InsertRankedRanks(ks: seq<string>, k: string, score: map<string, real>)
    requires k in score && RankedBy(ks, score)
    ensures RankedBy(InsertRanked(ks, k, score), score)
    ensures Distinct(ks) && k !in ks ==> Distinct(InsertRanked(ks, k, score))
  {
    if |ks| > 0 && score[ks[0]] >= score[k] {
      var rest := InsertRanked(ks[1..], k, score);
      InsertRankedRanks(ks[1..], k, score);
      forall i | 0 <= i < |rest|
        ensures score[rest[i]] <= score[ks[0]]
        ensures Distinct(ks) && k !in ks ==> rest[i] != ks[0]
      {
        assert rest[i] in rest;
        if rest[i] != k {
          var j :| 0 <= j < |ks[1..]| && ks[1..][j] == rest[i];
          assert ks[j + 1] == rest[i];
        }
      }
      assert InsertRanked(ks, k, score) == [ks[0]] + rest;
    }
  }

  /**
   * The `limit` best-scoring keys, best first: never more than `limit`, all
   * of them when there are fewer, and no key left out scores above one
   * kept. Ties are broken in an order the model leaves open, as hash order
   * does in the source.
   */
  method TopKeys(score: map<string, real>, limit: nat) returns (top: seq<string>)
    ensures |top| <= limit && Distinct(top) && RankedBy(top, score)
    ensures |top| < limit ==> forall k :: k in score ==> k in top
    ensures forall k, i :: k in score && k !in top && 0 <= i < |top| ==> score[k] <= score[top[i]]
  {
    var ranked: seq<string> := [];
    var pending := score.Keys;
    while pending != {}
      invariant pending <= score.Keys
      invariant Distinct(ranked) && RankedBy(ranked, score)
      invariant forall k :: k in ranked <==> k in score && k !in pending
      decreases |pending|
    {
      var k :| k in pending;
      InsertRankedRanks(ranked, k, score);
      ranked := InsertRanked(ranked, k, score);
      pending := pending - {k};
    }
    top := if |ranked| <= limit then ranked else ranked[..limit];
    forall k, i | k in score && k !in top && 0 <= i < |top|
      ensures score[k] <= score[top[i]]
    {
      var j :| 0 <= j < |ranked| && ranked[j] == k;
      assert top[i] == ranked[i];
    }
  }

  /** The collector's scalar counters, gathered in one record. */
  datatype Counters = Counters(
    modulesLoaded: nat,
    modulesUnloaded: nat,
    currentModules: nat,
    functionCalls: nat,
    successfulCalls: nat,
    failedCalls: nat,
    totalExecutionTimeMs: nat,
    minExecutionTimeMs: nat,
    maxExecutionTimeMs: nat,
    peakMemoryUsage: nat,
    currentMemoryUsage: nat,
    timeoutCount: nat,
    securityViolations: nat,
    hotReloadCount: nat)

  const ZERO_COUNTERS := Counters(0, 0, 0, 0, 0, 0, 0, 0, 0, 0, 0, 0, 0, 0)

  /**
   * Calls and timeouts together are exactly the successes and failures;
   * the current module count lies between loads minus unloads and loads;
   * the time total and extremes agree with the calls' times and the peak
   * with the usages seen.
   */
  ghost predicate CountersValid(c: Counters, callTimes: seq<nat>, memoryUsages: seq<nat>)
  {
    c.successfulCalls + c.failedCalls == c.functionCalls + c.timeoutCount
    && c.successfulCalls <= c.functionCalls
    && c.modulesLoaded - c.modulesUnloaded <= c.currentModules <= c.modulesLoaded
    && TimesAgree(callTimes, c.functionCalls, c.totalExecutionTimeMs, c.minExecutionTimeMs, c.maxExecutionTimeMs)
    && MemoryAgrees(memoryUsages, c.currentMemoryUsage, c.peakMemoryUsage)
  }

  /**
   * The counters after one call: counted as a success or a failure, its
   * time added, the time extremes widened (the first call sets both), the
   * memory usage recorded and the peak raised when exceeded. Nothing else
   * changes.
   */
  function CountCall(c: Counters, executionTimeMs: nat, success: bool, memoryUsage: nat): (r: Counters)
    ensures r.functionCalls == c.functionCalls + 1
    ensures r.successfulCalls == c.successfulCalls + (if success then 1 else 0)
    ensures r.failedCalls == c.failedCalls + (if success then 0 else 1)
    ensures r.totalExecutionTimeMs == c.totalExecutionTimeMs + executionTimeMs
    ensures r.minExecutionTimeMs <= executionTimeMs <= r.maxExecutionTimeMs
    ensures c.functionCalls > 0 ==> r.minExecutionTimeMs == Min(c.minExecutionTimeMs, executionTimeMs)
                                    && r.maxExecutionTimeMs == Max(c.maxExecutionTimeMs, executionTimeMs)
    ensures r.currentMemoryUsage == memoryUsage && r.peakMemoryUsage == Max(c.peakMemoryUsage, memoryUsage)
    ensures r.(functionCalls := 0, successfulCalls := 0, failedCalls := 0, totalExecutionTimeMs := 0,
               minExecutionTimeMs := 0, maxExecutionTimeMs := 0, currentMemoryUsage := 0, peakMemoryUsage := 0)
            == c.(functionCalls := 0, successfulCalls := 0, failedCalls := 0, totalExecutionTimeMs := 0,
                  minExecutionTimeMs := 0, maxExecutionTimeMs := 0, currentMemoryUsage := 0, peakMemoryUsage := 0)
  {
    var first := c.functionCalls == 0;
    c.(functionCalls := c.functionCalls + 1,
       totalExecutionTimeMs := c.totalExecutionTimeMs + executionTimeMs,
       successfulCalls := if success then c.successfulCalls + 1 else c.successfulCalls,
       failedCalls := if success then c.failedCalls else c.failedCalls + 1,
       minExecutionTimeMs := if first then executionTimeMs else Min(c.minExecutionTimeMs, executionTimeMs),
       maxExecutionTimeMs := if first then executionTimeMs else Max(c.maxExecutionTimeMs, executionTimeMs),
       currentMemoryUsage := memoryUsage,
       peakMemoryUsage := Max(c.peakMemoryUsage, memoryUsage))
  }

  /** Counting a call keeps the counters valid, the call's time and usage joining those seen. */
  lemma CountCallValid(c: Counters, callTimes: seq<nat>, memoryUsages: seq<nat>,
                       executionTimeMs: nat, success: bool, memoryUsage: nat)
    requires CountersValid(c, callTimes, memoryUsages)
    ensures CountersValid(CountCall(c, executionTimeMs, success, memoryUsage),
                          callTimes + [executionTimeMs], memoryUsages + [memoryUsage])
  {
    TimesStep(callTimes, c.functionCalls, c.totalExecutionTimeMs, c.minExecutionTimeMs, c.maxExecutionTimeMs, executionTimeMs);
    MemoryStep(memoryUsages, c.currentMemoryUsage, c.peakMemoryUsage, memoryUsage);
  }

  /**
   * `top` is a top-`limit` list of the entries under `rank`: never longer
   * than `limit`, best first, made of entries, holding every entry when it
   * is shorter than `limit`, and no entry left out ranks above one listed.
   */
  ghost predicate IsTopN<T>(entries: map<string, T>, rank: T -> real, limit: nat, top: seq<T>)
  {
    |top| <= limit
    && (forall i, j :: 0 <= i < j < |top| ==> rank(top[i]) >= rank(top[j]))
    && (forall i :: 0 <= i < |top| ==> top[i] in entries.Values)
    && (|top| < limit ==> forall k :: k in entries ==> entries[k] in top)
    && (forall k, i :: k in entries && entries[k] !in top && 0 <= i < |top| ==> rank(entries[k]) <= rank(top[i]))
  }

  /** Ranks the entries by `rank` and keeps the first `limit`. */
  method TopEntries<T(==)>(entries: map<string, T>, rank: T -> real, limit: nat) returns (top: seq<T>)
    ensures IsTopN(entries, rank, limit, top)
  {
    var score := map k | k in entries :: rank(entries[k]);
    var keys := TopKeys(score, limit);
    top := seq(|keys|, i requires 0 <= i < |keys| && keys[i] in entries => entries[keys[i]]);
    forall k | k in entries && |top| < limit
      ensures entries[k] in top
    {
      assert k in score;
      var i :| 0 <= i < |keys| && keys[i] == k;
      assert top[i] == entries[k];
    }
    forall k | k in keys
      ensures entries[k] in top
    {
      var j :| 0 <= j < |keys| && keys[j] == k;
      assert top[j] == entries[k];
    }
    forall k, i | k in entries && entries[k] !in top && 0 <= i < |top|
      ensures rank(entries[k]) <= rank(top[i])
    {
      assert k in score;
    }
  }

  function ModuleCalls(m: ModuleMetrics): real { m.functionCalls as real }
  function FunctionCalls(f: FunctionMetrics): real { f.callCount as real }

  class WasmMetrics {
    var counters: Counters
    var moduleStats: map<string, ModuleMetrics>
    var functionStats: map<string, FunctionMetrics>
    /** Every call's execution time, in order. */
    ghost var callTimes: seq<nat>
    /** Every call's memory usage, in order. */
    ghost var memoryUsages: seq<nat>

    /** The counters are valid and every entry is valid under its key. */
    ghost predicate Valid()
      reads this
    {
      CountersValid(counters, callTimes, memoryUsages)
      && (forall k :: k in moduleStats ==> ModuleEntryValid(k, moduleStats[k]))
      && (forall k :: k in functionStats ==> FunctionEntryValid(k, functionStats[k]))
    }

    constructor()
      ensures Valid() && counters == ZERO_COUNTERS && moduleStats == map[] && functionStats == map[]
    {
      counters, moduleStats, functionStats := ZERO_COUNTERS, map[], map[];
      callTimes, memoryUsages := [], [];
    }

    method RecordModuleLoaded()
      requires Valid()
      modifies this
      ensures Valid()
      ensures counters == old(counters).(modulesLoaded := old(counters).modulesLoaded + 1,
                                         currentModules := old(counters).currentModules + 1)
      ensures moduleStats == old(moduleStats) && functionStats == old(functionStats)
    {
      counters := counters.(modulesLoaded := counters.modulesLoaded + 1, currentModules := counters.currentModules + 1);
    }

    /** Counts the unload; the current count drops by one but never below zero. */
    method RecordModuleUnloaded()
      requires Valid()
      modifies this
      ensures Valid()
      ensures counters == old(counters).(modulesUnloaded := old(counters).modulesUnloaded + 1,
                                         currentModules := if old(counters).currentModules > 0
                                                           then old(counters).currentModules - 1 else 0)
      ensures moduleStats == old(moduleStats) && functionStats == old(functionStats)
    {
      var current := if counters.currentModules > 0 then counters.currentModules - 1 else 0;
      counters := counters.(modulesUnloaded := counters.modulesUnloaded + 1, currentModules := current);
    }

    /** Counts one call in the global counters only. */
    method RecordFunctionCall(executionTimeMs: nat, success: bool, memoryUsage: nat)
      requires Valid()
      modifies this
      ensures Valid()
      ensures counters == CountCall(old(counters), executionTimeMs, success, memoryUsage)
      ensures moduleStats == old(moduleStats) && functionStats == old(functionStats)
    {
      CountCallValid(counters, callTimes, memoryUsages, executionTimeMs, success, memoryUsage);
      counters := CountCall(counters, executionTimeMs, success, memoryUsage);
      callTimes, memoryUsages := callTimes + [executionTimeMs], memoryUsages + [memoryUsage];
    }

    /**
     * A call of `functionName` in `moduleName`: counted globally, and in
     * the module's entry and the "module::function" entry, each created on
     * first use; no other entry changes.
     */
    method RecordModuleFunctionCall(moduleName: string, functionName: string, executionTimeMs: nat,
                                    success: bool, memoryUsage: nat)
      requires Valid()
      modifies this
      ensures Valid()
      ensures counters == CountCall(old(counters), executionTimeMs, success, memoryUsage)
      ensures moduleStats == old(moduleStats)[moduleName :=
                RecordModuleCall(if moduleName in old(moduleStats) then old(moduleStats)[moduleName]
                                 else NewModuleMetrics(moduleName), executionTimeMs, success, memoryUsage)]
      ensures var key := FunctionKey(moduleName, functionName);
              functionStats == old(functionStats)[key :=
                RecordFunctionEntryCall(if key in old(functionStats) then old(functionStats)[key]
                                        else NewFunctionMetrics(moduleName, functionName, executionTimeMs),
                                        executionTimeMs, success)]
    {
      RecordFunctionCall(executionTimeMs, success, memoryUsage);
      var m := if moduleName in moduleStats then moduleStats[moduleName] else NewModuleMetrics(moduleName);
      var key := FunctionKey(moduleName, functionName);
      var f := if key in functionStats then functionStats[key] else NewFunctionMetrics(moduleName, functionName, executionTimeMs);
      FunctionEntryStep(key, f, executionTimeMs, success);
      moduleStats, functionStats :=
        moduleStats[moduleName := RecordModuleCall(m, executionTimeMs, success, memoryUsage)],
        functionStats[key := RecordFunctionEntryCall(f, executionTimeMs, success)];
    }

    /** A timeout counts as a failure but not as a call. */
    method RecordTimeout()
      requires Valid()
      modifies this
      ensures Valid()
      ensures counters == old(counters).(timeoutCount := old(counters).timeoutCount + 1,
                                         failedCalls := old(counters).failedCalls + 1)
      ensures moduleStats == old(moduleStats) && functionStats == old(functionStats)
    {
      counters := counters.(timeoutCount := counters.timeoutCount + 1, failedCalls := counters.failedCalls + 1);
    }

    method RecordSecurityViolation()
      requires Valid()
      modifies this
      ensures Valid()
      ensures counters == old(counters).(securityViolations := old(counters).securityViolations + 1)
      ensures moduleStats == old(moduleStats) && functionStats == old(functionStats)
    {
      counters := counters.(securityViolations := counters.securityViolations + 1);
    }

    method RecordHotReload()
      requires Valid()
      modifies this
      ensures Valid()
      ensures counters == old(counters).(hotReloadCount := old(counters).hotReloadCount + 1)
      ensures moduleStats == old(moduleStats) && functionStats == old(functionStats)
    {
      counters := counters.(hotReloadCount := counters.hotReloadCount + 1);
    }

    /** The share of calls that succeeded, 0 before any call; always between 0 and 1. */
    function SuccessRate(): (rate: real)
      requires Valid()
      reads this
      ensures 0.0 <= rate <= 1.0
      ensures rate == 0.0 <==> counters.successfulCalls == 0
      ensures rate == 1.0 <==> counters.functionCalls > 0 && counters.successfulCalls == counters.functionCalls
    {
      if counters.functionCalls == 0 then 0.0 else counters.successfulCalls as real / counters.functionCalls as real
    }

    /** The mean execution time, which lies between the extremes. */
    function AverageExecutionTimeMs(): (avg: real)
      requires Valid()
      reads this
      ensures counters.functionCalls == 0 ==> avg == 0.0
      ensures counters.minExecutionTimeMs as real <= avg <= counters.maxExecutionTimeMs as real
    {
      AverageBetween(callTimes, counters.minExecutionTimeMs, counters.maxExecutionTimeMs);
      if counters.functionCalls == 0 then 0.0 else counters.totalExecutionTimeMs as real / counters.functionCalls as real
    }

    function GetModuleStats(moduleName: string): (r: Option<ModuleMetrics>)
      requires Valid()
      reads this
      ensures r.Some? <==> moduleName in moduleStats
      ensures r.Some? ==> r.value.name == moduleName && r.value == moduleStats[moduleName]
    {
      if moduleName in moduleStats then Some(moduleStats[moduleName]) else None
    }

    /** Looks up the "module::function" entry. */
    function GetFunctionStats(moduleName: string, functionName: string): (r: Option<FunctionMetrics>)
      requires Valid()
      reads this
      ensures r.Some? <==> FunctionKey(moduleName, functionName) in functionStats
      ensures r.Some? ==> r.value.callCount > 0
                          && FunctionKey(r.value.moduleName, r.value.name) == FunctionKey(moduleName, functionName)
    {
      var key := FunctionKey(moduleName, functionName);
      if key in functionStats then Some(functionStats[key]) else None
    }

    /** The `limit` most-called modules, most-called first. */
    method GetTopModules(limit: nat) returns (top: seq<ModuleMetrics>)
      ensures IsTopN(moduleStats, ModuleCalls, limit, top)
    {
      top := TopEntries(moduleStats, ModuleCalls, limit);
    }

    /** The `limit` most-called functions, most-called first. */
    method GetTopFunctions(limit: nat) returns (top: seq<FunctionMetrics>)
      ensures IsTopN(functionStats, FunctionCalls, limit, top)
    {
      top := TopEntries(functionStats, FunctionCalls, limit);
    }

    /** The `limit` functions slowest on average, slowest first. */
    method GetSlowestFunctions(limit: nat) returns (top: seq<FunctionMetrics>)
      ensures IsTopN(functionStats, EntryAverage, limit, top)
    {
      top := TopEntries(functionStats, EntryAverage, limit);
    }

    /** Back to a fresh collector. */
    method Reset()
      modifies this
      ensures Valid() && counters == ZERO_COUNTERS && moduleStats == map[] && functionStats == map[]
    {
      counters, moduleStats, functionStats := ZERO_COUNTERS, map[], map[];
      callTimes, memoryUsages := [], [];
    }

    /** Drops one module's entry and nothing else; its functions' entries stay. */
    method ResetModuleStats(moduleName: string)
      requires Valid()
      modifies this
      ensures Valid()
      ensures moduleStats == old(moduleStats) - {moduleName}
      ensures counters == old(counters) && functionStats == old(functionStats)
    {
      moduleStats := moduleStats - {moduleName};
    }
  }

  /** A function entry's mean execution time. */
  function EntryAverage(f: FunctionMetrics): real
  {
    if f.callCount == 0 then 0.0 else f.totalExecutionTimeMs as real / f.callCount as real
  }

  /** A valid entry's mean lies between its extremes. */
  lemma EntryAverageBetween(key: string, f: FunctionMetrics)
    requires FunctionEntryValid(key, f)
    ensures f.minExecutionTimeMs as real <= EntryAverage(f) <= f.maxExecutionTimeMs as real
  {
    var n := f.callCount as real;
    assert f.minExecutionTimeMs as real * n <= f.totalExecutionTimeMs as real;
    assert f.totalExecutionTimeMs as real <= f.maxExecutionTimeMs as real * n;
  }

  /** Between the smallest and the largest of the calls, so is their sum divided by their number. */
  lemma AverageBetween(times: seq<nat>, lo: nat, hi: nat)
    requires forall i :: 0 <= i < |times| ==> lo <= times[i] <= hi
    ensures |times| > 0 ==> lo as real <= Sum(times) as real / |times| as real <= hi as real
  {
    SumBounds(times, lo, hi);
    if |times| > 0 {
      DivBetween(lo, Sum(times), hi, |times|);
    }
  }

  lemma {:induction false} SumBounds(times: seq<nat>, lo: nat, hi: nat)
    requires forall i :: 0 <= i < |times| ==> lo <= times[i] <= hi
    ensures lo * |times| <= Sum(times) <= hi * |times|
  {
    if |times| > 0 {
      assert forall i :: 0 <= i < |times[1..]| ==> times[1..][i] == times[i + 1];
      SumBounds(times[1..], lo, hi);
      assert lo * |times| == lo + lo * |times[1..]|;
      assert hi * |times| == hi + hi * |times[1..]|;
    }
  }
}

=== FILE: dafny/wasm_plugin.dfy ===
// A WASM plugin: its descriptive record and status, its call statistics,
// and the plugin itself with its bytes, policy and configuration. These are
// owned values (the registry stores them by value and writes back copies),
// so each `&mut self` operation is a function returning the updated value.
module WasmPlugins {
  import opened Wrappers
  import opened Ints
  import opened CoreError
  import opened WasmTypes
  import opened WasmSecurity

  datatype PluginType =
    | DataTransform
    | CustomFunction
    | TypeDefinition
    | IndexOptimizer
    | Compressor
    | Validator
    | Aggregator
    | Serializer
    | ProtocolParser
    | Custom(name: string)

  function PluginTypeName(t: PluginType): string
  {
    match t
    case DataTransform => "data_transform"
    case CustomFunction => "custom_function"
    case TypeDefinition => "type_definition"
    case IndexOptimizer => "index_optimizer"
    case Compressor => "compressor"
    case Validator => "validator"
    case Aggregator => "aggregator"
    case Serializer => "serializer"
    case ProtocolParser => "protocol_parser"
    case Custom(name) => "custom_" + name
  }

  /**
   * Different custom names display differently, and a custom type never
   * displays like a fixed one unless it is named "function", which displays
   * exactly like `CustomFunction`.
   */
  lemma PluginTypeNames(a: string, b: string, t: PluginType)
    ensures PluginTypeName(Custom(a)) == PluginTypeName(Custom(b)) ==> a == b
    ensures !t.Custom? && t != CustomFunction ==> PluginTypeName(Custom(a)) != PluginTypeName(t)
    ensures PluginTypeName(Custom("function")) == PluginTypeName(CustomFunction)
  {
    if PluginTypeName(Custom(a)) == PluginTypeName(Custom(b)) {
      assert a == PluginTypeName(Custom(a))[7..];
    }
    if !t.Custom? && t != CustomFunction {
      var s := PluginTypeName(Custom(a));
      assert s[0] == 'c' && s[1] == 'u';
      assert PluginTypeName(t)[0] != 'c' || PluginTypeName(t)[1] != 'u';
    }
  }

  datatype PluginStatus = NotLoaded | Loading | Loaded | Running | Paused | Error(message: string) | Unloaded

  /** The status as `{:?}` prints it (escaping inside the message is not modelled). */
  function StatusDebug(s: PluginStatus): string
  {
    match s
    case NotLoaded => "NotLoaded"
    case Loading => "Loading"
    case Loaded => "Loaded"
    case Running => "Running"
    case Paused => "Paused"
    case Error(m) => "Error(\"" + m + "\")"
    case Unloaded => "Unloaded"
  }

  /** Plugin ids are UUIDs, held here as their text form. */
  type Uuid = string

  datatype PluginInfo = PluginInfo(
    id: Uuid,
    name: string,
    version: string,
    description: Option<string>,
    author: Option<string>,
    pluginType: PluginType,
    status: PluginStatus,
    wasmPath: string,
    configPath: Option<string>,
    dependencies: seq<string>,
    exportedFunctions: seq<string>,
    permissions: seq<string>,
    metadata: map<string, string>)

  /** A fresh record: not loaded, with no dependencies, exports, permissions or metadata. The id is the caller's fresh UUID. */
  function NewPluginInfo(id: Uuid, name: string, version: string, pluginType: PluginType, wasmPath: string): (info: PluginInfo)
    ensures info.id == id && info.name == name && info.version == version
    ensures info.pluginType == pluginType && info.wasmPath == wasmPath
    ensures info.status == NotLoaded && !CanRun(info)
    ensures info.dependencies == [] && info.exportedFunctions == [] && info.permissions == [] && info.metadata == map[]
    ensures info.description.None? && info.author.None? && info.configPath.None?
  {
    PluginInfo(id, name, version, None, None, pluginType, NotLoaded, wasmPath, None, [], [], [], map[])
  }

  function SetStatus(info: PluginInfo, status: PluginStatus): PluginInfo
  {
    info.(status := status)
  }

  predicate NoDuplicates(xs: seq<string>)
  {
    forall i, j :: 0 <= i < j < |xs| ==> xs[i] != xs[j]
  }

  /** Appends `x` unless it is already listed: the list then holds `x`, keeps its order and stays free of duplicates. */
  function AddUnique(xs: seq<string>, x: string): (r: seq<string>)
    ensures x in r && |r| >= |xs| && r[..|xs|] == xs
    ensures x in xs ==> r == xs
    ensures x !in xs ==> r == xs + [x]
    ensures forall y :: y in r <==> y in xs || y == x
    ensures NoDuplicates(xs) ==> NoDuplicates(r)
  {
    if x in xs then xs else xs + [x]
  }

  function AddExportedFunction(info: PluginInfo, f: string): PluginInfo
  {
    info.(exportedFunctions := AddUnique(info.exportedFunctions, f))
  }

  function AddDependency(info: PluginInfo, d: string): PluginInfo
  {
    info.(dependencies := AddUnique(info.dependencies, d))
  }

  function AddPermission(info: PluginInfo, p: string): PluginInfo
  {
    info.(permissions := AddUnique(info.permissions, p))
  }

  function SetMetadata(info: PluginInfo, key: string, value: string): PluginInfo
  {
    info.(metadata := info.metadata[key := value])
  }

  /** No list of the record holds the same entry twice. */
  predicate ListsDistinct(info: PluginInfo)
  {
    NoDuplicates(info.dependencies) && NoDuplicates(info.exportedFunctions) && NoDuplicates(info.permissions)
  }

  /**
   * Adding an export, a dependency or a permission twice is the same as
   * adding it once; the lists stay free of duplicates; and each addition
   * touches only its own list.
   */
  lemma {:induction false} AddsIdempotent(info: PluginInfo, x: string)
    ensures AddExportedFunction(AddExportedFunction(info, x), x) == AddExportedFunction(info, x)
    ensures AddDependency(AddDependency(info, x), x) == AddDependency(info, x)
    ensures AddPermission(AddPermission(info, x), x) == AddPermission(info, x)
    ensures ListsDistinct(info) ==>
              ListsDistinct(AddExportedFunction(info, x)) && ListsDistinct(AddDependency(info, x)) && ListsDistinct(AddPermission(info, x))
    ensures AddDependency(info, x).exportedFunctions == info.exportedFunctions
    ensures AddExportedFunction(info, x).dependencies == info.dependencies
    ensures ListsDistinct(NewPluginInfo(info.id, info.name, info.version, info.pluginType, info.wasmPath))
  {
  }

  predicate CanRun(info: PluginInfo)
  {
    info.status == Loaded || info.status == Paused
  }

  predicate IsRunning(info: PluginInfo)
  {
    info.status == Running
  }

  predicate HasError(info: PluginInfo)
  {
    info.status.Error?
  }

  /** A runnable plugin is neither running nor failed, and a failed one is not running. */
  lemma StatusClasses(info: PluginInfo)
    ensures CanRun(info) ==> !IsRunning(info) && !HasError(info)
    ensures HasError(info) ==> !IsRunning(info)
    ensures CanRun(SetStatus(info, Paused)) && CanRun(SetStatus(info, Loaded))
    ensures !CanRun(SetStatus(info, Running)) && IsRunning(SetStatus(info, Running))
  {
  }

  /**
   * Call statistics; the average and the last call's time are not kept
   * (a float derived from the totals, and a clock reading).
   */
  datatype PluginStats = PluginStats(
    callCount: nat,
    successCount: nat,
    errorCount: nat,
    totalExecutionTimeMs: nat,
    lastError: Option<string>)

  const ZERO_PLUGIN_STATS := PluginStats(0, 0, 0, 0, None)

  /** Every call counted is counted as exactly one of a success or an error. */
  predicate StatsBalanced(s: PluginStats)
  {
    s.callCount == s.successCount + s.errorCount
  }

  /**
   * Counts one call: the total time grows by its duration, the success or
   * the error counter by one, and only a failure replaces the last error.
   */
  function RecordCall(s: PluginStats, elapsedMs: nat, success: bool, error: Option<string>): (r: PluginStats)
    ensures r.callCount == s.callCount + 1
    ensures r.totalExecutionTimeMs == s.totalExecutionTimeMs + elapsedMs
    ensures success ==> r.successCount == s.successCount + 1 && r.errorCount == s.errorCount && r.lastError == s.lastError
    ensures !success ==> r.errorCount == s.errorCount + 1 && r.successCount == s.successCount && r.lastError == error
    ensures StatsBalanced(s) ==> StatsBalanced(r)
  {
    var counted := s.(callCount := s.callCount + 1, totalExecutionTimeMs := s.totalExecutionTimeMs + elapsedMs);
    if success then counted.(successCount := s.successCount + 1)
    else counted.(errorCount := s.errorCount + 1, lastError := error)
  }

  function ResetStats(s: PluginStats): (r: PluginStats)
    ensures r == ZERO_PLUGIN_STATS && StatsBalanced(r)
  {
    PluginStats(0, 0, 0, 0, None)
  }

  datatype WasmPlugin = WasmPlugin(
    info: PluginInfo,
    wasmBytes: seq<u8>,
    securityPolicy: SecurityPolicy,
    config: map<string, string>,
    stats: PluginStats)

  function NewWasmPlugin(info: PluginInfo, wasmBytes: seq<u8>, policy: SecurityPolicy): (p: WasmPlugin)
    ensures p.info == info && p.wasmBytes == wasmBytes && p.securityPolicy == policy
    ensures p.config == map[] && p.stats == ZERO_PLUGIN_STATS && StatsBalanced(p.stats)
  {
    WasmPlugin(info, wasmBytes, policy, map[], ZERO_PLUGIN_STATS)
  }

  function SetConfig(p: WasmPlugin, key: string, value: string): WasmPlugin
  {
    p.(config := p.config[key := value])
  }

  function GetConfig(p: WasmPlugin, key: string): Option<string>
  {
    if key in p.config then Some(p.config[key]) else None
  }

  /** A configured key reads back its latest value and leaves every other key as it was. */
  lemma ConfigRoundTrip(p: WasmPlugin, key: string, value: string, other: string)
    ensures GetConfig(SetConfig(p, key, value), key) == Some(value)
    ensures other != key ==> GetConfig(SetConfig(p, key, value), other) == GetConfig(p, other)
    ensures GetConfig(NewWasmPlugin(p.info, p.wasmBytes, p.securityPolicy), key).None?
  {
  }

  datatype CallOutcome = CallOutcome(plugin: WasmPlugin, result: CoreResult<WasmValue>)

  function NotRunnableMessage(info: PluginInfo): string
  {
    "Plugin " + info.name + " is not in a runnable state: " + StatusDebug(info.status)
  }

  /**
   * Calls a function of the plugin. `runtime` is what the runtime returned
   * for the call and `elapsedMs` how long it took. A plugin that cannot run
   * is refused and left untouched; otherwise the call is counted and the
   * plugin ends Loaded after a success or in Error after a failure.
   */
  function CallFunction(p: WasmPlugin, runtime: CoreResult<WasmValue>, elapsedMs: nat): (o: CallOutcome)
    ensures !CanRun(p.info) ==> o.plugin == p && o.result == Err(Plugin(NotRunnableMessage(p.info)))
    ensures CanRun(p.info) ==> o.result == runtime
    ensures CanRun(p.info) ==>
              o.plugin.stats == RecordCall(p.stats, elapsedMs, runtime.Ok?,
                                           if runtime.Err? then Some(ToString(runtime.error)) else None)
    ensures CanRun(p.info) && runtime.Ok? ==> o.plugin.info.status == Loaded
    ensures CanRun(p.info) && runtime.Err? ==> o.plugin.info.status == Error(ToString(runtime.error))
    ensures o.plugin.info == p.info.(status := o.plugin.info.status)
    ensures o.plugin == p.(info := o.plugin.info, stats := o.plugin.stats)
  {
    if !CanRun(p.info) then
      CallOutcome(p, Err(Plugin(NotRunnableMessage(p.info))))
    else
      var running := SetStatus(p.info, Running);
      var error := if runtime.Err? then Some(ToString(runtime.error)) else None;
      var stats := RecordCall(p.stats, elapsedMs, runtime.Ok?, error);
      var info := if runtime.Ok? then SetStatus(running, Loaded) else SetStatus(running, Error(ToString(runtime.error)));
      CallOutcome(p.(info := info, stats := stats), runtime)
  }

  /**
   * The call state machine: after a call the plugin can run again exactly
   * when the call succeeded, failed plugins refuse further calls, and the
   * statistics stay balanced whatever happens.
   */
  lemma CallStateMachine(p: WasmPlugin, runtime: CoreResult<WasmValue>, elapsedMs: nat)
    ensures var o := CallFunction(p, runtime, elapsedMs);
            (CanRun(p.info) ==> (CanRun(o.plugin.info) <==> runtime.Ok?))
            && (HasError(p.info) ==> o.result.Err? && o.plugin == p)
            && (StatsBalanced(p.stats) ==> StatsBalanced(o.plugin.stats))
            && (CanRun(p.info) <==> o.plugin.stats.callCount == p.stats.callCount + 1)
  {
  }

  function ValidatePlugin(p: WasmPlugin, pathExists: bool): (r: CoreResult<()>)
  {
    if |p.wasmBytes| == 0 then Err(Validation("WASM bytes cannot be empty"))
    else if |p.info.name| == 0 then Err(Validation("Plugin name cannot be empty"))
    else if |p.info.version| == 0 then Err(Validation("Plugin version cannot be empty"))
    else if !pathExists then Err(Validation("WASM file does not exist: \"" + p.info.wasmPath + "\""))
    else Ok(())
  }

  /**
   * Validation passes exactly when the bytes, name and version are
   * non-empty and the file exists (`pathExists`), and names the first
   * failing check.
   */
  lemma ValidatePluginExactly(p: WasmPlugin, pathExists: bool)
    ensures ValidatePlugin(p, pathExists).Ok? <==>
              |p.wasmBytes| > 0 && |p.info.name| > 0 && |p.info.version| > 0 && pathExists
    ensures |p.wasmBytes| == 0 ==> ValidatePlugin(p, pathExists) == Err(Validation("WASM bytes cannot be empty"))
    ensures |p.wasmBytes| > 0 && |p.info.name| == 0 ==> ValidatePlugin(p, pathExists) == Err(Validation("Plugin name cannot be empty"))
    ensures |p.wasmBytes| > 0 && |p.info.name| > 0 && |p.info.version| == 0 ==>
              ValidatePlugin(p, pathExists) == Err(Validation("Plugin version cannot be empty"))
    ensures |p.wasmBytes| > 0 && |p.info.name| > 0 && |p.info.version| > 0 && !pathExists ==>
              ValidatePlugin(p, pathExists) == Err(Validation("WASM file does not exist: \"" + p.info.wasmPath + "\""))
  {
  }

  /** Back to NotLoaded with zeroed statistics; everything else is kept. */
  function ResetPlugin(p: WasmPlugin): (r: WasmPlugin)
    ensures r.info.status == NotLoaded && r.stats == ZERO_PLUGIN_STATS
    ensures r.info.id == p.info.id && r.info.name == p.info.name && r.info.version == p.info.version
    ensures r.wasmBytes == p.wasmBytes && r.config == p.config
  {
    p.(info := p.info.(status := NotLoaded), stats := ZERO_PLUGIN_STATS)
  }

  /** A reset plugin refuses calls until it is loaded again, and resetting twice changes nothing more. */
  lemma ResetRefusesCalls(p: WasmPlugin, runtime: CoreResult<WasmValue>, elapsedMs: nat)
    ensures !CanRun(ResetPlugin(p).info)
    ensures CallFunction(ResetPlugin(p), runtime, elapsedMs).result.Err?
    ensures ResetPlugin(ResetPlugin(p)) == ResetPlugin(p)
  {
  }
}

=== FILE: dafny/wasm_registry.dfy ===
// The plugin registry: plugins by id with a name index, bounded in number,
// each backed by a module and an instance in the WASM runtime. The runtime
// itself (compilation, linking, execution) is foreign; it is modelled as the
// sets of names it holds modules and instances for, with the compiler's and
// the linker's verdicts passed in as parameters.
module WasmRegistry {
  import opened Wrappers
  import opened CoreError
  import opened WasmTypes
  import opened WasmPlugins

  datatype Runtime = Runtime(modules: set<string>, instances: set<string>)

  /** What a runtime operation returned, and the runtime after it. */
  datatype RuntimeStep = RuntimeStep(result: CoreResult<()>, runtime: Runtime)

  function CompileMessage(name: string, e: string): string
  {
    "Failed to compile WASM module " + name + ": " + e
  }

  function LinkMessage(name: string, e: string): string
  {
    "Failed to instantiate module " + name + ": " + e
  }

  /** Compiles and stores a module under `name` (replacing any earlier one); `compileError` is the compiler's verdict. */
  function LoadModule(rt: Runtime, name: string, compileError: Option<string>): (s: RuntimeStep)
    ensures compileError.Some? ==> s == RuntimeStep(Err(Wasm(CompileMessage(name, compileError.value))), rt)
    ensures compileError.None? ==> s.result.Ok? && s.runtime.modules == rt.modules + {name} && s.runtime.instances == rt.instances
  {
    if compileError.Some? then RuntimeStep(Err(Wasm(CompileMessage(name, compileError.value))), rt)
    else RuntimeStep(Ok(()), rt.(modules := rt.modules + {name}))
  }

  /** Drops the module and its instance; a name with no module is not found. */
  function UnloadModule(rt: Runtime, name: string): (s: RuntimeStep)
    ensures name !in rt.modules ==> s == RuntimeStep(Err(NotFound("Module: " + name)), rt)
    ensures name in rt.modules ==>
              s.result.Ok? && s.runtime == Runtime(rt.modules - {name}, rt.instances - {name})
  {
    if name !in rt.modules then RuntimeStep(Err(NotFound("Module: " + name)), rt)
    else RuntimeStep(Ok(()), Runtime(rt.modules - {name}, rt.instances - {name}))
  }

  /** Instantiates a stored module; `linkError` is the linker's verdict. */
  function InstantiateModule(rt: Runtime, name: string, linkError: Option<string>): (s: RuntimeStep)
    ensures name !in rt.modules ==> s == RuntimeStep(Err(NotFound("Module: " + name)), rt)
    ensures name in rt.modules && linkError.Some? ==> s == RuntimeStep(Err(Wasm(LinkMessage(name, linkError.value))), rt)
    ensures name in rt.modules && linkError.None? ==>
              s.result.Ok? && s.runtime == rt.(instances := rt.instances + {name})
  {
    if name !in rt.modules then RuntimeStep(Err(NotFound("Module: " + name)), rt)
    else if linkError.Some? then RuntimeStep(Err(Wasm(LinkMessage(name, linkError.value))), rt)
    else RuntimeStep(Ok(()), rt.(instances := rt.instances + {name}))
  }

  /** A call needs an instance; the runtime's execution step always yields `Null`. */
  function RuntimeCall(rt: Runtime, name: string): (r: CoreResult<WasmValue>)
    ensures r.Ok? <==> name in rt.instances
    ensures r.Ok? ==> r.value == Null
    ensures r.Err? ==> r.error == NotFound("Module instance: " + name)
  {
    if name !in rt.instances then Err(NotFound("Module instance: " + name)) else Ok(Null)
  }

  /**
   * Hot reload as written: unload the old module, then compile and
   * instantiate the new bytes, stopping at the first failure.
   */
  function ReloadAsWritten(rt: Runtime, name: string, compileError: Option<string>, linkError: Option<string>): (s: RuntimeStep)
    ensures rt.instances <= rt.modules ==> s.runtime.instances <= s.runtime.modules
    ensures s.runtime.instances <= rt.instances + {name}
    ensures s.result.Err? ==> name !in s.runtime.instances || s.runtime == rt
  {
    var u := UnloadModule(rt, name);
    if u.result.Err? then u
    else
      var l := LoadModule(u.runtime, name, compileError);
      if l.result.Err? then l
      else InstantiateModule(l.runtime, name, linkError)
  }

  /**
   * When the new bytes do not compile, the reload as written has already
   * unloaded the old module: the plugin stays registered with neither module
   * nor instance, so every later call, unload (hence unregister) and reload
   * of it fails.
   */
  lemma ReloadAsWrittenStrandsPlugin(rt: Runtime, name: string, e: string, linkError: Option<string>)
    requires name in rt.instances && rt.instances <= rt.modules
    ensures var s := ReloadAsWritten(rt, name, Some(e), linkError);
            s.result == Err(Wasm(CompileMessage(name, e)))
            && name !in s.runtime.modules && name !in s.runtime.instances
            && UnloadModule(s.runtime, name).result == Err(NotFound("Module: " + name))
            && RuntimeCall(s.runtime, name) == Err(NotFound("Module instance: " + name))
            && ReloadAsWritten(s.runtime, name, None, None).result.Err?
  {
  }

  /** Unloading, loading and instantiating a module that was already loaded and instantiated leaves the runtime as it was. */
  lemma SwapModuleKeepsRuntime(rt: Runtime, name: string)
    requires name in rt.instances && rt.instances <= rt.modules
    ensures ReloadAsWritten(rt, name, None, None) == RuntimeStep(Ok(()), rt)
  {
  }

  /** Every plugin is stored under its own id and indexed by its own name. */
  predicate Stored(plugins: map<Uuid, WasmPlugin>, names: map<string, Uuid>)
  {
    forall id :: id in plugins ==>
      plugins[id].info.id == id && plugins[id].info.name in names && names[plugins[id].info.name] == id
  }

  /** On top of `Stored`, every name maps to the plugin of that name: the index holds no stale entry. */
  predicate Indexed(plugins: map<Uuid, WasmPlugin>, names: map<string, Uuid>)
  {
    (forall n :: n in names ==> names[n] in plugins && plugins[names[n]].info.name == n) && Stored(plugins, names)
  }

  /** Every registered plugin has a live instance, and instances exist only for loaded modules. */
  predicate Backed(plugins: map<Uuid, WasmPlugin>, rt: Runtime)
  {
    (forall id :: id in plugins ==> plugins[id].info.name in rt.instances) && rt.instances <= rt.modules
  }

  /**
   * Storing back a plugin after a call keeps the registry indexed and
   * backed; a runnable plugin's call reaches its instance, so it succeeds.
   */
  lemma CallKeepsRegistry(plugins: map<Uuid, WasmPlugin>, names: map<string, Uuid>, rt: Runtime, id: Uuid, elapsedMs: nat)
    requires Indexed(plugins, names) && Backed(plugins, rt) && id in plugins
    ensures var o := CallFunction(plugins[id], RuntimeCall(rt, plugins[id].info.name), elapsedMs);
            Indexed(plugins[id := o.plugin], names) && Backed(plugins[id := o.plugin], rt)
            && (CanRun(plugins[id].info) ==>
                  o.result == Ok(Null) && o.plugin.info.status == Loaded
                  && o.plugin.stats.callCount == plugins[id].stats.callCount + 1)
            && (!CanRun(plugins[id].info) ==> o.result.Err? && o.plugin == plugins[id])
  {
    var o := CallFunction(plugins[id], RuntimeCall(rt, plugins[id].info.name), elapsedMs);
    ReplaceKeeps(plugins, names, rt, id, o.plugin);
  }

  /**
   * A call through the registry's maps: the plugin is called and stored
   * back under its id. A runnable plugin with an instance returns `Null`;
   * one whose instance is gone gets the runtime's NotFound and is left in
   * Error; one that cannot run is refused unchanged.
   */
  method CallStored(plugins: map<Uuid, WasmPlugin>, names: map<string, Uuid>, rt: Runtime, id: Uuid, elapsedMs: nat)
    returns (r: CoreResult<WasmValue>, plugins': map<Uuid, WasmPlugin>)
    ensures |plugins'| == |plugins|
    ensures Stored(plugins, names) ==> Stored(plugins', names)
    ensures Indexed(plugins, names) ==> Indexed(plugins', names)
    ensures Backed(plugins, rt) ==> Backed(plugins', rt)
    ensures id !in plugins ==> r == Err(NotFoundId(id)) && plugins' == plugins
    ensures id in plugins ==>
              var o := CallFunction(plugins[id], RuntimeCall(rt, plugins[id].info.name), elapsedMs);
              r == o.result && plugins' == plugins[id := o.plugin]
    ensures id in plugins && CanRun(plugins[id].info) && plugins[id].info.name in rt.instances ==>
              r == Ok(Null) && plugins'[id].info.status == Loaded
              && plugins'[id].stats.callCount == plugins[id].stats.callCount + 1
    ensures id in plugins && CanRun(plugins[id].info) && plugins[id].info.name !in rt.instances ==>
              r == Err(NotFound("Module instance: " + plugins[id].info.name))
              && plugins'[id].info.status == Error(ToString(r.error))
              && plugins'[id].stats.callCount == plugins[id].stats.callCount + 1
    ensures id in plugins && !CanRun(plugins[id].info) ==> r.Err? && plugins' == plugins
  {
    if id !in plugins {
      return Err(NotFoundId(id)), plugins;
    }
    var o := CallFunction(plugins[id], RuntimeCall(rt, plugins[id].info.name), elapsedMs);
    CallStateMachine(plugins[id], RuntimeCall(rt, plugins[id].info.name), elapsedMs);
    if Stored(plugins, names) {
      ReplaceKeeps(plugins, names, rt, id, o.plugin);
    } else if Backed(plugins, rt) {
      assert forall k :: k in plugins[id := o.plugin] ==> plugins[id := o.plugin][k].info.name == plugins[k].info.name;
    }
    r, plugins' := o.result, plugins[id := o.plugin];
  }

  /**
   * Inserting a plugin under a new name keeps every plugin stored and
   * indexed by its name, whether or not its id was taken.
   */
  lemma StoredInsert(plugins: map<Uuid, WasmPlugin>, names: map<string, Uuid>, p: WasmPlugin)
    requires Stored(plugins, names) && p.info.name !in names
    ensures Stored(plugins[p.info.id := p], names[p.info.name := p.info.id])
  {
  }

  lemma IndexedInsert(plugins: map<Uuid, WasmPlugin>, names: map<string, Uuid>, p: WasmPlugin)
    requires Indexed(plugins, names) && p.info.name !in names && p.info.id !in plugins
    ensures Indexed(plugins[p.info.id := p], names[p.info.name := p.info.id])
  {
  }

  /**
   * From an indexed and backed registry, registration as written (a new
   * name, any id, the module loaded and instantiated) keeps both exactly
   * when the id is new.
   */
  lemma RegisterSoundIffFresh(plugins: map<Uuid, WasmPlugin>, names: map<string, Uuid>, rt: Runtime, p: WasmPlugin)
    requires Indexed(plugins, names) && Backed(plugins, rt) && p.info.name !in names
    ensures var rt' := Runtime(rt.modules + {p.info.name}, rt.instances + {p.info.name});
            var (plugins', names') := RegisterAsWritten(plugins, names, p);
            (Indexed(plugins', names') && Backed(plugins', rt')) <==> p.info.id !in plugins
  {
    var (plugins', names') := RegisterAsWritten(plugins, names, p);
    if p.info.id in plugins {
      var n0 := plugins[p.info.id].info.name;
      assert n0 in names' && names'[n0] == p.info.id && plugins'[p.info.id].info.name != n0;
    } else {
      IndexedInsert(plugins, names, p);
    }
  }

  /**
   * Removing a plugin and its name keeps every other plugin stored and
   * indexed, keeps an indexed registry indexed, and keeps a backed one
   * backed once its module and instance go too.
   */
  lemma RemoveKeeps(plugins: map<Uuid, WasmPlugin>, names: map<string, Uuid>, rt: Runtime, id: Uuid)
    requires Stored(plugins, names) && id in plugins
    ensures var n := plugins[id].info.name;
            Stored(plugins - {id}, names - {n})
            && (Indexed(plugins, names) ==> Indexed(plugins - {id}, names - {n}))
            && (Backed(plugins, rt) ==> Backed(plugins - {id}, Runtime(rt.modules - {n}, rt.instances - {n})))
  {
  }

  /**
   * Replacing a plugin by one with the same id and name keeps the registry
   * stored, indexed and backed as far as it was before.
   */
  lemma ReplaceKeeps(plugins: map<Uuid, WasmPlugin>, names: map<string, Uuid>, rt: Runtime, id: Uuid, p: WasmPlugin)
    requires Stored(plugins, names) && id in plugins
    requires p.info.id == id && p.info.name == plugins[id].info.name
    ensures Stored(plugins[id := p], names)
    ensures Indexed(plugins, names) ==> Indexed(plugins[id := p], names)
    ensures Backed(plugins, rt) ==> Backed(plugins[id := p], rt)
  {
  }

  /**
   * From an indexed and backed registry, the reload as written succeeds
   * exactly when the new bytes compile and link, and then leaves the
   * runtime as it was; any failure leaves the plugin without an instance.
   */
  lemma ReloadAsWrittenOutcome(plugins: map<Uuid, WasmPlugin>, names: map<string, Uuid>, rt: Runtime, id: Uuid,
                               compileError: Option<string>, linkError: Option<string>)
    requires Indexed(plugins, names) && Backed(plugins, rt) && id in plugins
    ensures var s := ReloadAsWritten(rt, plugins[id].info.name, compileError, linkError);
            (s.result.Ok? <==> compileError.None? && linkError.None?)
            && (s.result.Ok? ==> s.runtime == rt)
            && (s.result.Err? ==> plugins[id].info.name !in s.runtime.instances && !Backed(plugins, s.runtime))
  {
    var name := plugins[id].info.name;
    if compileError.None? && linkError.None? {
      SwapModuleKeepsRuntime(rt, name);
    }
  }

  /**
   * Registration as written, on the maps alone: nothing checks that the id
   * is new, so a second plugin with the same id but another name replaces
   * the first while the first name stays indexed, now pointing at a plugin
   * of a different name.
   */
  function RegisterAsWritten(plugins: map<Uuid, WasmPlugin>, names: map<string, Uuid>, p: WasmPlugin): (map<Uuid, WasmPlugin>, map<string, Uuid>)
  {
    (plugins[p.info.id := p], names[p.info.name := p.info.id])
  }

  lemma RegisterAsWrittenDuplicateId(a: WasmPlugin, b: WasmPlugin)
    requires a.info.id == b.info.id && a.info.name != b.info.name
    ensures var (p1, n1) := RegisterAsWritten(map[], map[], a);
            var (p2, n2) := RegisterAsWritten(p1, n1, b);
            Indexed(p1, n1) && !Indexed(p2, n2)
            && a.info.name in n2 && p2[n2[a.info.name]].info.name == b.info.name
  {
    var (p1, n1) := RegisterAsWritten(map[], map[], a);
    var (p2, n2) := RegisterAsWritten(p1, n1, b);
    assert n2[a.info.name] == a.info.id;
    assert !(p2[n2[a.info.name]].info.name == a.info.name);
  }

  function NotFoundId(id: Uuid): Error
  {
    NotFound("Plugin ID: " + id)
  }

  /** The plugin after a successful hot reload: Loaded, with ".reloaded" appended to its version. */
  function Reloaded(p: WasmPlugin): WasmPlugin
  {
    p.(info := p.info.(status := Loaded, version := p.info.version + ".reloaded"))
  }

  /**
   * `reload_plugin` on the registry's values, for a registered id: the
   * runtime steps as written, then the plugin marked reloaded on success.
   */
  method ReloadStored(plugins: map<Uuid, WasmPlugin>, names: map<string, Uuid>, rt: Runtime, id: Uuid,
                      compileError: Option<string>, linkError: Option<string>)
    returns (r: CoreResult<()>, plugins': map<Uuid, WasmPlugin>, rt': Runtime)
    requires Stored(plugins, names) && rt.instances <= rt.modules && id in plugins
    ensures Stored(plugins', names) && rt'.instances <= rt'.modules && |plugins'| == |plugins|
    ensures var s := ReloadAsWritten(rt, plugins[id].info.name, compileError, linkError);
            r == s.result && rt' == s.runtime
    ensures r.Ok? ==> plugins' == plugins[id := Reloaded(plugins[id])]
    ensures r.Err? ==> plugins' == plugins
    ensures Indexed(plugins, names) && Backed(plugins, rt) ==>
              (r.Ok? <==> compileError.None? && linkError.None?)
              && (Indexed(plugins', names) && Backed(plugins', rt') <==> r.Ok?)
              && (r.Ok? ==> rt' == rt)
  {
    var p := plugins[id];
    if Indexed(plugins, names) && Backed(plugins, rt) {
      ReloadAsWrittenOutcome(plugins, names, rt, id, compileError, linkError);
    }
    var step := ReloadAsWritten(rt, p.info.name, compileError, linkError);
    rt' := step.runtime;
    if step.result.Err? {
      return step.result, plugins, rt';
    }
    ReplaceKeeps(plugins, names, rt', id, Reloaded(p));
    r, plugins' := Ok(()), plugins[id := Reloaded(p)];
  }

  class PluginRegistry {
    var plugins: map<Uuid, WasmPlugin>
    var names: map<string, Uuid>
    var runtime: Runtime
    const maxPlugins: nat

    /**
     * What the registry keeps whatever it is asked: every plugin is stored
     * under its own id and indexed by its name, instances exist only for
     * loaded modules, and there are never more than `maxPlugins` plugins.
     */
    predicate Valid()
      reads this
    {
      Stored(plugins, names) && runtime.instances <= runtime.modules && |plugins| <= maxPlugins
    }

    /**
     * The stronger invariant that holds while every registration brought a
     * new id and every reload succeeded: the name index holds no stale
     * entry and every plugin has a live instance.
     */
    predicate Sound()
      reads this
    {
      Indexed(plugins, names) && Backed(plugins, runtime)
    }

    constructor(maxPlugins: nat)
      ensures Valid() && Sound()
      ensures this.maxPlugins == maxPlugins && plugins == map[] && names == map[] && runtime == Runtime({}, {})
    {
      this.maxPlugins := maxPlugins;
      plugins := map[];
      names := map[];
      runtime := Runtime({}, {});
    }

    /**
     * `register_plugin`: checks, in order, capacity, the plugin's own
     * validation and a free name, then compiles and instantiates the
     * module; on success the plugin is stored Loaded under its id (replacing
     * whatever that id held) and indexed by its name. A failed
     * instantiation leaves the compiled module loaded. The index stays free
     * of stale entries exactly when the id was new.
     */
    method RegisterPlugin(p: WasmPlugin, pathExists: bool, compileError: Option<string>, linkError: Option<string>)
      returns (r: CoreResult<Uuid>)
      requires Valid()
      modifies this
      ensures Valid()
      ensures r.Ok? <==>
                |old(plugins)| < maxPlugins && ValidatePlugin(p, pathExists).Ok? && p.info.name !in old(names)
                && compileError.None? && linkError.None?
      ensures |old(plugins)| >= maxPlugins ==> r == Err(ResourceExhausted("Maximum number of plugins reached"))
      ensures |old(plugins)| < maxPlugins && ValidatePlugin(p, pathExists).Err? ==> r == Err(ValidatePlugin(p, pathExists).error)
      ensures |old(plugins)| < maxPlugins && ValidatePlugin(p, pathExists).Ok? && p.info.name in old(names) ==>
                r == Err(AlreadyExists("Plugin name: " + p.info.name))
      ensures r.Ok? ==>
                r.value == p.info.id
                && (plugins, names) == RegisterAsWritten(old(plugins), old(names), p.(info := SetStatus(p.info, Loaded)))
                && runtime == Runtime(old(runtime).modules + {p.info.name}, old(runtime).instances + {p.info.name})
      ensures r.Ok? && old(Sound()) ==> (Sound() <==> p.info.id !in old(plugins))
      ensures r.Err? ==> plugins == old(plugins) && names == old(names)
      ensures r.Err? && runtime != old(runtime) ==>
                compileError.None? && linkError.Some? && runtime.modules == old(runtime).modules + {p.info.name}
                && runtime.instances == old(runtime).instances
      ensures r.Err? && old(Sound()) ==> Sound()
    {
      if |plugins| >= maxPlugins {
        return Err(ResourceExhausted("Maximum number of plugins reached"));
      }
      var v := ValidatePlugin(p, pathExists);
      if v.Err? {
        return Err(v.error);
      }
      var id, name := p.info.id, p.info.name;
      if name in names {
        return Err(AlreadyExists("Plugin name: " + name));
      }
      var loaded := LoadModule(runtime, name, compileError);
      if loaded.result.Err? {
        return Err(loaded.result.error);
      }
      runtime := loaded.runtime;
      var instantiated := InstantiateModule(runtime, name, linkError);
      if instantiated.result.Err? {
        return Err(instantiated.result.error);
      }
      var stored := p.(info := SetStatus(p.info, Loaded));
      StoredInsert(plugins, names, stored);
      if Indexed(plugins, names) && Backed(plugins, old(runtime)) {
        RegisterSoundIffFresh(plugins, names, old(runtime), stored);
      }
      plugins, names, runtime := plugins[id := stored], names[name := id], instantiated.runtime;
      r := Ok(id);
    }

    /**
     * The corrected registration: an id that is already registered is
     * refused before anything else, so the index never goes stale.
     */
    method RegisterFreshPlugin(p: WasmPlugin, pathExists: bool, compileError: Option<string>, linkError: Option<string>)
      returns (r: CoreResult<Uuid>)
      requires Valid()
      modifies this
      ensures Valid()
      ensures p.info.id in old(plugins) ==> r == Err(AlreadyExists("Plugin ID: " + p.info.id)) && unchanged(this)
      ensures r.Ok? <==>
                p.info.id !in old(plugins) && |old(plugins)| < maxPlugins && ValidatePlugin(p, pathExists).Ok?
                && p.info.name !in old(names) && compileError.None? && linkError.None?
      ensures r.Ok? ==>
                r.value == p.info.id
                && plugins == old(plugins)[p.info.id := p.(info := SetStatus(p.info, Loaded))]
                && names == old(names)[p.info.name := p.info.id]
      ensures r.Err? ==> plugins == old(plugins) && names == old(names)
      ensures old(Sound()) ==> Sound()
    {
      if p.info.id in plugins {
        return Err(AlreadyExists("Plugin ID: " + p.info.id));
      }
      r := RegisterPlugin(p, pathExists, compileError, linkError);
    }

    /**
     * `unregister_plugin`: an unknown id is not found; a plugin whose module
     * is gone from the runtime stays registered, with the runtime's
     * NotFound; otherwise the plugin, its name and its module go.
     */
    method UnregisterPlugin(id: Uuid) returns (r: CoreResult<()>)
      requires Valid()
      modifies this
      ensures Valid()
      ensures id !in old(plugins) ==> r == Err(NotFoundId(id)) && unchanged(this)
      ensures id in old(plugins) && old(plugins)[id].info.name !in old(runtime).modules ==>
                r == Err(NotFound("Module: " + old(plugins)[id].info.name)) && unchanged(this)
      ensures id in old(plugins) && old(plugins)[id].info.name in old(runtime).modules ==>
                r.Ok?
                && plugins == old(plugins) - {id}
                && names == old(names) - {old(plugins)[id].info.name}
                && runtime == Runtime(old(runtime).modules - {old(plugins)[id].info.name},
                                      old(runtime).instances - {old(plugins)[id].info.name})
      ensures old(Sound()) ==> Sound() && (id in old(plugins) ==> r.Ok?)
    {
      if id !in plugins {
        return Err(NotFoundId(id));
      }
      var name := plugins[id].info.name;
      var unloaded := UnloadModule(runtime, name);
      r := unloaded.result;
      if r.Ok? {
        RemoveKeeps(plugins, names, runtime, id);
        plugins, names, runtime := plugins - {id}, names - {name}, unloaded.runtime;
      }
    }

    /** `get_plugin`: the plugin stored under the id, which carries that id. */
    function GetPlugin(id: Uuid): (r: Option<WasmPlugin>)
      reads this
      ensures r.Some? <==> id in plugins
      ensures r.Some? ==> r.value == plugins[id]
      ensures Valid() && r.Some? ==> r.value.info.id == id
    {
      if id in plugins then Some(plugins[id]) else None
    }

    /**
     * `get_plugin_by_name`: follows the name index. Every registered plugin
     * is found by its own name; while the registry is sound, exactly the
     * indexed names are found and the plugin carries the name.
     */
    function GetPluginByName(name: string): (r: Option<WasmPlugin>)
      reads this
      ensures Valid() ==> forall id :: id in plugins && plugins[id].info.name == name ==> r == Some(plugins[id])
      ensures Sound() ==> (r.Some? <==> name in names)
      ensures Sound() && r.Some? ==> r.value.info.name == name
    {
      if name in names then GetPlugin(names[name]) else None
    }

    /** `get_plugin_info`: the record of the plugin stored under the id. */
    function GetPluginInfo(id: Uuid): (r: Option<PluginInfo>)
      reads this
      ensures r.Some? <==> id in plugins
      ensures r.Some? ==> r.value == plugins[id].info
      ensures Valid() && r.Some? ==> r.value.id == id
    {
      if id in plugins then Some(plugins[id].info) else None
    }

    /** `get_plugin_stats`: the statistics of the plugin stored under the id. */
    function GetPluginStats(id: Uuid): (r: Option<PluginStats>)
      reads this
      ensures r.Some? <==> id in plugins
      ensures r.Some? ==> r.value == plugins[id].stats
    {
      if id in plugins then Some(plugins[id].stats) else None
    }

    /**
     * The records of all plugins (the source's list is in hash order, which
     * is not modelled); each listed record is the one stored under its own id.
     */
    function ListPlugins(): (r: set<PluginInfo>)
      reads this
      ensures forall id :: id in plugins ==> plugins[id].info in r
      ensures Valid() ==> forall info :: info in r ==> info.id in plugins && plugins[info.id].info == info
    {
      set id | id in plugins :: plugins[id].info
    }

    function ListPluginsByType(t: PluginType): (r: set<PluginInfo>)
      reads this
      ensures forall info :: info in r <==> info in ListPlugins() && info.pluginType == t
    {
      set id | id in plugins && plugins[id].info.pluginType == t :: plugins[id].info
    }

    function ListPluginsByStatus(s: PluginStatus): (r: set<PluginInfo>)
      reads this
      ensures forall info :: info in r <==> info in ListPlugins() && info.status == s
    {
      set id | id in plugins && plugins[id].info.status == s :: plugins[id].info
    }

    /** `plugin_count`: the number of plugins, never above the capacity. */
    function PluginCount(): (n: nat)
      reads this
      ensures Valid() ==> n <= maxPlugins
      ensures n == 0 <==> plugins == map[]
    {
      |plugins|
    }

    /** `is_at_capacity`: whether a registration would be refused for want of room. */
    predicate IsAtCapacity()
      reads this
      ensures IsAtCapacity() <==> |plugins| >= maxPlugins
      ensures Valid() ==> (IsAtCapacity() <==> |plugins| == maxPlugins)
    {
      PluginCount() >= maxPlugins
    }

    /**
     * `call_plugin_function`: calls a function of a registered plugin and
     * stores the updated plugin back. A runnable plugin with an instance
     * returns `Null` and is left Loaded, even when it had been paused; one
     * whose instance is gone gets the runtime's NotFound and is left in
     * Error; in a sound registry every runnable plugin has its instance.
     */
    method CallPluginFunction(id: Uuid, functionName: string, args: seq<WasmValue>, elapsedMs: nat)
      returns (r: CoreResult<WasmValue>)
      requires Valid()
      modifies this
      ensures Valid() && (old(Sound()) ==> Sound())
      ensures names == old(names) && runtime == old(runtime)
      ensures id !in old(plugins) ==> r == Err(NotFoundId(id)) && plugins == old(plugins)
      ensures id in old(plugins) ==>
                var o := CallFunction(old(plugins)[id], RuntimeCall(runtime, old(plugins)[id].info.name), elapsedMs);
                r == o.result && plugins == old(plugins)[id := o.plugin]
      ensures id in old(plugins) && CanRun(old(plugins)[id].info) && old(plugins)[id].info.name in runtime.instances ==>
                r == Ok(Null) && plugins[id].info.status == Loaded
                && plugins[id].stats.callCount == old(plugins)[id].stats.callCount + 1
      ensures id in old(plugins) && CanRun(old(plugins)[id].info) && old(plugins)[id].info.name !in runtime.instances ==>
                r == Err(NotFound("Module instance: " + old(plugins)[id].info.name))
                && plugins[id].info.status == Error(ToString(r.error))
      ensures id in old(plugins) && !CanRun(old(plugins)[id].info) ==> r.Err? && plugins == old(plugins)
      ensures old(Sound()) && id in old(plugins) && CanRun(old(plugins)[id].info) ==> r == Ok(Null)
    {
      var ps;
      r, ps := CallStored(plugins, names, runtime, id, elapsedMs);
      plugins := ps;
    }

    /** Moves a paused plugin back to Loaded; any other state is refused. */
    method EnablePlugin(id: Uuid) returns (r: CoreResult<()>)
      requires Valid()
      modifies this
      ensures Valid() && (old(Sound()) ==> Sound())
      ensures names == old(names) && runtime == old(runtime)
      ensures id !in old(plugins) ==> r == Err(NotFoundId(id)) && plugins == old(plugins)
      ensures id in old(plugins) && old(plugins)[id].info.status == Paused ==>
                r.Ok? && plugins == old(plugins)[id := old(plugins)[id].(info := SetStatus(old(plugins)[id].info, Loaded))]
      ensures id in old(plugins) && old(plugins)[id].info.status != Paused ==>
                r == Err(InvalidArgument("Plugin is not in paused state")) && plugins == old(plugins)
    {
      if id !in plugins {
        return Err(NotFoundId(id));
      }
      var p := plugins[id];
      if p.info.status == Paused {
        var q := p.(info := SetStatus(p.info, Loaded));
        ReplaceKeeps(plugins, names, runtime, id, q);
        plugins := plugins[id := q];
        r := Ok(());
      } else {
        r := Err(InvalidArgument("Plugin is not in paused state"));
      }
    }

    /** Pauses a runnable (Loaded or Paused) plugin; any other state is refused. */
    method DisablePlugin(id: Uuid) returns (r: CoreResult<()>)
      requires Valid()
      modifies this
      ensures Valid() && (old(Sound()) ==> Sound())
      ensures names == old(names) && runtime == old(runtime)
      ensures id !in old(plugins) ==> r == Err(NotFoundId(id)) && plugins == old(plugins)
      ensures id in old(plugins) && CanRun(old(plugins)[id].info) ==>
                r.Ok? && plugins == old(plugins)[id := old(plugins)[id].(info := SetStatus(old(plugins)[id].info, Paused))]
      ensures id in old(plugins) && !CanRun(old(plugins)[id].info) ==>
                r == Err(InvalidArgument("Plugin cannot be disabled in current state")) && plugins == old(plugins)
    {
      if id !in plugins {
        return Err(NotFoundId(id));
      }
      var p := plugins[id];
      if CanRun(p.info) {
        var q := p.(info := SetStatus(p.info, Paused));
        ReplaceKeeps(plugins, names, runtime, id, q);
        plugins := plugins[id := q];
        r := Ok(());
      } else {
        r := Err(InvalidArgument("Plugin cannot be disabled in current state"));
      }
    }

    /**
     * `reload_plugin`: unloads the old module, then compiles and
     * instantiates the new bytes (whose compiler and linker verdicts are
     * `compileError` and `linkError`), stopping at the first failure; on
     * success the plugin is marked Loaded with ".reloaded" appended to its
     * version. From a sound registry the reload succeeds exactly when the
     * new bytes compile and link, and any failure leaves the registry
     * unsound: the plugin has lost its instance.
     */
    method ReloadPlugin(id: Uuid, compileError: Option<string>, linkError: Option<string>) returns (r: CoreResult<()>)
      requires Valid()
      modifies this
      ensures Valid()
      ensures names == old(names)
      ensures id !in old(plugins) ==> r == Err(NotFoundId(id)) && unchanged(this)
      ensures id in old(plugins) ==>
                var s := ReloadAsWritten(old(runtime), old(plugins)[id].info.name, compileError, linkError);
                r == s.result && runtime == s.runtime
      ensures id in old(plugins) && r.Ok? ==> plugins == old(plugins)[id := Reloaded(old(plugins)[id])]
      ensures r.Err? ==> plugins == old(plugins)
      ensures id in old(plugins) && old(Sound()) ==>
                (r.Ok? <==> compileError.None? && linkError.None?) && (Sound() <==> r.Ok?)
      ensures old(Sound()) && r.Ok? ==> runtime == old(runtime)
    {
      if id !in plugins {
        return Err(NotFoundId(id));
      }
      var ps, rt;
      r, ps, rt := ReloadStored(plugins, names, runtime, id, compileError, linkError);
      plugins, runtime := ps, rt;
    }

    /**
     * The corrected hot reload: both verdicts are checked before the old
     * module is dropped, so a failed reload changes nothing and a sound
     * registry stays sound.
     */
    method ReloadPluginSafely(id: Uuid, compileError: Option<string>, linkError: Option<string>) returns (r: CoreResult<()>)
      requires Valid()
      modifies this
      ensures Valid() && (old(Sound()) ==> Sound())
      ensures id !in old(plugins) ==> r == Err(NotFoundId(id)) && unchanged(this)
      ensures id in old(plugins) && compileError.Some? ==>
                r == Err(Wasm(CompileMessage(old(plugins)[id].info.name, compileError.value))) && unchanged(this)
      ensures id in old(plugins) && compileError.None? && linkError.Some? ==>
                r == Err(Wasm(LinkMessage(old(plugins)[id].info.name, linkError.value))) && unchanged(this)
      ensures id in old(plugins) && old(Sound()) && compileError.None? && linkError.None? ==>
                r.Ok? && plugins == old(plugins)[id := Reloaded(old(plugins)[id])]
                && names == old(names) && runtime == old(runtime)
    {
      if id !in plugins {
        return Err(NotFoundId(id));
      }
      var name := plugins[id].info.name;
      if compileError.Some? {
        return Err(Wasm(CompileMessage(name, compileError.value)));
      }
      if linkError.Some? {
        return Err(Wasm(LinkMessage(name, linkError.value)));
      }
      r := ReloadPlugin(id, None, None);
    }

    /**
     * `clear_all_plugins`: unregisters the plugins one by one, stopping at
     * the first failure, which can only be a plugin whose module is gone.
     * From a sound registry every unregistration succeeds and the registry
     * ends empty.
     */
    method ClearAllPlugins() returns (r: CoreResult<()>)
      requires Valid()
      modifies this
      ensures Valid()
      ensures r.Ok? ==> plugins == map[]
      ensures r.Err? ==>
                exists id :: id in plugins && plugins[id].info.name !in runtime.modules
                  && r == Err(NotFound("Module: " + plugins[id].info.name))
      ensures old(Sound()) ==> r.Ok? && plugins == map[] && names == map[] && Sound()
    {
      var ids := plugins.Keys;
      while ids != {}
        invariant Valid()
        invariant ids == plugins.Keys
        invariant old(Sound()) ==> Sound()
        decreases |ids|
      {
        var id :| id in ids;
        var u := UnregisterPlugin(id);
        if u.Err? {
          return u;
        }
        ids := ids - {id};
      }
      r := Ok(());
    }

    /**
     * `validate_dependencies`: succeeds exactly when every dependency is
     * found by name, otherwise reports the first that is not; while the
     * registry is sound, found means indexed.
     */
    method ValidateDependencies(info: PluginInfo) returns (r: CoreResult<()>)
      requires Valid()
      ensures r.Ok? <==> forall d :: d in info.dependencies ==> GetPluginByName(d).Some?
      ensures Sound() ==> (r.Ok? <==> forall d :: d in info.dependencies ==> d in names)
      ensures r.Err? ==>
                exists k :: 0 <= k < |info.dependencies| && GetPluginByName(info.dependencies[k]).None?
                  && (forall j :: 0 <= j < k ==> GetPluginByName(info.dependencies[j]).Some?)
                  && r.error == Validation("Missing dependency: " + info.dependencies[k] + " for plugin " + info.name)
    {
      var i := 0;
      while i < |info.dependencies|
        invariant 0 <= i <= |info.dependencies|
        invariant forall j :: 0 <= j < i ==> GetPluginByName(info.dependencies[j]).Some?
      {
        var d := info.dependencies[i];
        if GetPluginByName(d).None? {
          return Err(Validation("Missing dependency: " + d + " for plugin " + info.name));
        }
        i := i + 1;
      }
      r := Ok(());
    }
  }
}

=== FILE: dafny/wasm_security.dfy ===
// The plugin sandbox's security policy: resource limits, the syscall, path
// and host allow-lists and their checks, the severity of each kind of
// violation, and the monitor that records violations as plugins run.
module WasmSecurity {
  import opened Wrappers
  import opened Text
  import opened CoreError
  import opened Floats

  const MIB: nat := 1024 * 1024

  datatype SecurityPolicy = SecurityPolicy(
    memoryLimit: nat,
    executionTimeoutMs: nat,
    allowedSyscalls: set<string>,
    networkAccess: bool,
    fileAccess: bool,
    envAccess: bool,
    allowedPaths: set<string>,
    allowedHosts: set<string>,
    maxFileSize: nat,
    maxConnections: nat,
    cpuLimitPercent: Float,
    sandboxEnabled: bool)

  /** 128 MiB, five seconds, nothing allowed beyond computing. */
  const DEFAULT_POLICY := SecurityPolicy(128 * MIB, 5000, {}, false, false, false, {}, {},
                                         10 * MIB, 0, Finite(50.0), true)

  const STRICT_POLICY := SecurityPolicy(64 * MIB, 1000, {}, false, false, false, {}, {},
                                        1 * MIB, 0, Finite(25.0), true)

  const PERMISSIVE_POLICY := SecurityPolicy(512 * MIB, 30000, {"read", "write", "open", "close"},
                                            true, true, true, {"/tmp", "/var/tmp"}, {},
                                            100 * MIB, 10, Finite(80.0), true)

  function AllowSyscall(p: SecurityPolicy, syscall: string): SecurityPolicy
  {
    p.(allowedSyscalls := p.allowedSyscalls + {syscall})
  }

  function AllowPath(p: SecurityPolicy, path: string): SecurityPolicy
  {
    p.(allowedPaths := p.allowedPaths + {path})
  }

  function AllowHost(p: SecurityPolicy, host: string): SecurityPolicy
  {
    p.(allowedHosts := p.allowedHosts + {host})
  }

  predicate IsSyscallAllowed(p: SecurityPolicy, syscall: string)
  {
    syscall in p.allowedSyscalls
  }

  /** File access must be on; an empty allow-list then admits every path, otherwise some entry must be a prefix. */
  predicate IsPathAllowed(p: SecurityPolicy, path: string)
  {
    if !p.fileAccess then false
    else if p.allowedPaths == {} then true
    else exists allowed :: allowed in p.allowedPaths && allowed <= path
  }

  /** Network access must be on; an empty allow-list then admits every host, otherwise the host must be listed. */
  predicate IsHostAllowed(p: SecurityPolicy, host: string)
  {
    if !p.networkAccess then false
    else if p.allowedHosts == {} then true
    else host in p.allowedHosts
  }

  /**
   * Allowing a path admits it and everything below it (when file access is
   * on) and never takes away a path that was admitted before.
   */
  lemma AllowPathAdmitsPrefixes(p: SecurityPolicy, allowed: string, path: string)
    ensures p.fileAccess && allowed <= path ==> IsPathAllowed(AllowPath(p, allowed), path)
    ensures !p.fileAccess ==> !IsPathAllowed(AllowPath(p, allowed), path)
    ensures IsPathAllowed(AllowPath(p, allowed), path) ==>
              IsPathAllowed(p, path) || allowed <= path
  {
    var q := AllowPath(p, allowed);
    if IsPathAllowed(q, path) && !(allowed <= path) && p.allowedPaths != {} {
      var a :| a in q.allowedPaths && a <= path;
      assert a in p.allowedPaths;
    }
  }

  /** With a non-empty allow-list, a path is admitted exactly when it lies below a listed one. */
  lemma PathAllowList(p: SecurityPolicy, path: string)
    requires p.fileAccess
    ensures p.allowedPaths == {} ==> IsPathAllowed(p, path)
    ensures p.allowedPaths != {} ==>
              (IsPathAllowed(p, path) <==> exists allowed :: allowed in p.allowedPaths && allowed <= path)
  {
  }

  /** Allowing a host admits it when network access is on, and admits nothing new otherwise. */
  lemma AllowHostAdmits(p: SecurityPolicy, host: string, other: string)
    ensures p.networkAccess ==> IsHostAllowed(AllowHost(p, host), host)
    ensures IsHostAllowed(AllowHost(p, host), other) ==> other == host || IsHostAllowed(p, other)
  {
  }

  /** The path and host checks of the three presets. */
  lemma PresetAccess()
    ensures forall path :: !IsPathAllowed(DEFAULT_POLICY, path) && !IsPathAllowed(STRICT_POLICY, path)
    ensures forall host :: !IsHostAllowed(DEFAULT_POLICY, host) && !IsHostAllowed(STRICT_POLICY, host)
    ensures IsPathAllowed(PERMISSIVE_POLICY, "/tmp/plugin.log")
    ensures !IsPathAllowed(PERMISSIVE_POLICY, "/etc/passwd")
    ensures forall host :: IsHostAllowed(PERMISSIVE_POLICY, host)
    ensures IsSyscallAllowed(PERMISSIVE_POLICY, "read") && !IsSyscallAllowed(PERMISSIVE_POLICY, "fork")
  {
    assert "/tmp" <= "/tmp/plugin.log";
    forall a | a in PERMISSIVE_POLICY.allowedPaths ensures !(a <= "/etc/passwd") {
      assert a[1] != "/etc/passwd"[1];
    }
  }

  /** `(0.0..=100.0).contains(x)`: false for NaN and the infinities. */
  predicate CpuInRange(x: Float)
  {
    x.Finite? && 0.0 <= x.r <= 100.0
  }

  function ValidatePolicy(p: SecurityPolicy): (r: CoreResult<()>)
  {
    if p.memoryLimit == 0 then Err(Validation("Memory limit must be greater than 0"))
    else if p.executionTimeoutMs == 0 then Err(Validation("Execution timeout must be greater than 0"))
    else if p.maxFileSize == 0 then Err(Validation("Max file size must be greater than 0"))
    else if !CpuInRange(p.cpuLimitPercent) then Err(Validation("CPU limit must be between 0 and 100"))
    else Ok(())
  }

  /** Validation accepts exactly the policies with non-zero limits and a CPU share in 0..=100, reporting the first failed check. */
  lemma ValidatePolicyExactly(p: SecurityPolicy)
    ensures ValidatePolicy(p).Ok? <==>
              p.memoryLimit > 0 && p.executionTimeoutMs > 0 && p.maxFileSize > 0 && CpuInRange(p.cpuLimitPercent)
    ensures p.memoryLimit == 0 ==> ValidatePolicy(p) == Err(Validation("Memory limit must be greater than 0"))
    ensures p.memoryLimit > 0 && p.executionTimeoutMs == 0 ==>
              ValidatePolicy(p) == Err(Validation("Execution timeout must be greater than 0"))
    ensures p.memoryLimit > 0 && p.executionTimeoutMs > 0 && p.maxFileSize == 0 ==>
              ValidatePolicy(p) == Err(Validation("Max file size must be greater than 0"))
    ensures ValidatePolicy(p).Err? ==> ValidatePolicy(p).error.Validation?
  {
  }

  /** The three presets are valid, and widening an allow-list never changes validity. */
  lemma PresetsValid(p: SecurityPolicy, s: string)
    ensures ValidatePolicy(DEFAULT_POLICY).Ok? && ValidatePolicy(STRICT_POLICY).Ok? && ValidatePolicy(PERMISSIVE_POLICY).Ok?
    ensures ValidatePolicy(AllowSyscall(p, s)) == ValidatePolicy(p)
    ensures ValidatePolicy(AllowPath(p, s)) == ValidatePolicy(p)
    ensures ValidatePolicy(AllowHost(p, s)) == ValidatePolicy(p)
  {
  }

  datatype SecurityViolationType =
    | MemoryLimitExceeded
    | ExecutionTimeout
    | UnauthorizedSyscall(syscall: string)
    | UnauthorizedFileAccess(path: string)
    | UnauthorizedNetworkAccess(host: string)
    | UnauthorizedEnvAccess(variable: string)
    | FileSizeExceeded(size: nat)
    | ConnectionLimitExceeded
    | CpuLimitExceeded
    | SandboxEscape

  /** Declared in increasing order, as the derived ordering compares them. */
  datatype SecuritySeverity = Info | Warning | SevError | Critical
  {
    function Rank(): (n: nat)
      ensures n < 4
    {
      match this
      case Info => 0
      case Warning => 1
      case SevError => 2
      case Critical => 3
    }
  }

  function SeverityOf(t: SecurityViolationType): SecuritySeverity
  {
    match t
    case MemoryLimitExceeded => SevError
    case ExecutionTimeout => Warning
    case UnauthorizedSyscall(_) => Critical
    case UnauthorizedFileAccess(_) => SevError
    case UnauthorizedNetworkAccess(_) => SevError
    case UnauthorizedEnvAccess(_) => Warning
    case FileSizeExceeded(_) => Warning
    case ConnectionLimitExceeded => Warning
    case CpuLimitExceeded => Warning
    case SandboxEscape => Critical
  }

  /** The violation's time is the caller's clock reading, in seconds. */
  datatype SecurityViolation = SecurityViolation(
    violationType: SecurityViolationType,
    pluginName: string,
    timestamp: int,
    details: string,
    severity: SecuritySeverity)

  function NewViolation(t: SecurityViolationType, pluginName: string, details: string, now: int): (v: SecurityViolation)
    ensures v.violationType == t && v.pluginName == pluginName && v.details == details && v.timestamp == now
    ensures v.severity == SeverityOf(t)
  {
    SecurityViolation(t, pluginName, now, details, SeverityOf(t))
  }

  predicate IsCritical(v: SecurityViolation)
  {
    v.severity == Critical
  }

  predicate ShouldStopPlugin(v: SecurityViolation)
  {
    v.violationType.UnauthorizedSyscall? || v.violationType.SandboxEscape? || v.violationType.MemoryLimitExceeded?
  }

  /** A violation whose severity was assigned by its type. */
  predicate Classified(v: SecurityViolation)
  {
    v.severity == SeverityOf(v.violationType)
  }

  /**
   * For a classified violation: it is critical exactly for a syscall or a
   * sandbox escape, every critical violation stops the plugin, and every
   * violation that stops the plugin is at least an error.
   */
  lemma SeverityAndStopping(v: SecurityViolation)
    requires Classified(v)
    ensures IsCritical(v) <==> v.violationType.UnauthorizedSyscall? || v.violationType.SandboxEscape?
    ensures IsCritical(v) ==> ShouldStopPlugin(v)
    ensures ShouldStopPlugin(v) ==> v.severity.Rank() >= SevError.Rank()
    ensures !ShouldStopPlugin(v) ==> v.severity.Rank() <= SevError.Rank()
  {
  }

  predicate AllClassified(vs: seq<SecurityViolation>)
  {
    forall i :: 0 <= i < |vs| ==> Classified(vs[i])
  }

  function MemoryExceededMessage(pluginName: string, usage: nat, limit: nat): string
  {
    "Memory limit exceeded for plugin " + pluginName + ": " + NatToString(usage) + " > " + NatToString(limit)
  }

  function TimeoutMessage(pluginName: string, elapsedMs: nat, timeoutMs: nat): string
  {
    "Execution timeout for plugin " + pluginName + ": " + NatToString(elapsedMs) + " ms > " + NatToString(timeoutMs) + " ms"
  }

  function FileAccessMessage(pluginName: string, path: string): string
  {
    "Unauthorized file access for plugin " + pluginName + ": " + path
  }

  /** Records violations against its policy while enabled. */
  class SecurityMonitor {
    var policy: SecurityPolicy
    var violations: seq<SecurityViolation>
    var enabled: bool

    /** Every recorded violation carries the severity its type dictates. */
    predicate Valid()
      reads this
    {
      AllClassified(violations)
    }

    constructor(policy: SecurityPolicy)
      ensures Valid()
      ensures this.policy == policy && violations == [] && enabled
    {
      this.policy := policy;
      violations := [];
      enabled := true;
    }

    /** Fails, and records one memory violation, exactly when monitoring is on and usage is over the limit. */
    method CheckMemoryUsage(pluginName: string, usage: nat, now: int) returns (r: CoreResult<()>)
      requires Valid()
      modifies this
      ensures Valid()
      ensures policy == old(policy) && enabled == old(enabled)
      ensures r.Err? <==> enabled && usage > policy.memoryLimit
      ensures r.Err? ==> r.error == Plugin(MemoryExceededMessage(pluginName, usage, policy.memoryLimit))
      ensures r.Err? ==> violations == old(violations) + [NewViolation(MemoryLimitExceeded, pluginName,
                "Memory usage " + NatToString(usage) + " exceeds limit " + NatToString(policy.memoryLimit), now)]
      ensures r.Ok? ==> violations == old(violations)
    {
      if !enabled || usage <= policy.memoryLimit {
        return Ok(());
      }
      var v := NewViolation(MemoryLimitExceeded, pluginName,
                            "Memory usage " + NatToString(usage) + " exceeds limit " + NatToString(policy.memoryLimit), now);
      violations := violations + [v];
      r := Err(Plugin(MemoryExceededMessage(pluginName, usage, policy.memoryLimit)));
    }

    /** Fails, and records one timeout violation, exactly when monitoring is on and the time is over the timeout. */
    method CheckExecutionTime(pluginName: string, elapsedMs: nat, now: int) returns (r: CoreResult<()>)
      requires Valid()
      modifies this
      ensures Valid()
      ensures policy == old(policy) && enabled == old(enabled)
      ensures r.Err? <==> enabled && elapsedMs > policy.executionTimeoutMs
      ensures r.Err? ==> r.error == Plugin(TimeoutMessage(pluginName, elapsedMs, policy.executionTimeoutMs))
      ensures r.Err? ==> violations == old(violations) + [NewViolation(ExecutionTimeout, pluginName,
                "Execution time " + NatToString(elapsedMs) + " ms exceeds timeout " + NatToString(policy.executionTimeoutMs) + " ms", now)]
      ensures r.Ok? ==> violations == old(violations)
    {
      if !enabled || elapsedMs <= policy.executionTimeoutMs {
        return Ok(());
      }
      var v := NewViolation(ExecutionTimeout, pluginName,
                            "Execution time " + NatToString(elapsedMs) + " ms exceeds timeout " + NatToString(policy.executionTimeoutMs) + " ms", now);
      violations := violations + [v];
      r := Err(Plugin(TimeoutMessage(pluginName, elapsedMs, policy.executionTimeoutMs)));
    }

    /** Fails, and records one file-access violation, exactly when monitoring is on and the policy does not admit the path. */
    method CheckFileAccess(pluginName: string, path: string, now: int) returns (r: CoreResult<()>)
      requires Valid()
      modifies this
      ensures Valid()
      ensures policy == old(policy) && enabled == old(enabled)
      ensures r.Err? <==> enabled && !IsPathAllowed(policy, path)
      ensures r.Err? ==> r.error == Plugin(FileAccessMessage(pluginName, path))
      ensures r.Err? ==> violations == old(violations) + [NewViolation(UnauthorizedFileAccess(path), pluginName,
                "Unauthorized file access: " + path, now)]
      ensures r.Ok? ==> violations == old(violations)
    {
      if !enabled || IsPathAllowed(policy, path) {
        return Ok(());
      }
      var v := NewViolation(UnauthorizedFileAccess(path), pluginName, "Unauthorized file access: " + path, now);
      violations := violations + [v];
      r := Err(Plugin(FileAccessMessage(pluginName, path)));
    }

    function Violations(): seq<SecurityViolation>
      reads this
    {
      violations
    }

    method ClearViolations()
      modifies this
      ensures Valid()
      ensures violations == [] && policy == old(policy) && enabled == old(enabled)
    {
      violations := [];
    }

    method SetEnabled(enabled: bool)
      requires Valid()
      modifies this
      ensures Valid()
      ensures this.enabled == enabled && policy == old(policy) && violations == old(violations)
    {
      this.enabled := enabled;
    }

    /** Installs the new policy only when it validates; otherwise reports the validation error and keeps the old one. */
    method UpdatePolicy(p: SecurityPolicy) returns (r: CoreResult<()>)
      requires Valid()
      modifies this
      ensures Valid()
      ensures r == ValidatePolicy(p)
      ensures r.Ok? ==> policy == p
      ensures r.Err? ==> policy == old(policy)
      ensures violations == old(violations) && enabled == old(enabled)
    {
      r := ValidatePolicy(p);
      if r.Ok? {
        policy := p;
      }
    }
  }
}

=== FILE: dafny/wasm_types.dfy ===
// Values that cross the WASM boundary, their types, the conversions to and
// from core values, and the argument and return checks of a function signature.
module WasmTypes {
  import opened Wrappers
  import opened Ints
  import opened Text
  import opened Floats
  import opened CoreError
  import CV = CoreValue

  datatype WasmValue =
    | Null
    | Bool(b: bool)
    | I32(i32v: i32)
    | I64(i64v: i64)
    | F32(f32v: Float)
    | F64(f64v: Float)
    | Str(s: string)
    | Bytes(bytes: seq<u8>)
    | Array(items: seq<WasmValue>)
    | Object(fields: map<string, WasmValue>)

  datatype WasmType = NullType | BoolType | I32Type | I64Type | F32Type | F64Type
                    | StringType | BytesType | ArrayType | ObjectType
  {
    /** The `Display` text of the type. */
    function Name(): string
    {
      match this
      case NullType => "null"
      case BoolType => "bool"
      case I32Type => "i32"
      case I64Type => "i64"
      case F32Type => "f32"
      case F64Type => "f64"
      case StringType => "string"
      case BytesType => "bytes"
      case ArrayType => "array"
      case ObjectType => "object"
    }

    /** The derived `Debug` text of the type: the variant's own name. */
    function DebugName(): string
    {
      match this
      case NullType => "Null"
      case BoolType => "Bool"
      case I32Type => "I32"
      case I64Type => "I64"
      case F32Type => "F32"
      case F64Type => "F64"
      case StringType => "String"
      case BytesType => "Bytes"
      case ArrayType => "Array"
      case ObjectType => "Object"
    }
  }

  /** Each variant has its own type. */
  function ValueType(v: WasmValue): WasmType
  {
    match v
    case Null => NullType
    case Bool(_) => BoolType
    case I32(_) => I32Type
    case I64(_) => I64Type
    case F32(_) => F32Type
    case F64(_) => F64Type
    case Str(_) => StringType
    case Bytes(_) => BytesType
    case Array(_) => ArrayType
    case Object(_) => ObjectType
  }

  /** Two values have the same type exactly when they are the same variant. */
  lemma ValueTypeIsVariant(a: WasmValue, b: WasmValue)
    ensures ValueType(a) == ValueType(b) <==>
      (a.Null? && b.Null?) || (a.Bool? && b.Bool?) || (a.I32? && b.I32?) || (a.I64? && b.I64?) ||
      (a.F32? && b.F32?) || (a.F64? && b.F64?) || (a.Str? && b.Str?) || (a.Bytes? && b.Bytes?) ||
      (a.Array? && b.Array?) || (a.Object? && b.Object?)
  {
  }

  predicate IsInteger(v: WasmValue) { v.I32? || v.I64? }

  predicate IsFloat(v: WasmValue) { v.F32? || v.F64? }

  predicate IsNumeric(v: WasmValue) { v.I32? || v.I64? || v.F32? || v.F64? }

  lemma NumericIsIntegerOrFloat(v: WasmValue)
    ensures IsNumeric(v) <==> IsInteger(v) || IsFloat(v)
    ensures !(IsInteger(v) && IsFloat(v))
  {
  }

  /** The conversion error: the value's type is printed with its `Debug` text. */
  function CannotConvert(v: WasmValue, target: string): Error
  {
    TypeError("Cannot convert " + ValueType(v).DebugName() + " to " + target)
  }

  /** `as_i32`: integers wrap to 32 bits, floats cast with saturation; other variants are type errors. */
  function AsI32(v: WasmValue): (r: CoreResult<i32>)
    ensures r.Ok? <==> IsNumeric(v)
    ensures v.I32? ==> r == Ok(v.i32v)
    ensures v.I64? ==> r.Ok? && (r.value - v.i64v) % TWO_32 == 0
    ensures r.Err? ==> r.error == CannotConvert(v, "i32")
  {
    match v
    case I32(x) => Ok(x)
    case I64(x) => Ok(WrapI32(x))
    case F32(f) => Ok(SaturatingCast(f, -TWO_31, TWO_31 - 1))
    case F64(f) => Ok(SaturatingCast(f, -TWO_31, TWO_31 - 1))
    case _ => Err(CannotConvert(v, "i32"))
  }

  /** `as_i64`: integers widen exactly, floats cast with saturation. */
  function AsI64(v: WasmValue): (r: CoreResult<i64>)
    ensures r.Ok? <==> IsNumeric(v)
    ensures IsInteger(v) ==> r == Ok(if v.I32? then v.i32v else v.i64v)
    ensures r.Err? ==> r.error == CannotConvert(v, "i64")
  {
    match v
    case I32(x) => Ok(x)
    case I64(x) => Ok(x)
    case F32(f) => Ok(SaturatingCast(f, -TWO_63, TWO_63 - 1))
    case F64(f) => Ok(SaturatingCast(f, -TWO_63, TWO_63 - 1))
    case _ => Err(CannotConvert(v, "i64"))
  }

  /** `as_f32` and `as_f64`; rounding to the narrower format is not modelled, so both agree. */
  function AsFloat(v: WasmValue, target: string): (r: CoreResult<Float>)
    ensures r.Ok? <==> IsNumeric(v)
    ensures IsFloat(v) ==> r == Ok(if v.F32? then v.f32v else v.f64v)
    ensures r.Err? ==> r.error == CannotConvert(v, target)
  {
    match v
    case I32(x) => Ok(FromInt(x))
    case I64(x) => Ok(FromInt(x))
    case F32(f) => Ok(f)
    case F64(f) => Ok(f)
    case _ => Err(CannotConvert(v, target))
  }

  /**
   * `as_string`: strings as they are, integers and booleans in decimal and
   * `true`/`false`; `floatText` stands for Rust's float formatting.
   */
  function AsString(v: WasmValue, floatText: Float -> string): (r: CoreResult<string>)
    ensures r.Ok? <==> (v.Str? || IsNumeric(v) || v.Bool?)
    ensures v.Str? ==> r == Ok(v.s)
    ensures v.I32? ==> r == Ok(IntToString(v.i32v))
    ensures r.Err? ==> r.error == CannotConvert(v, "string")
  {
    match v
    case Str(s) => Ok(s)
    case I32(x) => Ok(IntToString(x))
    case I64(x) => Ok(IntToString(x))
    case F32(f) => Ok(floatText(f))
    case F64(f) => Ok(floatText(f))
    case Bool(b) => Ok(if b then "true" else "false")
    case _ => Err(CannotConvert(v, "string"))
  }

  /** `as_bytes`: the bytes themselves, or a string's UTF-8 encoding. */
  function AsBytes(v: WasmValue): (r: CoreResult<seq<u8>>)
    ensures r.Ok? <==> v.Bytes? || v.Str?
    ensures v.Bytes? ==> r == Ok(v.bytes)
    ensures v.Str? ==> r.Ok? && |r.value| == Utf8Len(v.s)
    ensures r.Err? ==> r.error == CannotConvert(v, "bytes")
  {
    match v
    case Bytes(b) => Ok(b)
    case Str(s) => Ok(Utf8Encode(s))
    case _ => Err(CannotConvert(v, "bytes"))
  }

  /**
   * `from_core_value`. Small integers widen to I32, UInt32 to I64, wider
   * integers wrap to 64 bits, Struct and Map become objects; every other
   * variant becomes the bytes `encode` gives (the source's bincode form,
   * assumed never to fail).
   */
  function FromCoreValue(v: CV.Value, encode: CV.Value -> seq<u8>): WasmValue
  {
    match v
    case Null => Null
    case Bool(b) => Bool(b)
    case Int8(x) => I32(x)
    case Int16(x) => I32(x)
    case Int32(x) => I32(x)
    case Int64(x) => I64(x)
    case Int128(x) => I64(WrapI64(x))
    case UInt8(x) => I32(x)
    case UInt16(x) => I32(x)
    case UInt32(x) => I64(x)
    case UInt64(x) => I64(WrapI64(x))
    case UInt128(x) => I64(WrapI64(x))
    case Float32(f) => F32(f)
    case Float64(f) => F64(f)
    case Str(s) => Str(s)
    case Binary(b) => Bytes(b)
    case Array(xs) => Array(seq(|xs|, i requires 0 <= i < |xs| => FromCoreValue(xs[i], encode)))
    case Struct(m) => Object(map k | k in m :: FromCoreValue(m[k], encode))
    case Map(m) => Object(map k | k in m :: FromCoreValue(m[k], encode))
    case _ => Bytes(encode(v))
  }

  /** `to_core_value`: the variant-for-variant inverse, with objects becoming Struct. */
  function ToCoreValue(w: WasmValue): CV.Value
  {
    match w
    case Null => CV.Null
    case Bool(b) => CV.Bool(b)
    case I32(x) => CV.Int32(x)
    case I64(x) => CV.Int64(x)
    case F32(f) => CV.Float32(f)
    case F64(f) => CV.Float64(f)
    case Str(s) => CV.Str(s)
    case Bytes(b) => CV.Binary(b)
    case Array(xs) => CV.Array(seq(|xs|, i requires 0 <= i < |xs| => ToCoreValue(xs[i])))
    case Object(m) => CV.Struct(map k | k in m :: ToCoreValue(m[k]))
  }

  /** Going to a core value and back gives the same WASM value, for every value. */
  lemma {:induction false} CoreRoundTrip(w: WasmValue, encode: CV.Value -> seq<u8>)
    ensures FromCoreValue(ToCoreValue(w), encode) == w
  {
    match w
    case Array(xs) =>
      forall i | 0 <= i < |xs| { CoreRoundTrip(xs[i], encode); }
      assert FromCoreValue(ToCoreValue(w), encode).items == xs;
    case Object(m) =>
      forall k | k in m { CoreRoundTrip(m[k], encode); }
      assert FromCoreValue(ToCoreValue(w), encode).fields == m;
    case _ =>
  }

  /** The core values that survive a trip through WASM unchanged. */
  predicate Lossless(v: CV.Value)
  {
    match v
    case Null => true
    case Bool(_) => true
    case Int32(_) => true
    case Int64(_) => true
    case Float32(_) => true
    case Float64(_) => true
    case Str(_) => true
    case Binary(_) => true
    case Array(xs) => forall i :: 0 <= i < |xs| ==> Lossless(xs[i])
    case Struct(m) => forall k :: k in m ==> Lossless(m[k])
    case _ => false
  }

  /** A lossless core value comes back unchanged from WASM. */
  lemma {:induction false} WasmRoundTrip(v: CV.Value, encode: CV.Value -> seq<u8>)
    requires Lossless(v)
    ensures ToCoreValue(FromCoreValue(v, encode)) == v
  {
    match v
    case Array(xs) =>
      forall i | 0 <= i < |xs| { WasmRoundTrip(xs[i], encode); }
      assert ToCoreValue(FromCoreValue(v, encode)).items == xs;
    case Struct(m) =>
      forall k | k in m { WasmRoundTrip(m[k], encode); }
      assert ToCoreValue(FromCoreValue(v, encode)).fields == m;
    case _ =>
  }

  /** Small integers widen without change of value: Int8, Int16, UInt8 and UInt16 to I32, UInt32 to I64. */
  lemma FromCoreWidens(v: CV.Value, encode: CV.Value -> seq<u8>)
    ensures v.Int8? ==> FromCoreValue(v, encode) == I32(v.i8v)
    ensures v.Int16? ==> FromCoreValue(v, encode) == I32(v.i16v)
    ensures v.UInt8? ==> FromCoreValue(v, encode) == I32(v.u8v)
    ensures v.UInt16? ==> FromCoreValue(v, encode) == I32(v.u16v)
    ensures v.UInt32? ==> FromCoreValue(v, encode) == I64(v.u32v)
    ensures v.UInt64? && v.u64v >= TWO_63 ==> FromCoreValue(v, encode) == I64(v.u64v - TWO_64)
  {
  }

  datatype WasmFunctionSignature = WasmFunctionSignature(
    name: string, inputTypes: seq<WasmType>, outputType: WasmType, description: Option<string>)

  /** The first position from `from` on where the argument's type differs from the expected one. */
  function FirstTypeMismatch(args: seq<WasmValue>, types: seq<WasmType>, from: nat): (r: Option<nat>)
    requires |args| == |types| && from <= |args|
    ensures r.None? <==> forall i :: from <= i < |args| ==> ValueType(args[i]) == types[i]
    ensures r.Some? ==> (from <= r.value < |args| && ValueType(args[r.value]) != types[r.value] &&
      forall i :: from <= i < r.value ==> ValueType(args[i]) == types[i])
    decreases |args| - from
  {
    if from == |args| then None
    else if ValueType(args[from]) != types[from] then Some(from)
    else FirstTypeMismatch(args, types, from + 1)
  }

  /**
   * `validate_args`: the count must match, then the first argument whose type
   * differs from the signature is reported.
   */
  function ValidateArgs(sig: WasmFunctionSignature, args: seq<WasmValue>): (r: CoreResult<()>)
    ensures r.Ok? <==> |args| == |sig.inputTypes| && forall i :: 0 <= i < |args| ==> ValueType(args[i]) == sig.inputTypes[i]
    ensures |args| != |sig.inputTypes| ==>
      r == Err(Validation("Function " + sig.name + " expects " + NatToString(|sig.inputTypes|) +
                          " arguments, got " + NatToString(|args|)))
    ensures r.Err? ==> r.error.Validation?
  {
    if |args| != |sig.inputTypes| then
      Err(Validation("Function " + sig.name + " expects " + NatToString(|sig.inputTypes|) +
                     " arguments, got " + NatToString(|args|)))
    else match FirstTypeMismatch(args, sig.inputTypes, 0)
      case None => Ok(())
      case Some(i) =>
        Err(Validation("Function " + sig.name + " argument " + NatToString(i) + " expects type " +
                       sig.inputTypes[i].Name() + ", got " + ValueType(args[i]).Name()))
  }

  /** `validate_return`: the value's type must be the output type. */
  function ValidateReturn(sig: WasmFunctionSignature, ret: WasmValue): (r: CoreResult<()>)
    ensures r.Ok? <==> ValueType(ret) == sig.outputType
    ensures r.Err? ==> r.error.Validation?
  {
    if ValueType(ret) != sig.outputType then
      Err(Validation("Function " + sig.name + " expects return type " + sig.outputType.Name() +
                     ", got " + ValueType(ret).Name()))
    else Ok(())
  }
}

=== FILE: dafny/wrappers.dfy ===
// Option and Result, the two sum types every module returns.
module Wrappers {

  datatype Option<T> = None | Some(value: T)
  {
    predicate IsSome() { Some? }

    function UnwrapOr(default: T): T
    {
      match this
      case Some(v) => v
      case None => default
    }
  }

  datatype Result<T, E> = Ok(value: T) | Err(error: E)
  {
    predicate IsOk() { Ok? }

    function ToOption(): Option<T>
    {
      match this
      case Ok(v) => Some(v)
      case Err(_) => None
    }
  }
}
